=== FILE: README.md ===
# WebOS in Dafny

A Dafny model of the logic inside WebOS, a portfolio "operating system in the browser". WebOS has a Java (Quarkus) backend and a React/TypeScript frontend. The model follows the source one component at a time, in the form each component takes in the source:

- **Minesweeper engine** (`grid_state.dfy`, module `Minesweeper`). `GridState` is a class over a 10 x 10 `array2` grid and an `array2` of revealed flags. It places mines from a sequence of random draws, computes the adjacent-mine counts, and reveals cells with the recursive flood fill. It also keeps the revealed-cell counter and the win/lose status.
- **In-memory file table** (`file_table.dfy`, `file_system.dfy`). `FileSystemService` is a class over the MFT list. A ghost rank map keeps the parent graph acyclic, which is what makes the recursive delete and `buildPath` terminate. Lookups are functions on the list. A new node's UUID is a fresh id that is not already in the table.
- **Terminal interpreter** (`command_service.dfy`, module `Terminal`). `CommandService` holds the current directory. It covers the dispatch on the first word and `ls`, `cat`, `cd`, `mkdir`, `touch`, `rm`, `pwd`, `uname`, `whoami`, `echo` with its `>` and `>>` redirections, `java` and autocomplete.
- **REST boundaries and sessions** (`file_nodes_resource.dfy`, `game_sessions.dfy`). These model the status-code decisions of `FileNodesResource` and `MinesweeperResource`, and the session map of `GameStateManager` and `MinesweeperService`.
- **Entities and JSON** (`json.dfy`, `file_node.dfy`, `command_result.dfy`). JSON is a small datatype. `FileNode` and `CommandResult` round-trip through it, and a missing optional field is written as null.
- **Smaller backend services.**
  - `browser_service.dfy`: the URL whitelist.
  - `jshell_service.dfy`: how `JShellService` turns a run into text. The evaluation itself is an input.
  - `process_service.dfy`: the simulated process list.
- **Frontend components**, one module per component. Each pure helper is a function. Each component's state is a class whose methods are its event handlers. A handler that awaits a request is split at the `await`, and the request's outcome is a parameter of the second half.
  - The settings store and provider.
  - The draggable window, the desktop and its icons.
  - The desktop and mobile terminals.
  - The desktop and mobile file explorers.
  - The mobile home screen and status bar.
  - The search panel.
  - The client-side minesweeper.
  - The browser window.
  - The notepad.
  - `TaskManager`, the process list.

`common.dfy` holds the shared string helpers. These cover Java's and JavaScript's `trim`, splitting on whitespace and on a separator, `join`, `indexOf`, `padStart`, ASCII lower-casing, and decimal numerals with their parser.

Where a comment in the source and its code disagree, the model follows the code:

- `JShellService` says executions time out after 500 ms, but `TIMEOUT_MS` is 3000.
- `formatTime` is commented "HH:MM", but it does not pad the hour.

The desktop has no grid snapping, marquee selection or saved icon positions: `Desktop.tsx` lays its icons out in a plain CSS grid, so none of these is modelled.

## Model

| member | source | states |
|---|---|---|
| Json.NullableValue | src/main/java/io/webos/portfolio/filesystem/entity/FileNode.java:27-37 | an absent optional string is written as JSON null, a present one as that string |
| Json.GetString | src/main/java/io/webos/portfolio/filesystem/entity/FileNode.java:46 | `getString` yields a value exactly when the key holds a string, and then that string |
| Json.GetStringOr | src/main/java/io/webos/portfolio/filesystem/boundary/FileNodesResource.java:69-72 | `getString(key, default)` yields the stored string, or the default when the key is absent or not a string |
| Json.GetIntOr | src/main/java/io/webos/portfolio/games/minesweeper/boundary/MinesweeperResource.java:49-50 | `getInt(key, default)` yields the stored number, or the default otherwise |
| Json.GetBoolean | src/main/java/io/webos/portfolio/terminal/entity/CommandResult.java:56 | `getBoolean` yields a value exactly when the key holds a boolean |
| Json.IsNull | src/main/java/io/webos/portfolio/filesystem/entity/FileNode.java:47 | `isNull` fails exactly on an absent key and is true exactly on a JSON null |
| Json.GetNullableString | src/main/java/io/webos/portfolio/filesystem/entity/FileNode.java:47 | `isNull(k) ? null : getString(k)`: null for JSON null, the string for a string, failure otherwise |
| Json.NullableRoundTrip | src/main/java/io/webos/portfolio/filesystem/entity/FileNode.java:27-31 | reading back with `isNull`/`getString` what `add`/`addNull` wrote gives the optional string back |
| FileNodes.TypeValueOf | src/main/java/io/webos/portfolio/filesystem/entity/FileType.java:6-10 | `FileType.valueOf` accepts only the names of the three constants and returns the constant with that name |
| FileNodes.TypeValueOfName | src/main/java/io/webos/portfolio/filesystem/entity/FileType.java:6-10 | `valueOf(t.name()) == t` for every file type |
| FileNodes.ToJson | src/main/java/io/webos/portfolio/filesystem/entity/FileNode.java:21-40 | the object has exactly the five keys; id, name and type name as strings; parentId and content as strings or null |
| FileNodes.FromJson | src/main/java/io/webos/portfolio/filesystem/entity/FileNode.java:45-53 | a parsed node carries the id, name and type read; parsing fails only when a key is missing, not a string, or the type name is unknown |
| FileNodes.FromJsonToJson | src/main/java/io/webos/portfolio/filesystem/entity/FileNode.java:21-53 | `fromJSON(n.toJSON()) == n` for every node |
| FileNodes.ToJsonFromJson | src/main/java/io/webos/portfolio/filesystem/entity/FileNode.java:21-53 | a parsed node serialises back to the same value under every key it read |
| CommandResults.Success | src/main/java/io/webos/portfolio/terminal/entity/CommandResult.java:19-21 | a success result has the output and no error |
| CommandResults.Failure | src/main/java/io/webos/portfolio/terminal/entity/CommandResult.java:26-28 | a failure result has the error and no output |
| CommandResults.ToJson | src/main/java/io/webos/portfolio/terminal/entity/CommandResult.java:33-50 | the object has exactly the keys success, output and error; absent strings are null |
| CommandResults.FromJson | src/main/java/io/webos/portfolio/terminal/entity/CommandResult.java:55-61 | a parsed result carries what was read; parsing fails only when a key is missing or of the wrong kind |
| CommandResults.FromJsonToJson | src/main/java/io/webos/portfolio/terminal/entity/CommandResult.java:33-61 | `fromJSON(r.toJSON()) == r` for every result |
| CommandResults.FactoriesExclusive | src/main/java/io/webos/portfolio/terminal/entity/CommandResult.java:19-28 | each factory sets exactly one of output and error |
| FileTable.ChildrenOf | src/main/java/io/webos/portfolio/filesystem/control/FileSystemService.java:52-54 | the children listed are exactly the table's nodes whose parent is the given id |
| FileTable.ChildrenOfConcat | src/main/java/io/webos/portfolio/filesystem/control/FileSystemService.java:52-54 | the stream filter distributes over concatenation, so children keep table order |
| FileTable.NamesOf | src/main/java/io/webos/portfolio/terminal/control/CommandService.java:83-85 | one name per node, position by position |
| FileTable.FindByParentId | src/main/java/io/webos/portfolio/filesystem/control/FileSystemService.java:50-55 | a null parent id lists the children of "desktop", any other the children of that id |
| FileTable.FindById | src/main/java/io/webos/portfolio/filesystem/control/FileSystemService.java:60-64 | a found node is in the table with that id; nothing is found exactly when no node carries the id |
| FileTable.FindByIdFirst | src/main/java/io/webos/portfolio/filesystem/control/FileSystemService.java:60-64 | `findFirst`: the node found is the first one carrying the id |
| FileTable.FindByIdUnique | src/main/java/io/webos/portfolio/filesystem/control/FileSystemService.java:60-64 | with unique ids, looking up a node's id finds that node |
| FileTable.FindByNameInParent | src/main/java/io/webos/portfolio/filesystem/control/FileSystemService.java:70-76 | a found node is a child of the (defaulted) parent with that name; nothing is found exactly when no such child has the name |
| FileTable.FindByNameInParentFirst | src/main/java/io/webos/portfolio/filesystem/control/FileSystemService.java:70-76 | the node found is the first in table order with that parent and name |
| FileTable.RemoveIds | src/main/java/io/webos/portfolio/filesystem/control/FileSystemService.java:93-95 | `removeIf` keeps exactly the nodes whose id is not removed |
| FileTable.RemoveIdsConcat | src/main/java/io/webos/portfolio/filesystem/control/FileSystemService.java:93-95 | removal distributes over concatenation, so survivors keep their order |
| FileTable.RemoveIdsTwice | src/main/java/io/webos/portfolio/filesystem/control/FileSystemService.java:107-108 | removing id by id is removing the whole set at once |
| FileTable.AvoidsIff | src/main/java/io/webos/portfolio/filesystem/control/FileSystemService.java:93-95 | the position-wise "no node carries these ids" agrees with disjointness of the id set |
| FileTable.RemoveIdsNone | src/main/java/io/webos/portfolio/filesystem/control/FileSystemService.java:93-95 | removing ids no node carries leaves the table unchanged |
| FileTable.RemoveIdsShorter | src/main/java/io/webos/portfolio/filesystem/control/FileSystemService.java:91-95 | `removeIf` reports a change (the table shrinks) exactly when some node carried an id |
| FileTable.ChildrenOfRemoveIds | src/main/java/io/webos/portfolio/filesystem/control/FileSystemService.java:50-55 | listing children commutes with removal |
| FileTable.RemoveIdsExactlyOne | src/main/java/io/webos/portfolio/filesystem/control/FileSystemService.java:93-95 | with unique ids, removing a set that meets one entry shortens the list by exactly one |
| FileTable.MaxIdLength | src/main/java/io/webos/portfolio/filesystem/control/FileSystemService.java:83 | bounds the length of every id and parent id in the table |
| FileTable.FreshId | src/main/java/io/webos/portfolio/filesystem/control/FileSystemService.java:83 | the generated id is carried by no node, named as parent by no node, and differs from the requested parent |
| FileTable.TheRank | src/main/java/io/webos/portfolio/filesystem/control/FileSystemService.java:130-144 | an acyclic table has a rank placing every parent below its child |
| FileTable.HeightOfParent | src/main/java/io/webos/portfolio/filesystem/control/FileSystemService.java:139-140 | a parent lies strictly lower than its child, so the walk up terminates |
| FileTable.AncestorsBelow | src/main/java/io/webos/portfolio/filesystem/control/FileSystemService.java:134-141 | every ancestor lies strictly lower than the node |
| FileTable.NotOwnAncestor | src/main/java/io/webos/portfolio/filesystem/control/FileSystemService.java:134-141 | no node is its own ancestor |
| FileTable.AncestorsTransitive | src/main/java/io/webos/portfolio/filesystem/control/FileSystemService.java:134-141 | an ancestor's ancestors are ancestors |
| FileTable.AncestorThroughChild | src/main/java/io/webos/portfolio/filesystem/control/FileSystemService.java:114-124 | walking up from below a node passes through one of its children |
| FileTable.SubtreeIdsSnoc | src/main/java/io/webos/portfolio/filesystem/control/FileSystemService.java:118-121 | one more loop step adds the child's descendants and the child |
| FileTable.SubtreeIdsMember | src/main/java/io/webos/portfolio/filesystem/control/FileSystemService.java:118-121 | an id is collected exactly when it is a listed child or one of its descendants |
| FileTable.DescendantsByChildren | src/main/java/io/webos/portfolio/filesystem/control/FileSystemService.java:114-124 | a node's descendants are its children and their descendants, the recursion `collectChildIds` follows |
| FileTable.ChildDescendantsSmaller | src/main/java/io/webos/portfolio/filesystem/control/FileSystemService.java:119 | a child's subtree is strictly smaller than its parent's, so the recursion terminates |
| FileTable.NotOwnDescendant | src/main/java/io/webos/portfolio/filesystem/control/FileSystemService.java:107-108 | a node is not among its own descendants |
| FileTable.PathNamesLength | src/main/java/io/webos/portfolio/filesystem/control/FileSystemService.java:130-144 | a node's path has one name per ancestor plus its own |
| FileTable.PathNamesChild | src/main/java/io/webos/portfolio/filesystem/control/FileSystemService.java:139-140 | a node's path is its parent's path followed by its own name |
| FileTable.PathNamesUnknown | src/main/java/io/webos/portfolio/filesystem/control/FileSystemService.java:135-138 | an id no node carries has the empty path |
| FileTable.UniqueIdsSnoc | src/main/java/io/webos/portfolio/filesystem/control/FileSystemService.java:85 | appending keeps ids unique exactly when the new id is not taken |
| FileTable.RemoveIdsUnique | src/main/java/io/webos/portfolio/filesystem/control/FileSystemService.java:94 | removal keeps ids unique |
| FileTable.RemoveIdsAcyclic | src/main/java/io/webos/portfolio/filesystem/control/FileSystemService.java:94 | removal keeps the parent links acyclic |
| FileTable.AppendFreshAcyclic | src/main/java/io/webos/portfolio/filesystem/control/FileSystemService.java:82-87 | appending a node with a fresh id keeps the parent links acyclic |
| FileTable.InitialIdsUnique | src/main/java/io/webos/portfolio/filesystem/control/FileSystemService.java:26-44 | the fourteen initial nodes have distinct ids |
| FileTable.RankedByDepth | src/main/java/io/webos/portfolio/filesystem/control/FileSystemService.java:26-44 | a depth that orders every parent link yields a rank |
| FileTable.InitialRanked | src/main/java/io/webos/portfolio/filesystem/control/FileSystemService.java:26-44 | the initial table has a rank: every parent lies below its children |
| FileTable.InitialTableAcyclic | src/main/java/io/webos/portfolio/filesystem/control/FileSystemService.java:26-44 | the initial table has no parent cycle |
| FileTable.InitialRoot | src/main/java/io/webos/portfolio/filesystem/control/FileSystemService.java:19-27 | the root "desktop" is a directory without a parent |
| FileSystem.FileSystemService.constructor | src/main/java/io/webos/portfolio/filesystem/control/FileSystemService.java:26-44 | the service starts with the fourteen-node table, whose ids are unique and whose parent links are acyclic |
| FileSystem.FileSystemService.CreateNode | src/main/java/io/webos/portfolio/filesystem/control/FileSystemService.java:82-87 | exactly one node with the given fields and a fresh id is appended and returned; the table stays valid |
| FileSystem.FileSystemService.DeleteNode | src/main/java/io/webos/portfolio/filesystem/control/FileSystemService.java:93-95 | every node with the id is removed, nothing else; the result is true exactly when one existed |
| FileSystem.FileSystemService.CollectChildIds | src/main/java/io/webos/portfolio/filesystem/control/FileSystemService.java:114-124 | the ids collected are exactly the descendants of the node |
| FileSystem.FileSystemService.DeleteNodeRecursive | src/main/java/io/webos/portfolio/filesystem/control/FileSystemService.java:101-109 | an unknown id changes nothing and yields false; otherwise exactly the node and its descendants are removed and the result is true |
| FileSystem.FileSystemService.BuildPath | src/main/java/io/webos/portfolio/filesystem/control/FileSystemService.java:130-144 | "/" followed by the names from the topmost ancestor down to the node, joined by "/"; "/" for an unknown id |
| FileSystem.CollectStep | src/main/java/io/webos/portfolio/filesystem/control/FileSystemService.java:118-121 | one loop round adds the child's descendants and then the child |
| FileSystem.DeleteStep | src/main/java/io/webos/portfolio/filesystem/control/FileSystemService.java:107 | each `deleteNode` call of the loop removes one more collected id |
| FileSystem.RemoveDescendantsThenNode | src/main/java/io/webos/portfolio/filesystem/control/FileSystemService.java:107-108 | the node survives the removal of its descendants, so the final `deleteNode` finds it and completes the subtree removal |
| FileSystem.BuildPathChild | src/main/java/io/webos/portfolio/filesystem/control/FileSystemService.java:130-144 | a child's path is its parent's path, "/", and its name |
| Terminal.LookupTarget | src/main/java/io/webos/portfolio/terminal/control/CommandService.java:95-100 | a child of the current directory with that name is preferred; otherwise a node with that id; none exactly when neither exists |
| Terminal.ResolvePathToId | src/main/java/io/webos/portfolio/terminal/control/CommandService.java:223-236 | ".." yields the current node's parent (none at the root or for an unknown directory); other paths resolve exactly when the shared lookup finds a node, to an id of the table |
| Terminal.ListDirectory | src/main/java/io/webos/portfolio/terminal/control/CommandService.java:64-88 | succeeds exactly when the target resolves, is a directory or an unknown id with children; the output is the children's names joined by newlines (messages corrected, see Findings) |
| Terminal.ListDirectoryAsWritten | src/main/java/io/webos/portfolio/terminal/control/CommandService.java:64-88 | throws exactly for `ls` without an argument in a current directory that is not a directory; otherwise agrees with the corrected listing |
| Terminal.CatFile | src/main/java/io/webos/portfolio/terminal/control/CommandService.java:90-113 | usage failure without an argument; succeeds exactly when the target exists, is not a directory and has content, with that content as output |
| Terminal.SystemInfo | src/main/java/io/webos/portfolio/terminal/control/CommandService.java:238-248 | `uname` always succeeds with output and no error |
| Terminal.SystemInfoLines | src/main/java/io/webos/portfolio/terminal/control/CommandService.java:238-248 | the output is exactly the product line, the Java line and the OS line |
| Terminal.JavaCommand | src/main/java/io/webos/portfolio/terminal/control/CommandService.java:330-347 | usage failure without an argument; succeeds exactly for --version and -version, with the three-line version text |
| Terminal.ExtractContent | src/main/java/io/webos/portfolio/terminal/control/CommandService.java:313-324 | one pair of matching surrounding quotes is removed; any other text is returned unchanged |
| Terminal.ExtractContentQuoted | src/main/java/io/webos/portfolio/terminal/control/CommandService.java:317-322 | quoting with either quote and extracting gives the text back |
| Terminal.ExtractContentPlain | src/main/java/io/webos/portfolio/terminal/control/CommandService.java:313-323 | text that does not start with a quote comes back unchanged |
| Terminal.HandleOverwrite | src/main/java/io/webos/portfolio/terminal/control/CommandService.java:272-288 | without ">" the syntax error; succeeds exactly when a save is requested, of the extracted text before ">" to the non-empty trimmed name after it |
| Terminal.HandleAppend | src/main/java/io/webos/portfolio/terminal/control/CommandService.java:290-311 | without ">>" the syntax error; succeeds exactly when a save is requested; the saved text is the existing content, a newline and the new text, or the new text alone |
| Terminal.EchoArguments | src/main/java/io/webos/portfolio/terminal/control/CommandService.java:257-270 | empty arguments print nothing; ">>" appends, a lone ">" overwrites, anything else prints the extracted text |
| Terminal.EchoAsWritten | src/main/java/io/webos/portfolio/terminal/control/CommandService.java:256-257 | as written, the arguments are the input from its sixth character on, trimmed |
| Terminal.Echo | src/main/java/io/webos/portfolio/terminal/control/CommandService.java:256-270 | corrected: the arguments are what follows the command word of the trimmed line |
| Terminal.WithPrefix | src/main/java/io/webos/portfolio/terminal/control/CommandService.java:379-381 | keeps exactly the words starting with the prefix, and no more words than it was given |
| Terminal.WithPrefixIgnoringCase | src/main/java/io/webos/portfolio/terminal/control/CommandService.java:388-391 | keeps exactly the words that start with the prefix once both are lowercased, and no more words than it was given |
| Terminal.WithPrefixConcat | src/main/java/io/webos/portfolio/terminal/control/CommandService.java:379-381 | the filter keeps the words' order: the matches in a + b are the matches in a followed by those in b |
| Terminal.WithPrefixIgnoringCaseConcat | src/main/java/io/webos/portfolio/terminal/control/CommandService.java:388-391 | the case-insensitive filter keeps the words' order in the same way |
| Terminal.Autocomplete | src/main/java/io/webos/portfolio/terminal/control/CommandService.java:369-392 | every command for a blank line; for a lone word, the command list filtered in order by that word lowercased; otherwise the current directory's names starting with the last word, ignoring case |
| Terminal.ChangeDirectoryStep | src/main/java/io/webos/portfolio/terminal/control/CommandService.java:115-146 | no argument goes home; ".." always succeeds and moves to the parent when the current directory is in the table and has one, else stays; a failure keeps the directory; a named target succeeds exactly when it exists and is a directory, and then lands on the node the lookup found |
| Terminal.ChangeDirectoryLandsOnDirectory | src/main/java/io/webos/portfolio/terminal/control/CommandService.java:131-145 | a successful `cd` to a named target lands on a directory of the table |
| Terminal.ChangeDirectoryThenParent | src/main/java/io/webos/portfolio/terminal/control/CommandService.java:115-146 | `cd name` into a subdirectory and then `cd ..` returns to the starting directory |
| Terminal.RmTargetName | src/main/java/io/webos/portfolio/terminal/control/CommandService.java:185-190 | the first argument, or the word after "-r" (none when it is missing) |
| Terminal.AppendedOneChildren | src/main/java/io/webos/portfolio/filesystem/control/FileSystemService.java:82-87 | creating a child adds one to its parent's listing, at the end, and changes no other listing |
| Terminal.FindByNameInParentAppended | src/main/java/io/webos/portfolio/filesystem/control/FileSystemService.java:70-87 | a new child whose name was free is what the name lookup then finds |
| Terminal.AppendedOneFound | src/main/java/io/webos/portfolio/terminal/control/CommandService.java:160 | after creating a new child with a free name, the listing grows by one and the name finds the new node |
| Terminal.MkdirAddsDirectory | src/main/java/io/webos/portfolio/terminal/control/CommandService.java:148-162 | `mkdir` of a free name succeeds, adds one entry to the current listing, and the name then finds a directory |
| Terminal.TouchAddsFile | src/main/java/io/webos/portfolio/terminal/control/CommandService.java:164-178 | `touch` always succeeds silently; a taken name changes nothing; a free name adds one empty file to the listing |
| Terminal.ChildrenOfUnique | src/main/java/io/webos/portfolio/filesystem/control/FileSystemService.java:50-55 | listing a table with unique ids gives unique ids |
| Terminal.SiblingOutsideSubtree | src/main/java/io/webos/portfolio/filesystem/control/FileSystemService.java:101-109 | the only child of the target's parent inside the target's subtree is the target |
| Terminal.RmRemovesEntry | src/main/java/io/webos/portfolio/terminal/control/CommandService.java:180-212 | a successful `rm` removes its target, its parent lists one entry fewer, and with -r nothing below it is left |
| Terminal.CommandService.constructor | src/main/java/io/webos/portfolio/terminal/control/CommandService.java:27-34 | the terminal starts in the home directory "desktop" |
| Terminal.CommandService.ChangeDirectory | src/main/java/io/webos/portfolio/terminal/control/CommandService.java:115-146 | the result and the new directory are those of the `cd` step function: home, the parent or staying for "..", or the directory the lookup found |
| Terminal.CommandService.MakeDirectory | src/main/java/io/webos/portfolio/terminal/control/CommandService.java:148-162 | usage failure without an argument; "already exists" for a taken name; otherwise exactly one directory node is appended |
| Terminal.CommandService.TouchFile | src/main/java/io/webos/portfolio/terminal/control/CommandService.java:164-178 | usage failure without an argument; a taken name changes nothing; otherwise exactly one empty file is appended |
| Terminal.CommandService.RemoveFile | src/main/java/io/webos/portfolio/terminal/control/CommandService.java:180-212 | usage failures, "File not found", "Is a directory (use -r)"; otherwise removes the target (and with -r its subtree) and nothing else |
| Terminal.CommandService.PrintWorkingDirectory | src/main/java/io/webos/portfolio/terminal/control/CommandService.java:214-217 | succeeds with the path of the current directory |
| Terminal.CommandService.GetContext | src/main/java/io/webos/portfolio/terminal/control/CommandService.java:353-363 | the current directory, its path, and its name ("desktop" when it is not in the table) |
| Terminal.CommandService.Complete | src/main/java/io/webos/portfolio/terminal/control/CommandService.java:369-392 | the suggestions of the autocomplete function for the current directory |
| Terminal.CommandService.Execute | src/main/java/io/webos/portfolio/terminal/control/CommandService.java:40-62 | "No command provided" for a blank line, "Unknown command" for an unknown word, otherwise the named command's result; only `cd` moves and only mkdir, touch and rm change the table |
| Terminal.Words | src/main/java/io/webos/portfolio/terminal/control/CommandService.java:45 | a blank line has the single empty word; otherwise the first word is non-empty |
| Terminal.CommandWord | src/main/java/io/webos/portfolio/terminal/control/CommandService.java:46 | the first word, empty exactly for a blank line |
| Terminal.HelpAndClearNotDispatched | src/main/java/io/webos/portfolio/terminal/control/CommandService.java:23-25 | "help" and "clear" are completed but answered as unknown commands |
| Terminal.AutocompleteOffersCommand | src/main/java/io/webos/portfolio/terminal/control/CommandService.java:377-381 | a lowercase prefix of a command name completes to that command |
| Terminal.ListInFileDirectory | src/main/java/io/webos/portfolio/terminal/control/CommandService.java:64-88 | after `cd d` and `cd ..` into the file "f", `ls` throws as written and reports "Not a directory" when corrected |
| Terminal.IntoChildOfFile | src/main/java/io/webos/portfolio/terminal/control/CommandService.java:131-145 | `cd d` from home lands on "d", found through its id |
| Terminal.OutOfChildOfFile | src/main/java/io/webos/portfolio/terminal/control/CommandService.java:123-129 | `cd ..` from "d" moves to its parent, the file "f" |
| Terminal.ListingInFile | src/main/java/io/webos/portfolio/terminal/control/CommandService.java:74-75 | in the file "f", `ls` throws as written and reports "Not a directory" when corrected |
| Terminal.EchoWithLeadingBlanks | src/main/java/io/webos/portfolio/terminal/control/CommandService.java:257 | "  echo w" prints "o w" as written and "w" when corrected |
| Terminal.EchoWordTail | src/main/java/io/webos/portfolio/terminal/control/CommandService.java:257 | the tail of "echo" after four characters is "o" |
| Terminal.EchoAsWrittenLeadingBlanks | src/main/java/io/webos/portfolio/terminal/control/CommandService.java:257 | as written, two leading blanks make echo print the last letter of the command word and the argument |
| Terminal.EchoCorrectedLeadingBlanks | src/main/java/io/webos/portfolio/terminal/control/CommandService.java:256-270 | corrected, leading blanks do not change what echo prints |
| Terminal.EchoAsWrittenPlain | src/main/java/io/webos/portfolio/terminal/control/CommandService.java:257-269 | as written, echo prints the plain text after its fifth character |
| Terminal.EchoPlain | src/main/java/io/webos/portfolio/terminal/control/CommandService.java:256-270 | corrected, echo prints the plain text after its command word |
| Terminal.EchoPlainText | src/main/java/io/webos/portfolio/terminal/control/CommandService.java:269 | text without quotes or redirection is printed as it is |
| Terminal.EchoCutAsWritten | src/main/java/io/webos/portfolio/terminal/control/CommandService.java:257 | the raw cut after five characters keeps the blanks' share of the command word |
| Terminal.EchoTrimLine | src/main/java/io/webos/portfolio/terminal/control/CommandService.java:45 | trimming the line drops the leading blanks |
| Terminal.EchoCutArgument | src/main/java/io/webos/portfolio/terminal/control/CommandService.java:257 | after a four-letter word the trimmed argument is the word that follows |
| Terminal.EchoLineWord | src/main/java/io/webos/portfolio/terminal/control/CommandService.java:45-46 | the first word of a line with leading blanks is the command word |
| FileNodesApi.ErrorBody | src/main/java/io/webos/portfolio/filesystem/boundary/FileNodesResource.java:58-60 | the error body is an object with the single key "error" holding the message |
| FileNodesApi.NodesJson | src/main/java/io/webos/portfolio/filesystem/boundary/FileNodesResource.java:43-44 | the array holds each node's JSON, position by position |
| FileNodesApi.RequestedName | src/main/java/io/webos/portfolio/filesystem/boundary/FileNodesResource.java:70 | the name is the request's string under "name", absent otherwise |
| FileNodesApi.RequestedParent | src/main/java/io/webos/portfolio/filesystem/boundary/FileNodesResource.java:69 | the parent defaults to "desktop" and is otherwise the request's string |
| FileNodesApi.RequestedType | src/main/java/io/webos/portfolio/filesystem/boundary/FileNodesResource.java:71 | the type name defaults to "FILE" and is otherwise the request's string |
| FileNodesApi.CreateGuard | src/main/java/io/webos/portfolio/filesystem/boundary/FileNodesResource.java:74-91 | 400 for a missing or blank name, then 409 for a name taken in the parent; nothing is refused exactly when the name is given, free, and a known type |
| FileNodesApi.NameCheckedBeforeDuplicates | src/main/java/io/webos/portfolio/filesystem/boundary/FileNodesResource.java:74-80 | a missing name is answered 400 whatever the table holds |
| FileNodesApi.DuplicateNameConflicts | src/main/java/io/webos/portfolio/filesystem/boundary/FileNodesResource.java:82-89 | a name already in the parent is answered 409 |
| FileNodesApi.FileNodesResource.constructor | src/main/java/io/webos/portfolio/filesystem/boundary/FileNodesResource.java:31-32 | the resource works on the injected file system |
| FileNodesApi.FileNodesResource.ListNodes | src/main/java/io/webos/portfolio/filesystem/boundary/FileNodesResource.java:38-47 | 200 with the parent's children in table order; an absent parameter means "desktop" |
| FileNodesApi.FileNodesResource.GetNode | src/main/java/io/webos/portfolio/filesystem/boundary/FileNodesResource.java:52-62 | 200 with the node exactly when the id exists, otherwise 404 with "File not found: id" |
| FileNodesApi.FileNodesResource.CreateNode | src/main/java/io/webos/portfolio/filesystem/boundary/FileNodesResource.java:67-97 | a refused request leaves the table unchanged; otherwise exactly one node with the requested fields and a fresh id is appended and returned with 201 |
| FileNodesApi.FileNodesResource.DeleteNode | src/main/java/io/webos/portfolio/filesystem/boundary/FileNodesResource.java:142-167 | 404 and no change for an unknown id; otherwise 204, removing a directory's whole subtree or just the node |
| FileNodesApi.GetNodeBodyReadsBack | src/main/java/io/webos/portfolio/filesystem/boundary/FileNodesResource.java:52-62 | a 200 body parses back to the node with the requested id |
| FileNodesApi.ListedNodesReadBack | src/main/java/io/webos/portfolio/filesystem/boundary/FileNodesResource.java:38-47 | every listed entry parses back to a node of the table under the requested parent |
| Minesweeper.SeenMinesStart | src/main/java/io/webos/portfolio/games/minesweeper/entity/GridState.java:60-61 | before the counting loops no neighbouring mine has been seen |
| Minesweeper.SeenMinesNext | src/main/java/io/webos/portfolio/games/minesweeper/entity/GridState.java:62-68 | visiting one offset adds one to the seen count exactly when that neighbour is an in-bounds mine |
| Minesweeper.SeenMinesNextRow | src/main/java/io/webos/portfolio/games/minesweeper/entity/GridState.java:61-62 | finishing a row of offsets is starting the next one |
| Minesweeper.SeenMinesAll | src/main/java/io/webos/portfolio/games/minesweeper/entity/GridState.java:59-72 | after both loops the seen mines are exactly the neighbouring mines |
| Minesweeper.Ring | src/main/java/io/webos/portfolio/games/minesweeper/entity/GridState.java:61-63 | the eight offsets other than the cell itself name eight distinct cells |
| Minesweeper.AdjacentMines | src/main/java/io/webos/portfolio/games/minesweeper/entity/GridState.java:59-72 | a cell has at most eight neighbouring mines |
| Minesweeper.ZeroIffNoMineAround | src/main/java/io/webos/portfolio/games/minesweeper/entity/GridState.java:130-137 | a count of 0 means exactly that no neighbour is a mine, the condition under which the fill spreads |
| Minesweeper.CellValue | src/main/java/io/webos/portfolio/games/minesweeper/entity/GridState.java:9-15 | a cell's value lies in 0..9 and is 9 exactly for a mine |
| Minesweeper.AllCellsCount | src/main/java/io/webos/portfolio/games/minesweeper/entity/GridState.java:13-16 | the board has 10 x 10 cells |
| Minesweeper.RevealedBound | src/main/java/io/webos/portfolio/games/minesweeper/entity/GridState.java:16 | at most the 90 non-mine cells can be revealed safe cells, and all 90 are exactly when every safe cell is revealed |
| Minesweeper.RevealOneCount | src/main/java/io/webos/portfolio/games/minesweeper/entity/GridState.java:103-104 | revealing one more safe cell raises the count by one |
| Minesweeper.DrawnStep | src/main/java/io/webos/portfolio/games/minesweeper/entity/GridState.java:39-44 | each draw adds its cell to the cells drawn so far |
| Minesweeper.ValuedConcat | src/main/java/io/webos/portfolio/games/minesweeper/entity/GridState.java:128 | updates that each carry the board's value stay so when concatenated |
| Minesweeper.SeenUpToGrows | src/main/java/io/webos/portfolio/games/minesweeper/entity/GridState.java:131-136 | neighbours already filled stay filled as more cells are revealed |
| Minesweeper.SeenUpToNextRow | src/main/java/io/webos/portfolio/games/minesweeper/entity/GridState.java:131-132 | finishing a row of neighbour offsets is starting the next one |
| Minesweeper.SeenUpToNext | src/main/java/io/webos/portfolio/games/minesweeper/entity/GridState.java:132-134 | filling from one more neighbour covers it |
| Minesweeper.FillStart | src/main/java/io/webos/portfolio/games/minesweeper/entity/GridState.java:130-131 | the invariant of the fill's loops holds before the first offset |
| Minesweeper.FillCentre | src/main/java/io/webos/portfolio/games/minesweeper/entity/GridState.java:133 | skipping the centre offset keeps the invariant |
| Minesweeper.FillNextRow | src/main/java/io/webos/portfolio/games/minesweeper/entity/GridState.java:131 | moving to the next row of offsets keeps the invariant |
| Minesweeper.FillDone | src/main/java/io/webos/portfolio/games/minesweeper/entity/GridState.java:131-136 | after the loops every neighbour of the 0 cell is revealed, and the updates after it grow only from 0 cells |
| Minesweeper.FloodStep | src/main/java/io/webos/portfolio/games/minesweeper/entity/GridState.java:134 | appending what the fill from one neighbour revealed keeps the invariant |
| Minesweeper.FromZerosConcat | src/main/java/io/webos/portfolio/games/minesweeper/entity/GridState.java:129-136 | a fill that starts next to the 0 cell heading another may follow it, and the whole still grows only from 0 cells |
| Minesweeper.FloodSingle | src/main/java/io/webos/portfolio/games/minesweeper/entity/GridState.java:126-128 | a numbered cell is revealed alone |
| Minesweeper.FloodJoin | src/main/java/io/webos/portfolio/games/minesweeper/entity/GridState.java:126-137 | the 0 cell followed by its neighbours' fills reveals exactly those cells, with their values |
| Minesweeper.RevealsConcat | src/main/java/io/webos/portfolio/games/minesweeper/entity/GridState.java:134 | two successive fills together reveal the concatenation of their updates |
| Minesweeper.ZerosExpandedConcat | src/main/java/io/webos/portfolio/games/minesweeper/entity/GridState.java:130-137 | every 0 cell of either fill has its neighbours revealed |
| Minesweeper.GridState.CountsMarkBoard | src/main/java/io/webos/portfolio/games/minesweeper/entity/GridState.java:48-56 | the values the board holds mark the mines and the cells without neighbouring mines |
| Minesweeper.GridState.GridShowsValues | src/main/java/io/webos/portfolio/games/minesweeper/entity/GridState.java:128 | updates read from the board show each cell's value |
| Minesweeper.GridState.constructor | src/main/java/io/webos/portfolio/games/minesweeper/entity/GridState.java:27-34 | a new game is playing, has nothing revealed, and its mines are the first ten distinct cells of the random draws |
| Minesweeper.GridState.PlaceMines | src/main/java/io/webos/portfolio/games/minesweeper/entity/GridState.java:36-46 | exactly ten mines, on the board: the cells of the shortest prefix of draws holding ten distinct cells |
| Minesweeper.GridState.CalculateAdjacentCounts | src/main/java/io/webos/portfolio/games/minesweeper/entity/GridState.java:48-56 | every cell then holds 9 for a mine or its adjacent-mine count |
| Minesweeper.GridState.CountAdjacentMines | src/main/java/io/webos/portfolio/games/minesweeper/entity/GridState.java:59-72 | the count is the number of in-bounds neighbouring mines |
| Minesweeper.GridState.Reveal | src/main/java/io/webos/portfolio/games/minesweeper/entity/GridState.java:82-113 | nothing once the game is over, off the board or on a revealed cell; a mine loses with one update; a number reveals one cell; a 0 floods, its first update being the cell, every update showing its value, every 0 cell's neighbours revealed, and every later update next to an earlier 0 |
| Minesweeper.GridState.FloodFill | src/main/java/io/webos/portfolio/games/minesweeper/entity/GridState.java:116-138 | reveals the cell unless off the board, revealed or a mine; the updates reveal exactly the new cells, carry the board's values, every 0 cell's neighbours are revealed, and every update after the first is next to an earlier 0 |
| Minesweeper.GridState.FloodNeighbours | src/main/java/io/webos/portfolio/games/minesweeper/entity/GridState.java:130-137 | the neighbour loop fills from each neighbour and leaves every neighbour revealed; after the 0 cell, each update is next to an earlier 0 |
| Minesweeper.GridState.Uncover | src/main/java/io/webos/portfolio/games/minesweeper/entity/GridState.java:126-127 | marks one safe cell revealed and counts it |
| Minesweeper.GridState.UncoverMine | src/main/java/io/webos/portfolio/games/minesweeper/entity/GridState.java:96 | marks the mine revealed without counting it |
| Minesweeper.GridState.CheckWinCondition | src/main/java/io/webos/portfolio/games/minesweeper/entity/GridState.java:140-144 | the game is won when the count reaches 90, otherwise its status is unchanged |
| Minesweeper.GridState.CountWithinSafeCells | src/main/java/io/webos/portfolio/games/minesweeper/entity/GridState.java:16-21 | the revealed count never exceeds 90 |
| Minesweeper.GridState.WonIffAllSafeRevealed | src/main/java/io/webos/portfolio/games/minesweeper/entity/GridState.java:140-144 | the game is won exactly when every safe cell is revealed |
| MinesweeperSessions.StatusCode | src/main/java/io/webos/portfolio/games/minesweeper/boundary/MinesweeperResource.java:36 | an ok reply is status 200, an error its own code |
| MinesweeperSessions.ApartAfterAdd | src/main/java/io/webos/portfolio/games/minesweeper/control/GameStateManager.java:16-19 | a new board built from fresh arrays joins the sessions without sharing state with any other |
| MinesweeperSessions.GameStateManager.constructor | src/main/java/io/webos/portfolio/games/minesweeper/control/GameStateManager.java:14 | no sessions at first |
| MinesweeperSessions.GameStateManager.CreateOrReplace | src/main/java/io/webos/portfolio/games/minesweeper/control/GameStateManager.java:16-20 | the session now maps to a fresh, playing board with nothing revealed; every other session is unchanged |
| MinesweeperSessions.GameStateManager.NewBoard | src/main/java/io/webos/portfolio/games/minesweeper/control/GameStateManager.java:17 | a fresh valid board, playing, nothing revealed |
| MinesweeperSessions.GameStateManager.Get | src/main/java/io/webos/portfolio/games/minesweeper/control/GameStateManager.java:22-24 | the board exactly when the session exists |
| MinesweeperSessions.GameStateManager.Remove | src/main/java/io/webos/portfolio/games/minesweeper/control/GameStateManager.java:26-28 | the session is dropped and every other one kept |
| MinesweeperSessions.MinesweeperService.constructor | src/main/java/io/webos/portfolio/games/minesweeper/control/MinesweeperService.java:17-18 | the service works on the injected manager |
| MinesweeperSessions.MinesweeperService.NewGame | src/main/java/io/webos/portfolio/games/minesweeper/control/MinesweeperService.java:20-23 | registers a fresh board for the session and answers PLAYING with no updates |
| MinesweeperSessions.MinesweeperService.Click | src/main/java/io/webos/portfolio/games/minesweeper/control/MinesweeperService.java:25-31 | an answer exactly when the session exists, with the board's status after the reveal and the per-case updates of a click (nothing, the mine, the number, or the flood from the 0 cell); no other board changes |
| MinesweeperSessions.MinesweeperService.Respond | src/main/java/io/webos/portfolio/games/minesweeper/control/MinesweeperService.java:27-30 | the reply carries the board's status after the reveal; its updates are nothing for a cell that cannot be played, the mine (and LOST), the one number, or the flood starting at the 0 cell that reveals only hidden safe cells with their values, expands every 0 and grows only from 0 cells |
| MinesweeperSessions.SessionIdOf | src/main/java/io/webos/portfolio/games/minesweeper/boundary/MinesweeperResource.java:42 | the session id is the request's string under "sessionId", absent otherwise |
| MinesweeperSessions.Coordinate | src/main/java/io/webos/portfolio/games/minesweeper/boundary/MinesweeperResource.java:49-50 | a missing or non-numeric coordinate reads as -1, a number as itself |
| MinesweeperSessions.ClickGuard | src/main/java/io/webos/portfolio/games/minesweeper/boundary/MinesweeperResource.java:42-55 | 400 for a missing or blank session id first, then 400 unless row and column lie in 0..9 |
| MinesweeperSessions.SessionCheckedFirst | src/main/java/io/webos/portfolio/games/minesweeper/boundary/MinesweeperResource.java:42-47 | a missing session id is answered 400 whatever the coordinates |
| MinesweeperSessions.MissingCoordinateRejected | src/main/java/io/webos/portfolio/games/minesweeper/boundary/MinesweeperResource.java:49-55 | a click without a row or a column is rejected |
| MinesweeperSessions.MinesweeperResource.constructor | src/main/java/io/webos/portfolio/games/minesweeper/boundary/MinesweeperResource.java:22-23 | the resource works on the injected service |
| MinesweeperSessions.MinesweeperResource.NewGame | src/main/java/io/webos/portfolio/games/minesweeper/boundary/MinesweeperResource.java:25-37 | 400 without a session id and no change; otherwise 200 with PLAYING, and the session id now maps to a new board that is playing with nothing revealed while every other session is unchanged |
| MinesweeperSessions.MinesweeperResource.Click | src/main/java/io/webos/portfolio/games/minesweeper/boundary/MinesweeperResource.java:39-62 | the guard's 400, then 404 for an unknown session, else 200 with the board's status and the per-case updates of the click at the request's row and column; the set of sessions never changes |
| Browser.Defaults | src/main/java/io/webos/portfolio/browser/entity/BrowserConfig.java:16-31 | the default whitelist is the GitHub, LinkedIn (with and without www) and Medium prefixes, in that order |
| Browser.AnyPrefix | src/main/java/io/webos/portfolio/browser/control/BrowserService.java:43-44 | `anyMatch(url::startsWith)` holds exactly when some prefix starts the URL |
| Browser.IsAllowed | src/main/java/io/webos/portfolio/browser/control/BrowserService.java:39-45 | a null or blank URL is refused; any other is allowed exactly when some prefix starts it |
| Browser.DefaultsAllow | src/main/java/io/webos/portfolio/browser/control/BrowserService.java:39-45 | with the defaults, a URL is allowed exactly when it starts with one of the four prefixes |
| Browser.DefaultsRefuseOtherHost | src/main/java/io/webos/portfolio/browser/control/BrowserService.java:39-45 | "https://example.com/" is refused |
| Browser.DefaultsRefusePlainHttp | src/main/java/io/webos/portfolio/browser/control/BrowserService.java:39-45 | "http://github.com/" is refused: the prefixes are https only |
| Browser.DefaultsAllowGitHubPage | src/main/java/io/webos/portfolio/browser/control/BrowserService.java:39-45 | "https://github.com/user" is allowed |
| Browser.MorePrefixesAllowMore | src/main/java/io/webos/portfolio/browser/control/BrowserService.java:43-44 | adding a prefix never refuses a URL that was allowed |
| Browser.ShowNullable | src/main/java/io/webos/portfolio/browser/control/BrowserService.java:150 | string concatenation shows a null URL as "null" |
| Browser.FetchGuard | src/main/java/io/webos/portfolio/browser/control/BrowserService.java:147-153 | a fetch happens exactly for an allowed URL; any other ends in "URL not allowed: " and the URL before anything is fetched |
| Compiler.FormatDiagnostic | src/main/java/io/webos/portfolio/compiler/control/JShellService.java:111-117 | an error diagnostic reads "Compilation Error: " and its message, any other "Warning: " and its message |
| Compiler.BeforeEquals | src/main/java/io/webos/portfolio/compiler/control/JShellService.java:149 | the result is a prefix of the word holding no "=", followed in the word by "=" whenever it is shorter |
| Compiler.ExtractName | src/main/java/io/webos/portfolio/compiler/control/JShellService.java:144-154 | a VAR snippet of two or more words is named by its second word up to the first "=", trimmed; every other snippet by its trimmed source |
| Compiler.VarNameHasNoEquals | src/main/java/io/webos/portfolio/compiler/control/JShellService.java:144-154 | a variable's name holds no "=" and is a prefix of the declaration's second word |
| Compiler.ExtractNameOfWords | src/main/java/io/webos/portfolio/compiler/control/JShellService.java:144-154 | for words joined by single blanks the name is the second word before its "=": `int x=5` and `int x` both name `x` |
| Compiler.CombineOutput | src/main/java/io/webos/portfolio/compiler/control/JShellService.java:156-171 | both parts empty gives "Executed successfully"; one empty gives the other; both present gives the output, a "\n" only when the output does not end in one, then the results |
| Compiler.CombineOutputOrder | src/main/java/io/webos/portfolio/compiler/control/JShellService.java:156-171 | the combined text is never empty, begins with the captured output, ends with the results and adds at most one character |
| Compiler.SilentRunReported | src/main/java/io/webos/portfolio/compiler/control/JShellService.java:170 | code with no output and no result lines is reported as "Executed successfully" |
| Compiler.AppendLine | src/main/java/io/webos/portfolio/compiler/control/JShellService.java:104-107 | a line is appended to an empty builder as it is and to a non-empty one after a "\n" |
| Compiler.AppendLinesConcat | src/main/java/io/webos/portfolio/compiler/control/JShellService.java:102-108 | appending two batches of lines equals appending their concatenation |
| Compiler.AppendLinesJoin | src/main/java/io/webos/portfolio/compiler/control/JShellService.java:102-108 | non-empty lines appended to an empty builder give their join by "\n", with no leading newline |
| Compiler.DiagnosticLines | src/main/java/io/webos/portfolio/compiler/control/JShellService.java:102-108 | one formatted line per diagnostic, in the diagnostics' order |
| Compiler.EventEntries | src/main/java/io/webos/portfolio/compiler/control/JShellService.java:85-100 | a rejected snippet contributes one line per diagnostic, an exception one "Runtime Error: " line, and no event an empty line |
| Compiler.AllEntriesNonEmpty | src/main/java/io/webos/portfolio/compiler/control/JShellService.java:66-68 | no line contributed by any event of a run is empty |
| Compiler.ResultBuilder.constructor | src/main/java/io/webos/portfolio/compiler/control/JShellService.java:61 | the result builder starts empty |
| Compiler.ResultBuilder.AppendCompilationErrors | src/main/java/io/webos/portfolio/compiler/control/JShellService.java:102-109 | the builder gains one formatted line per diagnostic, in order |
| Compiler.ResultBuilder.AppendException | src/main/java/io/webos/portfolio/compiler/control/JShellService.java:119-124 | the builder gains a "Runtime Error: " line with the exception's message |
| Compiler.ResultBuilder.AppendSnippetResult | src/main/java/io/webos/portfolio/compiler/control/JShellService.java:126-142 | without a value or snippet, or for a snippet that is neither a variable nor an expression, nothing changes; otherwise the builder gains "<name> ==> <value>" |
| Compiler.ResultBuilder.ProcessSnippetEvent | src/main/java/io/webos/portfolio/compiler/control/JShellService.java:85-100 | the builder gains exactly the event's lines: diagnostics first, else the exception, else the value |
| Compiler.ExecuteInJShell | src/main/java/io/webos/portfolio/compiler/control/JShellService.java:59-75 | the output is the captured output combined with every event's lines joined by "\n" |
| Compiler.Execute | src/main/java/io/webos/portfolio/compiler/control/JShellService.java:36-57 | null or blank code gives "No code provided"; otherwise the run's report, "Timeout Error: Execution exceeded 3000ms", "Error: Execution interrupted" or "Error: " and the message |
| Processes.UpdateInterval | src/main/java/io/webos/portfolio/processes/control/ProcessService.java:28-39 | the configured `webos.process.update.interval`, 1000 ms when none is configured |
| Processes.IndexOfItem | src/main/java/io/webos/portfolio/processes/control/ProcessService.java:71 | `indexOf`: the first position holding the name, and -1 exactly when the name is absent |
| Processes.IndexOfDistinct | src/main/java/io/webos/portfolio/processes/control/ProcessService.java:18-26 | in a list without repetitions every entry is found at its own position |
| Processes.SimulatedAppsDistinct | src/main/java/io/webos/portfolio/processes/control/ProcessService.java:18-26 | the seven simulated app names are pairwise different |
| Processes.CreateSimulatedProcess | src/main/java/io/webos/portfolio/processes/control/ProcessService.java:70-74 | named and running, pid 1000 plus the app's position in the list, memory in [50,000,000, 250,000,000) |
| Processes.ProcessList | src/main/java/io/webos/portfolio/processes/control/ProcessService.java:44-68 | the kernel with the used heap first, then one process per simulated app in list order |
| Processes.ProcessListShape | src/main/java/io/webos/portfolio/processes/control/ProcessService.java:44-74 | eight entries: the kernel with pid "1", then app i with pid 999 + i and memory in range; all running |
| Processes.ProcessPidsDistinct | src/main/java/io/webos/portfolio/processes/control/ProcessService.java:44-74 | no two entries share a pid |
| Settings.ValidFontSizes | webos-ui/src/store/settings.ts:69-72 | a font size is valid exactly when it is one of the numbers 12, 14, 16, 18, 20, 22, 24 |
| Settings.GetDefaults | webos-ui/src/store/settings.ts:13-30 | the defaults: font size 14 (a valid size) and the first preset wallpaper |
| Settings.Property | webos-ui/src/store/settings.ts:45-46 | reading a property fails exactly on null or undefined |
| Settings.Load | webos-ui/src/store/settings.ts:36-51 | nothing stored, an empty string, unparsable text or a stored null gives the defaults; the font size read back is always valid |
| Settings.AsObject | webos-ui/src/store/settings.ts:57-59 | what is saved is an object with exactly the keys fontSize and wallpaperUrl |
| Settings.LoadFieldByField | webos-ui/src/store/settings.ts:44-47 | each stored field is kept when valid (a valid size, a string wallpaper) and replaced by its own default otherwise, independently of the other |
| Settings.LoadSaved | webos-ui/src/store/settings.ts:36-59 | settings with a valid font size, once saved, load back unchanged |
| Settings.LoadRejectsOddSize | webos-ui/src/store/settings.ts:45 | a stored font size of 15 loads as 14 while a string wallpaper is kept |
| Settings.InvalidUrls | webos-ui/src/store/settings.ts:78-86 | a non-string, a string the URL parser rejects, and an "ftp:" URL are all invalid |
| SettingsContext.SettingsProvider.constructor | webos-ui/src/context/SettingsContext.tsx:31 | the provider starts from the loaded settings, whose font size is valid |
| SettingsContext.SettingsProvider.UpdateFontSize | webos-ui/src/context/SettingsContext.tsx:38-41 | an invalid size leaves the settings as they are; a valid one changes the font size and nothing else |
| SettingsContext.SettingsProvider.UpdateWallpaper | webos-ui/src/context/SettingsContext.tsx:43-46 | a URL that is not valid http(s) leaves the settings as they are; a valid one changes the wallpaper and nothing else |
| SettingsContext.SettingsProvider.ResetToDefaults | webos-ui/src/context/SettingsContext.tsx:48-50 | the settings become the defaults |
| SettingsContext.Step | webos-ui/src/context/SettingsContext.tsx:38-50 | a font-size update never touches the wallpaper, a wallpaper update never touches the font size, and a reset gives the defaults |
| SettingsContext.FontSizeAlwaysValid | webos-ui/src/context/SettingsContext.tsx:31-50 | from settings with a valid font size, the font size stays valid after any sequence of updates and resets |
| SettingsContext.ReachableValid | webos-ui/src/context/SettingsContext.tsx:31-50 | every state the provider can reach, from whatever was stored, has a valid font size |
| SettingsContext.Apply | webos-ui/src/context/SettingsContext.tsx:38-50 | applying an action through the provider's methods gives the state `Step` computes |
| Windows.Clamp | webos-ui/src/components/desktop/DraggableWindow.tsx:75-76 | `Math.max(0, Math.min(v, hi))` lies in [0, max(0, hi)] and is v itself when v is already in range |
| Windows.DragPosition | webos-ui/src/components/desktop/DraggableWindow.tsx:64-80 | without a container the window moves by the mouse's travel; with one it stays inside the container's width and above the 48-pixel taskbar |
| Windows.DragFollowsMouse | webos-ui/src/components/desktop/DraggableWindow.tsx:64-80 | inside the free area the window follows the mouse exactly, and bringing the mouse back brings the window back |
| Windows.ResizeFrame | webos-ui/src/components/desktop/DraggableWindow.tsx:103-135 | an east or south handle grows the size down to no less than the minimum; a west or north handle moves that edge by the travel, capped where the minimum is reached; untouched axes keep their size and position |
| Windows.ResizeKeepsMinimum | webos-ui/src/components/desktop/DraggableWindow.tsx:114-131 | no handle and no travel makes the window narrower or lower than its minimum |
| Windows.ResizeKeepsOppositeEdge | webos-ui/src/components/desktop/DraggableWindow.tsx:117-131 | a west or north handle keeps the opposite edge fixed and stops where the minimum is reached |
| Windows.ResizeWithoutTravel | webos-ui/src/components/desktop/DraggableWindow.tsx:103-135 | without travel a window at least as large as its minimum keeps its frame |
| Windows.DraggableWindow.constructor | webos-ui/src/components/desktop/DraggableWindow.tsx:27-46 | the window starts at its initial position and size, neither dragged nor resized |
| Windows.DraggableWindow.MouseDown | webos-ui/src/components/desktop/DraggableWindow.tsx:48-90 | a press on a control or outside the header does nothing; a header press focuses the window and records the position, the mouse, the window size and whether there is a container for the drag |
| Windows.DraggableWindow.DragMove | webos-ui/src/components/desktop/DraggableWindow.tsx:64-80 | while dragging, the position becomes `DragPosition` of the recorded start and the travel, clamped to the container size read at this move; never negative inside a container; the size is unchanged |
| Windows.DraggableWindow.DragEnd | webos-ui/src/components/desktop/DraggableWindow.tsx:82-86 | the drag ends |
| Windows.DraggableWindow.ResizeStart | webos-ui/src/components/desktop/DraggableWindow.tsx:92-101 | the window asks for focus, and the resize starts, recording the handle, the frame and the mouse |
| Windows.DraggableWindow.ResizeMove | webos-ui/src/components/desktop/DraggableWindow.tsx:103-135 | while resizing, the frame becomes `ResizeFrame` of the snapshot and the total travel, whatever moves came before |
| Windows.DraggableWindow.ResizeEnd | webos-ui/src/components/desktop/DraggableWindow.tsx:137-139 | the resize ends and the handle is forgotten |
| DesktopIcons.GetIconEmoji | webos-ui/src/components/desktop/DesktopIcon.tsx:10-21 | the folder exactly for directories; the laptop exactly for shortcuts whose content starts with "app:terminal" and the bar chart exactly for those starting with "app:taskmanager" (the two prefixes exclude each other); among the other shortcuts, the octopus exactly when the content mentions "github" and the link exactly when it does not; the memo exactly for ".txt" files and the document exactly for the other files |
| DesktopIcons.EmojisDistinct | webos-ui/src/components/desktop/DesktopIcon.tsx:10-21 | the seven emoji are different, so each icon tells its rule apart |
| DesktopIcons.DirectoryIsFolder | webos-ui/src/components/desktop/DesktopIcon.tsx:11 | a directory shows the folder whatever its name and content |
| DesktopIcons.ShortcutFirstMatchWins | webos-ui/src/components/desktop/DesktopIcon.tsx:12-17 | the first shortcut rule wins: a terminal or task-manager shortcut keeps its emoji even when it mentions "github", and one without content shows the link |
| DesktopIcons.PdfIsNotTxt | webos-ui/src/components/desktop/DesktopIcon.tsx:18-19 | a ".pdf" name never ends in ".txt" |
| DesktopIcons.PdfIsDocument | webos-ui/src/components/desktop/DesktopIcon.tsx:18-20 | a ".pdf" file shows the document, like every other file that is not ".txt" |
| Desktop.Instance | webos-ui/src/components/desktop/Desktop.tsx:81-101 | a notepad opened on a file is the window "notepad-" + file id named "<file> - Notepad" and holding the file; any other app is the window with the app's id, name and size |
| Desktop.NotepadInstancePerFile | webos-ui/src/components/desktop/Desktop.tsx:81-82 | two notepad windows share an id exactly when their files share an id: one window per file |
| Desktop.Opened | webos-ui/src/components/desktop/Desktop.tsx:83-101 | after opening, a window with that id is open; the old windows stay first, in order, and at most one is added |
| Desktop.OpenedKeepsUnique | webos-ui/src/components/desktop/Desktop.tsx:83-101 | opening keeps window ids unique, and opening the same window twice is opening it once |
| Desktop.Closed | webos-ui/src/components/desktop/Desktop.tsx:122-124 | exactly the windows without that id remain |
| Desktop.ClosedConcat | webos-ui/src/components/desktop/Desktop.tsx:123 | closing works window by window, so the remaining windows keep their order |
| Desktop.ClosedAbsent | webos-ui/src/components/desktop/Desktop.tsx:123 | closing an id that is not open changes nothing |
| Desktop.CloseUndoesOpen | webos-ui/src/components/desktop/Desktop.tsx:74-124 | closing a window just opened as a new one restores the window list |
| Desktop.ClosedKeepsUnique | webos-ui/src/components/desktop/Desktop.tsx:122-124 | closing keeps window ids unique |
| Desktop.ReplaceFirst | webos-ui/src/components/desktop/Desktop.tsx:112 | `replace` with a string pattern that does not occur leaves the string as it is |
| Desktop.ReplaceLeadingApp | webos-ui/src/components/desktop/Desktop.tsx:112 | removing the first "app:" from "app:" + name gives the name, even when the name holds "app:" again |
| Desktop.IconClickAction | webos-ui/src/components/desktop/Desktop.tsx:105-120 | a shortcut whose content starts with "http" or "/" opens exactly that content in a new tab, and a new tab opens for nothing else; doing nothing happens only for shortcuts |
| Desktop.IconDispatch | webos-ui/src/components/desktop/Desktop.tsx:105-120 | "app:" shortcuts launch the named app, directories the file explorer, files the notepad on that file, and a shortcut without content does nothing |
| Desktop.DesktopView.constructor | webos-ui/src/components/desktop/Desktop.tsx:38-45 | the desktop starts with no window, no focus, no selection and the start menu closed |
| Desktop.DesktopView.OpenApp | webos-ui/src/components/desktop/Desktop.tsx:74-103 | an unknown app id changes nothing; otherwise the app is recorded as recent, its window is added unless already open, and it is focused; ids stay unique |
| Desktop.DesktopView.CloseApp | webos-ui/src/components/desktop/Desktop.tsx:122-124 | the windows with that id go, the rest stay in order, ids stay unique |
| Desktop.DesktopView.Focus | webos-ui/src/components/desktop/Desktop.tsx:126-128 | the clicked window is focused |
| Desktop.DesktopView.GetZIndex | webos-ui/src/components/desktop/Desktop.tsx:130-132 | 20 exactly for the focused window, 10 for every other |
| Desktop.OneWindowOnTop | webos-ui/src/components/desktop/Desktop.tsx:130-132 | with unique ids at most one open window is on the upper level |
| Desktop.DesktopView.HandleIconClick | webos-ui/src/components/desktop/Desktop.tsx:105-120 | a double click opens a tab, does nothing, or opens the app `IconClickAction` names, exactly as `OpenApp` does |
| Desktop.DesktopView.SelectIcon | webos-ui/src/components/desktop/DesktopIcon.tsx:24-27 | a single click selects the icon and leaves the start menu as it is |
| Desktop.DesktopView.DesktopClick | webos-ui/src/components/desktop/Desktop.tsx:134-137 | a click on the desktop clears the selection and closes the start menu |
| TerminalWindow.OrDefault | webos-ui/src/components/terminal/Terminal.tsx:43 | `s \|\| d`: the string itself when it is non-empty, the default otherwise; never empty when the default is not |
| TerminalWindow.EntryFor | webos-ui/src/components/terminal/Terminal.tsx:41-51 | the entry keeps the command; it is an error exactly for a failed request or a failed result; a success shows its output, a failure its error, a failed request "Failed to connect to backend", and an error entry is never blank |
| TerminalWindow.EntryForFactories | webos-ui/src/components/terminal/Terminal.tsx:41-45 | a success result shows its output; a failure its error, or "Unknown error" when the error is empty |
| TerminalWindow.Recalled | webos-ui/src/components/terminal/Terminal.tsx:64-83 | the recalled line is the index-th command counted from the newest, "" when the index is out of range |
| TerminalWindow.RecallUp | webos-ui/src/components/terminal/Terminal.tsx:64-71 | without history nothing changes; otherwise one command further back, stopping at the oldest |
| TerminalWindow.RecallDown | webos-ui/src/components/terminal/Terminal.tsx:73-83 | from the newest command or the typed line back to an empty line at -1; otherwise one command newer |
| TerminalWindow.DownUndoesUp | webos-ui/src/components/terminal/Terminal.tsx:64-83 | ArrowDown undoes an ArrowUp that moved: position and shown line come back |
| TerminalWindow.UpFromLine | webos-ui/src/components/terminal/Terminal.tsx:64-71 | from the typed line ArrowUp shows the newest command; at the oldest it stays there |
| TerminalWindow.TerminalView.constructor | webos-ui/src/components/terminal/Terminal.tsx:15-19 | an empty line, transcript and command list; index -1; nothing running |
| TerminalWindow.TerminalView.SetInput | webos-ui/src/components/terminal/Terminal.tsx:15 | the input shows what was typed |
| TerminalWindow.TerminalView.BeginSubmit | webos-ui/src/components/terminal/Terminal.tsx:31-40 | a blank line or a submission while one runs changes nothing; otherwise the trimmed line is recorded, the recall index reset and the command sent |
| TerminalWindow.TerminalView.FinishSubmit | webos-ui/src/components/terminal/Terminal.tsx:41-55 | the transcript gains the command's entry, the line is cleared and nothing is running |
| TerminalWindow.TerminalView.ArrowUp | webos-ui/src/components/terminal/Terminal.tsx:64-71 | the index and the line become `RecallUp` of the old ones |
| TerminalWindow.TerminalView.ArrowDown | webos-ui/src/components/terminal/Terminal.tsx:73-83 | the index and the line become `RecallDown` of the old ones |
| MobileTerminal.MobileEntryFor | webos-ui/src/components/mobile/MobileTerminal.tsx:97-116 | the entry's output and error flag are those of the desktop terminal, with the prompt's path at the time of the command |
| MobileTerminal.FormatPath | webos-ui/src/components/mobile/MobileTerminal.tsx:191-195 | "~" for /Desktop; never empty and never holding "/" |
| MobileTerminal.FormatPathLastSegment | webos-ui/src/components/mobile/MobileTerminal.tsx:191-195 | inside a directory the prompt shows that directory's own name; a path ending in "/" shows "~" |
| MobileTerminal.CompletionEnd | webos-ui/src/components/mobile/MobileTerminal.tsx:144 | the text after a completion is "" or a single space |
| MobileTerminal.CompletionDropsCommand | webos-ui/src/components/mobile/MobileTerminal.tsx:138-145 | as written, a line of one word and a space is replaced by the completion: the word is lost |
| MobileTerminal.CompletionDropsCat | webos-ui/src/components/mobile/MobileTerminal.tsx:138-145 | as written, "cat " completed with "notes.txt" becomes "notes.txt" |
| MobileTerminal.CompletionKeepsEarlierWords | webos-ui/src/components/mobile/MobileTerminal.tsx:138-145 | as intended, the completed line's words are the earlier words followed by the completion, which replaces the last word only when the line does not end in a space |
| MobileTerminal.CompletionKeepsCommand | webos-ui/src/components/mobile/MobileTerminal.tsx:138-145 | as intended, a word and a space completed keep the word and add the completion after it |
| MobileTerminal.CompletionKeepsCat | webos-ui/src/components/mobile/MobileTerminal.tsx:138-145 | as intended, "cat " completed with "notes.txt" becomes "cat notes.txt" |
| MobileTerminal.TrimmedWords | webos-ui/src/components/mobile/MobileTerminal.tsx:139 | the words of a non-blank line are non-empty and free of whitespace |
| MobileTerminal.WordsOfJoined | webos-ui/src/components/mobile/MobileTerminal.tsx:144 | words joined by spaces, with at most one trailing space, split back into the same words |
| MobileTerminal.MobileTerminalView.constructor | webos-ui/src/components/mobile/MobileTerminal.tsx:22-29 | empty line, transcript and history, index -1, path /Desktop, no suggestions, quick commands shown |
| MobileTerminal.MobileTerminalView.SetInput | webos-ui/src/components/mobile/MobileTerminal.tsx:198-201 | the line becomes what was typed or the quick command tapped |
| MobileTerminal.MobileTerminalView.RefreshContext | webos-ui/src/components/mobile/MobileTerminal.tsx:45-52 | the backend's current path, or the old path when the request failed |
| MobileTerminal.MobileTerminalView.BeginSubmit | webos-ui/src/components/mobile/MobileTerminal.tsx:54-94 | a blank line or a submission while one runs changes nothing; otherwise the line is recorded; "clear" empties the transcript and shows the quick commands; "help" appends the help text; any other line is sent |
| MobileTerminal.MobileTerminalView.FinishSubmit | webos-ui/src/components/mobile/MobileTerminal.tsx:95-120 | the entry is appended with the old path; after an answer the path is refreshed; only a successful rm, mkdir, touch or echo reports a file-system change; the line is cleared |
| MobileTerminal.MobileTerminalView.ApplyCompletionTo | webos-ui/src/components/mobile/MobileTerminal.tsx:138-147 | the line becomes its intended completion and the suggestions go |
| MobileTerminal.MobileTerminalView.HandleTab | webos-ui/src/components/mobile/MobileTerminal.tsx:123-136 | nothing while suggestions are shown or when there is no result; one result is applied; several are shown as suggestions |
| MobileTerminal.MobileTerminalView.KeyPressed | webos-ui/src/components/mobile/MobileTerminal.tsx:156-158 | any key other than Tab hides the suggestions |
| MobileTerminal.MobileTerminalView.ArrowUp | webos-ui/src/components/mobile/MobileTerminal.tsx:165-172 | the index and line become `RecallUp` of the old ones |
| MobileTerminal.MobileTerminalView.ArrowDown | webos-ui/src/components/mobile/MobileTerminal.tsx:174-184 | the index and line become `RecallDown` of the old ones |
| FileExplorer.TypeIcon | webos-ui/src/components/file-explorer/FileExplorer.tsx:15-19 | each node type has its own emoji: folder for directories, document for files, link for shortcuts |
| FileExplorer.Enter | webos-ui/src/components/file-explorer/FileExplorer.tsx:50-58 | a directory is pushed as the new last crumb and the trail before it kept; any other node leaves the trail; the trail stays rooted at the desktop |
| FileExplorer.GoTo | webos-ui/src/components/file-explorer/FileExplorer.tsx:60-69 | the trail is cut after the chosen crumb; an index without a crumb changes nothing; the trail stays rooted |
| FileExplorer.Back | webos-ui/src/components/file-explorer/FileExplorer.tsx:71-76 | the last crumb is dropped, except at the desktop |
| FileExplorer.BackUndoesEnter | webos-ui/src/components/file-explorer/FileExplorer.tsx:50-76 | going back after entering a directory restores the trail; going to the last crumb changes nothing |
| FileExplorer.GoToIdempotent | webos-ui/src/components/file-explorer/FileExplorer.tsx:60-69 | going to a crumb twice is going once, and the crumb reached ends the trail |
| FileExplorer.BackReachesRoot | webos-ui/src/components/file-explorer/FileExplorer.tsx:71-76 | going back often enough from any rooted trail reaches the desktop and stops there |
| FileExplorer.ShortcutAction | webos-ui/src/components/file-explorer/FileExplorer.tsx:91-100 | a shortcut whose content starts with "http" opens exactly that content in a new tab, and a tab opens on nothing else; an app opens only from a shortcut; a non-shortcut or a shortcut without content does nothing |
| FileExplorer.ShortcutDispatch | webos-ui/src/components/file-explorer/FileExplorer.tsx:94-99 | an "app:" shortcut opens the app named after the prefix; a "/" link does nothing here |
| FileExplorer.FileExplorerView.constructor | webos-ui/src/components/file-explorer/FileExplorer.tsx:22-29 | the explorer starts at the desktop with the trail [Desktop], nothing selected or previewed, loading |
| FileExplorer.FileExplorerView.LoadNodes | webos-ui/src/components/file-explorer/FileExplorer.tsx:31-43 | the listing is shown, or kept with "Failed to load directory contents" when the request failed; loading stops |
| FileExplorer.FileExplorerView.NavigateToDirectory | webos-ui/src/components/file-explorer/FileExplorer.tsx:50-58 | a directory becomes the current one, its crumb is pushed and selection and preview clear; any other node changes nothing; the current directory is always the trail's last crumb |
| FileExplorer.FileExplorerView.NavigateToBreadcrumb | webos-ui/src/components/file-explorer/FileExplorer.tsx:60-69 | the chosen crumb becomes current and the trail is cut after it; an index without a crumb changes nothing |
| FileExplorer.FileExplorerView.NavigateBack | webos-ui/src/components/file-explorer/FileExplorer.tsx:71-76 | nothing at the desktop; otherwise the crumb before the last becomes current |
| FileExplorer.FileExplorerView.FilePreview | webos-ui/src/components/file-explorer/FileExplorer.tsx:78-89 | only files are previewed: the fetched node and its content, or "Failed to load file content" when the request failed |
| FileExplorer.FileExplorerView.HandleShortcut | webos-ui/src/components/file-explorer/FileExplorer.tsx:91-100 | the app or the tab `ShortcutAction` names is opened, and nothing else |
| FileExplorer.FileExplorerView.HandleDoubleClick | webos-ui/src/components/file-explorer/FileExplorer.tsx:102-110 | a directory is entered, a file previewed and a shortcut followed |
| FileExplorer.FileExplorerView.SelectNode | webos-ui/src/components/file-explorer/FileExplorer.tsx:112-115 | a single click selects the node |
| FileExplorer.FileExplorerView.ClosePreview | webos-ui/src/components/file-explorer/FileExplorer.tsx:117-120 | the preview is closed |
| MobileFileExplorer.FirstPrefixMatch | webos-ui/src/components/mobile/MobileFileExplorer.tsx:24-32 | no emoji exactly when no rule's prefix starts the content; otherwise the emoji of one of the rules |
| MobileFileExplorer.FirstMatchWins | webos-ui/src/components/mobile/MobileFileExplorer.tsx:24-32 | the first rule whose prefix matches decides, whatever later rules say |
| MobileFileExplorer.EmojisDistinctFromApps | webos-ui/src/components/mobile/MobileFileExplorer.tsx:21-40 | the folder, memo and link emoji differ from every app emoji and from each other |
| MobileFileExplorer.FallbackEmoji | webos-ui/src/components/mobile/MobileFileExplorer.tsx:21-40 | the folder exactly for directories, the memo exactly for ".txt" files, the link exactly for shortcuts that match no app prefix and mention neither "github" nor "linkedin" |
| MobileFileExplorer.AgreesWithDesktopIcon | webos-ui/src/components/mobile/MobileFileExplorer.tsx:21-40 | the phone and the desktop show the same emoji for directories, files and terminal shortcuts; a settings shortcut gets the gear here and not on the desktop |
| MobileFileExplorer.FileTypeLabel | webos-ui/src/components/mobile/MobileFileExplorer.tsx:42-48 | "Folder" exactly for directories, "Shortcut" exactly for shortcuts, "PDF Document" and "Text File" exactly for files with those endings |
| MobileFileExplorer.LabelMatchesEmoji | webos-ui/src/components/mobile/MobileFileExplorer.tsx:21-48 | the label and the emoji agree on folders and text files, and a PDF shows the document |
| MobileFileExplorer.NameLeTotal | webos-ui/src/components/mobile/MobileFileExplorer.tsx:69 | any two names are ordered one way or the other |
| MobileFileExplorer.NameLeTrans | webos-ui/src/components/mobile/MobileFileExplorer.tsx:69 | the name order is transitive |
| MobileFileExplorer.Rank | webos-ui/src/components/mobile/MobileFileExplorer.tsx:67-68 | directories rank first, exactly |
| MobileFileExplorer.LeTotal | webos-ui/src/components/mobile/MobileFileExplorer.tsx:66-70 | the comparator orders any two nodes |
| MobileFileExplorer.LeTrans | webos-ui/src/components/mobile/MobileFileExplorer.tsx:66-70 | the comparator is transitive |
| MobileFileExplorer.Insert | webos-ui/src/components/mobile/MobileFileExplorer.tsx:66-70 | inserting adds exactly the node |
| MobileFileExplorer.InsertSorted | webos-ui/src/components/mobile/MobileFileExplorer.tsx:66-70 | inserting into a sorted listing keeps it sorted |
| MobileFileExplorer.SortNodes | webos-ui/src/components/mobile/MobileFileExplorer.tsx:66-70 | the sorted listing is a permutation of the fetched one |
| MobileFileExplorer.SortNodesSorted | webos-ui/src/components/mobile/MobileFileExplorer.tsx:66-70 | the sorted listing is ordered by the comparator, with every directory before every other node |
| MobileFileExplorer.SortNodesOfSorted | webos-ui/src/components/mobile/MobileFileExplorer.tsx:66-70 | a listing already in order is kept as it is |
| MobileFileExplorer.ShortcutAction | webos-ui/src/components/mobile/MobileFileExplorer.tsx:114-123 | a shortcut whose content starts with "http" or "/" opens exactly that content in a new tab, and a tab opens on nothing else; an app opens only from a shortcut; a non-shortcut or a shortcut without content does nothing |
| MobileFileExplorer.ShortcutLikeDesktop | webos-ui/src/components/mobile/MobileFileExplorer.tsx:114-123 | the phone follows shortcuts like the desktop explorer, except that it also opens "/" links |
| MobileFileExplorer.MobileFileExplorerView.constructor | webos-ui/src/components/mobile/MobileFileExplorer.tsx:51-55 | the explorer starts at the desktop with the trail [Desktop], empty and loading |
| MobileFileExplorer.MobileFileExplorerView.LoadNodes | webos-ui/src/components/mobile/MobileFileExplorer.tsx:60-78 | the fetched listing is stored sorted, a permutation of what was fetched; a failed request keeps the listing with "Failed to load directory contents"; loading stops |
| MobileFileExplorer.MobileFileExplorerView.NavigateToDirectory | webos-ui/src/components/mobile/MobileFileExplorer.tsx:84-89 | only a directory is entered: it becomes current and its crumb is pushed |
| MobileFileExplorer.MobileFileExplorerView.NavigateBack | webos-ui/src/components/mobile/MobileFileExplorer.tsx:91-100 | nothing at the desktop; otherwise the crumb before the last becomes current and the trail is cut after it |
| MobileFileExplorer.MobileFileExplorerView.HandleFileOpen | webos-ui/src/components/mobile/MobileFileExplorer.tsx:102-112 | a file opens in the notepad with its fetched node, or sets "Failed to load file content"; other nodes change nothing |
| MobileFileExplorer.MobileFileExplorerView.HandleShortcut | webos-ui/src/components/mobile/MobileFileExplorer.tsx:114-123 | the app or the tab `ShortcutAction` names is opened, and nothing else |
| MobileFileExplorer.MobileFileExplorerView.HandleItemTap | webos-ui/src/components/mobile/MobileFileExplorer.tsx:125-133 | a directory is entered, a file opened and a shortcut followed |
| MobileFileExplorer.MobileFileExplorerView.CurrentFolder | webos-ui/src/components/mobile/MobileFileExplorer.tsx:136 | the last crumb's name, "Desktop" when it is empty, and "Desktop" at the root |
| HomeScreen.TotalPages | webos-ui/src/components/mobile/HomeScreen.tsx:35 | `Math.ceil(n / 20)`: the fewest pages of 20 that hold every app, and none exactly when there are no apps |
| HomeScreen.AppsForPage | webos-ui/src/components/mobile/HomeScreen.tsx:38-42 | at most 20 apps, in order, taken from position 20p; every page before the last is full, every existing page non-empty, and a page past the end empty |
| HomeScreen.PagesArePrefix | webos-ui/src/components/mobile/HomeScreen.tsx:38-42 | the first k pages are the first 20k apps, in order |
| HomeScreen.PagesPartitionApps | webos-ui/src/components/mobile/HomeScreen.tsx:35-42 | the pages together are the app list, in order, nothing left out or repeated |
| HomeScreen.LockDirection | webos-ui/src/components/mobile/HomeScreen.tsx:73-76 | a fixed direction stays; otherwise the first move of more than 10 pixels on an axis fixes it, horizontal exactly when it moved further sideways |
| HomeScreen.LockIsFinal | webos-ui/src/components/mobile/HomeScreen.tsx:73-76 | once fixed, no later move changes the direction |
| HomeScreen.SwipeOffset | webos-ui/src/components/mobile/HomeScreen.tsx:80-90 | the offset follows the finger, scaled by 0.3 past the first or last page, and always has the finger's sign and no larger size |
| HomeScreen.PageAfterSwipe | webos-ui/src/components/mobile/HomeScreen.tsx:105-122 | a distance swipe or a fast flick to the right goes back a page and to the left forward a page, never past either end; anything else stays |
| HomeScreen.SwipeThresholds | webos-ui/src/components/mobile/HomeScreen.tsx:111-112 | a swipe of 30 pixels or less never moves; more than 50 pixels always moves; a 40-pixel swipe moves only when fast |
| HomeScreen.ToggleWiggle | webos-ui/src/components/mobile/HomeScreen.tsx:44-46 | a long press on the wiggling app stops the wiggle; on any other app that app starts wiggling |
| HomeScreen.ToggleTwice | webos-ui/src/components/mobile/HomeScreen.tsx:44-46 | two long presses on the same app restore the wiggle |
| HomeScreen.HomeScreenView.constructor | webos-ui/src/components/mobile/HomeScreen.tsx:21-31 | first page, no wiggle, no gesture tracked |
| HomeScreen.HomeScreenView.TouchStart | webos-ui/src/components/mobile/HomeScreen.tsx:57-63 | the start point and time are recorded and no direction is fixed |
| HomeScreen.HomeScreenView.TouchMove | webos-ui/src/components/mobile/HomeScreen.tsx:65-93 | without a start nothing changes; otherwise the direction becomes `LockDirection` and a horizontal gesture's offset becomes `SwipeOffset` |
| HomeScreen.HomeScreenView.Reset | webos-ui/src/components/mobile/HomeScreen.tsx:97-129 | the offset returns to 0 and all tracking is cleared |
| HomeScreen.HomeScreenView.TouchEnd | webos-ui/src/components/mobile/HomeScreen.tsx:95-130 | a gesture not fixed as horizontal leaves the page; a horizontal one sets it to `PageAfterSwipe`; the page stays in range and tracking is cleared |
| HomeScreen.HomeScreenView.TouchCancel | webos-ui/src/components/mobile/HomeScreen.tsx:132-138 | the offset returns to 0 and all tracking is cleared |
| HomeScreen.HomeScreenView.LongPress | webos-ui/src/components/mobile/HomeScreen.tsx:44-46 | the wiggle becomes `ToggleWiggle` of the old one |
| HomeScreen.HomeScreenView.BackgroundTap | webos-ui/src/components/mobile/HomeScreen.tsx:48-50 | a wiggle stops; no wiggle, or an empty id, which is falsy, is left as it is |
| SearchPanel.FilterByQuery | webos-ui/src/components/desktop/SearchPanel.tsx:60-66 | no more apps than given, and every app kept has a name that contains the query, ignoring case |
| SearchPanel.FilterKeepsMatches | webos-ui/src/components/desktop/SearchPanel.tsx:60-66 | an app is kept exactly when it is one of the apps and its name matches |
| SearchPanel.FilterConcat | webos-ui/src/components/desktop/SearchPanel.tsx:61 | filtering distributes over concatenation, so the kept apps stay in their order |
| SearchPanel.EmptyQueryKeepsAll | webos-ui/src/components/desktop/SearchPanel.tsx:61 | the empty query keeps every app |
| SearchPanel.CaseInsensitive | webos-ui/src/components/desktop/SearchPanel.tsx:60-66 | lowering the name or the query first changes nothing |
| SearchPanel.TakeAtMost | webos-ui/src/components/desktop/SearchPanel.tsx:62 | `slice(0, n)` is a prefix of length min(n, length) |
| SearchPanel.FilteredRecentApps | webos-ui/src/components/desktop/SearchPanel.tsx:60-62 | the first five matching recent apps, in order: a prefix of the filtered list, of length min(5, matches) |
| SearchPanel.EmptyQueryShowsFirstFive | webos-ui/src/components/desktop/SearchPanel.tsx:60-62 | with an empty query the five most recent apps are shown as they are |
| SearchPanel.ShownTopApps | webos-ui/src/components/desktop/SearchPanel.tsx:64-66 | every matching top app is shown: the filter keeps at most the six top apps, so the six-tile cut removes none |
| SearchPanel.RecentMessage | webos-ui/src/components/desktop/SearchPanel.tsx:124-132 | "No recent apps" exactly without recent apps, "No apps found" exactly when there are some but none matches, and no message exactly when entries are listed |
| SearchPanel.SearchPanelView.constructor | webos-ui/src/components/desktop/SearchPanel.tsx:31 | the query starts empty |
| SearchPanel.SearchPanelView.SetQuery | webos-ui/src/components/desktop/SearchPanel.tsx:39-41 | the query becomes what was typed |
| SearchPanel.SearchPanelView.AppClick | webos-ui/src/components/desktop/SearchPanel.tsx:43-46 | the app is opened, then the panel closed |
| SearchPanel.SearchPanelView.TopAppClick | webos-ui/src/components/desktop/SearchPanel.tsx:48-52 | the app is recorded as recent, opened, then the panel closed, in that order |
| SearchPanel.SearchPanelView.BackdropClick | webos-ui/src/components/desktop/SearchPanel.tsx:35-37 | only a click on the backdrop itself closes the panel |
| MinesweeperView.EmptyGrid | webos-ui/src/components/minesweeper/Minesweeper.tsx:25-33 | ten rows of ten cells, every one hidden, unflagged, value -1 |
| MinesweeperView.SetCell | webos-ui/src/components/minesweeper/Minesweeper.tsx:81-85 | the chosen cell is replaced and every other cell kept |
| MinesweeperView.Applied | webos-ui/src/components/minesweeper/Minesweeper.tsx:78-88 | applying updates keeps the grid ten by ten |
| MinesweeperView.LastHit | webos-ui/src/components/minesweeper/Minesweeper.tsx:80-86 | no value exactly when no update names the cell |
| MinesweeperView.AppliedCell | webos-ui/src/components/minesweeper/Minesweeper.tsx:78-88 | a cell some update names is revealed, unflagged, with the last such update's value; every other cell is as it was |
| MinesweeperView.ApplyToGrid | webos-ui/src/components/minesweeper/Minesweeper.tsx:79-87 | the loop over the updates yields `Applied` of the grid and the updates |
| MinesweeperView.RightClicked | webos-ui/src/components/minesweeper/Minesweeper.tsx:105-115 | while playing, an unrevealed cell's flag flips and nothing else changes; otherwise the grid is kept |
| MinesweeperView.RightClickTwice | webos-ui/src/components/minesweeper/Minesweeper.tsx:105-115 | two right clicks on a cell give back the grid |
| MinesweeperView.RevealedCellsIgnored | webos-ui/src/components/minesweeper/Minesweeper.tsx:91-115 | a cell an update revealed is never sent again; a flagged cell is not sent until a right click unflags it |
| MinesweeperView.MinesweeperWindow.constructor | webos-ui/src/components/minesweeper/Minesweeper.tsx:47-51 | an empty hidden grid, playing, no session yet, loading, no error |
| MinesweeperView.MinesweeperWindow.StartNewGame | webos-ui/src/components/minesweeper/Minesweeper.tsx:53-66 | an answer gives a fresh hidden grid and its status; a failure keeps grid and status with "Failed to start game. Please try again."; loading stops |
| MinesweeperView.MinesweeperWindow.NewGame | webos-ui/src/components/minesweeper/Minesweeper.tsx:117-122 | the new session id is kept and the game restarted as `StartNewGame` does |
| MinesweeperView.MinesweeperWindow.ApplyUpdates | webos-ui/src/components/minesweeper/Minesweeper.tsx:74-89 | the status is always taken and the grid becomes `Applied` of the old grid and the updates |
| MinesweeperView.MinesweeperWindow.CellClick | webos-ui/src/components/minesweeper/Minesweeper.tsx:91-94 | a click is sent exactly while playing on a cell neither revealed nor flagged |
| MinesweeperView.MinesweeperWindow.FinishClick | webos-ui/src/components/minesweeper/Minesweeper.tsx:96-102 | an answer is applied; a failure keeps the grid with "Failed to process click. Please try again." |
| MinesweeperView.MinesweeperWindow.RightClick | webos-ui/src/components/minesweeper/Minesweeper.tsx:105-115 | the grid becomes `RightClicked` of the old grid |
| ChromeBrowser.Navigated | webos-ui/src/components/chrome/ChromeBrowser.tsx:40-49 | navigating loads the URL with no error |
| ChromeBrowser.Loaded | webos-ui/src/components/chrome/ChromeBrowser.tsx:60-62 | a load event stops loading and keeps the URL and any error |
| ChromeBrowser.Failed | webos-ui/src/components/chrome/ChromeBrowser.tsx:64-70 | an error event stops loading with "Failed to load page" and keeps the URL |
| ChromeBrowser.LoadAfterNavigate | webos-ui/src/components/chrome/ChromeBrowser.tsx:40-70 | a navigated page that loads ends without error; a late load event keeps an earlier failure |
| ChromeBrowser.HexDigit | webos-ui/src/components/chrome/ChromeBrowser.tsx:28 | a hex digit is 0-9 or upper-case A-F |
| ChromeBrowser.Utf8 | webos-ui/src/components/chrome/ChromeBrowser.tsx:28 | one to four bytes below 256, a single byte exactly for ASCII and then the character itself |
| ChromeBrowser.PercentBytes | webos-ui/src/components/chrome/ChromeBrowser.tsx:28 | three characters per byte, all of them percent signs, digits or letters |
| ChromeBrowser.EncodeURIComponent | webos-ui/src/components/chrome/ChromeBrowser.tsx:28 | empty exactly for the empty string, never shorter than the input, and made only of unreserved characters and "%" |
| ChromeBrowser.EncodeUnreserved | webos-ui/src/components/chrome/ChromeBrowser.tsx:28 | a string of unreserved characters is its own encoding |
| ChromeBrowser.EncodeConcat | webos-ui/src/components/chrome/ChromeBrowser.tsx:28 | the encoding of a concatenation is the concatenation of the encodings |
| ChromeBrowser.EncodedIsOneParameter | webos-ui/src/components/chrome/ChromeBrowser.tsx:28 | the encoded URL holds none of "&", "#", "=", "/", ":" or "?", so it stays one query parameter |
| ChromeBrowser.ProxyUrl | webos-ui/src/components/chrome/ChromeBrowser.tsx:89 | empty exactly when no page is shown; otherwise "/api/browser/navigate?url=" followed by the encoded URL |
| ChromeBrowser.BookmarksNavigate | webos-ui/src/components/chrome/ChromeBrowser.tsx:21-25 | every bookmark is a non-blank https URL, so clicking it always navigates |
| ChromeBrowser.ChromeWindow.constructor | webos-ui/src/components/chrome/ChromeBrowser.tsx:31-38 | the address bar and the page show the initial URL, not loading, bookmarks shown |
| ChromeBrowser.ChromeWindow.NavigateTo | webos-ui/src/components/chrome/ChromeBrowser.tsx:40-49 | a blank URL is ignored; otherwise the page becomes `Navigated` and the address bar shows the URL |
| ChromeBrowser.ChromeWindow.SetAddress | webos-ui/src/components/chrome/ChromeBrowser.tsx:32 | the address bar shows what was typed |
| ChromeBrowser.ChromeWindow.AddressSubmit | webos-ui/src/components/chrome/ChromeBrowser.tsx:51-54 | navigates to what the address bar holds |
| ChromeBrowser.ChromeWindow.BookmarkClick | webos-ui/src/components/chrome/ChromeBrowser.tsx:56-58 | a bookmark always navigates to its URL |
| ChromeBrowser.ChromeWindow.IframeLoad | webos-ui/src/components/chrome/ChromeBrowser.tsx:60-62 | the page becomes `Loaded` |
| ChromeBrowser.ChromeWindow.IframeError | webos-ui/src/components/chrome/ChromeBrowser.tsx:64-70 | the page becomes `Failed` |
| ChromeBrowser.ChromeWindow.Home | webos-ui/src/components/chrome/ChromeBrowser.tsx:84-87 | back to the start page: no URL, not loading, no error, an empty address bar and no proxy address |
| ChromeBrowser.ChromeWindow.RefreshStart | webos-ui/src/components/chrome/ChromeBrowser.tsx:72-77 | without a page nothing changes; otherwise loading restarts, the error clears, the frame is emptied and the URL is kept for the timer |
| ChromeBrowser.ChromeWindow.RefreshRestore | webos-ui/src/components/chrome/ChromeBrowser.tsx:78-80 | the timer puts the saved URL back |
| ChromeBrowser.RefreshIsRenavigation | webos-ui/src/components/chrome/ChromeBrowser.tsx:72-82 | a refresh ends, once its timer fires, where navigating to the same URL would |
| ChromeBrowser.ChromeWindow.ToggleBookmarks | webos-ui/src/components/chrome/ChromeBrowser.tsx:152 | the bookmarks bar is shown or hidden in turn |
| Notepad.InitialContent | webos-ui/src/components/notepad/Notepad.tsx:11-18 | the file's content, or "" without a file or content |
| Notepad.FileName | webos-ui/src/components/notepad/Notepad.tsx:43 | never empty: the file's name when it is not empty, "Untitled" without a file or for an empty name |
| Notepad.Title | webos-ui/src/components/notepad/Notepad.tsx:44 | the name, followed by " *" exactly while there are unsaved edits |
| Notepad.TitleShowsDirty | webos-ui/src/components/notepad/Notepad.tsx:44 | the title always tells unsaved edits apart, by two characters |
| Notepad.LineCount | webos-ui/src/components/notepad/Notepad.tsx:90 | `split('\n').length`: one more than the number of line breaks, never 0 |
| Notepad.LineCountConcat | webos-ui/src/components/notepad/Notepad.tsx:90 | joining two texts with a line break adds their line counts |
| Notepad.Edited | webos-ui/src/components/notepad/Notepad.tsx:20-23 | an edit sets the text and marks it dirty, keeping "clean means saved" |
| Notepad.SaveCompletedAsWritten | webos-ui/src/components/notepad/Notepad.tsx:29-30 | as written, a completed save clears the flag whatever the text now is |
| Notepad.SaveRaceLosesEdit | webos-ui/src/components/notepad/Notepad.tsx:25-34 | as written, sending "a" and typing "ab" before the save completes leaves "ab" shown as saved |
| Notepad.SaveCompleted | webos-ui/src/components/notepad/Notepad.tsx:25-34 | as intended, the editor stays dirty exactly when the text moved on from what was sent, so a clean editor always shows saved text |
| Notepad.SaveCompletedAgreesWithoutRace | webos-ui/src/components/notepad/Notepad.tsx:29-30 | without edits during the save the intended completion equals the written one |
| Notepad.NotepadWindow.constructor | webos-ui/src/components/notepad/Notepad.tsx:10-13 | the text is the file's, nothing unsaved, nothing saving |
| Notepad.NotepadWindow.FileChanged | webos-ui/src/components/notepad/Notepad.tsx:15-18 | a new file replaces the text and clears the flag |
| Notepad.NotepadWindow.Change | webos-ui/src/components/notepad/Notepad.tsx:20-23 | the text becomes the edit and is dirty |
| Notepad.NotepadWindow.SaveStart | webos-ui/src/components/notepad/Notepad.tsx:25-29 | without `onSave` or unsaved edits nothing happens; otherwise saving starts and the text is sent |
| Notepad.NotepadWindow.SaveFinish | webos-ui/src/components/notepad/Notepad.tsx:29-33 | saving stops; a completed save gives `SaveCompleted`; a failed one keeps the flag |
| Notepad.NotepadWindow.WindowTitle | webos-ui/src/components/notepad/Notepad.tsx:43-44 | the title ends in " *" exactly while there are unsaved edits |
| TaskManager.AppProcess | webos-ui/src/components/task-manager/TaskManager.tsx:56-62 | the row of window k has pid 1000 + k, the window's name and icon, and is running |
| TaskManager.Processes | webos-ui/src/components/task-manager/TaskManager.tsx:45-65 | the kernel row first, then one row per open window in order |
| TaskManager.PidsDistinct | webos-ui/src/components/task-manager/TaskManager.tsx:48-58 | every row has its own pid, and only the kernel's is "1" |
| TaskManager.ProcessCount | webos-ui/src/components/task-manager/TaskManager.tsx:148-151 | one row per window plus the kernel, so "No applications running" shows exactly when no window is open |
| TaskManager.FindByName | webos-ui/src/components/task-manager/TaskManager.tsx:81 | `find` by name: the first window with that name, or none exactly when no window has it |
| TaskManager.EndTaskAsWritten | webos-ui/src/components/task-manager/TaskManager.tsx:79-83 | as written, the kernel row closes nothing and any other row closes some window with the row's name |
| TaskManager.EndTaskClosesWrongWindow | webos-ui/src/components/task-manager/TaskManager.tsx:79-83 | as written, with two windows of the same name, ending the second row closes the first window |
| TaskManager.PidIndex | webos-ui/src/components/task-manager/TaskManager.tsx:57 | a pid of digits at least 1000 gives its window index; anything else gives none |
| TaskManager.EndTask | webos-ui/src/components/task-manager/TaskManager.tsx:79-83 | as intended, the kernel row closes nothing |
| TaskManager.EndTaskClosesItsRow | webos-ui/src/components/task-manager/TaskManager.tsx:79-83 | as intended, ending a window's row closes exactly that window, and the kernel's row closes nothing |
| TaskManager.EndTaskAgreesOnDistinctNames | webos-ui/src/components/task-manager/TaskManager.tsx:79-83 | with distinct window names the intended lookup closes the window the written one closes |
| StatusBar.Minutes | webos-ui/src/components/mobile/StatusBar.tsx:11 | at least two digits, exactly two below 100, all digits, and reading back as the minute |
| StatusBar.FormatTime | webos-ui/src/components/mobile/StatusBar.tsx:8-12 | the hour, one ":", then the padded minutes, and ":" appears exactly once |
| StatusBar.FormatTimeRoundTrip | webos-ui/src/components/mobile/StatusBar.tsx:8-12 | a time of day splits at its ":" into the unpadded hour and two minute digits, which read back as the hour and the minute |
| StatusBar.HoursUnpadded | webos-ui/src/components/mobile/StatusBar.tsx:11 | before ten o'clock the hour is one digit followed by ":" |
| StatusBar.FormatTimeInjective | webos-ui/src/components/mobile/StatusBar.tsx:8-12 | two different times of day never read the same |

## Left out

- Network and HTTP: the frontend's `fetch` wrappers (`webos-ui/src/api/index.ts`) are not part of this model. Every handler that awaits one is split at its `await`, and the response, or `None` for a failed request, is a parameter of the second half.
- `BrowserService.fetchContent` and the Jsoup passes `removeDangerousTags`, `rewriteRelativeUrls` and `injectStyles` call an HTTP client and an HTML library outside the model. Only the whitelist and the guard before the fetch are modelled.
- `FileSystemService.saveFile` and `updateContent` are not part of this model. Their callers are modelled up to the call, as explained on the next three lines.
- Terminal.CommandService.Execute: echo redirection returns the `saveFile` request it would make, and the file table stays unchanged.
- The `PUT /file-nodes/{id}/content` and `POST /file-nodes/save` endpoints of `FileNodesResource` (`updateContent`, `saveFile`) are left out, because they only delegate to those two methods.
- FileNodesApi.FileNodesResource.CreateNode: when the type string names no `FileType`, `valueOf` throws. That is modelled as a 500 response with a null body, and the container's error page is not modelled.
- Concurrency is not modelled: the `ConcurrentHashMap` behind `GameStateManager` is a plain map, and the SSE stream of `ProcessesResource` is left out.
- JShell: the executor, the 3000 ms timeout and the `jdk.jshell` evaluation are outside the model. The snippet events a run produces are an input, and the model covers how they are turned into text.
- Randomness and the clock are inputs: the mine draws of `placeMines`, the memory draws and heap figure of `ProcessService`, the session id made by `crypto.randomUUID` in `getOrCreateSessionId`, and the hour and minute shown by `StatusBar`.
- A node's `UUID.randomUUID()` id is modelled as a chosen id that no node in the table uses yet.
- `System.getProperty` in `uname` and in `java --version` is an input: the property values are given to the `CommandService` constructor.
- Browser storage: `localStorage` reads and writes, and `JSON.parse`, are inputs. `Settings.Load` takes the stored text and its parse result. `save` is modelled only as the object it would store (`Settings.AsObject`).
- Settings.IsValidUrl: the WHATWG `URL` parser is an input function that gives a string's protocol, or nothing when the string does not parse.
- `useSettings` outside a provider, which throws, is left out. So are the provider's auto-save effect and the effect that applies the font size to the page.
- `loadDesktop` is left out: it fetches the desktop nodes and falls back to demo nodes on failure. The wallpaper and user-name fallbacks are left out because they are rendering.
- The `APP_CONFIG` table and the home screen's app list come from configuration and are parameters. `handleSwipeUp` and the dock are left out.
- `TaskManager`'s memory column, its jitter interval, `totalMemory` and `formatMemory` are floating-point display arithmetic and are left out. A row of the model has no memory field.
- `SearchPanel.handleQuickSearchClick` only writes to the console and is left out.
- Focus, scrolling and rendering effects are left out. The terminal windows focus their input and scroll to the bottom; the 3D scene, the start and power menus, the dock, the app grid and the rest of the presentation are not modelled.
- The `ChromeBrowser` refresh `setTimeout` is modelled as two methods: `RefreshStart` and, for when the timer fires, `RefreshRestore`.
- HomeScreen.HomeScreenView.TouchEnd: `Date.now()` is the `now` parameter, and the flick speed is compared as 10·|dx| > 3·dt instead of the division |dx|/dt > 0.3. The 0.3 edge resistance is a `real`, and pixel positions are integers.
- Strings are sequences of characters. A JavaScript `length` counts UTF-16 code units; the model counts characters, which gives the same result for text in the Basic Multilingual Plane.
- Common.ToLower changes ASCII letters only. Java's and JavaScript's `toLowerCase` also fold other scripts.
- Common.IsSpace is the whitespace set of Java's `\s` (space, tab, line feed, vertical tab, form feed and carriage return). JavaScript's `trim` also removes other Unicode spaces.
- Trim and IsBlank (`Common.Trim`, `Common.IsBlank`) use that same set for every caller. Java's `String.trim` removes every character up to U+0020, control characters included, and `String.isBlank` uses `Character.isWhitespace`, which also accepts U+001C to U+001F and the Unicode space separators. So the terminal line "\u001Fls" is trimmed to "ls" by the backend, while the model keeps the U+001F and answers "Unknown command".
- GetIntOr and Coordinate (`Json.GetIntOr`, `MinesweeperSessions.Coordinate`): a JSON number is an integer (`Json.JNumber`). `getInt` truncates a number with a fraction and keeps only the low 32 bits of a large one. The model does not capture that a row of 2.5 reads as 2, or that 4294967297 reads as 1.
- Execute (`Terminal.CommandService.Execute`): `ls` and `echo` run the corrected `ListDirectory` and `Echo` of the first two Findings rows. The code as written is modelled by `Terminal.ListDirectoryAsWritten` and `Terminal.EchoAsWritten`, and the lemmas there exhibit where they differ.
- ApplyCompletionTo (`MobileTerminal.MobileTerminalView.ApplyCompletionTo`) applies the corrected `MobileTerminal.ApplyCompletion` of the third Findings row. The code as written is `MobileTerminal.ApplyCompletionAsWritten`.
- HandleTab (`MobileTerminal.MobileTerminalView.HandleTab`) applies a single result through `ApplyCompletionTo`, so it also uses the corrected completion.
- SaveFinish (`Notepad.NotepadWindow.SaveFinish`) keeps the dirty flag when the text changed during the save, as the corrected `Notepad.SaveCompleted` of the fourth Findings row does. The code as written, which always clears the flag, is `Notepad.SaveCompletedAsWritten`.
- MobileFileExplorer.SortNodes: `localeCompare` is replaced by code-point order of the names. The proof covers order and permutation only. It does not cover `Array.prototype.sort` keeping equal-keyed nodes in their fetched order.
- The callbacks a component receives (`onOpenApp`, `onCloseApp`, `onFileSystemChange`, `onSave`, `onAddRecentApp`, `window.open`) are recorded as requests in the component's state. What the receiving component then does is modelled on that component.
- `ProcessInfo`, `BootConfig`, `CellUpdate`, `GameResponse`, `ExecutionResult` and `ExecutionRequest` are plain datatypes, and their JSON mappings are not modelled. The boot, terminal, compiler and browser resources only pass requests through and are not modelled.
- Icon grid snapping, marquee selection, nearest-free-cell search and saved icon positions do not exist in the source and are not modelled.

## Findings

| source | as written | input that shows it | evidently intended | confidence | as-written member | corrected member |
|---|---|---|---|---|---|---|
| src/main/java/io/webos/portfolio/terminal/control/CommandService.java:64-88 | `ls` with no argument in a current directory that is not a directory builds its message from `parts[1]`, which does not exist, so the command throws | a directory "d" created through `POST /file-nodes` with the file "f" as its parent; then `cd` to d's id, `cd ..` and `ls` (shown by `Terminal.ListInFileDirectory`) | a failure "ls: f: Not a directory" naming the current directory | not executed; the state needs a directory under a file, which only the REST endpoint can create | Terminal.ListDirectoryAsWritten | Terminal.ListDirectory |
| src/main/java/io/webos/portfolio/terminal/control/CommandService.java:257 | `echo` takes its arguments as the raw input from the sixth character, though the dispatch trimmed the line before splitting it | "  echo w" prints "o w" (shown by `Terminal.EchoAsWrittenLeadingBlanks`) | the text after the command word, "w" (`Terminal.EchoWithLeadingBlanks`) | not executed | Terminal.EchoAsWritten | Terminal.Echo |
| webos-ui/src/components/mobile/MobileTerminal.tsx:138-145 | the input is trimmed before it is split, so after a command and a space the last word is the command itself, and the completion replaces it | "cat " with the completion "notes.txt" gives "notes.txt" (shown by `MobileTerminal.CompletionDropsCat`) | "cat notes.txt", keeping the earlier words (`MobileTerminal.CompletionKeepsCat`) | not executed | MobileTerminal.ApplyCompletionAsWritten | MobileTerminal.ApplyCompletion |
| webos-ui/src/components/notepad/Notepad.tsx:25-34 | a completed save clears the dirty flag even when the text changed while the save was pending | "a" is sent, "ab" is typed before the save completes, and the window shows "ab" as saved (shown by `Notepad.SaveRaceLosesEdit`) | the flag stays set when the text moved on from what was sent | not executed; latent, because no caller in the repository passes `onSave` and the race needs an asynchronous callback | Notepad.SaveCompletedAsWritten | Notepad.SaveCompleted |
| webos-ui/src/components/task-manager/TaskManager.tsx:79-83 | End Task finds the window to close by the row's name, and the first window with that name wins | two notepad windows on files of the same name in two folders; End Task on the second row closes the first window (shown by `TaskManager.EndTaskClosesWrongWindow`) | the window of the clicked row, found by its pid (`TaskManager.EndTaskClosesItsRow`) | not executed; latent, because a notepad window on a file is opened only from a desktop icon, names are unique within a folder, and no two other windows share a name | TaskManager.EndTaskAsWritten | TaskManager.EndTask |

=== FILE: browser_service.dfy ===
/**
 * `BrowserService`'s whitelist: a proxied URL must start with one of the
 * configured prefixes, and `fetchAndSanitize` refuses any other URL before
 * it fetches anything.
 */
module Browser {
  import opened Common

  /** `BrowserConfig`: the allowed URL prefixes, the user agent and the injected styles. */
  datatype BrowserConfig = BrowserConfig(allowedPrefixes: seq<string>, userAgent: string, customStyles: string)

  const GitHub: string := "https://github.com/"
  const LinkedIn: string := "https://linkedin.com/in/"
  const LinkedInWww: string := "https://www.linkedin.com/in/"
  const Medium: string := "https://medium.com/@"

  const UserAgent: string :=
    "Mozilla/5.0 (Windows NT 10.0; Win64; x64) AppleWebKit/537.36 (KHTML, like Gecko) Chrome/120.0.0.0 Safari/537.36"

  const CustomStyles: string :=
    "body { max-width: 100%; overflow-x: hidden; }\nimg { max-width: 100%; height: auto; }\npre { overflow-x: auto; }\n"

  /** `BrowserConfig.defaults()`. */
  function Defaults(): (config: BrowserConfig)
    ensures config.allowedPrefixes == [GitHub, LinkedIn, LinkedInWww, Medium]
  {
    BrowserConfig([GitHub, LinkedIn, LinkedInWww, Medium], UserAgent, CustomStyles)
  }

  /** `prefixes.stream().anyMatch(url::startsWith)`, scanning from the front. */
  function AnyPrefix(prefixes: seq<string>, url: string): (r: bool)
    ensures r <==> exists i :: 0 <= i < |prefixes| && StartsWith(url, prefixes[i])
    decreases |prefixes|
  {
    if prefixes == [] then false
    else if StartsWith(url, prefixes[0]) then true
    else
      var r := AnyPrefix(prefixes[1..], url);
      assert r ==> exists i :: 0 <= i < |prefixes| && StartsWith(url, prefixes[i]) by {
        if r {
          var i :| 0 <= i < |prefixes[1..]| && StartsWith(url, prefixes[1..][i]);
          assert StartsWith(url, prefixes[i + 1]);
        }
      }
      assert (exists i :: 0 <= i < |prefixes| && StartsWith(url, prefixes[i])) ==> r by {
        if exists i :: 0 <= i < |prefixes| && StartsWith(url, prefixes[i]) {
          var i :| 0 <= i < |prefixes| && StartsWith(url, prefixes[i]);
          assert i != 0;
          assert StartsWith(url, prefixes[1..][i - 1]);
        }
      }
      r
  }

  /** `isAllowed(url)`: false for a null or blank URL, else whether some prefix starts it. */
  function IsAllowed(config: BrowserConfig, url: Option<string>): (allowed: bool)
    ensures url.None? || IsBlank(url.value) ==> !allowed
    ensures url.Some? && !IsBlank(url.value) ==>
      (allowed <==> exists i :: 0 <= i < |config.allowedPrefixes| && StartsWith(url.value, config.allowedPrefixes[i]))
  {
    if url.None? || IsBlank(url.value) then false
    else AnyPrefix(config.allowedPrefixes, url.value)
  }

  /**
   * With the default configuration, a URL is allowed exactly when it starts
   * with one of the four listed prefixes.
   */
  lemma DefaultsAllow(url: string)
    ensures IsAllowed(Defaults(), Some(url)) <==>
      StartsWith(url, GitHub) || StartsWith(url, LinkedIn) || StartsWith(url, LinkedInWww) || StartsWith(url, Medium)
  {
    var ps := Defaults().allowedPrefixes;
    if StartsWith(url, GitHub) || StartsWith(url, LinkedIn) || StartsWith(url, LinkedInWww) || StartsWith(url, Medium) {
      assert url[0] == 'h';
      assert !IsBlank(url);
    }
    assert forall i :: 0 <= i < |ps| ==> ps[i] in {GitHub, LinkedIn, LinkedInWww, Medium};
  }

  /** Another host is refused. */
  lemma DefaultsRefuseOtherHost(url: string)
    requires url == "https://example.com/"
    ensures !IsAllowed(Defaults(), Some(url))
  {
    DefaultsAllow(url);
    assert url[8] == 'e';
  }

  /** Plain http for a listed host is refused. */
  lemma DefaultsRefusePlainHttp(url: string)
    requires url == "http://github.com/"
    ensures !IsAllowed(Defaults(), Some(url))
  {
    DefaultsAllow(url);
    assert url[4] == ':';
  }

  /** A page under the GitHub prefix is allowed. */
  lemma DefaultsAllowGitHubPage(url: string)
    requires url == "https://github.com/user"
    ensures IsAllowed(Defaults(), Some(url))
  {
    DefaultsAllow(url);
    assert GitHub <= url;
  }

  /** Adding a prefix to the whitelist never refuses a URL that was allowed. */
  lemma MorePrefixesAllowMore(config: BrowserConfig, extra: string, url: Option<string>)
    requires IsAllowed(config, url)
    ensures IsAllowed(config.(allowedPrefixes := config.allowedPrefixes + [extra]), url)
  {
    var ps := config.allowedPrefixes;
    var i :| 0 <= i < |ps| && StartsWith(url.value, ps[i]);
    assert (ps + [extra])[i] == ps[i];
  }

  /** The outcome of `fetchAndSanitize`'s guard: refused with `NotFoundException`, or fetched. */
  datatype FetchOutcome = NotFound(message: string) | Fetch(url: string)

  /** Java's string conversion of a nullable reference. */
  function ShowNullable(s: Option<string>): (r: string)
    ensures s.Some? ==> r == s.value
    ensures s.None? ==> r == "null"
  {
    if s.Some? then s.value else "null"
  }

  /**
   * The guard at the start of `fetchAndSanitize`: a URL the whitelist
   * refuses ends in NotFound("URL not allowed: <url>") before any fetch;
   * only an allowed URL is fetched.
   */
  function FetchGuard(config: BrowserConfig, url: Option<string>): (r: FetchOutcome)
    ensures r.Fetch? <==> IsAllowed(config, url)
    ensures r.Fetch? ==> url == Some(r.url)
    ensures r.NotFound? ==> r.message == "URL not allowed: " + ShowNullable(url)
  {
    if !IsAllowed(config, url) then NotFound("URL not allowed: " + ShowNullable(url))
    else Fetch(url.value)
  }
}

=== FILE: chrome_browser.dfy ===
/**
 * The `ChromeBrowser` window: the navigation record (URL shown, loading,
 * error) and the address bar, changed by navigation, the frame's load and
 * error events, the home button and the two halves of a refresh; and the
 * proxy address the frame loads, with `encodeURIComponent` written out.
 */
module ChromeBrowser {
  import opened Common

  /** A `NavigationState`. */
  datatype NavigationState = NavigationState(currentUrl: string, isLoading: bool, error: Option<string>)

  datatype Bookmark = Bookmark(id: string, name: string, url: string, favicon: string)

  const LOAD_FAILED: string := "Failed to load page"
  const PROXY_PREFIX: string := "/api/browser/navigate?url="

  const DEFAULT_BOOKMARKS: seq<Bookmark> := [
    Bookmark("github", "GitHub", "https://github.com/", "\U{1F419}"),
    Bookmark("linkedin", "LinkedIn", "https://linkedin.com/in/", "\U{1F4BC}"),
    Bookmark("medium", "Medium", "https://medium.com/@", "\U{1F4DD}")
  ]

  /** `navigateTo(url)`'s new record: loading that URL, no error. A blank URL is refused by the caller. */
  function Navigated(url: string): (nav: NavigationState)
    ensures nav.currentUrl == url && nav.isLoading && nav.error.None?
  {
    NavigationState(url, true, None)
  }

  /** `handleIframeLoad`: loading stops; the URL and any error stay. */
  function Loaded(nav: NavigationState): (r: NavigationState)
    ensures !r.isLoading && r.currentUrl == nav.currentUrl && r.error == nav.error
  {
    nav.(isLoading := false)
  }

  /** `handleIframeError`: loading stops with the error; the URL stays. */
  function Failed(nav: NavigationState): (r: NavigationState)
    ensures !r.isLoading && r.currentUrl == nav.currentUrl && r.error == Some(LOAD_FAILED)
  {
    nav.(isLoading := false, error := Some(LOAD_FAILED))
  }

  /** Loading a navigated page ends without error; a failed one keeps its error when a late load event comes. */
  lemma LoadAfterNavigate(url: string)
    ensures Loaded(Navigated(url)) == NavigationState(url, false, None)
    ensures Loaded(Failed(Navigated(url))) == Failed(Navigated(url))
    ensures Navigated(url) == Navigated(Loaded(Failed(Navigated(url))).currentUrl)
  {
  }

  // ---------------------------------------------------------------------
  // encodeURIComponent
  // ---------------------------------------------------------------------

  /** The characters `encodeURIComponent` leaves as they are. */
  predicate Unreserved(c: char)
  {
    ('A' <= c <= 'Z') || ('a' <= c <= 'z') || ('0' <= c <= '9')
    || c == '-' || c == '_' || c == '.' || c == '!' || c == '~' || c == '*' || c == '\'' || c == '(' || c == ')'
  }

  function HexDigit(d: nat): (c: char)
    requires d < 16
    ensures ('0' <= c <= '9') || ('A' <= c <= 'F')
  {
    if d < 10 then ('0' as int + d) as char else ('A' as int + d - 10) as char
  }

  /** The UTF-8 bytes of one character. */
  function Utf8(c: char): (bytes: seq<nat>)
    ensures 1 <= |bytes| <= 4
    ensures forall k :: 0 <= k < |bytes| ==> bytes[k] < 256
    ensures (c as int < 0x80) <==> |bytes| == 1
    ensures c as int < 0x80 ==> bytes == [c as int]
  {
    var n := c as int;
    if n < 0x80 then [n]
    else if n < 0x800 then [0xC0 + n / 64, 0x80 + n % 64]
    else if n < 0x10000 then [0xE0 + n / 4096, 0x80 + (n / 64) % 64, 0x80 + n % 64]
    else [0xF0 + n / 262144, 0x80 + (n / 4096) % 64, 0x80 + (n / 64) % 64, 0x80 + n % 64]
  }

  /** "%XX" for each byte, upper-case hex. */
  function PercentBytes(bytes: seq<nat>): (r: string)
    requires forall k :: 0 <= k < |bytes| ==> bytes[k] < 256
    ensures |r| == 3 * |bytes|
    ensures forall i :: 0 <= i < |r| ==> EncodedChar(r[i])
  {
    if bytes == [] then ""
    else "%" + [HexDigit(bytes[0] / 16), HexDigit(bytes[0] % 16)] + PercentBytes(bytes[1..])
  }

  /** A character that can appear in `encodeURIComponent`'s output. */
  predicate EncodedChar(c: char)
  {
    Unreserved(c) || c == '%'
  }

  /** `encodeURIComponent(s)`: unreserved characters kept, every other one percent-encoded as UTF-8. */
  function EncodeURIComponent(s: string): (r: string)
    ensures r == [] <==> s == []
    ensures |r| >= |s|
    ensures forall i :: 0 <= i < |r| ==> EncodedChar(r[i])
  {
    if s == [] then ""
    else
      var head := if Unreserved(s[0]) then [s[0]] else PercentBytes(Utf8(s[0]));
      head + EncodeURIComponent(s[1..])
  }

  /** A string of unreserved characters is its own encoding. */
  lemma {:induction false} EncodeUnreserved(s: string)
    requires forall i :: 0 <= i < |s| ==> Unreserved(s[i])
    ensures EncodeURIComponent(s) == s
  {
    if s != [] {
      EncodeUnreserved(s[1..]);
    }
  }

  /** Encoding distributes over concatenation, character by character. */
  lemma {:induction false} EncodeConcat(a: string, b: string)
    ensures EncodeURIComponent(a + b) == EncodeURIComponent(a) + EncodeURIComponent(b)
  {
    if a == [] {
      assert a + b == b;
    } else {
      assert (a + b)[0] == a[0] && (a + b)[1..] == a[1..] + b;
      EncodeConcat(a[1..], b);
    }
  }

  /** The encoded URL never holds the characters that would end the query parameter or start another. */
  lemma EncodedIsOneParameter(s: string)
    ensures '&' !in EncodeURIComponent(s) && '#' !in EncodeURIComponent(s) && '=' !in EncodeURIComponent(s)
    ensures '/' !in EncodeURIComponent(s) && ':' !in EncodeURIComponent(s) && '?' !in EncodeURIComponent(s)
  {
    var r := EncodeURIComponent(s);
    assert forall i :: 0 <= i < |r| ==> r[i] !in "&#=/:?" by {
      assert forall c :: EncodedChar(c) ==> c !in "&#=/:?";
    }
  }

  /** `proxyUrl`: empty exactly when no page is shown, otherwise the proxy address with the URL encoded. */
  function ProxyUrl(currentUrl: string): (r: string)
    ensures r == "" <==> currentUrl == ""
    ensures currentUrl != "" ==> StartsWith(r, PROXY_PREFIX) && r[|PROXY_PREFIX|..] == EncodeURIComponent(currentUrl)
  {
    if currentUrl == "" then "" else PROXY_PREFIX + EncodeURIComponent(currentUrl)
  }

  /** Every bookmark URL is a real navigation: none is blank. */
  lemma BookmarksNavigate(b: Bookmark)
    requires b in DEFAULT_BOOKMARKS
    ensures !IsBlank(b.url) && StartsWith(b.url, "https://")
  {
    assert !IsSpace(b.url[0]);
  }

  class ChromeWindow {
    var addressBarValue: string
    var navigation: NavigationState
    var showBookmarks: bool

    constructor (initialUrl: string)
      ensures addressBarValue == initialUrl && navigation == NavigationState(initialUrl, false, None) && showBookmarks
    {
      addressBarValue := initialUrl;
      navigation := NavigationState(initialUrl, false, None);
      showBookmarks := true;
    }

    /** `navigateTo(url)`: a blank URL is ignored; otherwise the page and the address bar show it. */
    method NavigateTo(url: string)
      modifies this`navigation, this`addressBarValue
      ensures IsBlank(url) ==> navigation == old(navigation) && addressBarValue == old(addressBarValue)
      ensures !IsBlank(url) ==> navigation == Navigated(url) && addressBarValue == url
    {
      if Trim(url) == [] {
        return;
      }
      navigation := NavigationState(url, true, None);
      addressBarValue := url;
    }

    /** The address bar's `onChange`. */
    method SetAddress(value: string)
      modifies this`addressBarValue
      ensures addressBarValue == value
    {
      addressBarValue := value;
    }

    /** `handleAddressSubmit`: navigates to what was typed. */
    method AddressSubmit()
      modifies this`navigation, this`addressBarValue
      ensures IsBlank(old(addressBarValue)) ==> navigation == old(navigation) && addressBarValue == old(addressBarValue)
      ensures !IsBlank(old(addressBarValue)) ==> navigation == Navigated(old(addressBarValue)) && addressBarValue == old(addressBarValue)
    {
      NavigateTo(addressBarValue);
    }

    /** `handleBookmarkClick(bookmark)`. */
    method BookmarkClick(b: Bookmark)
      requires b in DEFAULT_BOOKMARKS
      modifies this`navigation, this`addressBarValue
      ensures navigation == Navigated(b.url) && addressBarValue == b.url
    {
      BookmarksNavigate(b);
      NavigateTo(b.url);
    }

    /** `handleIframeLoad`. */
    method IframeLoad()
      modifies this`navigation
      ensures navigation == Loaded(old(navigation))
    {
      navigation := navigation.(isLoading := false);
    }

    /** `handleIframeError`. */
    method IframeError()
      modifies this`navigation
      ensures navigation == Failed(old(navigation))
    {
      navigation := navigation.(isLoading := false, error := Some(LOAD_FAILED));
    }

    /** `handleHome`: back to the start page with an empty address bar. */
    method Home()
      modifies this`navigation, this`addressBarValue
      ensures navigation == NavigationState("", false, None) && addressBarValue == ""
      ensures ProxyUrl(navigation.currentUrl) == ""
    {
      navigation := NavigationState("", false, None);
      addressBarValue := "";
    }

    /**
     * `handleRefresh` up to its timer: with a page shown, loading restarts
     * and the frame is emptied; the URL to restore is returned.
     */
    method RefreshStart() returns (saved: Option<string>)
      modifies this`navigation
      ensures old(navigation).currentUrl == "" ==> saved.None? && navigation == old(navigation)
      ensures old(navigation).currentUrl != "" ==>
        saved == Some(old(navigation).currentUrl) && navigation == NavigationState("", true, None)
    {
      if navigation.currentUrl == "" {
        return None;
      }
      navigation := navigation.(isLoading := true, error := None);
      var currentUrl := navigation.currentUrl;
      navigation := navigation.(currentUrl := "");
      saved := Some(currentUrl);
    }

    /** The refresh timer: the saved URL is shown again. */
    method RefreshRestore(url: string)
      modifies this`navigation
      ensures navigation == old(navigation).(currentUrl := url)
    {
      navigation := navigation.(currentUrl := url);
    }

    /** The bookmarks bar toggle. */
    method ToggleBookmarks()
      modifies this`showBookmarks
      ensures showBookmarks == !old(showBookmarks)
    {
      showBookmarks := !showBookmarks;
    }
  }

  /** A refresh ends, once its timer fires, exactly where navigating to the same URL would. */
  method RefreshIsRenavigation(w: ChromeWindow)
    requires w.navigation.currentUrl != ""
    modifies w
    ensures w.navigation == Navigated(old(w.navigation.currentUrl))
  {
    var saved := w.RefreshStart();
    w.RefreshRestore(saved.value);
  }
}

=== FILE: command_result.dfy ===
/** The outcome of a terminal command (`CommandResult`) and its JSON-P form. */
module CommandResults {
  import opened Common
  import opened Json

  datatype CommandResult = CommandResult(success: bool, output: Option<string>, error: Option<string>)

  /** `CommandResult.success(o)`: successful, with output and no error. */
  function Success(o: string): (r: CommandResult)
    ensures r.success && r.output == Some(o) && r.error.None?
  {
    CommandResult(true, Some(o), None)
  }

  /** `CommandResult.failure(e)`: failed, with an error and no output. */
  function Failure(e: string): (r: CommandResult)
    ensures !r.success && r.output.None? && r.error == Some(e)
  {
    CommandResult(false, None, Some(e))
  }

  const CommandResultKeys: set<string> := {"success", "output", "error"}

  /** `CommandResult.toJSON()`: success, then output and error (null when absent). */
  function ToJson(r: CommandResult): (fields: Fields)
    ensures fields.Keys == CommandResultKeys
    ensures Get(fields, "success") == Some(JBool(r.success))
    ensures Get(fields, "output") == (if r.output.Some? then Some(JString(r.output.value)) else Some(JNull))
    ensures Get(fields, "error") == (if r.error.Some? then Some(JString(r.error.value)) else Some(JNull))
  {
    map["success" := JBool(r.success), "output" := NullableValue(r.output), "error" := NullableValue(r.error)]
  }

  /** `CommandResult.fromJSON(json)`: `None` where Java throws. */
  function FromJson(fields: Fields): (r: Option<CommandResult>)
    ensures r.Some? ==> Get(fields, "success") == Some(JBool(r.value.success))
    ensures r.Some? ==> GetNullableString(fields, "output") == Some(r.value.output)
    ensures r.Some? ==> GetNullableString(fields, "error") == Some(r.value.error)
    ensures r.None? ==> GetBoolean(fields, "success").None? || GetNullableString(fields, "output").None?
                        || GetNullableString(fields, "error").None?
  {
    var success := GetBoolean(fields, "success");
    var output := GetNullableString(fields, "output");
    var error := GetNullableString(fields, "error");
    if success.None? || output.None? || error.None? then None
    else Some(CommandResult(success.value, output.value, error.value))
  }

  /** Reading back a serialised result gives the result. */
  lemma FromJsonToJson(r: CommandResult)
    ensures FromJson(ToJson(r)) == Some(r)
  {
    var fields := ToJson(r);
    NullableRoundTrip(fields, "output", r.output);
    NullableRoundTrip(fields, "error", r.error);
  }

  /** Exactly one of output and error is present on every factory-made result. */
  lemma FactoriesExclusive(o: string, e: string)
    ensures Success(o).output.Some? != Success(o).error.Some?
    ensures Failure(e).output.Some? != Failure(e).error.Some?
  {
  }
}

=== FILE: command_service.dfy ===
/**
 * `CommandService`: the terminal interpreter. A command line is split on
 * whitespace and dispatched on its first word. `cd` moves the current
 * directory; `mkdir`, `touch` and `rm` change the file table; the other
 * commands only read.
 *
 * The read-only commands are functions of the table and the current
 * directory. The state-changing ones are methods of `CommandService`, each
 * specified by a relation between the table before and after
 * (`MkdirSpec`, `TouchSpec`, `RmSpec`) or by a function (`ChangeDirectoryStep`).
 */
module Terminal {
  import opened Common
  import opened FileNodes
  import opened FileTable
  import opened FileSystem
  import opened CommandResults

  /** `COMMANDS`, the names offered by autocompletion. */
  const CommandNames: seq<string> :=
    ["ls", "cat", "cd", "mkdir", "touch", "rm", "pwd", "uname", "whoami", "java", "echo", "help", "clear"]

  /** The first words `execute` dispatches on. */
  const Dispatched: set<string> :=
    {"ls", "cat", "cd", "mkdir", "touch", "rm", "pwd", "uname", "whoami", "java", "echo"}

  /** The directory a new terminal starts in, and where `cd` with no argument goes. */
  const HomeDirectory: string := "desktop"

  /** The system properties `uname` and `java --version` print. */
  datatype Environment = Environment(javaVersion: string, osName: string, osArch: string)

  /** A call `saveFile(parentId, name, content)` made by echo redirection. */
  datatype SaveRequest = SaveRequest(parentId: string, name: string, content: string)

  /** The outcome of `echo`: its result and the file it saves, if any. */
  datatype EchoOutcome = EchoOutcome(result: CommandResult, save: Option<SaveRequest>)

  // ---------------------------------------------------------------------
  // Name resolution
  // ---------------------------------------------------------------------

  /**
   * The lookup `cat`, `cd` and `rm` share: a child of the current directory
   * with that name, else a node with that id.
   */
  function LookupTarget(mft: Table, cwd: string, name: string): (r: Option<FileNode>)
    ensures r.Some? ==> r.value in mft
    ensures r.Some? ==> (r.value.parentId == Some(cwd) && r.value.name == name) || r.value.id == name
    ensures r.None? <==> FindByNameInParent(mft, Some(cwd), name).None? && name !in Ids(mft)
    ensures FindByNameInParent(mft, Some(cwd), name).Some? ==> r == FindByNameInParent(mft, Some(cwd), name)
  {
    var byName := FindByNameInParent(mft, Some(cwd), name);
    if byName.Some? then byName else FindById(mft, name)
  }

  /**
   * `resolvePathToId`: ".." is the parent of the current directory (none
   * for the root or an unknown directory); anything else resolves as in
   * `LookupTarget`.
   */
  function ResolvePathToId(mft: Table, cwd: string, path: string): (r: Option<string>)
    ensures path == ".." ==> r == (if FindById(mft, cwd).Some? then FindById(mft, cwd).value.parentId else None)
    ensures path != ".." ==> (r.None? <==> LookupTarget(mft, cwd, path).None?)
    ensures path != ".." && r.Some? ==> r.value in Ids(mft)
  {
    if path == ".." then
      match FindById(mft, cwd)
      case None => None
      case Some(n) => n.parentId
    else
      match LookupTarget(mft, cwd, path)
      case None => None
      case Some(n) => Some(n.id)
  }

  // ---------------------------------------------------------------------
  // Read-only commands
  // ---------------------------------------------------------------------

  /** The directory `ls` lists: its argument resolved, or the current directory. */
  function ListTarget(mft: Table, cwd: string, parts: seq<string>): Option<string>
  {
    if |parts| > 1 then ResolvePathToId(mft, cwd, parts[1]) else Some(cwd)
  }

  /**
   * `listDirectory`, with the name in its messages taken as on its last
   * failure line: the argument when there is one, else the directory id.
   * It lists the names of the target's children, one per line, and fails
   * when the target does not resolve, is not a directory, or is unknown and
   * has no children.
   */
  function ListDirectory(mft: Table, cwd: string, parts: seq<string>): (r: CommandResult)
    ensures var t := ListTarget(mft, cwd, parts);
      r.success <==>
        && t.Some?
        && (FindById(mft, t.value).Some? ==> FindById(mft, t.value).value.fileType == DIRECTORY)
        && (FindById(mft, t.value).None? ==> ChildrenOf(mft, t.value) != [])
    ensures r.success ==> r.output == Some(Join(NamesOf(ChildrenOf(mft, ListTarget(mft, cwd, parts).value)), "\n"))
    ensures !r.success ==> r.output.None?
  {
    var targetId := ListTarget(mft, cwd, parts);
    if targetId.None? then
      Failure("Directory not found: " + parts[1])
    else
      var shown := if |parts| > 1 then parts[1] else targetId.value;
      var target := FindById(mft, targetId.value);
      if target.Some? && target.value.fileType != DIRECTORY then
        Failure("ls: " + shown + ": Not a directory")
      else
        var nodes := ChildrenOf(mft, targetId.value);
        if nodes == [] && target.None? then Failure("Directory not found: " + shown)
        else Success(Join(NamesOf(nodes), "\n"))
  }

  /**
   * `listDirectory` as written: the "Not a directory" message reads
   * `parts[1]` even when `ls` has no argument, which throws
   * `ArrayIndexOutOfBoundsException` (`None` here).
   */
  function ListDirectoryAsWritten(mft: Table, cwd: string, parts: seq<string>): (r: Option<CommandResult>)
    ensures r.None? <==> |parts| <= 1 && FindById(mft, cwd).Some? && FindById(mft, cwd).value.fileType != DIRECTORY
    ensures r.Some? ==> r.value == ListDirectory(mft, cwd, parts)
  {
    var targetId := ListTarget(mft, cwd, parts);
    if targetId.None? then
      Some(Failure("Directory not found: " + parts[1]))
    else
      var target := FindById(mft, targetId.value);
      if target.Some? && target.value.fileType != DIRECTORY then
        if |parts| > 1 then Some(Failure("ls: " + parts[1] + ": Not a directory")) else None
      else
        var nodes := ChildrenOf(mft, targetId.value);
        if nodes == [] && target.None? then
          Some(Failure("Directory not found: " + (if |parts| > 1 then parts[1] else targetId.value)))
        else Some(Success(Join(NamesOf(nodes), "\n")))
  }

  /**
   * `catFile`: the content of the named file, failing with a usage message,
   * for an unknown name, for a directory, and for a node without content.
   */
  function CatFile(mft: Table, cwd: string, parts: seq<string>): (r: CommandResult)
    ensures |parts| < 2 ==> r == Failure("Usage: cat <filename>")
    ensures r.success <==>
      && |parts| >= 2
      && LookupTarget(mft, cwd, parts[1]).Some?
      && LookupTarget(mft, cwd, parts[1]).value.fileType != DIRECTORY
      && LookupTarget(mft, cwd, parts[1]).value.content.Some?
    ensures r.success ==> r.output == LookupTarget(mft, cwd, parts[1]).value.content
  {
    if |parts| < 2 then Failure("Usage: cat <filename>")
    else
      var fileName := parts[1];
      match LookupTarget(mft, cwd, fileName)
      case None => Failure("File not found: " + fileName)
      case Some(node) =>
        if node.fileType == DIRECTORY then Failure("cat: " + fileName + ": Is a directory")
        else if node.content.Some? then Success(node.content.value)
        else Failure("File has no content: " + fileName)
  }

  /** `systemInfo`: the product line, the Java version line, then OS name and architecture. */
  function SystemInfo(env: Environment): (r: CommandResult)
    ensures r.success && r.output.Some? && r.error.None?
  {
    Success("WebOS Portfolio 1.0.0" + "\n" + ("Java " + env.javaVersion) + "\n" + (env.osName + " " + env.osArch))
  }

  /** When the properties hold no line break, `uname` prints exactly three lines. */
  lemma SystemInfoLines(env: Environment)
    requires '\n' !in env.javaVersion && '\n' !in env.osName && '\n' !in env.osArch
    ensures SplitOn(SystemInfo(env).output.value, '\n')
         == ["WebOS Portfolio 1.0.0", "Java " + env.javaVersion, env.osName + " " + env.osArch]
  {
    var first := "WebOS Portfolio 1.0.0";
    assert '\n' !in first;
    SplitOnThree(first, "Java " + env.javaVersion, env.osName + " " + env.osArch, '\n');
  }

  /** `javaCommand`: only `--version` and `-version` succeed. */
  function JavaCommand(env: Environment, parts: seq<string>): (r: CommandResult)
    ensures |parts| < 2 ==> r == Failure("Usage: java --version")
    ensures r.success <==> |parts| >= 2 && (parts[1] == "--version" || parts[1] == "-version")
    ensures r.success ==> r.output == Some("java " + env.javaVersion
      + "\nJava(TM) SE Runtime Environment\nJava HotSpot(TM) 64-Bit Server VM")
  {
    if |parts| < 2 then Failure("Usage: java --version")
    else if parts[1] == "--version" || parts[1] == "-version" then
      Success("java " + env.javaVersion + "\nJava(TM) SE Runtime Environment\nJava HotSpot(TM) 64-Bit Server VM")
    else Failure("Unknown java option: " + parts[1])
  }

  // ---------------------------------------------------------------------
  // echo
  // ---------------------------------------------------------------------

  predicate Quoted(s: string, q: char)
  {
    |s| >= 2 && s[0] == q && s[|s| - 1] == q
  }

  /** `extractContent`: one pair of matching surrounding quotes removed, if present. */
  function ExtractContent(quoted: string): (r: string)
    ensures (Quoted(quoted, '"') || Quoted(quoted, '\'')) ==> r == quoted[1..|quoted| - 1]
    ensures !(Quoted(quoted, '"') || Quoted(quoted, '\'')) ==> r == quoted
  {
    if quoted == [] then ""
    else if StartsWith(quoted, "\"") && EndsWith(quoted, "\"") && |quoted| >= 2 then quoted[1..|quoted| - 1]
    else if StartsWith(quoted, "'") && EndsWith(quoted, "'") && |quoted| >= 2 then quoted[1..|quoted| - 1]
    else quoted
  }

  /** Quoting with either kind of quote and extracting gives the text back. */
  lemma ExtractContentQuoted(c: string)
    ensures ExtractContent("\"" + c + "\"") == c
    ensures ExtractContent("'" + c + "'") == c
  {
    assert ("\"" + c + "\"")[1..|c| + 1] == c;
    assert ("'" + c + "'")[1..|c| + 1] == c;
  }

  /** Text with no surrounding quote pair comes back unchanged. */
  lemma ExtractContentPlain(s: string)
    requires s == [] || (s[0] != '"' && s[0] != '\'')
    ensures ExtractContent(s) == s
  {
  }

  /** `handleOverwrite`: the text before ">" is saved to the file named after it. */
  function HandleOverwrite(cwd: string, input: string): (r: EchoOutcome)
    ensures IndexOf(input, ">") < 0 ==> r == EchoOutcome(Failure("Invalid redirection syntax"), None)
    ensures r.result.success <==> r.save.Some?
    ensures r.save.Some? ==>
      var i := IndexOf(input, ">");
      && r.result == Success("")
      && r.save.value == SaveRequest(cwd, Trim(input[i + 1..]), ExtractContent(Trim(input[..i])))
      && r.save.value.name != []
  {
    var redirectIndex := IndexOf(input, ">");
    if redirectIndex < 0 then EchoOutcome(Failure("Invalid redirection syntax"), None)
    else
      var contentPart := Trim(input[..redirectIndex]);
      var filename := Trim(input[redirectIndex + 1..]);
      if filename == [] then EchoOutcome(Failure("No filename specified"), None)
      else EchoOutcome(Success(""), Some(SaveRequest(cwd, filename, ExtractContent(contentPart))))
  }

  /**
   * `handleAppend`: the text before ">>" is added to the file named after
   * it, after a newline when that file exists with content.
   */
  function HandleAppend(mft: Table, cwd: string, input: string): (r: EchoOutcome)
    ensures IndexOf(input, ">>") < 0 ==> r == EchoOutcome(Failure("Invalid redirection syntax"), None)
    ensures r.result.success <==> r.save.Some?
    ensures r.save.Some? ==>
      var i := IndexOf(input, ">>");
      var name := Trim(input[i + 2..]);
      var content := ExtractContent(Trim(input[..i]));
      var existing := FindByNameInParent(mft, Some(cwd), name);
      && r.result == Success("")
      && name != []
      && r.save.value == SaveRequest(cwd, name,
           if existing.Some? && existing.value.content.Some? then existing.value.content.value + "\n" + content
           else content)
  {
    var redirectIndex := IndexOf(input, ">>");
    if redirectIndex < 0 then EchoOutcome(Failure("Invalid redirection syntax"), None)
    else
      var contentPart := Trim(input[..redirectIndex]);
      var filename := Trim(input[redirectIndex + 2..]);
      if filename == [] then EchoOutcome(Failure("No filename specified"), None)
      else
        var content := ExtractContent(contentPart);
        var existing := FindByNameInParent(mft, Some(cwd), filename);
        var newContent :=
          if existing.Some? && existing.value.content.Some? then existing.value.content.value + "\n" + content
          else content;
        EchoOutcome(Success(""), Some(SaveRequest(cwd, filename, newContent)))
  }

  /** What `echo` does with the text after the command word. */
  function EchoArguments(mft: Table, cwd: string, afterEcho: string): (r: EchoOutcome)
    ensures afterEcho == [] ==> r == EchoOutcome(Success(""), None)
    ensures afterEcho != [] && !Contains(afterEcho, ">") ==> r == EchoOutcome(Success(ExtractContent(afterEcho)), None)
    ensures Contains(afterEcho, ">>") ==> r == HandleAppend(mft, cwd, afterEcho)
    ensures Contains(afterEcho, ">") && !Contains(afterEcho, ">>") ==> r == HandleOverwrite(cwd, afterEcho)
  {
    ContainsShorter(afterEcho, ">", ">>");
    if afterEcho == [] then EchoOutcome(Success(""), None)
    else if Contains(afterEcho, ">>") then HandleAppend(mft, cwd, afterEcho)
    else if Contains(afterEcho, ">") then HandleOverwrite(cwd, afterEcho)
    else EchoOutcome(Success(ExtractContent(afterEcho)), None)
  }

  /**
   * `echo` as written: the arguments are `input.substring(5).trim()` of the
   * raw input, which assumes "echo" starts the line.
   */
  function EchoAsWritten(mft: Table, cwd: string, input: string): (r: EchoOutcome)
    ensures |input| <= 4 ==> r == EchoOutcome(Success(""), None)
    ensures |input| > 4 ==> r == EchoArguments(mft, cwd, Trim(input[5..]))
  {
    EchoArguments(mft, cwd, if |input| > 4 then Trim(input[5..]) else "")
  }

  /**
   * `echo`, taking its arguments after the command word of the trimmed
   * line, so that leading whitespace before "echo" is not counted.
   */
  function Echo(mft: Table, cwd: string, input: string): (r: EchoOutcome)
    requires SplitWords(input)[0] == "echo"
    ensures |Trim(input)| >= 4 && r == EchoArguments(mft, cwd, Trim(Trim(input)[4..]))
  {
    FirstWordStartsTrim(input);
    EchoArguments(mft, cwd, Trim(Trim(input)[4..]))
  }

  // ---------------------------------------------------------------------
  // Autocompletion
  // ---------------------------------------------------------------------

  /** The words that start with `prefix`, in order. */
  function WithPrefix(words: seq<string>, prefix: string): (r: seq<string>)
    ensures |r| <= |words|
    ensures forall w :: w in r <==> w in words && StartsWith(w, prefix)
  {
    if words == [] then []
    else (if StartsWith(words[0], prefix) then [words[0]] else []) + WithPrefix(words[1..], prefix)
  }

  /** The words that start with `prefix` when both are lowercased, in order. */
  function WithPrefixIgnoringCase(words: seq<string>, prefix: string): (r: seq<string>)
    ensures |r| <= |words|
    ensures forall w :: w in r <==> w in words && StartsWith(ToLower(w), ToLower(prefix))
  {
    if words == [] then []
    else
      (if StartsWith(ToLower(words[0]), ToLower(prefix)) then [words[0]] else [])
        + WithPrefixIgnoringCase(words[1..], prefix)
  }

  /**
   * Filtering keeps the words' order: the matches in `a + b` are the
   * matches in `a` followed by the matches in `b`. With the membership and
   * length facts above this pins the result down exactly (a single word
   * gives itself or nothing).
   */
  lemma {:induction false} WithPrefixConcat(a: seq<string>, b: seq<string>, prefix: string)
    ensures WithPrefix(a + b, prefix) == WithPrefix(a, prefix) + WithPrefix(b, prefix)
  {
    if a == [] {
      assert a + b == b;
    } else {
      assert (a + b)[0] == a[0] && (a + b)[1..] == a[1..] + b;
      WithPrefixConcat(a[1..], b, prefix);
    }
  }

  /** The same order-keeping property for the case-insensitive filter. */
  lemma {:induction false} WithPrefixIgnoringCaseConcat(a: seq<string>, b: seq<string>, prefix: string)
    ensures WithPrefixIgnoringCase(a + b, prefix) == WithPrefixIgnoringCase(a, prefix) + WithPrefixIgnoringCase(b, prefix)
  {
    if a == [] {
      assert a + b == b;
    } else {
      assert (a + b)[0] == a[0] && (a + b)[1..] == a[1..] + b;
      WithPrefixIgnoringCaseConcat(a[1..], b, prefix);
    }
  }

  /**
   * `autocomplete`: every command for a blank line; for a single word not
   * followed by a space, the commands starting with it lowercased;
   * otherwise the names in the current directory that start with the last
   * word, ignoring case (all of them when there is only one word).
   */
  function Autocomplete(mft: Table, cwd: string, input: Option<string>): (r: seq<string>)
    ensures input.None? || IsBlank(input.value) ==> r == CommandNames
    ensures input.Some? && !IsBlank(input.value) && |SplitWords(input.value)| == 1 && !EndsWith(input.value, " ") ==>
      r == WithPrefix(CommandNames, ToLower(SplitWords(input.value)[0]))
      && forall w :: w in r <==> w in CommandNames && StartsWith(w, ToLower(SplitWords(input.value)[0]))
    ensures input.Some? && !IsBlank(input.value) && !(|SplitWords(input.value)| == 1 && !EndsWith(input.value, " ")) ==>
      var parts := SplitWords(input.value);
      var prefix := if |parts| > 1 then parts[|parts| - 1] else "";
      r == WithPrefixIgnoringCase(NamesOf(ChildrenOf(mft, cwd)), prefix)
  {
    if input.None? || IsBlank(input.value) then CommandNames
    else
      var parts := SplitWords(input.value);
      if |parts| == 1 && !EndsWith(input.value, " ") then
        WithPrefix(CommandNames, ToLower(parts[0]))
      else
        var prefix := if |parts| > 1 then parts[|parts| - 1] else "";
        WithPrefixIgnoringCase(NamesOf(ChildrenOf(mft, cwd)), prefix)
  }

  // ---------------------------------------------------------------------
  // Commands that change state
  // ---------------------------------------------------------------------

  /**
   * `changeDirectory` as a function of the table and the current directory:
   * the result and the new current directory. No argument goes home; ".."
   * goes to the parent when there is one and always succeeds; otherwise the
   * target must resolve to a directory, and a failure keeps the directory.
   */
  function ChangeDirectoryStep(mft: Table, cwd: string, parts: seq<string>): (step: (CommandResult, string))
    ensures |parts| < 2 ==> step == (Success(""), HomeDirectory)
    ensures |parts| >= 2 && parts[1] == ".." ==> step.0 == Success("")
    ensures |parts| >= 2 && parts[1] == ".." ==>
      step.1 == (match ResolvePathToId(mft, cwd, "..") case Some(p) => p case None => cwd)
    ensures !step.0.success ==> step.1 == cwd
    ensures |parts| >= 2 && parts[1] != ".." && step.0.success && LookupTarget(mft, cwd, parts[1]).Some? ==>
      step.1 == LookupTarget(mft, cwd, parts[1]).value.id
    ensures |parts| >= 2 && parts[1] != ".." ==>
      (step.0.success <==> LookupTarget(mft, cwd, parts[1]).Some? && LookupTarget(mft, cwd, parts[1]).value.fileType == DIRECTORY)
  {
    if |parts| < 2 then (Success(""), HomeDirectory)
    else
      var target := parts[1];
      if target == ".." then
        var current := FindById(mft, cwd);
        (Success(""), if current.Some? && current.value.parentId.Some? then current.value.parentId.value else cwd)
      else
        match LookupTarget(mft, cwd, target)
        case None => (Failure("Directory not found: " + target), cwd)
        case Some(n) =>
          if n.fileType != DIRECTORY then (Failure("cd: " + target + ": Not a directory"), cwd)
          else (Success(""), n.id)
  }

  /** A successful `cd` to a named target lands on a directory of the table. */
  lemma ChangeDirectoryLandsOnDirectory(mft: Table, cwd: string, parts: seq<string>)
    requires UniqueIds(mft)
    requires |parts| >= 2 && parts[1] != ".." && ChangeDirectoryStep(mft, cwd, parts).0.success
    ensures var dir := ChangeDirectoryStep(mft, cwd, parts).1;
      FindById(mft, dir).Some? && FindById(mft, dir).value.fileType == DIRECTORY
  {
    FindByIdUnique(mft, LookupTarget(mft, cwd, parts[1]).value);
  }

  /** `cd` into a subdirectory by name and then `cd ..` returns to where it started. */
  lemma ChangeDirectoryThenParent(mft: Table, cwd: string, name: string)
    requires UniqueIds(mft) && name != ".."
    requires FindByNameInParent(mft, Some(cwd), name).Some?
    requires FindByNameInParent(mft, Some(cwd), name).value.fileType == DIRECTORY
    ensures var inside := ChangeDirectoryStep(mft, cwd, ["cd", name]);
      inside.0.success && ChangeDirectoryStep(mft, inside.1, ["cd", ".."]).1 == cwd
  {
    FindByIdUnique(mft, FindByNameInParent(mft, Some(cwd), name).value);
  }

  /** `m1` is `m0` with one node appended, with a new id and the given fields. */
  ghost predicate AppendedOne(m0: Table, m1: Table, parent: string, name: string, t: FileType, content: Option<string>)
  {
    && |m1| == |m0| + 1
    && m1 == m0 + [m1[|m0|]]
    && m1[|m0|].id !in Ids(m0)
    && m1[|m0|] == FileNode(m1[|m0|].id, Some(parent), name, t, content)
  }

  /** `makeDirectory`: usage error, an existing name, or one new directory in `cwd`. */
  ghost predicate MkdirSpec(m0: Table, cwd: string, parts: seq<string>, r: CommandResult, m1: Table)
  {
    if |parts| < 2 then r == Failure("Usage: mkdir <dirname>") && m1 == m0
    else if FindByNameInParent(m0, Some(cwd), parts[1]).Some? then
      r == Failure("Directory already exists: " + parts[1]) && m1 == m0
    else
      r == Success("Directory created: " + parts[1]) && AppendedOne(m0, m1, cwd, parts[1], DIRECTORY, None)
  }

  /** `touchFile`: usage error, a no-op for an existing name, or one new empty file in `cwd`. */
  ghost predicate TouchSpec(m0: Table, cwd: string, parts: seq<string>, r: CommandResult, m1: Table)
  {
    if |parts| < 2 then r == Failure("Usage: touch <filename>") && m1 == m0
    else if FindByNameInParent(m0, Some(cwd), parts[1]).Some? then r == Success("") && m1 == m0
    else r == Success("") && AppendedOne(m0, m1, cwd, parts[1], FILE, Some(""))
  }

  /** The name `rm` acts on: the word after "-r" when recursive, else the first argument. */
  function RmTargetName(parts: seq<string>): (name: Option<string>)
    ensures |parts| < 2 ==> name.None?
    ensures |parts| >= 2 && parts[1] != "-r" ==> name == Some(parts[1])
    ensures |parts| >= 2 && parts[1] == "-r" ==> (name.Some? <==> |parts| > 2)
    ensures |parts| > 2 && parts[1] == "-r" ==> name == Some(parts[2])
  {
    if |parts| < 2 then None
    else if parts[1] == "-r" then (if |parts| > 2 then Some(parts[2]) else None)
    else Some(parts[1])
  }

  /**
   * `removeFile`: usage errors, an unknown name, a directory without "-r",
   * or the removal of the node (with its subtree under "-r").
   */
  ghost predicate RmSpec(m0: Table, cwd: string, parts: seq<string>, r: CommandResult, m1: Table)
    requires Acyclic(m0)
  {
    match RmTargetName(parts)
    case None => r == Failure("Usage: rm [-r] <name>") && m1 == m0
    case Some(name) =>
      var recursive := parts[1] == "-r";
      match LookupTarget(m0, cwd, name)
      case None => r == Failure("File not found: " + name) && m1 == m0
      case Some(n) =>
        if n.fileType == DIRECTORY && !recursive then
          r == Failure("rm: " + name + ": Is a directory (use -r)") && m1 == m0
        else
          r == Success("")
          && m1 == (if recursive then RemoveIds(m0, DescendantIds(m0, n.id) + {n.id}) else RemoveIds(m0, {n.id}))
  }

  /** Appending a child of `p` adds one to its listing and leaves other listings alone. */
  lemma AppendedOneChildren(m0: Table, m1: Table, parent: string, name: string, t: FileType, content: Option<string>)
    requires AppendedOne(m0, m1, parent, name, t, content)
    ensures |ChildrenOf(m1, parent)| == |ChildrenOf(m0, parent)| + 1
    ensures ChildrenOf(m1, parent) == ChildrenOf(m0, parent) + [m1[|m0|]]
  {
    ChildrenOfConcat(m0, [m1[|m0|]], parent);
    assert ChildrenOf([m1[|m0|]], parent) == [m1[|m0|]] by {
      assert [m1[|m0|]][..0] == [];
    }
  }

  /** A child found in `m0 + [n]` but not in `m0` is `n`. */
  lemma FindByNameInParentAppended(m0: Table, n: FileNode, parent: string, name: string)
    requires n.parentId == Some(parent) && n.name == name
    requires FindByNameInParent(m0, Some(parent), name).None?
    ensures FindByNameInParent(m0 + [n], Some(parent), name) == Some(n)
  {
    ChildrenOfConcat(m0, [n], parent);
    assert [n][..0] == [];
    assert n in ChildrenOf(m0 + [n], parent);
  }

  /**
   * After appending a new child named `name` to `parent`, where no child had
   * that name, the listing grows by one and the lookup finds the new node.
   */
  lemma AppendedOneFound(m0: Table, m1: Table, parent: string, name: string, t: FileType, content: Option<string>)
    requires AppendedOne(m0, m1, parent, name, t, content)
    requires FindByNameInParent(m0, Some(parent), name).None?
    ensures |ChildrenOf(m1, parent)| == |ChildrenOf(m0, parent)| + 1
    ensures FindByNameInParent(m1, Some(parent), name) == Some(m1[|m0|])
  {
    assert |ChildrenOf(m1, parent)| == |ChildrenOf(m0, parent)| + 1 by {
      AppendedOneChildren(m0, m1, parent, name, t, content);
    }
    assert FindByNameInParent(m1, Some(parent), name) == Some(m1[|m0|]) by {
      FindByNameInParentAppended(m0, m1[|m0|], parent, name);
    }
  }

  /**
   * A successful `mkdir` of a new name adds one entry to the listing of the
   * current directory, and looking the name up finds the new directory.
   */
  lemma MkdirAddsDirectory(m0: Table, cwd: string, parts: seq<string>, r: CommandResult, m1: Table)
    requires MkdirSpec(m0, cwd, parts, r, m1)
    requires |parts| >= 2 && FindByNameInParent(m0, Some(cwd), parts[1]).None?
    ensures r.success
    ensures |ChildrenOf(m1, cwd)| == |ChildrenOf(m0, cwd)| + 1
    ensures var found := FindByNameInParent(m1, Some(cwd), parts[1]);
      found.Some? && found.value.fileType == DIRECTORY && found.value.name == parts[1]
  {
    AppendedOneFound(m0, m1, cwd, parts[1], DIRECTORY, None);
  }

  /**
   * `touch` of a new name adds one entry to the listing of the current
   * directory: a file with empty content; `touch` of an existing name
   * changes nothing.
   */
  lemma TouchAddsFile(m0: Table, cwd: string, parts: seq<string>, r: CommandResult, m1: Table)
    requires TouchSpec(m0, cwd, parts, r, m1) && |parts| >= 2
    ensures r == Success("")
    ensures FindByNameInParent(m0, Some(cwd), parts[1]).Some? ==> m1 == m0
    ensures FindByNameInParent(m0, Some(cwd), parts[1]).None? ==>
      && |ChildrenOf(m1, cwd)| == |ChildrenOf(m0, cwd)| + 1
      && FindByNameInParent(m1, Some(cwd), parts[1]) == Some(m1[|m0|])
      && m1[|m0|].fileType == FILE && m1[|m0|].content == Some("")
  {
    if FindByNameInParent(m0, Some(cwd), parts[1]).None? {
      AppendedOneFound(m0, m1, cwd, parts[1], FILE, Some(""));
    }
  }

  /** Listing a table with unique ids gives entries with unique ids. */
  lemma {:induction false} ChildrenOfUnique(mft: Table, p: string)
    requires UniqueIds(mft)
    ensures UniqueIds(ChildrenOf(mft, p))
    decreases |mft|
  {
    if mft != [] {
      var init := mft[..|mft| - 1];
      var last := mft[|mft| - 1];
      assert mft == init + [last];
      UniqueIdsSnoc(init, last);
      ChildrenOfUnique(init, p);
      if last.parentId == Some(p) {
        var cs := ChildrenOf(init, p);
        assert Ids(cs) <= Ids(init);
        UniqueIdsSnoc(cs, last);
      }
    }
  }

  /** The only child of `t`'s parent inside `t`'s subtree is `t` itself. */
  lemma SiblingOutsideSubtree(mft: Table, t: FileNode, c: FileNode)
    requires UniqueIds(mft) && Acyclic(mft) && t in mft && t.parentId.Some?
    requires c in ChildrenOf(mft, t.parentId.value) && c.id in DescendantIds(mft, t.id) + {t.id}
    ensures c == t
  {
    var p := t.parentId.value;
    FindByIdUnique(mft, t);
    FindByIdUnique(mft, c);
    if c.id == t.id {
    } else {
      NotOwnAncestor(mft, t.id);
    }
  }

  /**
   * A successful `rm` removes its target, and the target's parent lists one
   * entry fewer; with "-r" nothing below the target is left either.
   */
  lemma RmRemovesEntry(m0: Table, cwd: string, parts: seq<string>, r: CommandResult, m1: Table)
    requires UniqueIds(m0) && Acyclic(m0)
    requires RmSpec(m0, cwd, parts, r, m1) && r.success
    ensures RmTargetName(parts).Some? && LookupTarget(m0, cwd, RmTargetName(parts).value).Some?
    ensures var t := LookupTarget(m0, cwd, RmTargetName(parts).value).value;
      && t.id !in Ids(m1)
      && (t.parentId.Some? ==> |ChildrenOf(m1, t.parentId.value)| == |ChildrenOf(m0, t.parentId.value)| - 1)
      && (parts[1] == "-r" ==> DescendantIds(m0, t.id) !! Ids(m1))
  {
    var t := LookupTarget(m0, cwd, RmTargetName(parts).value).value;
    var ids := if parts[1] == "-r" then DescendantIds(m0, t.id) + {t.id} else {t.id};
    assert m1 == RemoveIds(m0, ids);
    if t.parentId.Some? {
      var p := t.parentId.value;
      var cs := ChildrenOf(m0, p);
      ChildrenOfRemoveIds(m0, ids, p);
      ChildrenOfUnique(m0, p);
      forall c | c in cs && c.id in ids ensures c == t {
        SiblingOutsideSubtree(m0, t, c);
      }
      RemoveIdsExactlyOne(cs, ids, t);
    }
  }

  /** What `getContext` reports about the current directory. */
  datatype TerminalContext = TerminalContext(currentDirectory: string, currentPath: string, currentDirName: string)

  /**
   * The terminal's command interpreter: the file system it works on, the
   * system properties it reports, and its current directory.
   */
  class CommandService {
    const fs: FileSystemService
    const env: Environment
    var currentDirectory: string

    ghost predicate Valid()
      reads this, fs
    {
      fs.Valid()
    }

    constructor(fs: FileSystemService, env: Environment)
      ensures this.fs == fs && this.env == env
      ensures currentDirectory == HomeDirectory
    {
      this.fs := fs;
      this.env := env;
      currentDirectory := HomeDirectory;
    }

    /** `changeDirectory`. */
    method ChangeDirectory(parts: seq<string>) returns (r: CommandResult)
      modifies this
      ensures (r, currentDirectory) == ChangeDirectoryStep(fs.mft, old(currentDirectory), parts)
    {
      if |parts| < 2 {
        currentDirectory := HomeDirectory;
        return Success("");
      }
      var target := parts[1];
      if target == ".." {
        var currentNode := FindById(fs.mft, currentDirectory);
        if currentNode.Some? && currentNode.value.parentId.Some? {
          currentDirectory := currentNode.value.parentId.value;
        }
        return Success("");
      }
      var targetNode := LookupTarget(fs.mft, currentDirectory, target);
      if targetNode.None? {
        return Failure("Directory not found: " + target);
      }
      if targetNode.value.fileType != DIRECTORY {
        return Failure("cd: " + target + ": Not a directory");
      }
      currentDirectory := targetNode.value.id;
      r := Success("");
    }

    /** `makeDirectory`. */
    method MakeDirectory(parts: seq<string>) returns (r: CommandResult)
      requires Valid()
      modifies fs
      ensures Valid()
      ensures MkdirSpec(old(fs.mft), currentDirectory, parts, r, fs.mft)
    {
      if |parts| < 2 {
        return Failure("Usage: mkdir <dirname>");
      }
      var dirName := parts[1];
      var existing := FindByNameInParent(fs.mft, Some(currentDirectory), dirName);
      if existing.Some? {
        return Failure("Directory already exists: " + dirName);
      }
      var node := fs.CreateNode(Some(currentDirectory), dirName, DIRECTORY, None);
      r := Success("Directory created: " + dirName);
    }

    /** `touchFile`. */
    method TouchFile(parts: seq<string>) returns (r: CommandResult)
      requires Valid()
      modifies fs
      ensures Valid()
      ensures TouchSpec(old(fs.mft), currentDirectory, parts, r, fs.mft)
    {
      if |parts| < 2 {
        return Failure("Usage: touch <filename>");
      }
      var fileName := parts[1];
      var existing := FindByNameInParent(fs.mft, Some(currentDirectory), fileName);
      if existing.Some? {
        return Success("");
      }
      var node := fs.CreateNode(Some(currentDirectory), fileName, FILE, Some(""));
      r := Success("");
    }

    /** `removeFile`. */
    method RemoveFile(parts: seq<string>) returns (r: CommandResult)
      requires Valid()
      modifies fs
      ensures Valid()
      ensures RmSpec(old(fs.mft), currentDirectory, parts, r, fs.mft)
    {
      if |parts| < 2 {
        return Failure("Usage: rm [-r] <name>");
      }
      var recursive := parts[1] == "-r";
      var targetName := if recursive then (if |parts| > 2 then Some(parts[2]) else None) else Some(parts[1]);
      if targetName.None? {
        return Failure("Usage: rm [-r] <name>");
      }
      var targetNode := LookupTarget(fs.mft, currentDirectory, targetName.value);
      if targetNode.None? {
        return Failure("File not found: " + targetName.value);
      }
      if targetNode.value.fileType == DIRECTORY && !recursive {
        return Failure("rm: " + targetName.value + ": Is a directory (use -r)");
      }
      assert targetNode.value.id in Ids(fs.mft);
      if recursive {
        var _ := fs.DeleteNodeRecursive(targetNode.value.id);
      } else {
        var _ := fs.DeleteNode(targetNode.value.id);
      }
      r := Success("");
    }

    /** `printWorkingDirectory`: the path of the current directory. */
    method PrintWorkingDirectory() returns (r: CommandResult)
      requires Valid()
      ensures r == Success("/" + Join(PathNames(fs.mft, Some(currentDirectory)), "/"))
    {
      var path := fs.BuildPath(currentDirectory);
      r := Success(path);
    }

    /**
     * `getContext`: the current directory, its path, and its name ("desktop"
     * when the directory is not in the table).
     */
    method GetContext() returns (c: TerminalContext)
      requires Valid()
      ensures c.currentDirectory == currentDirectory
      ensures c.currentPath == "/" + Join(PathNames(fs.mft, Some(currentDirectory)), "/")
      ensures c.currentDirName == (if FindById(fs.mft, currentDirectory).Some? then FindById(fs.mft, currentDirectory).value.name else "desktop")
    {
      var path := fs.BuildPath(currentDirectory);
      var currentNode := FindById(fs.mft, currentDirectory);
      var dirName := if currentNode.Some? then currentNode.value.name else "desktop";
      c := TerminalContext(currentDirectory, path, dirName);
    }

    /** `autocomplete` on the current directory. */
    method Complete(input: Option<string>) returns (suggestions: seq<string>)
      ensures suggestions == Autocomplete(fs.mft, currentDirectory, input)
    {
      suggestions := Autocomplete(fs.mft, currentDirectory, input);
    }

    /**
     * `execute`: a blank line fails, an unknown first word fails, and every
     * other line runs the command its first word names. Only `cd` changes the
     * current directory, only `mkdir`, `touch` and `rm` change the table, and
     * only `echo` with a redirection asks for a file to be saved.
     */
    method Execute(input: Option<string>) returns (r: CommandResult, save: Option<SaveRequest>)
      requires Valid()
      modifies this, fs
      ensures Valid()
      ensures save.Some? ==> CommandWord(input) == "echo"
      ensures CommandWord(input) !in {"cd"} ==> currentDirectory == old(currentDirectory)
      ensures CommandWord(input) !in {"mkdir", "touch", "rm"} ==> fs.mft == old(fs.mft)
      ensures input.None? || IsBlank(input.value) ==> r == Failure("No command provided")
      ensures !(input.None? || IsBlank(input.value)) && CommandWord(input) !in Dispatched ==>
        r == Failure("Unknown command: " + CommandWord(input))
      ensures CommandWord(input) == "ls" ==> r == ListDirectory(old(fs.mft), old(currentDirectory), Words(input))
      ensures CommandWord(input) == "cat" ==> r == CatFile(old(fs.mft), old(currentDirectory), Words(input))
      ensures CommandWord(input) == "cd" ==>
        (r, currentDirectory) == ChangeDirectoryStep(old(fs.mft), old(currentDirectory), Words(input))
      ensures CommandWord(input) == "mkdir" ==> MkdirSpec(old(fs.mft), old(currentDirectory), Words(input), r, fs.mft)
      ensures CommandWord(input) == "touch" ==> TouchSpec(old(fs.mft), old(currentDirectory), Words(input), r, fs.mft)
      ensures CommandWord(input) == "rm" ==> RmSpec(old(fs.mft), old(currentDirectory), Words(input), r, fs.mft)
      ensures CommandWord(input) == "pwd" ==> r == Success("/" + Join(PathNames(fs.mft, Some(currentDirectory)), "/"))
      ensures CommandWord(input) == "uname" ==> r == SystemInfo(env)
      ensures CommandWord(input) == "whoami" ==> r == Success("Visitor")
      ensures CommandWord(input) == "java" ==> r == JavaCommand(env, Words(input))
      ensures CommandWord(input) == "echo" ==> EchoOutcome(r, save) == Echo(old(fs.mft), old(currentDirectory), input.value)
    {
      save := None;
      if input.None? || IsBlank(input.value) {
        return Failure("No command provided"), None;
      }
      var parts := SplitWords(input.value);
      var command := parts[0];
      if command == "ls" {
        r := ListDirectory(fs.mft, currentDirectory, parts);
      } else if command == "cat" {
        r := CatFile(fs.mft, currentDirectory, parts);
      } else if command == "cd" {
        r := ChangeDirectory(parts);
      } else if command == "mkdir" {
        r := MakeDirectory(parts);
      } else if command == "touch" {
        r := TouchFile(parts);
      } else if command == "rm" {
        r := RemoveFile(parts);
      } else if command == "pwd" {
        r := PrintWorkingDirectory();
      } else if command == "uname" {
        r := SystemInfo(env);
      } else if command == "whoami" {
        r := Success("Visitor");
      } else if command == "java" {
        r := JavaCommand(env, parts);
      } else if command == "echo" {
        var outcome := Echo(fs.mft, currentDirectory, input.value);
        r, save := outcome.result, outcome.save;
      } else {
        r := Failure("Unknown command: " + command);
      }
    }
  }

  /** The words of a command line (`[""]` for a missing or blank line). */
  function Words(input: Option<string>): (parts: seq<string>)
    ensures |parts| >= 1
    ensures parts[0] == "" <==> input.None? || IsBlank(input.value)
  {
    if input.None? then [""] else SplitWords(input.value)
  }

  /** The command word of a line: its first word. */
  function CommandWord(input: Option<string>): (w: string)
    ensures w == Words(input)[0]
    ensures w == [] <==> input.None? || IsBlank(input.value)
  {
    Words(input)[0]
  }

  /**
   * "help" and "clear" are offered by autocompletion but not dispatched:
   * the interpreter answers them as unknown commands.
   */
  lemma HelpAndClearNotDispatched()
    ensures "help" in CommandNames && "help" !in Dispatched
    ensures "clear" in CommandNames && "clear" !in Dispatched
    ensures Dispatched <= Elems(CommandNames)
  {
    assert CommandNames[11] == "help" && CommandNames[12] == "clear";
  }

  /** Completing a prefix of a command name offers that command. */
  lemma AutocompleteOffersCommand(mft: Table, cwd: string, cmd: string, prefix: string)
    requires cmd in CommandNames && prefix != [] && prefix <= cmd && NoSpace(prefix)
    requires ToLower(prefix) == prefix
    ensures cmd in Autocomplete(mft, cwd, Some(prefix))
  {
    assert !IsBlank(prefix) by { assert !IsSpace(prefix[0]); }
    assert SplitWords(prefix) == [prefix] by { TokensOfJoin([prefix]); }
    assert !EndsWith(prefix, " ") by { assert prefix[|prefix| - 1] != ' ' by { assert !IsSpace(prefix[|prefix| - 1]); } }
  }

  // ---------------------------------------------------------------------
  // Findings
  // ---------------------------------------------------------------------

  /** A directory "d" stored under a file "f": `cd d` then `cd ..` makes "f" current. */
  const FileWithChildDirectory: Table :=
    [FileNode("f", None, "f", FILE, Some("")), FileNode("d", Some("f"), "d", DIRECTORY, None)]

  /**
   * With that table, `ls` with no argument after `cd d` and `cd ..` throws as
   * written, while the corrected listing reports that "f" is not a directory.
   */
  lemma ListInFileDirectory()
    ensures var inside := ChangeDirectoryStep(FileWithChildDirectory, HomeDirectory, ["cd", "d"]);
      && inside == (Success(""), "d")
      && ChangeDirectoryStep(FileWithChildDirectory, "d", ["cd", ".."]).1 == "f"
      && ListDirectoryAsWritten(FileWithChildDirectory, "f", ["ls"]).None?
      && ListDirectory(FileWithChildDirectory, "f", ["ls"]) == Failure("ls: f: Not a directory")
  {
    IntoChildOfFile();
    OutOfChildOfFile();
    ListingInFile();
  }

  /** `cd d` from the home directory lands on "d" (found through its id, since no child of home is named "d"). */
  lemma IntoChildOfFile()
    ensures ChangeDirectoryStep(FileWithChildDirectory, HomeDirectory, ["cd", "d"]) == (Success(""), "d")
  {
    var m := FileWithChildDirectory;
    assert FindByNameInParent(m, Some(HomeDirectory), "d").None? by {
      assert forall n :: n in ChildrenOf(m, HomeDirectory) ==> n in m && n.parentId == Some(HomeDirectory);
    }
    assert FindById(m, "d") == Some(m[1]);
  }

  /** `cd ..` from "d" moves to its parent, the file "f". */
  lemma OutOfChildOfFile()
    ensures ChangeDirectoryStep(FileWithChildDirectory, "d", ["cd", ".."]).1 == "f"
  {
    assert FindById(FileWithChildDirectory, "d") == Some(FileWithChildDirectory[1]);
  }

  /** In the file "f", `ls` throws as written and reports "Not a directory" when corrected. */
  lemma ListingInFile()
    ensures ListDirectoryAsWritten(FileWithChildDirectory, "f", ["ls"]).None?
    ensures ListDirectory(FileWithChildDirectory, "f", ["ls"]) == Failure("ls: f: Not a directory")
  {
    assert FindById(FileWithChildDirectory, "f") == Some(FileWithChildDirectory[0]);
    assert "ls: " + "f" + ": Not a directory" == "ls: f: Not a directory";
  }

  /**
   * A line with two leading blanks, "  echo w": as written `echo` prints the
   * tail of the command word with its argument ("o w"), the corrected one
   * prints the argument alone.
   */
  lemma EchoWithLeadingBlanks(mft: Table, cwd: string, sp: string, word: string, w: string)
    requires |sp| == 2 && IsBlank(sp) && word == "echo"
    requires w != [] && NoSpace(w) && '>' !in w && w[0] != '"' && w[0] != '\''
    ensures SplitWords(sp + (word + " " + w))[0] == "echo"
    ensures EchoAsWritten(mft, cwd, sp + (word + " " + w)).result == Success("o " + w)
    ensures Echo(mft, cwd, sp + (word + " " + w)).result == Success(w)
  {
    EchoLineWord(sp, word, w);
    EchoAsWrittenLeadingBlanks(mft, cwd, sp, word, w);
    EchoCorrectedLeadingBlanks(mft, cwd, sp, word, w);
    EchoWordTail(word, w);
  }

  lemma EchoWordTail(word: string, w: string)
    requires word == "echo"
    ensures word[3..] + " " + w == "o " + w
  {
    assert word[3..] == "o";
  }

  lemma EchoAsWrittenLeadingBlanks(mft: Table, cwd: string, sp: string, word: string, w: string)
    requires |sp| == 2 && |word| == 4 && !IsSpace(word[3]) && word[3] != '"' && word[3] != '\'' && word[3] != '>'
    requires w != [] && NoSpace(w) && '>' !in w
    ensures EchoAsWritten(mft, cwd, sp + (word + " " + w)).result == Success(word[3..] + " " + w)
  {
    var line := sp + (word + " " + w);
    var tail := word[3..] + " " + w;
    assert Trim(line[5..]) == tail by {
      EchoCutAsWritten(sp, word, w);
    }
    assert PlainText(tail);
    EchoAsWrittenPlain(mft, cwd, line, tail);
  }

  lemma EchoCorrectedLeadingBlanks(mft: Table, cwd: string, sp: string, word: string, w: string)
    requires IsBlank(sp) && word == "echo"
    requires w != [] && NoSpace(w) && '>' !in w && w[0] != '"' && w[0] != '\''
    ensures SplitWords(sp + (word + " " + w))[0] == "echo"
    ensures Echo(mft, cwd, sp + (word + " " + w)).result == Success(w)
  {
    var line := sp + (word + " " + w);
    assert SplitWords(line)[0] == word by {
      EchoLineWord(sp, word, w);
    }
    assert Trim(Trim(line)[4..]) == w by {
      EchoTrimLine(sp, word, w);
      EchoCutArgument(word, w);
    }
    EchoPlain(mft, cwd, line, w);
  }

  /** Text with no redirection and no surrounding quotes is printed as it is. */
  predicate PlainText(t: string)
  {
    t != [] && '>' !in t && t[0] != '"' && t[0] != '\''
  }

  /** As written, `echo` prints the plain text that follows its fifth character. */
  lemma EchoAsWrittenPlain(mft: Table, cwd: string, input: string, t: string)
    requires |input| > 4 && Trim(input[5..]) == t && PlainText(t)
    ensures EchoAsWritten(mft, cwd, input).result == Success(t)
  {
    EchoPlainText(mft, cwd, t);
  }

  /** `echo` prints the plain text that follows its command word. */
  lemma EchoPlain(mft: Table, cwd: string, input: string, t: string)
    requires SplitWords(input)[0] == "echo"
    requires |Trim(input)| >= 4 && Trim(Trim(input)[4..]) == t && PlainText(t)
    ensures Echo(mft, cwd, input).result == Success(t)
  {
    EchoPlainText(mft, cwd, t);
  }

  lemma EchoPlainText(mft: Table, cwd: string, t: string)
    requires PlainText(t)
    ensures EchoArguments(mft, cwd, t) == EchoOutcome(Success(t), None)
  {
    NotContainsChar(t, '>');
    ExtractContentPlain(t);
  }

  /** As written, `echo` cuts the line `sp + word + " " + w` after its fifth character. */
  lemma EchoCutAsWritten(sp: string, word: string, w: string)
    requires |sp| == 2 && |word| == 4 && !IsSpace(word[3]) && w != [] && !IsSpace(w[|w| - 1])
    ensures Trim((sp + (word + " " + w))[5..]) == word[3..] + " " + w
  {
    var tail := word[3..] + " " + w;
    assert (sp + (word + " " + w))[5..] == [] + tail;
    assert IsBlank([]);
    TrimPadded([], tail);
  }

  /** Trimming the line `sp + word + " " + w` drops the blanks `sp`. */
  lemma EchoTrimLine(sp: string, word: string, w: string)
    requires IsBlank(sp) && word != [] && !IsSpace(word[0]) && w != [] && !IsSpace(w[|w| - 1])
    ensures Trim(sp + (word + " " + w)) == word + " " + w
  {
    TrimPadded(sp, word + " " + w);
  }

  /** After a four-letter command word, the trimmed argument is `w`. */
  lemma EchoCutArgument(word: string, w: string)
    requires |word| == 4 && w != [] && !IsSpace(w[0]) && !IsSpace(w[|w| - 1])
    ensures Trim((word + " " + w)[4..]) == w
  {
    assert (word + " " + w)[4..] == " " + w;
    assert IsBlank(" ");
    TrimPadded(" ", w);
  }

  /** The first word of `sp + word + " " + w` is `word`. */
  lemma EchoLineWord(sp: string, word: string, w: string)
    requires IsBlank(sp) && word != [] && NoSpace(word) && w != [] && NoSpace(w)
    ensures SplitWords(sp + (word + " " + w))[0] == word
  {
    var line := sp + (word + " " + w);
    TokensSkipLeading(line);
    LeadingSpacesPadded(sp, word + " " + w);
    assert line[|sp|..] == Join([word, w], " ");
    TokensOfJoin([word, w]);
  }
}

=== FILE: common.dfy ===
/**
 * Shared vocabulary of the model: an optional value (Java's nullable
 * references and `Optional`, TypeScript's `null`/`undefined`) and the string
 * primitives the Java backend and the TypeScript frontend rely on
 * (`trim`, `isBlank`, splitting on whitespace, `startsWith`, `indexOf`,
 * `toLowerCase`, `padStart`, `split`, `join`, decimal formatting).
 */
module Common {

  datatype Option<T> = None | Some(value: T)
  {
    /** `opt.orElse(d)` in Java, `opt ?? d` in TypeScript. */
    function GetOr(d: T): (r: T)
      ensures Some? ==> r == value
      ensures None? ==> r == d
    {
      if Some? then value else d
    }
  }

  // ---------------------------------------------------------------------
  // Whitespace, trimming, tokenising
  // ---------------------------------------------------------------------

  /** The characters matched by the regular-expression class `\s`. */
  predicate IsSpace(c: char)
  {
    c == ' ' || c == '\t' || c == '\n' || c == '\U{B}' || c == '\U{C}' || c == '\r'
  }

  /** `String.isBlank()` over the `\s` set: empty or whitespace only. */
  predicate IsBlank(s: string)
  {
    forall i :: 0 <= i < |s| ==> IsSpace(s[i])
  }

  predicate NoSpace(s: string)
  {
    forall i :: 0 <= i < |s| ==> !IsSpace(s[i])
  }

  /** Number of whitespace characters at the start of `s`. */
  function LeadingSpaces(s: string): (k: nat)
    ensures k <= |s|
    ensures IsBlank(s[..k])
    ensures k == |s| || !IsSpace(s[k])
  {
    if s == [] || !IsSpace(s[0]) then 0 else 1 + LeadingSpaces(s[1..])
  }

  /** Number of whitespace characters at the end of `s`. */
  function TrailingSpaces(s: string): (k: nat)
    ensures k <= |s|
    ensures IsBlank(s[|s| - k..])
    ensures k == |s| || !IsSpace(s[|s| - k - 1])
  {
    if s == [] || !IsSpace(s[|s| - 1]) then 0
    else
      var k := TrailingSpaces(s[..|s| - 1]);
      assert s[|s| - (k + 1)..] == s[..|s| - 1][|s| - 1 - k..] + [s[|s| - 1]];
      k + 1
  }

  /** `String.trim()` over the `\s` set: `s` without its leading and trailing whitespace. */
  function Trim(s: string): (r: string)
    ensures LeadingSpaces(s) + |r| <= |s|
    ensures r == s[LeadingSpaces(s)..LeadingSpaces(s) + |r|]
    ensures IsBlank(s[LeadingSpaces(s) + |r|..])
    ensures r == [] <==> IsBlank(s)
    ensures r == [] || (!IsSpace(r[0]) && !IsSpace(r[|r| - 1]))
  {
    var lo := LeadingSpaces(s);
    var a := s[lo..];
    var hi := |a| - TrailingSpaces(a);
    assert s[lo + hi..] == a[hi..];
    a[..hi]
  }

  /** Blank padding in front of `s` is exactly the leading whitespace when `s` starts with a non-space. */
  lemma {:induction false} LeadingSpacesPadded(sp: string, s: string)
    requires IsBlank(sp) && s != [] && !IsSpace(s[0])
    ensures LeadingSpaces(sp + s) == |sp|
    decreases |sp|
  {
    if sp == [] {
      assert sp + s == s;
    } else {
      assert (sp + s)[1..] == sp[1..] + s;
      assert IsSpace(sp[0]);
      LeadingSpacesPadded(sp[1..], s);
    }
  }

  /** Trimming blank padding off a string with non-space ends gives the string. */
  lemma TrimPadded(sp: string, s: string)
    requires IsBlank(sp) && s != [] && !IsSpace(s[0]) && !IsSpace(s[|s| - 1])
    ensures Trim(sp + s) == s
  {
    LeadingSpacesPadded(sp, s);
    var r := Trim(sp + s);
    assert r == s[..|r|] by {
      assert (sp + s)[|sp|..|sp| + |r|] == s[..|r|];
    }
  }

  /** Trimming blank padding off the end of a string with non-space ends gives the string. */
  lemma TrimEndPadded(s: string, sp: string)
    requires IsBlank(sp) && s != [] && !IsSpace(s[0]) && !IsSpace(s[|s| - 1])
    ensures Trim(s + sp) == s
  {
    var t := s + sp;
    assert t[0] == s[0];
    var r := Trim(t);
    assert r == t[..|s|];
  }

  /** The longest prefix of `s` that holds no whitespace. */
  function Word(s: string): (w: string)
    ensures w <= s
    ensures NoSpace(w)
    ensures |w| == |s| || IsSpace(s[|w|])
  {
    if s == [] || IsSpace(s[0]) then [] else [s[0]] + Word(s[1..])
  }

  /** The maximal runs of non-whitespace characters of `s`, in order. */
  function Tokens(s: string): (ts: seq<string>)
    ensures forall i :: 0 <= i < |ts| ==> ts[i] != [] && NoSpace(ts[i])
    decreases |s|
  {
    if s == [] then []
    else if IsSpace(s[0]) then Tokens(s[1..])
    else
      var w := Word(s);
      [w] + Tokens(s[|w|..])
  }

  lemma {:induction false} TokensEmptyIffBlank(s: string)
    ensures Tokens(s) == [] <==> IsBlank(s)
    decreases |s|
  {
    if s == [] {
    } else if IsSpace(s[0]) {
      TokensEmptyIffBlank(s[1..]);
      assert IsBlank(s) <==> IsBlank(s[1..]) by {
        if IsBlank(s[1..]) {
          forall i | 0 <= i < |s| ensures IsSpace(s[i]) {
            if i > 0 { assert s[i] == s[1..][i - 1]; }
          }
        }
      }
    } else {
      assert !IsSpace(s[0]);
    }
  }

  /**
   * `s.trim().split("\\s+")` in Java and `s.trim().split(/\s+/)` in
   * TypeScript: the whitespace-separated words, or the single empty string
   * when `s` is blank.
   */
  function SplitWords(s: string): (parts: seq<string>)
    ensures |parts| >= 1
    ensures IsBlank(s) <==> parts == [""]
    ensures !IsBlank(s) ==> forall i :: 0 <= i < |parts| ==> parts[i] != [] && NoSpace(parts[i])
  {
    TokensEmptyIffBlank(s);
    var ts := Tokens(s);
    if ts == [] then [""] else assert ts[0] != []; ts
  }

  /** Whitespace at the front does not change the words. */
  lemma {:induction false} TokensSkipLeading(s: string)
    ensures Tokens(s) == Tokens(s[LeadingSpaces(s)..])
    decreases |s|
  {
    if s != [] && IsSpace(s[0]) {
      TokensSkipLeading(s[1..]);
      assert s[1..][LeadingSpaces(s[1..])..] == s[LeadingSpaces(s)..];
    }
  }

  /** A space-free prefix ends before the blank tail of a string. */
  lemma SpaceFreePrefixBeforeBlank(t: string, w: string, n: nat)
    requires w <= t && NoSpace(w) && n <= |t|
    requires forall k :: n <= k < |t| ==> IsSpace(t[k])
    ensures |w| <= n
  {
    assert n < |t| ==> IsSpace(t[n]);
  }

  /** The first word of a non-blank line starts its trimmed form. */
  lemma FirstWordStartsTrim(s: string)
    requires !IsBlank(s)
    ensures SplitWords(s)[0] <= Trim(s)
  {
    var t := s[LeadingSpaces(s)..];
    var r := Trim(s);
    var w := Word(t);
    SplitWordsFirst(s);
    TrimBeforeBlankTail(s);
    SpaceFreePrefixBeforeBlank(t, w, |r|);
    PrefixWithinPrefix(t, r, w);
  }

  /** A prefix of `t` no longer than another prefix `r` of `t` is a prefix of `r`. */
  lemma PrefixWithinPrefix(t: string, r: string, w: string)
    requires w <= t && |r| <= |t| && r == t[..|r|] && |w| <= |r|
    ensures w <= r
  {
    assert w == t[..|w|] == r[..|w|];
  }

  /** The first word of a non-blank line is the word after its leading whitespace. */
  lemma SplitWordsFirst(s: string)
    requires !IsBlank(s)
    ensures SplitWords(s)[0] == Word(s[LeadingSpaces(s)..])
  {
    var t := s[LeadingSpaces(s)..];
    TokensSkipLeading(s);
    TokensEmptyIffBlank(s);
    assert Tokens(t) == [Word(t)] + Tokens(t[|Word(t)|..]);
  }

  /** The trimmed line starts the text after the leading whitespace, and only whitespace follows it. */
  lemma TrimBeforeBlankTail(s: string)
    ensures var t := s[LeadingSpaces(s)..];
      Trim(s) == t[..|Trim(s)|] && forall k :: |Trim(s)| <= k < |t| ==> IsSpace(t[k])
  {
    var lo := LeadingSpaces(s);
    var t := s[lo..];
    var r := Trim(s);
    var tail := s[lo + |r|..];
    assert IsBlank(tail);
    assert r == t[..|r|];
    forall k | |r| <= k < |t| ensures IsSpace(t[k]) {
      assert t[k] == tail[k - |r|];
    }
  }

  // ---------------------------------------------------------------------
  // Joining and splitting on a separator
  // ---------------------------------------------------------------------

  /** The elements of a sequence, as a set. */
  function Elems<T>(s: seq<T>): set<T>
  {
    set x | x in s
  }

  lemma ElemsConcat<T>(a: seq<T>, b: seq<T>)
    ensures Elems(a + b) == Elems(a) + Elems(b)
  {
    assert forall x :: x in a + b <==> x in a || x in b;
  }

  /** `String.join(sep, parts)` / `parts.join(sep)`. */
  function Join(parts: seq<string>, sep: string): (r: string)
    ensures parts == [] ==> r == []
    ensures |parts| == 1 ==> r == parts[0]
  {
    if parts == [] then []
    else if |parts| == 1 then parts[0]
    else parts[0] + sep + Join(parts[1..], sep)
  }

  lemma JoinAppend(parts: seq<string>, last: string, sep: string)
    requires parts != []
    ensures Join(parts + [last], sep) == Join(parts, sep) + sep + last
  {
    if |parts| == 1 {
      assert parts + [last] == [parts[0], last];
    } else {
      assert (parts + [last])[1..] == parts[1..] + [last];
      JoinAppend(parts[1..], last, sep);
    }
  }

  /** Splitting a sentence of words joined by single spaces gives the words back. */
  lemma {:induction false} TokensOfJoin(words: seq<string>)
    requires forall i :: 0 <= i < |words| ==> words[i] != [] && NoSpace(words[i])
    ensures Tokens(Join(words, " ")) == words
    decreases |words|
  {
    if words == [] {
    } else {
      var w := words[0];
      var s := Join(words, " ");
      WordOfNoSpace(w, if |words| == 1 then [] else " " + Join(words[1..], " "));
      if |words| == 1 {
        assert s == w + [];
        assert s[|w|..] == [];
      } else {
        var rest := Join(words[1..], " ");
        assert s == w + (" " + rest);
        assert s[|w|..] == " " + rest;
        assert (" " + rest)[1..] == rest;
        TokensOfJoin(words[1..]);
      }
    }
  }

  lemma {:induction false} WordOfNoSpace(w: string, rest: string)
    requires w != [] && NoSpace(w)
    requires rest == [] || IsSpace(rest[0])
    ensures Word(w + rest) == w
    decreases |w|
  {
    if |w| == 1 {
      assert (w + rest)[1..] == rest;
    } else {
      assert (w + rest)[1..] == w[1..] + rest;
      WordOfNoSpace(w[1..], rest);
    }
  }

  /** A space after a string does not change its first word. */
  lemma {:induction false} WordSpaceSuffix(s: string)
    ensures Word(s + " ") == Word(s)
    decreases |s|
  {
    if s != [] && !IsSpace(s[0]) {
      assert (s + " ")[1..] == s[1..] + " ";
      WordSpaceSuffix(s[1..]);
    }
  }

  /** A space after a string does not change its words. */
  lemma {:induction false} TokensSpaceSuffix(s: string)
    ensures Tokens(s + " ") == Tokens(s)
    decreases |s|
  {
    if s == [] {
      assert Tokens(" ") == Tokens(" "[1..]);
    } else if IsSpace(s[0]) {
      assert (s + " ")[1..] == s[1..] + " ";
      TokensSpaceSuffix(s[1..]);
    } else {
      var w := Word(s);
      WordSpaceSuffix(s);
      assert (s + " ")[|w|..] == s[|w|..] + " ";
      TokensSpaceSuffix(s[|w|..]);
    }
  }

  /** Number of occurrences of `c` in `s`. */
  function Count(s: string, c: char): (n: nat)
    ensures n <= |s|
    ensures n == 0 <==> c !in s
  {
    if s == [] then 0 else (if s[0] == c then 1 else 0) + Count(s[1..], c)
  }

  /** `s.split(sep)` in TypeScript for a one-character separator: every piece, empty ones included. */
  function SplitOn(s: string, sep: char): (pieces: seq<string>)
    ensures |pieces| >= 1
    ensures forall i :: 0 <= i < |pieces| ==> sep !in pieces[i]
    decreases |s|
  {
    if s == [] then [""]
    else
      var tail := SplitOn(s[1..], sep);
      if s[0] == sep then [""] + tail
      else [[s[0]] + tail[0]] + tail[1..]
  }

  lemma {:induction false} SplitOnCount(s: string, sep: char)
    ensures |SplitOn(s, sep)| == Count(s, sep) + 1
    decreases |s|
  {
    if s != [] {
      SplitOnCount(s[1..], sep);
    }
  }

  /** A string without the separator is a single piece. */
  lemma {:induction false} SplitOnNoSep(s: string, sep: char)
    requires sep !in s
    ensures SplitOn(s, sep) == [s]
    decreases |s|
  {
    if s != [] {
      SplitOnNoSep(s[1..], sep);
      assert s == [s[0]] + s[1..];
    }
  }

  /** Splitting two strings joined by the separator splits each of them. */
  lemma {:induction false} SplitOnSepConcat(a: string, b: string, sep: char)
    ensures SplitOn(a + [sep] + b, sep) == SplitOn(a, sep) + SplitOn(b, sep)
    decreases |a|
  {
    if a == [] {
      assert a + [sep] + b == [sep] + b;
      assert ([sep] + b)[1..] == b;
    } else {
      assert (a + [sep] + b)[1..] == a[1..] + [sep] + b;
      SplitOnSepConcat(a[1..], b, sep);
    }
  }

  /** Three separator-free strings joined by the separator split back into the three. */
  lemma SplitOnThree(a: string, b: string, c: string, sep: char)
    requires sep !in a && sep !in b && sep !in c
    ensures SplitOn(a + [sep] + b + [sep] + c, sep) == [a, b, c]
  {
    SplitOnNoSep(a, sep);
    SplitOnNoSep(b, sep);
    SplitOnNoSep(c, sep);
    SplitOnSepConcat(a, b, sep);
    SplitOnSepConcat(a + [sep] + b, c, sep);
  }

  /** Joining the pieces of a split with the separator restores the string. */
  lemma {:induction false} SplitOnJoin(s: string, sep: char)
    ensures Join(SplitOn(s, sep), [sep]) == s
    decreases |s|
  {
    if s != [] {
      var tail := SplitOn(s[1..], sep);
      SplitOnJoin(s[1..], sep);
      if s[0] == sep {
        assert SplitOn(s, sep) == [""] + tail;
        assert ([""] + tail)[1..] == tail;
        assert Join([""] + tail, [sep]) == [] + [sep] + Join(tail, [sep]);
        assert s == [s[0]] + s[1..];
      } else {
        var pieces := [[s[0]] + tail[0]] + tail[1..];
        assert SplitOn(s, sep) == pieces;
        if |tail| == 1 {
          assert Join(tail, [sep]) == tail[0];
          assert s == [s[0]] + s[1..];
        } else {
          assert pieces[1..] == tail[1..];
          assert Join(tail, [sep]) == tail[0] + [sep] + Join(tail[1..], [sep]);
          assert s == [s[0]] + s[1..];
        }
      }
    }
  }

  // ---------------------------------------------------------------------
  // Searching
  // ---------------------------------------------------------------------

  predicate OccursAt(s: string, pat: string, i: int)
  {
    0 <= i && i + |pat| <= |s| && s[i..i + |pat|] == pat
  }

  /** The first position at or after `from` where `pat` occurs, or -1. */
  function IndexFrom(s: string, pat: string, from: nat): (r: int)
    requires from <= |s|
    ensures r == -1 || from <= r <= |s| - |pat|
    ensures r >= 0 ==> OccursAt(s, pat, r)
    ensures forall j :: from <= j && (r < 0 || j < r) ==> !OccursAt(s, pat, j)
    decreases |s| - from
  {
    if from + |pat| > |s| then -1
    else if s[from..from + |pat|] == pat then from
    else if from == |s| then -1
    else IndexFrom(s, pat, from + 1)
  }

  /** `s.indexOf(pat)`: the first position where `pat` occurs, or -1. */
  function IndexOf(s: string, pat: string): (r: int)
    ensures -1 <= r <= |s|
    ensures r >= 0 ==> OccursAt(s, pat, r)
    ensures forall j :: 0 <= j && (r < 0 || j < r) ==> !OccursAt(s, pat, j)
  {
    IndexFrom(s, pat, 0)
  }

  /** `s.contains(pat)` / `s.includes(pat)`. */
  predicate Contains(s: string, pat: string)
  {
    IndexOf(s, pat) >= 0
  }

  lemma ContainsIff(s: string, pat: string)
    ensures Contains(s, pat) <==> exists i :: OccursAt(s, pat, i)
  {
  }

  /** A character that does not occur is not contained. */
  lemma NotContainsChar(s: string, c: char)
    requires c !in s
    ensures !Contains(s, [c])
  {
    ContainsIff(s, [c]);
    assert forall i :: OccursAt(s, [c], i) ==> s[i..i + 1][0] == c;
  }

  /** A string containing a pattern contains every prefix of it. */
  lemma ContainsShorter(s: string, pat: string, longer: string)
    requires pat <= longer
    ensures Contains(s, longer) ==> Contains(s, pat)
  {
    if Contains(s, longer) {
      var i := IndexOf(s, longer);
      assert s[i..i + |pat|] == s[i..i + |longer|][..|pat|];
      assert OccursAt(s, pat, i);
    }
  }

  /** `s.startsWith(p)`. */
  predicate StartsWith(s: string, p: string)
  {
    p <= s
  }

  /** `s.endsWith(p)`. */
  predicate EndsWith(s: string, p: string)
  {
    |p| <= |s| && s[|s| - |p|..] == p
  }

  // ---------------------------------------------------------------------
  // Case and padding
  // ---------------------------------------------------------------------

  function LowerChar(c: char): char
  {
    if 'A' <= c <= 'Z' then (c as int - 'A' as int + 'a' as int) as char else c
  }

  /** `toLowerCase()`, on the ASCII letters. */
  function ToLower(s: string): (r: string)
    ensures |r| == |s|
    ensures forall i :: 0 <= i < |s| ==> r[i] == LowerChar(s[i])
  {
    seq(|s|, i requires 0 <= i < |s| => LowerChar(s[i]))
  }

  lemma ToLowerIdempotent(s: string)
    ensures ToLower(ToLower(s)) == ToLower(s)
  {
  }

  /** A prefix test after lowering both sides is a prefix test on lowered strings. */
  lemma ToLowerPrefix(p: string, s: string)
    requires StartsWith(s, p)
    ensures StartsWith(ToLower(s), ToLower(p))
  {
    assert ToLower(s)[..|p|] == ToLower(p);
  }

  function Repeat(c: char, n: nat): (r: string)
    ensures |r| == n
    ensures forall i :: 0 <= i < n ==> r[i] == c
  {
    seq(n, _ => c)
  }

  /** `s.padStart(len, c)` for a one-character pad. */
  function PadStart(s: string, len: nat, c: char): (r: string)
    ensures |r| == if |s| >= len then |s| else len
    ensures EndsWith(r, s)
    ensures forall i :: 0 <= i < |r| - |s| ==> r[i] == c
  {
    if |s| >= len then s else Repeat(c, len - |s|) + s
  }

  // ---------------------------------------------------------------------
  // Decimal numbers
  // ---------------------------------------------------------------------

  predicate IsDigit(c: char)
  {
    '0' <= c <= '9'
  }

  function DigitChar(d: nat): (c: char)
    requires d < 10
    ensures IsDigit(c)
  {
    ('0' as int + d) as char
  }

  function DigitValue(c: char): (d: nat)
    requires IsDigit(c)
    ensures d < 10
  {
    c as int - '0' as int
  }

  /** `String.valueOf(n)` / `n.toString()` for a non-negative integer. */
  function NatToString(n: nat): (s: string)
    ensures |s| >= 1
    ensures forall i :: 0 <= i < |s| ==> IsDigit(s[i])
    ensures |s| > 1 ==> s[0] != '0'
    decreases n
  {
    if n < 10 then [DigitChar(n)] else NatToString(n / 10) + [DigitChar(n % 10)]
  }

  /** The value of a string of decimal digits. */
  function ParseNat(s: string): (n: nat)
    requires forall i :: 0 <= i < |s| ==> IsDigit(s[i])
    decreases |s|
  {
    if s == [] then 0 else 10 * ParseNat(s[..|s| - 1]) + DigitValue(s[|s| - 1])
  }

  /** Reading back a formatted number gives the number. */
  lemma {:induction false} ParseNatToString(n: nat)
    ensures ParseNat(NatToString(n)) == n
    decreases n
  {
    if n >= 10 {
      var s := NatToString(n);
      assert s[..|s| - 1] == NatToString(n / 10);
      ParseNatToString(n / 10);
    }
  }

  /** Zero-padding does not change the value read back. */
  lemma {:induction false} ParseNatLeadingZeros(k: nat, s: string)
    requires forall i :: 0 <= i < |s| ==> IsDigit(s[i])
    ensures forall i :: 0 <= i < |Repeat('0', k) + s| ==> IsDigit((Repeat('0', k) + s)[i])
    ensures ParseNat(Repeat('0', k) + s) == ParseNat(s)
    decreases |s|
  {
    var z := Repeat('0', k);
    if s == [] {
      ParseNatZeros(k);
      assert z + s == z;
    } else {
      assert (z + s)[..|z + s| - 1] == z + s[..|s| - 1];
      ParseNatLeadingZeros(k, s[..|s| - 1]);
    }
  }

  lemma {:induction false} ParseNatZeros(k: nat)
    ensures ParseNat(Repeat('0', k)) == 0
    decreases k
  {
    if k > 0 {
      assert Repeat('0', k)[..k - 1] == Repeat('0', k - 1);
      ParseNatZeros(k - 1);
    }
  }

  /** Formatted numbers are distinct for distinct values. */
  lemma NatToStringInjective(m: nat, n: nat)
    requires NatToString(m) == NatToString(n)
    ensures m == n
  {
    ParseNatToString(m);
    ParseNatToString(n);
  }
}

=== FILE: desktop.dfy ===
/**
 * `Desktop`: the list of open windows with the focused one on top, the
 * dispatch from a double-clicked desktop icon to an app or a new browser
 * tab, and the icon selection. `onAddRecentApp` and `window.open` are
 * recorded as logs of the calls made.
 */
module Desktop {
  import opened Common
  import opened FileNodes
  import opened DesktopIcons

  /** An entry of `APP_CONFIG`. */
  datatype AppConfig = AppConfig(name: string, icon: string, width: int, height: int)

  /**
   * An entry of `openApps`: an app opened from its configuration carries
   * its width and height, a notepad opened on a file carries the file.
   */
  datatype OpenAppEntry = OpenAppEntry(id: string, name: string, icon: string,
                                       size: Option<(int, int)>, file: Option<FileNode>)

  /** What is handed to `onAddRecentApp`. */
  datatype RecentApp = RecentApp(id: string, name: string, icon: string)

  const NOTEPAD: string := "notepad"
  const FILE_EXPLORER: string := "fileexplorer"
  const FOCUSED_Z: int := 20
  const UNFOCUSED_Z: int := 10

  const APP_CONFIG: map<string, AppConfig> := map[
    "terminal" := AppConfig("Terminal", "\U{1F4BB}", 700, 450),
    "taskmanager" := AppConfig("Task Manager", "\U{1F4CA}", 600, 400),
    "settings" := AppConfig("Settings", "⚙️", 500, 550),
    "fileexplorer" := AppConfig("File Explorer", "\U{1F4C2}", 700, 500),
    "chrome" := AppConfig("Chrome", "\U{1F310}", 900, 600),
    "notepad" := AppConfig("Notepad", "\U{1F4DD}", 600, 450),
    "cvviewer" := AppConfig("CV Viewer", "\U{1F4C4}", 650, 700)
  ]

  /** `openApps.some(app => app.id === id)`. */
  predicate IsOpen(apps: seq<OpenAppEntry>, id: string)
  {
    exists i :: 0 <= i < |apps| && apps[i].id == id
  }

  /** No two windows share an id. */
  predicate UniqueIds(apps: seq<OpenAppEntry>)
  {
    forall i, j :: 0 <= i < j < |apps| ==> apps[i].id != apps[j].id
  }

  /**
   * The window `openApp(appId, file)` stands for: a notepad opened on a
   * file is the instance "notepad-" + file id named after the file; any
   * other call is the app itself with its configuration.
   */
  function Instance(appId: string, config: AppConfig, file: Option<FileNode>): (a: OpenAppEntry)
    ensures a.icon == config.icon
    ensures appId == NOTEPAD && file.Some? ==>
      a.id == "notepad-" + file.value.id && a.name == file.value.name + " - Notepad" && a.file == file
    ensures !(appId == NOTEPAD && file.Some?) ==>
      a.id == appId && a.name == config.name && a.size == Some((config.width, config.height)) && a.file.None?
  {
    if appId == NOTEPAD && file.Some? then
      OpenAppEntry("notepad-" + file.value.id, file.value.name + " - Notepad", config.icon, None, file)
    else
      OpenAppEntry(appId, config.name, config.icon, Some((config.width, config.height)), None)
  }

  /** Two notepad instances coincide exactly when their files have the same id: at most one window per file. */
  lemma NotepadInstancePerFile(config: AppConfig, f: FileNode, g: FileNode)
    ensures Instance(NOTEPAD, config, Some(f)).id == Instance(NOTEPAD, config, Some(g)).id <==> f.id == g.id
  {
    var p := "notepad-";
    if p + f.id == p + g.id {
      assert f.id == (p + f.id)[|p|..] == (p + g.id)[|p|..] == g.id;
    }
  }

  /** The window list after opening `inst`: unchanged when a window with its id is open, extended by it otherwise. */
  function Opened(apps: seq<OpenAppEntry>, inst: OpenAppEntry): (r: seq<OpenAppEntry>)
    ensures IsOpen(r, inst.id)
    ensures apps <= r && |r| <= |apps| + 1
  {
    if IsOpen(apps, inst.id) then apps
    else assert (apps + [inst])[|apps|] == inst; apps + [inst]
  }

  /** Opening keeps the ids unique, and opening the same window twice is opening it once. */
  lemma OpenedKeepsUnique(apps: seq<OpenAppEntry>, inst: OpenAppEntry)
    requires UniqueIds(apps)
    ensures UniqueIds(Opened(apps, inst))
    ensures Opened(Opened(apps, inst), inst) == Opened(apps, inst)
  {
    var r := Opened(apps, inst);
    if !IsOpen(apps, inst.id) {
      forall i, j | 0 <= i < j < |r|
        ensures r[i].id != r[j].id
      {
        if j == |apps| {
          assert r[i] == apps[i];
        }
      }
    }
  }

  /** `openApps.filter(app => app.id !== id)`. */
  function Closed(apps: seq<OpenAppEntry>, id: string): (r: seq<OpenAppEntry>)
    ensures forall a :: a in r <==> a in apps && a.id != id
    ensures |r| <= |apps|
  {
    if apps == [] then []
    else (if apps[0].id == id then [] else [apps[0]]) + Closed(apps[1..], id)
  }

  /** Closing works entry by entry, so the remaining windows keep their order. */
  lemma {:induction false} ClosedConcat(a: seq<OpenAppEntry>, b: seq<OpenAppEntry>, id: string)
    ensures Closed(a + b, id) == Closed(a, id) + Closed(b, id)
  {
    if a == [] {
      assert a + b == b;
    } else {
      assert (a + b)[1..] == a[1..] + b;
      ClosedConcat(a[1..], b, id);
    }
  }

  /** Closing an app that is not open changes nothing. */
  lemma {:induction false} ClosedAbsent(apps: seq<OpenAppEntry>, id: string)
    requires !IsOpen(apps, id)
    ensures Closed(apps, id) == apps
  {
    if apps != [] {
      assert apps[0].id != id;
      assert !IsOpen(apps[1..], id) by {
        forall i | 0 <= i < |apps[1..]|
          ensures apps[1..][i].id != id
        {
          assert apps[1..][i] == apps[i + 1];
        }
      }
      ClosedAbsent(apps[1..], id);
    }
  }

  /** Closing a window that was just opened as a new one restores the window list. */
  lemma CloseUndoesOpen(apps: seq<OpenAppEntry>, inst: OpenAppEntry)
    requires !IsOpen(apps, inst.id)
    ensures Closed(Opened(apps, inst), inst.id) == apps
  {
    ClosedConcat(apps, [inst], inst.id);
    ClosedAbsent(apps, inst.id);
    assert Closed([inst], inst.id) == [] + Closed([], inst.id);
  }

  /** Closing keeps the ids unique. */
  lemma {:induction false} ClosedKeepsUnique(apps: seq<OpenAppEntry>, id: string)
    requires UniqueIds(apps)
    ensures UniqueIds(Closed(apps, id))
  {
    if apps != [] {
      var rest := Closed(apps[1..], id);
      ClosedKeepsUnique(apps[1..], id);
      if apps[0].id != id {
        var r := [apps[0]] + rest;
        assert Closed(apps, id) == r;
        forall j | 0 < j < |r|
          ensures r[0].id != r[j].id
        {
          assert r[j] in apps[1..];
          var k :| 0 <= k < |apps[1..]| && apps[1..][k] == r[j];
          assert apps[k + 1] == r[j];
        }
      }
    }
  }

  /** What a double click on a desktop icon does. */
  datatype IconAction =
    | OpenTab(url: string)
    | Launch(appId: string, file: Option<FileNode>)
    | NoAction

  /** `s.replace(pat, rep)` with a string pattern: only the first occurrence is replaced. */
  function ReplaceFirst(s: string, pat: string, rep: string): (r: string)
    ensures IndexOf(s, pat) < 0 ==> r == s
  {
    var i := IndexOf(s, pat);
    if i < 0 then s else s[..i] + rep + s[i + |pat|..]
  }

  /**
   * `handleIconClick(node)`: web and local links of shortcuts open in a
   * new tab, "app:" shortcuts open the named app, a directory opens the
   * file explorer and a file opens the notepad on it.
   */
  function IconClickAction(node: FileNode): (act: IconAction)
    ensures act.OpenTab? ==> node.fileType == SHORTCUT && node.content == Some(act.url)
    ensures act.NoAction? ==> node.fileType == SHORTCUT
    ensures node.fileType == SHORTCUT && node.content.Some?
            && (StartsWith(node.content.value, "http") || StartsWith(node.content.value, "/")) ==>
              act == OpenTab(node.content.value)
  {
    match node.fileType
    case SHORTCUT =>
      if ContentStartsWith(node, "http") then OpenTab(node.content.value)
      else if ContentStartsWith(node, "/") then OpenTab(node.content.value)
      else if ContentStartsWith(node, "app:") then Launch(ReplaceFirst(node.content.value, "app:", ""), None)
      else NoAction
    case DIRECTORY => Launch(FILE_EXPLORER, None)
    case FILE => Launch(NOTEPAD, Some(node))
  }

  /** An "app:" link is neither a web link nor a local one: the first characters differ. */
  lemma AppIsNotLink(s: string)
    ensures StartsWith(s, "app:") ==> !StartsWith(s, "http") && !StartsWith(s, "/")
  {
    if StartsWith(s, "app:") {
      assert s[0] == 'a';
    }
  }

  /** Replacing the first "app:" of "app:" + name leaves the name, even when the name holds "app:" again. */
  lemma ReplaceLeadingApp(name: string)
    ensures ReplaceFirst("app:" + name, "app:", "") == name
  {
    var s := "app:" + name;
    assert OccursAt(s, "app:", 0);
    assert s[4..] == name;
  }

  /** The dispatch by kind of node. */
  lemma IconDispatch(node: FileNode, name: string)
    ensures node.fileType == SHORTCUT && node.content == Some("app:" + name) ==>
              IconClickAction(node) == Launch(name, None)
    ensures node.fileType == DIRECTORY ==> IconClickAction(node) == Launch(FILE_EXPLORER, None)
    ensures node.fileType == FILE ==> IconClickAction(node) == Launch(NOTEPAD, Some(node))
    ensures node.fileType == SHORTCUT && node.content.None? ==> IconClickAction(node) == NoAction
  {
    if node.fileType == SHORTCUT && node.content == Some("app:" + name) {
      var s := node.content.value;
      assert s[0] == 'a';
      assert !StartsWith(s, "http") && !StartsWith(s, "/");
      ReplaceLeadingApp(name);
    }
  }

  class DesktopView {
    var openApps: seq<OpenAppEntry>
    var focusedApp: Option<string>
    var selectedIcon: Option<FileNode>
    var isStartMenuOpen: bool
    /** The calls made to `onAddRecentApp`, oldest first. */
    var recentLog: seq<RecentApp>
    /** The URLs handed to `window.open`, oldest first. */
    var openedTabs: seq<string>

    ghost predicate Valid()
      reads this
    {
      UniqueIds(openApps)
    }

    constructor ()
      ensures Valid()
      ensures openApps == [] && focusedApp.None? && selectedIcon.None? && !isStartMenuOpen
      ensures recentLog == [] && openedTabs == []
    {
      openApps := [];
      focusedApp := None;
      selectedIcon := None;
      isStartMenuOpen := false;
      recentLog := [];
      openedTabs := [];
    }

    /**
     * `openApp(appId, file)`: an id without configuration changes nothing;
     * otherwise the app is recorded as recent, and its window is focused,
     * appended first when it is not open yet.
     */
    method OpenApp(appId: string, file: Option<FileNode>)
      requires Valid()
      modifies this`openApps, this`focusedApp, this`recentLog
      ensures Valid()
      ensures appId !in APP_CONFIG ==>
        openApps == old(openApps) && focusedApp == old(focusedApp) && recentLog == old(recentLog)
      ensures appId in APP_CONFIG ==>
        var config := APP_CONFIG[appId];
        var inst := Instance(appId, config, file);
        && recentLog == old(recentLog) + [RecentApp(appId, config.name, config.icon)]
        && openApps == Opened(old(openApps), inst)
        && focusedApp == Some(inst.id)
    {
      if appId !in APP_CONFIG {
        return;
      }
      var config := APP_CONFIG[appId];
      recentLog := recentLog + [RecentApp(appId, config.name, config.icon)];
      var inst := Instance(appId, config, file);
      OpenedKeepsUnique(openApps, inst);
      if IsOpen(openApps, inst.id) {
        focusedApp := Some(inst.id);
        return;
      }
      openApps := openApps + [inst];
      focusedApp := Some(inst.id);
    }

    /** `closeApp(appId)`: every window with that id goes, the others stay in order; the focus is not moved. */
    method CloseApp(appId: string)
      requires Valid()
      modifies this`openApps
      ensures Valid()
      ensures openApps == Closed(old(openApps), appId)
    {
      ClosedKeepsUnique(openApps, appId);
      openApps := Closed(openApps, appId);
    }

    /** `handleAppClick(appId)` and a window's `onFocus`. */
    method Focus(appId: string)
      modifies this`focusedApp
      ensures focusedApp == Some(appId)
    {
      focusedApp := Some(appId);
    }

    /** `getZIndex(appId)`: the focused window is on the upper level, every other one on the lower. */
    function GetZIndex(appId: string): (z: int)
      reads this
      ensures z == FOCUSED_Z <==> focusedApp == Some(appId)
      ensures z == UNFOCUSED_Z <==> focusedApp != Some(appId)
    {
      if focusedApp == Some(appId) then FOCUSED_Z else UNFOCUSED_Z
    }

    /** `handleIconClick(node)`, reached by a double click on an icon (`DesktopIcon.handleDoubleClick`). */
    method HandleIconClick(node: FileNode)
      requires Valid()
      modifies this`openApps, this`focusedApp, this`recentLog, this`openedTabs
      ensures Valid()
      ensures IconClickAction(node).OpenTab? ==>
        openedTabs == old(openedTabs) + [IconClickAction(node).url]
        && openApps == old(openApps) && focusedApp == old(focusedApp) && recentLog == old(recentLog)
      ensures IconClickAction(node).NoAction? ==>
        openedTabs == old(openedTabs)
        && openApps == old(openApps) && focusedApp == old(focusedApp) && recentLog == old(recentLog)
      ensures IconClickAction(node).Launch? ==>
        var act := IconClickAction(node);
        && openedTabs == old(openedTabs)
        && (act.appId !in APP_CONFIG ==>
              openApps == old(openApps) && focusedApp == old(focusedApp) && recentLog == old(recentLog))
        && (act.appId in APP_CONFIG ==>
              var config := APP_CONFIG[act.appId];
              var inst := Instance(act.appId, config, act.file);
              && recentLog == old(recentLog) + [RecentApp(act.appId, config.name, config.icon)]
              && openApps == Opened(old(openApps), inst)
              && focusedApp == Some(inst.id))
    {
      match IconClickAction(node) {
        case OpenTab(url) => openedTabs := openedTabs + [url];
        case Launch(appId, file) => OpenApp(appId, file);
        case NoAction =>
      }
    }

    /** `DesktopIcon.handleClick`: selects the icon; the click does not reach the desktop, so the start menu stays as it is. */
    method SelectIcon(node: FileNode)
      modifies this`selectedIcon
      ensures selectedIcon == Some(node)
    {
      selectedIcon := Some(node);
    }

    /** `handleDesktopClick`: a click on the desktop itself clears the selection and closes the start menu. */
    method DesktopClick()
      modifies this`selectedIcon, this`isStartMenuOpen
      ensures selectedIcon.None? && !isStartMenuOpen
    {
      selectedIcon := None;
      isStartMenuOpen := false;
    }
  }

  /** With unique ids, at most one open window is on the upper level. */
  lemma OneWindowOnTop(d: DesktopView, i: nat, j: nat)
    requires UniqueIds(d.openApps) && i < j < |d.openApps|
    ensures d.GetZIndex(d.openApps[i].id) == UNFOCUSED_Z || d.GetZIndex(d.openApps[j].id) == UNFOCUSED_Z
  {
  }
}

=== FILE: desktop_icon.dfy ===
/**
 * `DesktopIcon`: the emoji a desktop icon shows for a file node. The click
 * handlers of the icon are modelled with the desktop (module `Desktop`).
 */
module DesktopIcons {
  import opened Common
  import opened FileNodes

  const FOLDER: string := "\U{1F4C1}"
  const LAPTOP: string := "\U{1F4BB}"
  const BAR_CHART: string := "\U{1F4CA}"
  const OCTOPUS: string := "\U{1F419}"
  const LINK: string := "\U{1F517}"
  const DOCUMENT: string := "\U{1F4C4}"
  const MEMO: string := "\U{1F4DD}"

  /** `content?.startsWith(p)`: false when there is no content. */
  predicate ContentStartsWith(node: FileNode, p: string)
  {
    node.content.Some? && StartsWith(node.content.value, p)
  }

  /** `content?.includes(p)`: false when there is no content. */
  predicate ContentIncludes(node: FileNode, p: string)
  {
    node.content.Some? && Contains(node.content.value, p)
  }

  /**
   * `getIconEmoji(node)`: the folder only for directories; for shortcuts
   * the first matching rule among the terminal prefix, the task-manager
   * prefix and a "github" link; for the remaining nodes the memo only for
   * ".txt" names.
   */
  function GetIconEmoji(node: FileNode): (r: string)
    ensures r == FOLDER <==> node.fileType == DIRECTORY
    ensures r == LAPTOP <==> node.fileType == SHORTCUT && ContentStartsWith(node, "app:terminal")
    ensures r == BAR_CHART <==> node.fileType == SHORTCUT && ContentStartsWith(node, "app:taskmanager")
    ensures r == OCTOPUS <==>
              (node.fileType == SHORTCUT && !ContentStartsWith(node, "app:terminal")
               && !ContentStartsWith(node, "app:taskmanager") && ContentIncludes(node, "github"))
    ensures r == LINK <==>
              (node.fileType == SHORTCUT && !ContentStartsWith(node, "app:terminal")
               && !ContentStartsWith(node, "app:taskmanager") && !ContentIncludes(node, "github"))
    ensures r == MEMO <==> node.fileType == FILE && EndsWith(node.name, ".txt")
    ensures r == DOCUMENT <==> node.fileType == FILE && !EndsWith(node.name, ".txt")
  {
    EmojisDistinct();
    TaskManagerIsNotTerminal(node);
    match node.fileType
    case DIRECTORY => FOLDER
    case SHORTCUT =>
      if ContentStartsWith(node, "app:terminal") then LAPTOP
      else if ContentStartsWith(node, "app:taskmanager") then BAR_CHART
      else if ContentIncludes(node, "github") then OCTOPUS
      else LINK
    case FILE =>
      if EndsWith(node.name, ".pdf") then PdfIsNotTxt(node.name); DOCUMENT
      else if EndsWith(node.name, ".txt") then MEMO
      else DOCUMENT
  }

  /** The seven emoji are different strings. */
  lemma EmojisDistinct()
    ensures FOLDER != LAPTOP && FOLDER != BAR_CHART && FOLDER != OCTOPUS && FOLDER != LINK && FOLDER != DOCUMENT && FOLDER != MEMO
    ensures LAPTOP != BAR_CHART && LAPTOP != OCTOPUS && LAPTOP != LINK && LAPTOP != DOCUMENT && LAPTOP != MEMO
    ensures BAR_CHART != OCTOPUS && BAR_CHART != LINK && BAR_CHART != DOCUMENT && BAR_CHART != MEMO
    ensures OCTOPUS != LINK && OCTOPUS != DOCUMENT && OCTOPUS != MEMO
    ensures LINK != DOCUMENT && LINK != MEMO
    ensures DOCUMENT != MEMO
  {
  }

  /** The two app prefixes exclude each other: they differ at index 5. */
  lemma TaskManagerIsNotTerminal(node: FileNode)
    ensures ContentStartsWith(node, "app:taskmanager") ==> !ContentStartsWith(node, "app:terminal")
  {
    if ContentStartsWith(node, "app:taskmanager") {
      assert node.content.value[5] == "app:taskmanager"[5];
    }
  }

  /** A name ending in ".pdf" does not end in ".txt". */
  lemma PdfIsNotTxt(name: string)
    requires EndsWith(name, ".pdf")
    ensures !EndsWith(name, ".txt")
  {
    assert name[|name| - 3] == ".pdf"[1];
  }

  /** A directory shows the folder whatever its name and content. */
  lemma DirectoryIsFolder(id: string, parentId: Option<string>, name: string, content: Option<string>)
    ensures GetIconEmoji(FileNode(id, parentId, name, DIRECTORY, content)) == FOLDER
  {
  }

  /**
   * For shortcuts the first rule wins: a terminal or task-manager shortcut
   * keeps its own emoji even when its content mentions "github", and a
   * shortcut without content is a plain link.
   */
  lemma ShortcutFirstMatchWins(node: FileNode, rest: string)
    requires node.fileType == SHORTCUT
    ensures node.content == Some("app:terminal" + rest) ==> GetIconEmoji(node) == LAPTOP
    ensures node.content == Some("app:taskmanager" + rest) ==> GetIconEmoji(node) == BAR_CHART
    ensures node.content.None? ==> GetIconEmoji(node) == LINK
  {
    if node.content == Some("app:taskmanager" + rest) {
      // "app:taskmanager" does not start with "app:terminal": they differ at index 5.
      assert node.content.value[5] == 'a';
      assert !StartsWith(node.content.value, "app:terminal");
    }
  }

  /** A ".pdf" name falls under the document emoji like any other file that is not ".txt". */
  lemma PdfIsDocument(node: FileNode, stem: string)
    requires node.fileType == FILE && node.name == stem + ".pdf"
    ensures GetIconEmoji(node) == DOCUMENT
  {
    assert node.name[|node.name| - 4..] == ".pdf";
  }
}

=== FILE: draggable_window.dfy ===
/**
 * `DraggableWindow`: a desktop window moved by its header and resized from
 * its four edges and four corners. Positions and sizes are whole pixels;
 * each move of the mouse is measured from where the gesture started.
 */
module Windows {
  import opened Common

  /** Where a window sits and how large it is. */
  datatype Frame = Frame(x: int, y: int, width: int, height: int)

  /** `ResizeDirection` without `null`: the handle that was pressed. */
  datatype Direction = N | S | E | W | NE | NW | SE | SW

  /** `dir.includes(c)` for the edge letters. */
  predicate MovesEast(d: Direction)  { d == E || d == NE || d == SE }
  predicate MovesWest(d: Direction)  { d == W || d == NW || d == SW }
  predicate MovesSouth(d: Direction) { d == S || d == SE || d == SW }
  predicate MovesNorth(d: Direction) { d == N || d == NE || d == NW }

  /** What the pressed element is inside of: a button, input or textarea, and the window header. */
  datatype PressTarget = PressTarget(insideControl: bool, insideHeader: bool)

  /** The height kept free below a dragged window (the taskbar). */
  const TASKBAR_HEIGHT: int := 48
  const DEFAULT_X: int := 100
  const DEFAULT_Y: int := 50
  const DEFAULT_MIN_WIDTH: int := 300
  const DEFAULT_MIN_HEIGHT: int := 200

  function Max(a: int, b: int): int { if a >= b then a else b }
  function Min(a: int, b: int): int { if a <= b then a else b }

  /** `Math.max(0, Math.min(v, hi))`. */
  function Clamp(v: int, hi: int): (r: int)
    ensures 0 <= r <= Max(0, hi)
    ensures 0 <= v <= hi ==> r == v
  {
    Max(0, Min(v, hi))
  }

  /** A drag starts only from the header, and never from a control inside the window. */
  predicate StartsDrag(target: PressTarget)
  {
    !target.insideControl && target.insideHeader
  }

  /**
   * The position during a drag: the start position plus the mouse's
   * travel, clamped (when the window has a container of the given width and
   * height) so that it stays inside the container and above the taskbar.
   */
  function DragPosition(startX: int, startY: int, dx: int, dy: int, container: Option<(int, int)>,
                        width: int, height: int): (p: (int, int))
    ensures container.None? ==> p == (startX + dx, startY + dy)
    ensures container.Some? ==>
      && 0 <= p.0 <= Max(0, container.value.0 - width)
      && 0 <= p.1 <= Max(0, container.value.1 - height - TASKBAR_HEIGHT)
  {
    match container
    case None => (startX + dx, startY + dy)
    case Some((w, h)) => (Clamp(startX + dx, w - width), Clamp(startY + dy, h - height - TASKBAR_HEIGHT))
  }

  /** Within the container's free area the window follows the mouse exactly, and returning the mouse returns the window. */
  lemma DragFollowsMouse(startX: int, startY: int, dx: int, dy: int, w: int, h: int, width: int, height: int)
    requires 0 <= startX + dx <= w - width && 0 <= startY + dy <= h - height - TASKBAR_HEIGHT
    ensures DragPosition(startX, startY, dx, dy, Some((w, h)), width, height) == (startX + dx, startY + dy)
    ensures 0 <= startX <= w - width && 0 <= startY <= h - height - TASKBAR_HEIGHT ==>
              DragPosition(startX, startY, 0, 0, Some((w, h)), width, height) == (startX, startY)
  {
  }

  /**
   * The frame during a resize, from the frame at the start of the gesture
   * and the mouse's travel: an east edge sets the width to at least the
   * minimum, a west edge moves the left side by at most the room above the
   * minimum; the same for south/north and the height.
   */
  function ResizeFrame(dir: Direction, start: Frame, dx: int, dy: int, minWidth: int, minHeight: int): (f: Frame)
    ensures MovesEast(dir) ==> f.width == Max(minWidth, start.width + dx) && f.x == start.x
    ensures MovesWest(dir) ==> f.width == start.width - Min(dx, start.width - minWidth)
                               && f.x == start.x + Min(dx, start.width - minWidth)
    ensures MovesSouth(dir) ==> f.height == Max(minHeight, start.height + dy) && f.y == start.y
    ensures MovesNorth(dir) ==> f.height == start.height - Min(dy, start.height - minHeight)
                                && f.y == start.y + Min(dy, start.height - minHeight)
    ensures !MovesEast(dir) && !MovesWest(dir) ==> f.width == start.width && f.x == start.x
    ensures !MovesSouth(dir) && !MovesNorth(dir) ==> f.height == start.height && f.y == start.y
  {
    var f := start;
    var f := if MovesEast(dir) then f.(width := Max(minWidth, start.width + dx)) else f;
    var f := if MovesWest(dir) then
        var widthDelta := Min(dx, start.width - minWidth);
        f.(width := start.width - widthDelta, x := start.x + widthDelta)
      else f;
    var f := if MovesSouth(dir) then f.(height := Max(minHeight, start.height + dy)) else f;
    var f := if MovesNorth(dir) then
        var heightDelta := Min(dy, start.height - minHeight);
        f.(height := start.height - heightDelta, y := start.y + heightDelta)
      else f;
    f
  }

  /** No handle and no travel makes the window narrower or lower than the minimum it is resized with. */
  lemma ResizeKeepsMinimum(dir: Direction, start: Frame, dx: int, dy: int, minWidth: int, minHeight: int)
    requires start.width >= minWidth && start.height >= minHeight
    ensures ResizeFrame(dir, start, dx, dy, minWidth, minHeight).width >= minWidth
    ensures ResizeFrame(dir, start, dx, dy, minWidth, minHeight).height >= minHeight
  {
  }

  /**
   * A west or north handle keeps the opposite edge where it was, and never
   * moves the dragged edge past the point where the minimum size is reached.
   */
  lemma ResizeKeepsOppositeEdge(dir: Direction, start: Frame, dx: int, dy: int, minWidth: int, minHeight: int)
    ensures var f := ResizeFrame(dir, start, dx, dy, minWidth, minHeight);
      && (MovesWest(dir) ==> f.x + f.width == start.x + start.width && f.x <= start.x + start.width - minWidth)
      && (MovesNorth(dir) ==> f.y + f.height == start.y + start.height && f.y <= start.y + start.height - minHeight)
  {
  }

  /** With no travel, a window at least as large as its minimum keeps its frame. */
  lemma ResizeWithoutTravel(dir: Direction, start: Frame, minWidth: int, minHeight: int)
    requires start.width >= minWidth && start.height >= minHeight
    ensures ResizeFrame(dir, start, 0, 0, minWidth, minHeight) == start
  {
  }

  class DraggableWindow {
    var frame: Frame
    var isDragging: bool
    var isResizing: bool
    /** The refs `startPos`, `startSize`, `startMouse` and `resizeDir`. */
    var startFrame: Frame
    var startMouseX: int
    var startMouseY: int
    var resizeDir: Option<Direction>
    /**
     * What the drag's move handler captured at mousedown: whether the window
     * has a parent element, and the window's size. The parent's size is read
     * again on every move.
     */
    var dragInContainer: bool
    var dragWidth: int
    var dragHeight: int
    const minWidth: int
    const minHeight: int

    constructor (initialX: int, initialY: int, width: int, height: int, minWidth: int, minHeight: int)
      ensures frame == Frame(initialX, initialY, width, height)
      ensures !isDragging && !isResizing && resizeDir.None?
      ensures this.minWidth == minWidth && this.minHeight == minHeight
    {
      frame := Frame(initialX, initialY, width, height);
      isDragging := false;
      isResizing := false;
      startFrame := Frame(0, 0, 0, 0);
      startMouseX := 0;
      startMouseY := 0;
      resizeDir := None;
      dragInContainer := false;
      dragWidth := width;
      dragHeight := height;
      this.minWidth := minWidth;
      this.minHeight := minHeight;
    }

    /**
     * `handleMouseDown`: outside the header, or on a control, nothing
     * happens; otherwise the drag starts from the current position and the
     * window asks for focus.
     */
    method MouseDown(target: PressTarget, clientX: int, clientY: int, hasContainer: bool)
      returns (focused: bool)
      modifies this
      ensures focused == StartsDrag(target)
      ensures !StartsDrag(target) ==>
        isDragging == old(isDragging) && startFrame == old(startFrame)
        && startMouseX == old(startMouseX) && startMouseY == old(startMouseY) && dragInContainer == old(dragInContainer)
      ensures StartsDrag(target) ==>
        isDragging && startFrame.x == frame.x && startFrame.y == frame.y
        && startMouseX == clientX && startMouseY == clientY && dragInContainer == hasContainer
        && dragWidth == frame.width && dragHeight == frame.height
      ensures frame == old(frame) && isResizing == old(isResizing) && resizeDir == old(resizeDir)
    {
      if !StartsDrag(target) {
        return false;
      }
      focused := true;
      isDragging := true;
      startFrame := startFrame.(x := frame.x, y := frame.y);
      startMouseX, startMouseY := clientX, clientY;
      dragInContainer := hasContainer;
      dragWidth, dragHeight := frame.width, frame.height;
    }

    /**
     * The drag's `mousemove` listener: the position from the start position
     * and the travel, clamped to the container's size at this move, `bounds`
     * (its bounding rectangle's width and height), when there is a container.
     */
    method DragMove(clientX: int, clientY: int, bounds: (int, int))
      modifies this`frame
      ensures !isDragging ==> frame == old(frame)
      ensures isDragging ==>
        var p := DragPosition(startFrame.x, startFrame.y, clientX - startMouseX, clientY - startMouseY,
                              if dragInContainer then Some(bounds) else None, dragWidth, dragHeight);
        frame == old(frame).(x := p.0, y := p.1)
      ensures isDragging && dragInContainer ==> frame.x >= 0 && frame.y >= 0
    {
      if !isDragging {
        return;
      }
      var container := if dragInContainer then Some(bounds) else None;
      var p := DragPosition(startFrame.x, startFrame.y, clientX - startMouseX, clientY - startMouseY,
                            container, dragWidth, dragHeight);
      frame := frame.(x := p.0, y := p.1);
    }

    /** The drag's `mouseup` listener. */
    method DragEnd()
      modifies this`isDragging
      ensures !isDragging
    {
      isDragging := false;
    }

    /**
     * `handleResizeStart`: asks for focus (`focused`, the `onFocus` call)
     * and records the handle, the frame and the mouse at the start of the
     * gesture.
     */
    method ResizeStart(dir: Direction, clientX: int, clientY: int) returns (focused: bool)
      modifies this`isResizing, this`resizeDir, this`startFrame, this`startMouseX, this`startMouseY
      ensures focused
      ensures isResizing && resizeDir == Some(dir) && startFrame == frame
      ensures startMouseX == clientX && startMouseY == clientY
    {
      focused := true;
      isResizing := true;
      resizeDir := Some(dir);
      startFrame := frame;
      startMouseX, startMouseY := clientX, clientY;
    }

    /**
     * The resize's `mousemove` listener: the new frame depends only on the
     * snapshot taken at the start of the gesture and the total travel, not
     * on earlier moves.
     */
    method ResizeMove(clientX: int, clientY: int)
      modifies this`frame
      ensures !isResizing || resizeDir.None? ==> frame == old(frame)
      ensures isResizing && resizeDir.Some? ==>
        frame == ResizeFrame(resizeDir.value, startFrame, clientX - startMouseX, clientY - startMouseY, minWidth, minHeight)
    {
      if !isResizing || resizeDir.None? {
        return;
      }
      var dir := resizeDir.value;
      var deltaX := clientX - startMouseX;
      var deltaY := clientY - startMouseY;
      var newWidth := startFrame.width;
      var newHeight := startFrame.height;
      var newX := startFrame.x;
      var newY := startFrame.y;
      if MovesEast(dir) {
        newWidth := Max(minWidth, startFrame.width + deltaX);
      }
      if MovesWest(dir) {
        var widthDelta := Min(deltaX, startFrame.width - minWidth);
        newWidth := startFrame.width - widthDelta;
        newX := startFrame.x + widthDelta;
      }
      if MovesSouth(dir) {
        newHeight := Max(minHeight, startFrame.height + deltaY);
      }
      if MovesNorth(dir) {
        var heightDelta := Min(deltaY, startFrame.height - minHeight);
        newHeight := startFrame.height - heightDelta;
        newY := startFrame.y + heightDelta;
      }
      frame := Frame(newX, newY, newWidth, newHeight);
    }

    /** The resize's `mouseup` listener. */
    method ResizeEnd()
      modifies this`isResizing, this`resizeDir
      ensures !isResizing && resizeDir.None?
    {
      isResizing := false;
      resizeDir := None;
    }
  }
}

=== FILE: file_explorer.dfy ===
/**
 * The desktop `FileExplorer` window: a breadcrumb trail from the desktop to
 * the directory shown, navigation into a directory, to an earlier crumb and
 * back, the file preview and the shortcut dispatch. The listing and the
 * file contents fetched from the backend are inputs.
 */
module FileExplorer {
  import opened Common
  import opened FileNodes
  import Desktop
  import DesktopIcons

  /** A `BreadcrumbItem`. */
  datatype Crumb = Crumb(id: string, name: string)

  const DESKTOP_ID: string := "desktop"
  const ROOT_CRUMB: Crumb := Crumb(DESKTOP_ID, "Desktop")
  const LOAD_DIRECTORY_FAILED: string := "Failed to load directory contents"
  const LOAD_FILE_FAILED: string := "Failed to load file content"

  /** `ICON_MAP`: one emoji per node type, a different one for each. */
  function TypeIcon(t: FileType): (r: string)
    ensures r == DesktopIcons.FOLDER <==> t == DIRECTORY
    ensures r == DesktopIcons.DOCUMENT <==> t == FILE
    ensures r == DesktopIcons.LINK <==> t == SHORTCUT
  {
    DesktopIcons.EmojisDistinct();
    match t
    case DIRECTORY => DesktopIcons.FOLDER
    case FILE => DesktopIcons.DOCUMENT
    case SHORTCUT => DesktopIcons.LINK
  }

  /** A trail starts at the desktop. */
  predicate Rooted(path: seq<Crumb>)
  {
    |path| >= 1 && path[0] == ROOT_CRUMB
  }

  /** `navigateToDirectory`'s trail: a directory is pushed, anything else is ignored. */
  function Enter(path: seq<Crumb>, node: FileNode): (r: seq<Crumb>)
    ensures node.fileType == DIRECTORY ==> |r| == |path| + 1 && r[..|path|] == path && r[|path|] == Crumb(node.id, node.name)
    ensures node.fileType != DIRECTORY ==> r == path
    ensures Rooted(path) ==> Rooted(r)
  {
    if node.fileType != DIRECTORY then path else path + [Crumb(node.id, node.name)]
  }

  /** `navigateToBreadcrumb(index)`'s trail: cut after crumb `index`; an index without a crumb is ignored. */
  function GoTo(path: seq<Crumb>, index: int): (r: seq<Crumb>)
    ensures 0 <= index < |path| ==> r == path[..index + 1]
    ensures !(0 <= index < |path|) ==> r == path
    ensures Rooted(path) ==> Rooted(r)
  {
    if 0 <= index < |path| then path[..index + 1] else path
  }

  /** `navigateBack`'s trail: the crumb before the last, nothing at the desktop. */
  function Back(path: seq<Crumb>): (r: seq<Crumb>)
    ensures |path| <= 1 ==> r == path
    ensures |path| > 1 ==> r == path[..|path| - 1]
  {
    if |path| <= 1 then path else GoTo(path, |path| - 2)
  }

  /** Going back after entering a directory returns to the same trail, and going to the last crumb changes nothing. */
  lemma BackUndoesEnter(path: seq<Crumb>, node: FileNode)
    requires Rooted(path) && node.fileType == DIRECTORY
    ensures Back(Enter(path, node)) == path
    ensures GoTo(path, |path| - 1) == path
  {
  }

  /** Going to a crumb twice is going to it once, and a crumb reached is the last of the trail. */
  lemma GoToIdempotent(path: seq<Crumb>, index: int)
    requires 0 <= index < |path|
    ensures GoTo(GoTo(path, index), index) == GoTo(path, index)
    ensures GoTo(path, index)[|GoTo(path, index)| - 1] == path[index]
  {
  }

  /** Going back from a trail of n >= 2 crumbs n - 1 times reaches the desktop, never below it. */
  lemma {:induction false} BackReachesRoot(path: seq<Crumb>, n: nat)
    requires Rooted(path) && n >= |path| - 1
    ensures RepeatBack(path, n) == [ROOT_CRUMB]
    decreases n
  {
    if n > 0 && |path| > 1 {
      BackReachesRoot(Back(path), n - 1);
    } else if |path| > 1 {
      assert false;
    } else {
      RepeatBackAtRoot(path, n);
    }
  }

  /** `Back` applied `n` times. */
  function RepeatBack(path: seq<Crumb>, n: nat): seq<Crumb>
    decreases n
  {
    if n == 0 then path else RepeatBack(Back(path), n - 1)
  }

  lemma {:induction false} RepeatBackAtRoot(path: seq<Crumb>, n: nat)
    requires |path| <= 1
    ensures RepeatBack(path, n) == path
    decreases n
  {
    if n > 0 {
      RepeatBackAtRoot(Back(path), n - 1);
    }
  }

  /**
   * `handleShortcut`: nothing unless a shortcut with content; "app:"
   * opens the named app, "http" opens a new tab, anything else does nothing.
   */
  function ShortcutAction(node: FileNode): (act: Desktop.IconAction)
    ensures act.OpenTab? ==> node.content == Some(act.url) && StartsWith(act.url, "http")
    ensures act.Launch? ==> node.fileType == SHORTCUT && act.file.None?
    ensures node.fileType != SHORTCUT || node.content.None? || node.content == Some("") ==> act.NoAction?
    ensures node.fileType == SHORTCUT && node.content.Some? && StartsWith(node.content.value, "http") ==>
              act == Desktop.OpenTab(node.content.value)
  {
    if node.fileType != SHORTCUT || node.content.None? || node.content.value == "" then Desktop.NoAction
    else if StartsWith(node.content.value, "app:") then
      Desktop.AppIsNotLink(node.content.value);
      Desktop.Launch(Desktop.ReplaceFirst(node.content.value, "app:", ""), None)
    else if StartsWith(node.content.value, "http") then Desktop.OpenTab(node.content.value)
    else Desktop.NoAction
  }

  /** An "app:" shortcut opens the app named after the prefix; a local "/" link does nothing here. */
  lemma ShortcutDispatch(node: FileNode, name: string)
    requires node.fileType == SHORTCUT
    ensures node.content == Some("app:" + name) ==> ShortcutAction(node) == Desktop.Launch(name, None)
    ensures node.content.Some? && StartsWith(node.content.value, "/") ==> ShortcutAction(node) == Desktop.NoAction
  {
    if node.content == Some("app:" + name) {
      Desktop.ReplaceLeadingApp(name);
    }
    if node.content.Some? && StartsWith(node.content.value, "/") {
      var c := node.content.value;
      assert c[0] == '/';
      assert !StartsWith(c, "app:") by { assert "app:"[0] == 'a'; }
      assert !StartsWith(c, "http") by { assert "http"[0] == 'h'; }
    }
  }

  class FileExplorerView {
    var currentParentId: string
    var nodes: seq<FileNode>
    var selectedNode: Option<FileNode>
    var breadcrumbPath: seq<Crumb>
    var previewContent: Option<string>
    var previewNode: Option<FileNode>
    var isLoading: bool
    var error: Option<string>
    /** The app ids handed to `onOpenApp` and the URLs handed to `window.open`, oldest first. */
    var openedApps: seq<string>
    var openedTabs: seq<string>

    /** The trail starts at the desktop and ends at the directory shown. */
    ghost predicate Valid()
      reads this
    {
      Rooted(breadcrumbPath) && currentParentId == breadcrumbPath[|breadcrumbPath| - 1].id
    }

    constructor ()
      ensures Valid()
      ensures breadcrumbPath == [ROOT_CRUMB] && currentParentId == DESKTOP_ID
      ensures selectedNode.None? && previewContent.None? && previewNode.None? && isLoading && error.None?
      ensures nodes == [] && openedApps == [] && openedTabs == []
    {
      currentParentId := DESKTOP_ID;
      nodes := [];
      selectedNode := None;
      breadcrumbPath := [ROOT_CRUMB];
      previewContent := None;
      previewNode := None;
      isLoading := true;
      error := None;
      openedApps := [];
      openedTabs := [];
    }

    /** `loadNodes` with the fetched listing, `None` when the request failed. */
    method LoadNodes(fetched: Option<seq<FileNode>>)
      modifies this`nodes, this`error, this`isLoading
      ensures fetched.Some? ==> nodes == fetched.value && error.None?
      ensures fetched.None? ==> nodes == old(nodes) && error == Some(LOAD_DIRECTORY_FAILED)
      ensures !isLoading
    {
      error := None;
      if fetched.Some? {
        nodes := fetched.value;
      } else {
        error := Some(LOAD_DIRECTORY_FAILED);
      }
      isLoading := false;
    }

    /** `navigateToDirectory(node)`: a directory is entered and the selection and preview are cleared. */
    method NavigateToDirectory(node: FileNode)
      requires Valid()
      modifies this`currentParentId, this`breadcrumbPath, this`selectedNode, this`previewContent, this`previewNode
      ensures Valid()
      ensures breadcrumbPath == Enter(old(breadcrumbPath), node)
      ensures node.fileType != DIRECTORY ==>
        currentParentId == old(currentParentId) && selectedNode == old(selectedNode)
        && previewContent == old(previewContent) && previewNode == old(previewNode)
      ensures node.fileType == DIRECTORY ==>
        currentParentId == node.id && selectedNode.None? && previewContent.None? && previewNode.None?
    {
      if node.fileType != DIRECTORY {
        return;
      }
      currentParentId := node.id;
      breadcrumbPath := breadcrumbPath + [Crumb(node.id, node.name)];
      selectedNode := None;
      previewContent := None;
      previewNode := None;
    }

    /** `navigateToBreadcrumb(index)`: the trail is cut after that crumb; an index without a crumb is ignored. */
    method NavigateToBreadcrumb(index: int)
      requires Valid()
      modifies this`currentParentId, this`breadcrumbPath, this`selectedNode, this`previewContent, this`previewNode
      ensures Valid()
      ensures breadcrumbPath == GoTo(old(breadcrumbPath), index)
      ensures !(0 <= index < |old(breadcrumbPath)|) ==>
        currentParentId == old(currentParentId) && selectedNode == old(selectedNode)
        && previewContent == old(previewContent) && previewNode == old(previewNode)
      ensures 0 <= index < |old(breadcrumbPath)| ==>
        currentParentId == old(breadcrumbPath)[index].id
        && selectedNode.None? && previewContent.None? && previewNode.None?
    {
      if !(0 <= index < |breadcrumbPath|) {
        return;
      }
      var target := breadcrumbPath[index];
      currentParentId := target.id;
      breadcrumbPath := breadcrumbPath[..index + 1];
      selectedNode := None;
      previewContent := None;
      previewNode := None;
    }

    /** `navigateBack()`: nothing at the desktop, otherwise the crumb before the last. */
    method NavigateBack()
      requires Valid()
      modifies this`currentParentId, this`breadcrumbPath, this`selectedNode, this`previewContent, this`previewNode
      ensures Valid()
      ensures breadcrumbPath == Back(old(breadcrumbPath))
      ensures |old(breadcrumbPath)| <= 1 ==> currentParentId == old(currentParentId) && selectedNode == old(selectedNode)
      ensures |old(breadcrumbPath)| > 1 ==> selectedNode.None? && previewContent.None? && previewNode.None?
    {
      if |breadcrumbPath| <= 1 {
        return;
      }
      NavigateToBreadcrumb(|breadcrumbPath| - 2);
    }

    /** `handleFilePreview(node)` with the fetched node (`None` when the request failed); only files are previewed. */
    method FilePreview(node: FileNode, fetched: Option<FileNode>)
      modifies this`previewContent, this`previewNode, this`error
      ensures node.fileType != FILE ==>
        previewContent == old(previewContent) && previewNode == old(previewNode) && error == old(error)
      ensures node.fileType == FILE && fetched.Some? ==>
        previewContent == fetched.value.content && previewNode == fetched && error == old(error)
      ensures node.fileType == FILE && fetched.None? ==>
        previewContent == old(previewContent) && previewNode == old(previewNode) && error == Some(LOAD_FILE_FAILED)
    {
      if node.fileType != FILE {
        return;
      }
      if fetched.Some? {
        previewContent := fetched.value.content;
        previewNode := fetched;
      } else {
        error := Some(LOAD_FILE_FAILED);
      }
    }

    /** `handleShortcut(node)`. */
    method HandleShortcut(node: FileNode)
      modifies this`openedApps, this`openedTabs
      ensures ShortcutAction(node).Launch? ==>
        openedApps == old(openedApps) + [ShortcutAction(node).appId] && openedTabs == old(openedTabs)
      ensures ShortcutAction(node).OpenTab? ==>
        openedTabs == old(openedTabs) + [ShortcutAction(node).url] && openedApps == old(openedApps)
      ensures ShortcutAction(node).NoAction? ==> openedApps == old(openedApps) && openedTabs == old(openedTabs)
    {
      match ShortcutAction(node) {
        case Launch(appId, _) => openedApps := openedApps + [appId];
        case OpenTab(url) => openedTabs := openedTabs + [url];
        case NoAction =>
      }
    }

    /**
     * `handleDoubleClick(node)`: a directory is entered, a file previewed
     * (with `fetched` as the fetched node) and a shortcut followed.
     */
    method HandleDoubleClick(node: FileNode, fetched: Option<FileNode>)
      requires Valid()
      modifies this`currentParentId, this`breadcrumbPath, this`selectedNode, this`previewContent, this`previewNode
      modifies this`error, this`openedApps, this`openedTabs
      ensures Valid()
      ensures breadcrumbPath == Enter(old(breadcrumbPath), node)
      ensures node.fileType == DIRECTORY ==> currentParentId == node.id && selectedNode.None? && previewNode.None?
      ensures node.fileType == FILE && fetched.Some? ==> previewContent == fetched.value.content && previewNode == fetched
      ensures node.fileType == FILE && fetched.None? ==> error == Some(LOAD_FILE_FAILED)
      ensures node.fileType == SHORTCUT && ShortcutAction(node).Launch? ==>
        openedApps == old(openedApps) + [ShortcutAction(node).appId]
      ensures node.fileType == SHORTCUT && ShortcutAction(node).OpenTab? ==>
        openedTabs == old(openedTabs) + [ShortcutAction(node).url]
      ensures node.fileType != SHORTCUT ==> openedApps == old(openedApps) && openedTabs == old(openedTabs)
    {
      match node.fileType {
        case DIRECTORY => NavigateToDirectory(node);
        case FILE => FilePreview(node, fetched);
        case SHORTCUT => HandleShortcut(node);
      }
    }

    /** `handleNodeClick`: selects the node. */
    method SelectNode(node: FileNode)
      modifies this`selectedNode
      ensures selectedNode == Some(node)
    {
      selectedNode := Some(node);
    }

    /** `closePreview`. */
    method ClosePreview()
      modifies this`previewContent, this`previewNode
      ensures previewContent.None? && previewNode.None?
    {
      previewContent := None;
      previewNode := None;
    }
  }
}

=== FILE: file_node.dfy ===
/**
 * An entry of the virtual file system (`FileNode` and `FileType`) and its
 * JSON-P form.
 */
module FileNodes {
  import opened Common
  import opened Json

  datatype FileType = DIRECTORY | FILE | SHORTCUT

  /** `FileType.name()`. */
  function TypeName(t: FileType): (s: string)
  {
    match t
    case DIRECTORY => "DIRECTORY"
    case FILE => "FILE"
    case SHORTCUT => "SHORTCUT"
  }

  /** `FileType.valueOf(s)`: `None` where Java throws `IllegalArgumentException`. */
  function TypeValueOf(s: string): (r: Option<FileType>)
    ensures r.Some? ==> TypeName(r.value) == s
  {
    if s == "DIRECTORY" then Some(DIRECTORY)
    else if s == "FILE" then Some(FILE)
    else if s == "SHORTCUT" then Some(SHORTCUT)
    else None
  }

  /** `valueOf` inverts `name`, and accepts exactly the three names. */
  lemma TypeValueOfName(t: FileType)
    ensures TypeValueOf(TypeName(t)) == Some(t)
  {
  }

  /** A node; `parentId` is `None` only for the root, `content` is `None` for directories. */
  datatype FileNode = FileNode(
    id: string,
    parentId: Option<string>,
    name: string,
    fileType: FileType,
    content: Option<string>)

  const FileNodeKeys: set<string> := {"id", "name", "type", "parentId", "content"}

  /** `FileNode.toJSON()`: id, name, type, then parentId and content (null when absent). */
  function ToJson(n: FileNode): (fields: Fields)
    ensures fields.Keys == FileNodeKeys
    ensures Get(fields, "id") == Some(JString(n.id))
    ensures Get(fields, "name") == Some(JString(n.name))
    ensures Get(fields, "type") == Some(JString(TypeName(n.fileType)))
    ensures Get(fields, "parentId") == (if n.parentId.Some? then Some(JString(n.parentId.value)) else Some(JNull))
    ensures Get(fields, "content") == (if n.content.Some? then Some(JString(n.content.value)) else Some(JNull))
  {
    map["id" := JString(n.id), "name" := JString(n.name), "type" := JString(TypeName(n.fileType)),
        "parentId" := NullableValue(n.parentId), "content" := NullableValue(n.content)]
  }

  /**
   * `FileNode.fromJSON(json)`: `None` where Java throws (a missing key, a
   * value that is not a string, an unknown type name).
   */
  function FromJson(fields: Fields): (r: Option<FileNode>)
    ensures r.Some? ==> Get(fields, "id") == Some(JString(r.value.id))
    ensures r.Some? ==> Get(fields, "name") == Some(JString(r.value.name))
    ensures r.Some? ==> Get(fields, "type") == Some(JString(TypeName(r.value.fileType)))
    ensures r.None? ==> GetString(fields, "id").None? || GetNullableString(fields, "parentId").None?
                        || GetString(fields, "name").None? || GetString(fields, "type").None?
                        || TypeValueOf(GetString(fields, "type").value).None?
                        || GetNullableString(fields, "content").None?
  {
    var id := GetString(fields, "id");
    var parentId := GetNullableString(fields, "parentId");
    var name := GetString(fields, "name");
    var typeName := GetString(fields, "type");
    var content := GetNullableString(fields, "content");
    if id.None? || parentId.None? || name.None? || typeName.None? || content.None? then None
    else
      match TypeValueOf(typeName.value)
      case None => None
      case Some(t) => Some(FileNode(id.value, parentId.value, name.value, t, content.value))
  }

  /** Reading back a serialised node gives the node. */
  lemma FromJsonToJson(n: FileNode)
    ensures FromJson(ToJson(n)) == Some(n)
  {
    var fields := ToJson(n);
    NullableRoundTrip(fields, "parentId", n.parentId);
    NullableRoundTrip(fields, "content", n.content);
    TypeValueOfName(n.fileType);
  }

  /** A parsed node serialises to an object that agrees with the input on every key it read. */
  lemma ToJsonFromJson(fields: Fields)
    requires FromJson(fields).Some?
    ensures forall k :: k in FileNodeKeys ==> Get(ToJson(FromJson(fields).value), k) == Get(fields, k)
  {
  }
}

=== FILE: file_nodes_resource.dfy ===
/**
 * `FileNodesResource`: the REST endpoints over the file table. Each endpoint
 * reads its parameters, decides the HTTP status, and delegates to
 * `FileSystemService`; bodies are JSON objects.
 */
module FileNodesApi {
  import opened Common
  import opened Json
  import opened FileNodes
  import opened FileTable
  import opened FileSystem

  /** An HTTP response: its status code and its JSON entity. */
  datatype HttpResponse = HttpResponse(status: int, body: JsonValue)

  /** `{"error": message}`. */
  function ErrorBody(message: string): (body: JsonValue)
    ensures body.JObject? && body.fields.Keys == {"error"} && body.fields["error"] == JString(message)
  {
    JObject(map["error" := JString(message)])
  }

  /** The JSON array of the serialised nodes, in order. */
  function NodesJson(ns: Table): (items: seq<JsonValue>)
    ensures |items| == |ns|
    ensures forall i :: 0 <= i < |ns| ==> items[i] == JObject(ToJson(ns[i]))
  {
    seq(|ns|, i requires 0 <= i < |ns| => JObject(ToJson(ns[i])))
  }

  /** `request.getString("name", null)`. */
  function RequestedName(request: Fields): (name: Option<string>)
    ensures name == GetString(request, "name")
  {
    GetString(request, "name")
  }

  /** `request.getString("parentId", "desktop")`. */
  function RequestedParent(request: Fields): (parent: string)
    ensures "parentId" !in request ==> parent == DefaultParentId
    ensures GetString(request, "parentId").Some? ==> parent == GetString(request, "parentId").value
  {
    GetStringOr(request, "parentId", DefaultParentId)
  }

  /** `request.getString("type", "FILE")`. */
  function RequestedType(request: Fields): (typeName: string)
    ensures "type" !in request ==> typeName == "FILE"
    ensures GetString(request, "type").Some? ==> typeName == GetString(request, "type").value
  {
    GetStringOr(request, "type", "FILE")
  }

  /** A create request without a usable name. */
  predicate NameMissing(request: Fields)
  {
    RequestedName(request).None? || IsBlank(RequestedName(request).value)
  }

  /**
   * The checks of `createNode` before anything is stored, in order: 400 for
   * a missing or blank name, 409 for a name already used in the parent, and
   * 500 when `FileType.valueOf` throws on an unknown type name.
   * `None` lets the request through.
   */
  function CreateGuard(mft: Table, request: Fields): (r: Option<HttpResponse>)
    ensures NameMissing(request) ==> r == Some(HttpResponse(400, ErrorBody("Name is required")))
    ensures !NameMissing(request) && FindByNameInParent(mft, Some(RequestedParent(request)), RequestedName(request).value).Some? ==>
              r == Some(HttpResponse(409, ErrorBody("File already exists: " + RequestedName(request).value)))
    ensures r.None? <==>
              !NameMissing(request)
              && (forall n :: n in ChildrenOf(mft, RequestedParent(request)) ==> n.name != RequestedName(request).value)
              && TypeValueOf(RequestedType(request)).Some?
  {
    if NameMissing(request) then
      Some(HttpResponse(400, ErrorBody("Name is required")))
    else
      var name := RequestedName(request).value;
      if FindByNameInParent(mft, Some(RequestedParent(request)), name).Some? then
        Some(HttpResponse(409, ErrorBody("File already exists: " + name)))
      else if TypeValueOf(RequestedType(request)).None? then
        Some(HttpResponse(500, JNull))
      else
        None
  }

  /** A missing or blank name is answered 400 whatever the table holds. */
  lemma NameCheckedBeforeDuplicates(m1: Table, m2: Table, request: Fields)
    requires NameMissing(request)
    ensures CreateGuard(m1, request) == CreateGuard(m2, request)
    ensures CreateGuard(m1, request).value.status == 400
  {
  }

  /** A name already present in the parent is answered 409, whatever the type and content. */
  lemma DuplicateNameConflicts(mft: Table, request: Fields, n: FileNode)
    requires !NameMissing(request)
    requires n in mft && n.parentId == Some(RequestedParent(request)) && n.name == RequestedName(request).value
    ensures CreateGuard(mft, request).Some? && CreateGuard(mft, request).value.status == 409
  {
    assert n in ChildrenOf(mft, RequestedParent(request));
  }

  class FileNodesResource {
    const fileSystemService: FileSystemService

    constructor (fileSystemService: FileSystemService)
      ensures this.fileSystemService == fileSystemService
    {
      this.fileSystemService := fileSystemService;
    }

    /**
     * GET /file-nodes?parentId=…: 200 with the children of the parent, in
     * table order; an absent query parameter means "desktop".
     */
    function ListNodes(parentId: Option<string>): (r: HttpResponse)
      reads fileSystemService
      ensures r.status == 200 && r.body.JArray?
      ensures var listed := FindByParentId(fileSystemService.mft, Some(parentId.GetOr(DefaultParentId)));
        |r.body.items| == |listed|
        && forall i :: 0 <= i < |listed| ==> r.body.items[i] == JObject(ToJson(listed[i]))
    {
      HttpResponse(200, JArray(NodesJson(FindByParentId(fileSystemService.mft, Some(parentId.GetOr(DefaultParentId))))))
    }

    /** GET /file-nodes/{id}: 200 with the node, or 404 with "File not found: <id>". */
    function GetNode(id: string): (r: HttpResponse)
      reads fileSystemService
      ensures r.status == 200 <==> id in Ids(fileSystemService.mft)
      ensures r.status != 200 ==> r == HttpResponse(404, ErrorBody("File not found: " + id))
      ensures r.status == 200 ==> r.body == JObject(ToJson(FindById(fileSystemService.mft, id).value))
    {
      match FindById(fileSystemService.mft, id)
      case Some(n) => HttpResponse(200, JObject(ToJson(n)))
      case None => HttpResponse(404, ErrorBody("File not found: " + id))
    }

    /**
     * POST /file-nodes: the guard's answer with the table unchanged, or 201
     * with one new node appended under the requested parent (default
     * "desktop"), of the requested type (default FILE), with the requested
     * content (absent when not given).
     */
    method CreateNode(request: Fields) returns (response: HttpResponse)
      requires fileSystemService.Valid()
      modifies fileSystemService
      ensures fileSystemService.Valid()
      ensures CreateGuard(old(fileSystemService.mft), request).Some? ==>
                response == CreateGuard(old(fileSystemService.mft), request).value
                && fileSystemService.mft == old(fileSystemService.mft)
      ensures CreateGuard(old(fileSystemService.mft), request).None? ==>
                exists node: FileNode ::
                  && fileSystemService.mft == old(fileSystemService.mft) + [node]
                  && node.id !in Ids(old(fileSystemService.mft))
                  && node.parentId == Some(RequestedParent(request))
                  && node.name == RequestedName(request).value
                  && Some(node.fileType) == TypeValueOf(RequestedType(request))
                  && node.content == GetString(request, "content")
                  && response == HttpResponse(201, JObject(ToJson(node)))
    {
      var guard := CreateGuard(fileSystemService.mft, request);
      if guard.Some? {
        return guard.value;
      }
      var fileType := TypeValueOf(RequestedType(request)).value;
      var node := fileSystemService.CreateNode(Some(RequestedParent(request)), RequestedName(request).value,
                                               fileType, GetString(request, "content"));
      response := HttpResponse(201, JObject(ToJson(node)));
    }

    /**
     * DELETE /file-nodes/{id}: 404 for an unknown id; otherwise a directory
     * is removed with everything below it and any other node alone, and the
     * answer is 204. (The 500 "Failed to delete node" branch cannot be taken
     * once the node was found.)
     */
    method DeleteNode(id: string) returns (response: HttpResponse)
      requires fileSystemService.Valid()
      modifies fileSystemService
      ensures fileSystemService.Valid()
      ensures id !in Ids(old(fileSystemService.mft)) ==>
                response == HttpResponse(404, ErrorBody("File not found: " + id))
                && fileSystemService.mft == old(fileSystemService.mft)
      ensures id in Ids(old(fileSystemService.mft)) ==> response == HttpResponse(204, JNull)
      ensures id in Ids(old(fileSystemService.mft)) && FindById(old(fileSystemService.mft), id).value.fileType == DIRECTORY ==>
                fileSystemService.mft == RemoveIds(old(fileSystemService.mft), DescendantIds(old(fileSystemService.mft), id) + {id})
      ensures id in Ids(old(fileSystemService.mft)) && FindById(old(fileSystemService.mft), id).value.fileType != DIRECTORY ==>
                fileSystemService.mft == RemoveIds(old(fileSystemService.mft), {id})
    {
      var node := FindById(fileSystemService.mft, id);
      if node.None? {
        return HttpResponse(404, ErrorBody("File not found: " + id));
      }
      var deleted;
      if node.value.fileType == DIRECTORY {
        deleted := fileSystemService.DeleteNodeRecursive(id);
      } else {
        deleted := fileSystemService.DeleteNode(id);
      }
      if deleted {
        response := HttpResponse(204, JNull);
      } else {
        response := HttpResponse(500, ErrorBody("Failed to delete node"));
      }
    }
  }

  /** A 200 from `getNode` carries a body that reads back as the node with the requested id. */
  lemma GetNodeBodyReadsBack(resource: FileNodesResource, id: string)
    requires resource.GetNode(id).status == 200
    ensures var body := resource.GetNode(id).body;
      body.JObject? && FromJson(body.fields).Some? && FromJson(body.fields).value.id == id
      && FromJson(body.fields) == FindById(resource.fileSystemService.mft, id)
  {
    FromJsonToJson(FindById(resource.fileSystemService.mft, id).value);
  }

  /** Every entry of a listing reads back as a node whose parent is the one asked for. */
  lemma ListedNodesReadBack(resource: FileNodesResource, parentId: Option<string>, i: nat)
    requires i < |resource.ListNodes(parentId).body.items|
    ensures var item := resource.ListNodes(parentId).body.items[i];
      item.JObject? && FromJson(item.fields).Some?
      && FromJson(item.fields).value.parentId == Some(parentId.GetOr(DefaultParentId))
      && FromJson(item.fields).value in resource.fileSystemService.mft
  {
    var listed := FindByParentId(resource.fileSystemService.mft, Some(parentId.GetOr(DefaultParentId)));
    assert listed[i] in listed;
    FromJsonToJson(listed[i]);
  }
}

=== FILE: file_system.dfy ===
/**
 * `FileSystemService`: the mutable Master File Table. Lookups are the
 * `FileTable` queries applied to `mft`; the methods here are the ones that
 * change the table or walk it with a loop.
 */
module FileSystem {
  import opened Common
  import opened FileNodes
  import opened FileTable

  class FileSystemService {
    /** The Master File Table, in insertion order. */
    var mft: Table

    /** Ids are unique and the parent links have no cycle. */
    ghost predicate Valid()
      reads this
    {
      UniqueIds(mft) && Acyclic(mft)
    }

    constructor()
      ensures mft == InitialTable
      ensures Valid()
    {
      mft := InitialTable;
      InitialIdsUnique();
      InitialTableAcyclic();
    }

    /**
     * `createNode`: appends one node with the given fields under a fresh id
     * (standing for a random UUID) and returns it.
     */
    method CreateNode(parentId: Option<string>, name: string, fileType: FileType, content: Option<string>)
      returns (node: FileNode)
      requires Valid()
      modifies this
      ensures Valid()
      ensures node.id !in Ids(old(mft)) && node.id !in ParentIds(old(mft))
      ensures node == FileNode(node.id, parentId, name, fileType, content)
      ensures mft == old(mft) + [node]
    {
      var id := FreshId(mft, parentId.GetOr(""));
      node := FileNode(id, parentId, name, fileType, content);
      UniqueIdsSnoc(mft, node);
      AppendFreshAcyclic(mft, node);
      mft := mft + [node];
    }

    /** `deleteNode`: removes every node with the id; true iff there was one. */
    method DeleteNode(id: string) returns (removed: bool)
      requires Valid()
      modifies this
      ensures Valid()
      ensures mft == RemoveIds(old(mft), {id})
      ensures removed <==> id in Ids(old(mft))
    {
      var before := |mft|;
      RemoveIdsShorter(mft, {id});
      AvoidsIff(mft, {id});
      assert Ids(mft) !! {id} <==> id !in Ids(mft);
      RemoveIdsUnique(mft, {id});
      RemoveIdsAcyclic(mft, {id});
      mft := RemoveIds(mft, {id});
      removed := |mft| != before;
    }

    /**
     * `collectChildIds`: the ids of all nodes below `parentId`, each child's
     * descendants before the child itself. The contract fixes the set of ids
     * and not this depth-first order: the only caller deletes every id in
     * the list, and the result of that does not depend on the order.
     */
    method CollectChildIds(parentId: string) returns (ids: seq<string>)
      requires Valid()
      ensures Elems(ids) == DescendantIds(mft, parentId)
      decreases DescendantIds(mft, parentId)
    {
      var children := FindByParentId(mft, Some(parentId));
      ids := [];
      var i := 0;
      while i < |children|
        invariant 0 <= i <= |children|
        invariant Elems(ids) == SubtreeIds(mft, children[..i])
      {
        var child := children[i];
        ChildDescendantsSmaller(mft, parentId, child);
        var below := CollectChildIds(child.id);
        CollectStep(mft, children, i, ids, below);
        ids := ids + below + [child.id];
        i := i + 1;
      }
      assert children[..i] == children;
      DescendantsByChildren(mft, parentId);
    }

    /**
     * `deleteNodeRecursive`: false and no change for an unknown id; otherwise
     * removes the node and everything below it, and nothing else.
     */
    method DeleteNodeRecursive(id: string) returns (deleted: bool)
      requires Valid()
      modifies this
      ensures Valid()
      ensures id !in Ids(old(mft)) ==> !deleted && mft == old(mft)
      ensures id in Ids(old(mft)) ==> deleted && mft == RemoveIds(old(mft), DescendantIds(old(mft), id) + {id})
    {
      if FindById(mft, id).None? {
        return false;
      }
      ghost var m0 := mft;
      var ids := CollectChildIds(id);
      assert mft == RemoveIds(m0, Elems(ids[..0])) by {
        RemoveIdsNone(mft, {});
        assert Elems(ids[..0]) == {};
      }
      var i := 0;
      while i < |ids|
        invariant 0 <= i <= |ids|
        invariant Valid()
        invariant mft == RemoveIds(m0, Elems(ids[..i]))
      {
        var ignored := DeleteNode(ids[i]);
        DeleteStep(m0, ids, i);
        i := i + 1;
      }
      assert mft == RemoveIds(m0, DescendantIds(m0, id)) by {
        assert ids[..i] == ids;
      }
      ghost var subtree := DescendantIds(m0, id) + {id};
      assert id in Ids(mft) && RemoveIds(mft, {id}) == RemoveIds(m0, subtree) by {
        RemoveDescendantsThenNode(m0, id);
      }
      deleted := DeleteNode(id);
    }

    /**
     * `buildPath`: "/" followed by the names from the topmost ancestor down
     * to the node, joined with "/"; "/" alone for an unknown id.
     */
    method BuildPath(nodeId: string) returns (path: string)
      requires Valid()
      ensures path == "/" + Join(PathNames(mft, Some(nodeId)), "/")
    {
      var parts: seq<string> := [];
      var current: Option<string> := Some(nodeId);
      while current.Some?
        invariant PathNames(mft, Some(nodeId)) == PathNames(mft, current) + parts
        decreases if current.Some? then Height(mft, current.value) else 0
      {
        var node := FindById(mft, current.value);
        if node.None? {
          assert PathNames(mft, current) == [];
          break;
        }
        parts := [node.value.name] + parts;
        if node.value.parentId.Some? {
          HeightOfParent(mft, node.value);
        }
        current := node.value.parentId;
      }
      assert PathNames(mft, current) == [];
      assert PathNames(mft, Some(nodeId)) == parts;
      path := "/" + Join(parts, "/");
    }
  }

  /** One round of `collectChildIds`' loop: a child's descendants, then the child. */
  lemma CollectStep(mft: Table, children: Table, i: nat, ids: seq<string>, below: seq<string>)
    requires Acyclic(mft) && i < |children|
    requires Elems(ids) == SubtreeIds(mft, children[..i])
    requires Elems(below) == DescendantIds(mft, children[i].id)
    ensures Elems(ids + below + [children[i].id]) == SubtreeIds(mft, children[..i + 1])
  {
    ElemsConcat(ids, below);
    ElemsConcat(ids + below, [children[i].id]);
    assert children[..i + 1] == children[..i] + [children[i]];
    SubtreeIdsSnoc(mft, children[..i], children[i]);
  }

  /** One round of `deleteNodeRecursive`'s loop removes one more collected id. */
  lemma DeleteStep(mft: Table, ids: seq<string>, i: nat)
    requires i < |ids|
    ensures RemoveIds(RemoveIds(mft, Elems(ids[..i])), {ids[i]}) == RemoveIds(mft, Elems(ids[..i + 1]))
  {
    var done := Elems(ids[..i]);
    assert ids[..i + 1] == ids[..i] + [ids[i]];
    ElemsConcat(ids[..i], [ids[i]]);
    assert Elems(ids[..i + 1]) == done + {ids[i]};
    RemoveIdsTwice(mft, done, {ids[i]});
  }

  /**
   * A node survives the removal of its descendants, and removing it next
   * completes the removal of its whole subtree.
   */
  lemma RemoveDescendantsThenNode(mft: Table, id: string)
    requires Acyclic(mft) && id in Ids(mft)
    ensures id in Ids(RemoveIds(mft, DescendantIds(mft, id)))
    ensures RemoveIds(RemoveIds(mft, DescendantIds(mft, id)), {id}) == RemoveIds(mft, DescendantIds(mft, id) + {id})
  {
    var below := DescendantIds(mft, id);
    NotOwnDescendant(mft, id);
    var n :| n in mft && n.id == id;
    assert n in RemoveIds(mft, below);
    RemoveIdsTwice(mft, below, {id});
  }

  /** The path of a child is its parent's path, "/", and its name. */
  lemma BuildPathChild(mft: Table, n: FileNode)
    requires UniqueIds(mft) && Acyclic(mft) && n in mft && n.parentId.Some?
    requires n.parentId.value in Ids(mft)
    ensures "/" + Join(PathNames(mft, Some(n.id)), "/")
         == "/" + Join(PathNames(mft, n.parentId), "/") + "/" + n.name
  {
    PathNamesChild(mft, n);
    var p := FindById(mft, n.parentId.value).value;
    PathNamesChild(mft, p);
    JoinAppend(PathNames(mft, n.parentId), n.name, "/");
  }
}

=== FILE: file_table.dfy ===
/**
 * The Master File Table of the virtual file system as a value: the queries
 * `FileSystemService` answers with stream filters, the initial table, and
 * the ancestry relation that recursive deletion and path building follow.
 *
 * The parent links are acyclic: some rank assignment strictly increases from
 * every parent to its child (`Acyclic`). `Height` uses such a rank as the
 * termination measure for walking up (`Ancestors`, `PathNames`) and the set
 * of descendants for walking down.
 */
module FileTable {
  import opened Common
  import opened FileNodes

  type Table = seq<FileNode>

  /** `DEFAULT_PARENT_ID` and `ROOT_ID`. */
  const DefaultParentId: string := "desktop"
  const RootId: string := "desktop"

  const AboutText: string :=
    "Welcome to my WebOS Portfolio! I'm passionate about building innovative software solutions."
  const WebOsText: string := "A browser-based Windows 11 simulation powered by Java 25 backend."
  const ApiText: string := "High-performance JAX-RS framework with reactive streams support."

  /** The table `FileSystemService` starts with. */
  const InitialTable: Table := [
    FileNode("desktop", None, "Desktop", DIRECTORY, None),
    FileNode("cv", Some("desktop"), "My CV", SHORTCUT, Some("app:cvviewer")),
    FileNode("github", Some("desktop"), "GitHub", SHORTCUT, Some("https://github.com/webos-portfolio")),
    FileNode("about", Some("desktop"), "About Me.txt", FILE, Some(AboutText)),
    FileNode("projects", Some("desktop"), "Projects", DIRECTORY, None),
    FileNode("terminal", Some("desktop"), "Terminal", SHORTCUT, Some("app:terminal")),
    FileNode("task-manager", Some("desktop"), "Task Manager", SHORTCUT, Some("app:taskmanager")),
    FileNode("settings", Some("desktop"), "Settings", SHORTCUT, Some("app:settings")),
    FileNode("file-explorer", Some("desktop"), "File Explorer", SHORTCUT, Some("app:fileexplorer")),
    FileNode("chrome", Some("desktop"), "Chrome", SHORTCUT, Some("app:chrome")),
    FileNode("paint", Some("desktop"), "Paint", SHORTCUT, Some("app:paint")),
    FileNode("linkedin", Some("desktop"), "LinkedIn", SHORTCUT, Some("https://linkedin.com/in/webos-portfolio")),
    FileNode("project-webos", Some("projects"), "WebOS Portfolio", FILE, Some(WebOsText)),
    FileNode("project-api", Some("projects"), "REST API Framework", FILE, Some(ApiText))
  ]

  function Ids(mft: Table): set<string>
  {
    set n | n in mft :: n.id
  }

  function ParentIds(mft: Table): set<string>
  {
    set n | n in mft && n.parentId.Some? :: n.parentId.value
  }

  predicate UniqueIds(mft: Table)
  {
    forall i, j :: 0 <= i < j < |mft| ==> mft[i].id != mft[j].id
  }

  // ---------------------------------------------------------------------
  // Queries
  // ---------------------------------------------------------------------

  /** The nodes whose parent is `p`, in table order. */
  function ChildrenOf(mft: Table, p: string): (r: Table)
    ensures |r| <= |mft|
    ensures forall n :: n in r <==> n in mft && n.parentId == Some(p)
    decreases |mft|
  {
    if mft == [] then []
    else
      var last := mft[|mft| - 1];
      ChildrenOf(mft[..|mft| - 1], p) + (if last.parentId == Some(p) then [last] else [])
  }

  /** Listing distributes over concatenation, so it keeps table order. */
  lemma {:induction false} ChildrenOfConcat(a: Table, b: Table, p: string)
    ensures ChildrenOf(a + b, p) == ChildrenOf(a, p) + ChildrenOf(b, p)
    decreases |b|
  {
    if b == [] {
      assert a + b == a;
    } else {
      var b' := b[..|b| - 1];
      assert (a + b)[..|a + b| - 1] == a + b';
      ChildrenOfConcat(a, b', p);
    }
  }

  /** `nodes.stream().map(FileNode::name)`. */
  function NamesOf(ns: Table): (names: seq<string>)
    ensures |names| == |ns|
    ensures forall i :: 0 <= i < |ns| ==> names[i] == ns[i].name
  {
    seq(|ns|, i requires 0 <= i < |ns| => ns[i].name)
  }

  /** `findByParentId(parentId)`: a null argument lists the children of "desktop". */
  function FindByParentId(mft: Table, parentId: Option<string>): (r: Table)
    ensures parentId.None? ==> r == ChildrenOf(mft, DefaultParentId)
    ensures parentId.Some? ==> r == ChildrenOf(mft, parentId.value)
  {
    ChildrenOf(mft, parentId.GetOr(DefaultParentId))
  }

  /** `findById(id)`: the first node with that id. */
  function FindById(mft: Table, id: string): (r: Option<FileNode>)
    ensures r.Some? ==> r.value in mft && r.value.id == id
    ensures r.None? <==> id !in Ids(mft)
    decreases |mft|
  {
    if mft == [] then None
    else if mft[0].id == id then Some(mft[0])
    else
      assert Ids(mft) == {mft[0].id} + Ids(mft[1..]) by {
        assert forall n :: n in mft <==> n == mft[0] || n in mft[1..];
      }
      FindById(mft[1..], id)
  }

  /** The node found is the first one carrying the id. */
  lemma {:induction false} FindByIdFirst(mft: Table, i: nat)
    requires i < |mft|
    requires forall j :: 0 <= j < i ==> mft[j].id != mft[i].id
    ensures FindById(mft, mft[i].id) == Some(mft[i])
    decreases i
  {
    if i > 0 {
      FindByIdFirst(mft[1..], i - 1);
    }
  }

  /** With unique ids, looking up a node's id finds that node. */
  lemma FindByIdUnique(mft: Table, n: FileNode)
    requires UniqueIds(mft) && n in mft
    ensures FindById(mft, n.id) == Some(n)
  {
    var i :| 0 <= i < |mft| && mft[i] == n;
    FindByIdFirst(mft, i);
  }

  /**
   * `findByNameInParent(parentId, name)`: the first node with that parent
   * (null meaning "desktop") and that name.
   */
  function FindByNameInParent(mft: Table, parentId: Option<string>, name: string): (r: Option<FileNode>)
    ensures r.Some? ==> r.value in ChildrenOf(mft, parentId.GetOr(DefaultParentId)) && r.value.name == name
    ensures r.None? <==> forall n :: n in ChildrenOf(mft, parentId.GetOr(DefaultParentId)) ==> n.name != name
    decreases |mft|
  {
    var p := parentId.GetOr(DefaultParentId);
    if mft == [] then None
    else if mft[0].parentId == Some(p) && mft[0].name == name then
      Some(mft[0])
    else
      assert forall n :: n in mft <==> n == mft[0] || n in mft[1..];
      FindByNameInParent(mft[1..], parentId, name)
  }

  /**
   * The node found is the first one in table order with that parent and
   * name: no earlier node matches both.
   */
  lemma {:induction false} FindByNameInParentFirst(mft: Table, parentId: Option<string>, name: string)
    requires FindByNameInParent(mft, parentId, name).Some?
    ensures exists i :: 0 <= i < |mft| && mft[i] == FindByNameInParent(mft, parentId, name).value
              && forall j :: 0 <= j < i ==>
                   !(mft[j].parentId == Some(parentId.GetOr(DefaultParentId)) && mft[j].name == name)
    decreases |mft|
  {
    var p := parentId.GetOr(DefaultParentId);
    if mft[0].parentId == Some(p) && mft[0].name == name {
      assert mft[0] == FindByNameInParent(mft, parentId, name).value;
    } else {
      var rest := mft[1..];
      FindByNameInParentFirst(rest, parentId, name);
      var i :| 0 <= i < |rest| && rest[i] == FindByNameInParent(rest, parentId, name).value
               && forall j :: 0 <= j < i ==> !(rest[j].parentId == Some(p) && rest[j].name == name);
      assert mft[i + 1] == rest[i];
      forall j | 0 <= j < i + 1
        ensures !(mft[j].parentId == Some(p) && mft[j].name == name)
      {
        if j > 0 {
          assert mft[j] == rest[j - 1];
        }
      }
    }
  }

  /** `removeIf(node -> ids contains node.id())`: the nodes whose id is not in `ids`, in order. */
  function RemoveIds(mft: Table, ids: set<string>): (r: Table)
    ensures |r| <= |mft|
    ensures forall n :: n in r <==> n in mft && n.id !in ids
    decreases |mft|
  {
    if mft == [] then []
    else
      var last := mft[|mft| - 1];
      RemoveIds(mft[..|mft| - 1], ids) + (if last.id in ids then [] else [last])
  }

  /** Removal distributes over concatenation, so survivors keep their order. */
  lemma {:induction false} RemoveIdsConcat(a: Table, b: Table, ids: set<string>)
    ensures RemoveIds(a + b, ids) == RemoveIds(a, ids) + RemoveIds(b, ids)
    decreases |b|
  {
    if b == [] {
      assert a + b == a;
    } else {
      var b' := b[..|b| - 1];
      assert (a + b)[..|a + b| - 1] == a + b';
      RemoveIdsConcat(a, b', ids);
    }
  }

  /** Removing in two rounds is removing the union once. */
  lemma {:induction false} RemoveIdsTwice(mft: Table, s: set<string>, t: set<string>)
    ensures RemoveIds(RemoveIds(mft, s), t) == RemoveIds(mft, s + t)
    decreases |mft|
  {
    if mft != [] {
      var init := mft[..|mft| - 1];
      var last := mft[|mft| - 1];
      RemoveIdsTwice(init, s, t);
      var once := RemoveIds(init, s);
      var kept := if last.id in s then [] else [last];
      assert RemoveIds(mft, s) == once + kept;
      RemoveIdsConcat(once, kept, t);
      assert RemoveIds(kept, t) == (if last.id in s + t then [] else [last]) by {
        if kept != [] {
          assert kept[..0] == [];
        }
      }
    }
  }

  /** No node of `mft` carries an id in `ids`. */
  predicate Avoids(mft: Table, ids: set<string>)
  {
    forall i :: 0 <= i < |mft| ==> mft[i].id !in ids
  }

  lemma AvoidsIff(mft: Table, ids: set<string>)
    ensures Avoids(mft, ids) <==> Ids(mft) !! ids
  {
    if !Avoids(mft, ids) {
      var i :| 0 <= i < |mft| && mft[i].id in ids;
      assert mft[i] in mft;
    }
  }

  /** Removing ids that no node carries changes nothing. */
  lemma {:induction false} RemoveIdsNone(mft: Table, ids: set<string>)
    requires Avoids(mft, ids)
    ensures RemoveIds(mft, ids) == mft
    decreases |mft|
  {
    if mft != [] {
      var init := mft[..|mft| - 1];
      var last := mft[|mft| - 1];
      assert Avoids(init, ids) by {
        assert forall i :: 0 <= i < |init| ==> init[i] == mft[i];
      }
      calc {
        RemoveIds(mft, ids);
        { assert last.id !in ids; }
        RemoveIds(init, ids) + [last];
        { RemoveIdsNone(init, ids); }
        init + [last];
      }
    }
  }

  /** Removal shortens the table exactly when some node carries one of the ids. */
  lemma {:induction false} RemoveIdsShorter(mft: Table, ids: set<string>)
    ensures |RemoveIds(mft, ids)| == |mft| <==> Avoids(mft, ids)
    decreases |mft|
  {
    if Avoids(mft, ids) {
      RemoveIdsNone(mft, ids);
    } else {
      var init := mft[..|mft| - 1];
      var last := mft[|mft| - 1];
      if last.id !in ids {
        assert !Avoids(init, ids) by {
          var i :| 0 <= i < |mft| && mft[i].id in ids;
          assert i < |init| && init[i] == mft[i];
        }
        RemoveIdsShorter(init, ids);
      }
    }
  }

  /** Listing the children commutes with removal. */
  lemma {:induction false} ChildrenOfRemoveIds(mft: Table, ids: set<string>, p: string)
    ensures ChildrenOf(RemoveIds(mft, ids), p) == RemoveIds(ChildrenOf(mft, p), ids)
    decreases |mft|
  {
    if mft != [] {
      var init := mft[..|mft| - 1];
      var last := mft[|mft| - 1];
      ChildrenOfRemoveIds(init, ids, p);
      var kept := if last.id in ids then [] else [last];
      ChildrenOfConcat(RemoveIds(init, ids), kept, p);
      var cs := ChildrenOf(init, p);
      var lastChild := if last.parentId == Some(p) then [last] else [];
      RemoveIdsConcat(cs, lastChild, ids);
    }
  }

  /** With unique ids, removing a set that meets exactly one entry shortens the list by one. */
  lemma {:induction false} RemoveIdsExactlyOne(cs: Table, ids: set<string>, c: FileNode)
    requires UniqueIds(cs) && c in cs && c.id in ids
    requires forall n :: n in cs && n.id in ids ==> n == c
    ensures |RemoveIds(cs, ids)| == |cs| - 1
    decreases |cs|
  {
    var init := cs[..|cs| - 1];
    var last := cs[|cs| - 1];
    if last == c {
      assert Avoids(init, ids) by {
        forall j | 0 <= j < |init| ensures init[j].id !in ids {
          assert cs[j].id != cs[|cs| - 1].id;
        }
      }
      RemoveIdsNone(init, ids);
    } else {
      assert c in init;
      RemoveIdsExactlyOne(init, ids, c);
    }
  }

  // ---------------------------------------------------------------------
  // Fresh ids
  // ---------------------------------------------------------------------

  function MaxIdLength(mft: Table): (m: nat)
    ensures forall n :: n in mft ==> |n.id| <= m && (n.parentId.Some? ==> |n.parentId.value| <= m)
    decreases |mft|
  {
    if mft == [] then 0
    else
      var own := if |mft[0].id| > (if mft[0].parentId.Some? then |mft[0].parentId.value| else 0)
                 then |mft[0].id| else (if mft[0].parentId.Some? then |mft[0].parentId.value| else 0);
      var rest := MaxIdLength(mft[1..]);
      assert forall n :: n in mft ==> n == mft[0] || n in mft[1..];
      if own > rest then own else rest
  }

  /**
   * Stands for `UUID.randomUUID().toString()`: an id that no node carries,
   * that no node names as its parent, and that differs from `avoid`.
   */
  function FreshId(mft: Table, avoid: string): (id: string)
    ensures id !in Ids(mft) && id !in ParentIds(mft) && id != avoid
  {
    var len := (if MaxIdLength(mft) > |avoid| then MaxIdLength(mft) else |avoid|) + 1;
    Repeat('#', len)
  }

  // ---------------------------------------------------------------------
  // Acyclicity and ancestry
  // ---------------------------------------------------------------------

  /** `rank` strictly increases from every ranked parent to its child. */
  ghost predicate Ranked(mft: Table, rank: map<string, nat>)
  {
    && (forall n :: n in mft ==> n.id in rank)
    && (forall n :: n in mft && n.parentId.Some? && n.parentId.value in rank ==> rank[n.parentId.value] < rank[n.id])
  }

  /** No chain of parent links returns to where it started. */
  ghost predicate Acyclic(mft: Table)
  {
    exists rank :: Ranked(mft, rank)
  }

  ghost function TheRank(mft: Table): (rank: map<string, nat>)
    requires Acyclic(mft)
    ensures Ranked(mft, rank)
  {
    var rank :| Ranked(mft, rank); rank
  }

  ghost function Height(mft: Table, id: string): nat
    requires Acyclic(mft)
  {
    var rank := TheRank(mft);
    if id in rank then rank[id] + 1 else 0
  }

  lemma HeightOfParent(mft: Table, n: FileNode)
    requires Acyclic(mft) && n in mft && n.parentId.Some?
    ensures Height(mft, n.parentId.value) < Height(mft, n.id)
  {
  }

  /** The ids met walking up the parent links from `id`, nearest first. */
  ghost function Ancestors(mft: Table, id: string): seq<string>
    requires Acyclic(mft)
    decreases Height(mft, id)
  {
    match FindById(mft, id)
    case None => []
    case Some(n) =>
      match n.parentId
      case None => []
      case Some(q) =>
        HeightOfParent(mft, n);
        [q] + Ancestors(mft, q)
  }

  /** Every ancestor sits strictly lower in the rank than the node. */
  lemma {:induction false} AncestorsBelow(mft: Table, id: string, a: string)
    requires Acyclic(mft) && a in Ancestors(mft, id)
    ensures Height(mft, a) < Height(mft, id)
    decreases Height(mft, id)
  {
    var n := FindById(mft, id).value;
    var q := n.parentId.value;
    HeightOfParent(mft, n);
    if a != q {
      AncestorsBelow(mft, q, a);
    }
  }

  /** No node is its own ancestor. */
  lemma NotOwnAncestor(mft: Table, id: string)
    requires Acyclic(mft)
    ensures id !in Ancestors(mft, id)
  {
    if id in Ancestors(mft, id) {
      AncestorsBelow(mft, id, id);
    }
  }

  /** The ancestors of an ancestor are ancestors. */
  lemma {:induction false} AncestorsTransitive(mft: Table, id: string, a: string, b: string)
    requires Acyclic(mft) && a in Ancestors(mft, id) && b in Ancestors(mft, a)
    ensures b in Ancestors(mft, id)
    decreases Height(mft, id)
  {
    var n := FindById(mft, id).value;
    var q := n.parentId.value;
    HeightOfParent(mft, n);
    if a != q {
      AncestorsTransitive(mft, q, a, b);
    }
  }

  /** The ids of the nodes below `p`. */
  ghost function DescendantIds(mft: Table, p: string): set<string>
    requires Acyclic(mft)
  {
    set n | n in mft && p in Ancestors(mft, n.id) :: n.id
  }

  /** Walking up from below `p` passes through one of `p`'s children. */
  lemma {:induction false} AncestorThroughChild(mft: Table, id: string, p: string) returns (c: FileNode)
    requires Acyclic(mft) && p in Ancestors(mft, id)
    ensures c in ChildrenOf(mft, p)
    ensures c.id == id || c.id in Ancestors(mft, id)
    decreases Height(mft, id)
  {
    var n := FindById(mft, id).value;
    var q := n.parentId.value;
    HeightOfParent(mft, n);
    if q == p {
      c := n;
    } else {
      c := AncestorThroughChild(mft, q, p);
      if c.id != q {
        AncestorsTransitive(mft, id, q, c.id);
      }
    }
  }

  /** The ids in the subtrees rooted at the nodes `cs` (each root included). */
  ghost function SubtreeIds(mft: Table, cs: Table): set<string>
    requires Acyclic(mft)
    decreases |cs|
  {
    if cs == [] then {}
    else
      var c := cs[|cs| - 1];
      SubtreeIds(mft, cs[..|cs| - 1]) + DescendantIds(mft, c.id) + {c.id}
  }

  /** Adding one more subtree root. */
  lemma SubtreeIdsSnoc(mft: Table, cs: Table, c: FileNode)
    requires Acyclic(mft)
    ensures SubtreeIds(mft, cs + [c]) == SubtreeIds(mft, cs) + DescendantIds(mft, c.id) + {c.id}
  {
    assert (cs + [c])[..|cs|] == cs;
  }

  lemma {:induction false} SubtreeIdsMember(mft: Table, cs: Table, x: string)
    requires Acyclic(mft)
    ensures x in SubtreeIds(mft, cs) <==> exists c :: c in cs && (x == c.id || x in DescendantIds(mft, c.id))
    decreases |cs|
  {
    if cs != [] {
      var init := cs[..|cs| - 1];
      SubtreeIdsMember(mft, init, x);
      assert forall c :: c in cs <==> c in init || c == cs[|cs| - 1];
    }
  }

  /** The descendants of `p` are its children and their descendants. */
  lemma DescendantsByChildren(mft: Table, p: string)
    requires Acyclic(mft) && UniqueIds(mft)
    ensures DescendantIds(mft, p) == SubtreeIds(mft, ChildrenOf(mft, p))
  {
    var cs := ChildrenOf(mft, p);
    forall x | x in DescendantIds(mft, p) ensures x in SubtreeIds(mft, cs) {
      var d :| d in mft && p in Ancestors(mft, d.id) && d.id == x;
      var c := AncestorThroughChild(mft, x, p);
      SubtreeIdsMember(mft, cs, x);
    }
    forall x | x in SubtreeIds(mft, cs) ensures x in DescendantIds(mft, p) {
      SubtreeIdsMember(mft, cs, x);
      var c :| c in cs && (x == c.id || x in DescendantIds(mft, c.id));
      FindByIdUnique(mft, c);
      assert p in Ancestors(mft, c.id);
      if x != c.id {
        var d :| d in mft && c.id in Ancestors(mft, d.id) && d.id == x;
        AncestorsTransitive(mft, x, c.id, p);
      }
    }
  }

  /** A child's subtree is strictly smaller than its parent's. */
  lemma ChildDescendantsSmaller(mft: Table, p: string, c: FileNode)
    requires Acyclic(mft) && UniqueIds(mft) && c in ChildrenOf(mft, p)
    ensures DescendantIds(mft, c.id) < DescendantIds(mft, p)
  {
    FindByIdUnique(mft, c);
    assert p in Ancestors(mft, c.id);
    forall x | x in DescendantIds(mft, c.id) ensures x in DescendantIds(mft, p) {
      var d :| d in mft && c.id in Ancestors(mft, d.id) && d.id == x;
      AncestorsTransitive(mft, x, c.id, p);
    }
    assert c.id in DescendantIds(mft, p);
    NotOwnAncestor(mft, c.id);
  }

  /** A node is not among its own descendants. */
  lemma NotOwnDescendant(mft: Table, id: string)
    requires Acyclic(mft)
    ensures id !in DescendantIds(mft, id)
  {
    NotOwnAncestor(mft, id);
  }

  /** The names on the way from the topmost known ancestor down to `id`. */
  ghost function PathNames(mft: Table, id: Option<string>): seq<string>
    requires Acyclic(mft)
    decreases if id.Some? then Height(mft, id.value) else 0
  {
    if id.None? then []
    else
      match FindById(mft, id.value)
      case None => []
      case Some(n) =>
        if n.parentId.Some? then HeightOfParent(mft, n); PathNames(mft, n.parentId) + [n.name]
        else [n.name]
  }

  /** Each node's path has one name per ancestor plus its own, as long as the chain stays in the table. */
  lemma {:induction false} PathNamesLength(mft: Table, id: string)
    requires Acyclic(mft) && id in Ids(mft)
    requires forall a :: a in Ancestors(mft, id) ==> a in Ids(mft)
    ensures |PathNames(mft, Some(id))| == |Ancestors(mft, id)| + 1
    decreases Height(mft, id)
  {
    var n := FindById(mft, id).value;
    if n.parentId.Some? {
      HeightOfParent(mft, n);
      var q := n.parentId.value;
      forall a | a in Ancestors(mft, q) ensures a in Ids(mft) {
        assert a in Ancestors(mft, id);
      }
      PathNamesLength(mft, q);
    }
  }

  /** A node's path is its parent's path followed by its own name. */
  lemma PathNamesChild(mft: Table, n: FileNode)
    requires Acyclic(mft) && UniqueIds(mft) && n in mft
    ensures PathNames(mft, Some(n.id)) == PathNames(mft, n.parentId) + [n.name]
  {
    FindByIdUnique(mft, n);
  }

  /** An id that no node carries has the empty path. */
  lemma PathNamesUnknown(mft: Table, id: string)
    requires Acyclic(mft) && id !in Ids(mft)
    ensures PathNames(mft, Some(id)) == []
  {
  }

  // ---------------------------------------------------------------------
  // What appending and removing preserve
  // ---------------------------------------------------------------------

  /** Appending keeps ids unique exactly when the new id is not yet taken. */
  lemma UniqueIdsSnoc(mft: Table, n: FileNode)
    ensures UniqueIds(mft + [n]) <==> UniqueIds(mft) && n.id !in Ids(mft)
  {
    var m := mft + [n];
    if UniqueIds(m) {
      assert UniqueIds(mft) by {
        forall i, j | 0 <= i < j < |mft| ensures mft[i].id != mft[j].id {
          assert m[i] == mft[i] && m[j] == mft[j];
        }
      }
      forall x | x in mft ensures x.id != n.id {
        var i :| 0 <= i < |mft| && mft[i] == x;
        assert m[i] == x && m[|mft|] == n;
      }
    }
  }

  /** Removal keeps ids unique. */
  lemma {:induction false} RemoveIdsUnique(mft: Table, ids: set<string>)
    requires UniqueIds(mft)
    ensures UniqueIds(RemoveIds(mft, ids))
    decreases |mft|
  {
    if mft != [] {
      var init := mft[..|mft| - 1];
      var last := mft[|mft| - 1];
      assert mft == init + [last];
      UniqueIdsSnoc(init, last);
      RemoveIdsUnique(init, ids);
      if last.id !in ids {
        var r := RemoveIds(init, ids);
        assert Ids(r) <= Ids(init);
        UniqueIdsSnoc(r, last);
      }
    }
  }

  /** Removal keeps the parent links acyclic: the same rank still works. */
  lemma RemoveIdsAcyclic(mft: Table, ids: set<string>)
    requires Acyclic(mft)
    ensures Acyclic(RemoveIds(mft, ids))
  {
    var rank := TheRank(mft);
    assert Ranked(RemoveIds(mft, ids), rank);
  }

  /**
   * Appending a node whose id is new and named by no node as parent, and
   * which is not its own parent, keeps the links acyclic.
   */
  lemma AppendFreshAcyclic(mft: Table, n: FileNode)
    requires Acyclic(mft)
    requires n.id !in Ids(mft) && n.id !in ParentIds(mft) && n.parentId != Some(n.id)
    ensures Acyclic(mft + [n])
  {
    var rank := TheRank(mft);
    var r := if n.parentId.Some? && n.parentId.value in rank then rank[n.parentId.value] + 1 else 0;
    var rank' := rank[n.id := r];
    forall x | x in mft + [n] && x.parentId.Some? && x.parentId.value in rank'
      ensures rank'[x.parentId.value] < rank'[x.id]
    {
      if x != n {
        assert x in mft;
        assert x.parentId.value in ParentIds(mft);
      }
    }
    assert Ranked(mft + [n], rank');
  }

  // ---------------------------------------------------------------------
  // The initial table
  // ---------------------------------------------------------------------

  /** The initial table has unique ids. */
  lemma InitialIdsUnique()
    ensures UniqueIds(InitialTable)
  {
    forall i, j | 0 <= i < j < |InitialTable|
      ensures InitialTable[i].id != InitialTable[j].id
    {
      var a, b := InitialTable[i].id, InitialTable[j].id;
      assert |a| != |b| || a[0] != b[0];
    }
  }

  /** Depth below the root in the initial table. */
  function InitialDepth(id: string): nat
  {
    if id == RootId then 0 else if id == "projects" then 1 else 2
  }

  /** Every parent link of `mft` goes from a smaller depth to a larger one. */
  predicate DepthOrdered(mft: Table, depth: string -> nat)
  {
    forall i :: 0 <= i < |mft| && mft[i].parentId.Some? ==> depth(mft[i].parentId.value) < depth(mft[i].id)
  }

  /** A depth function that orders the parent links gives a rank. */
  lemma RankedByDepth(mft: Table, depth: string -> nat) returns (rank: map<string, nat>)
    requires DepthOrdered(mft, depth)
    ensures Ranked(mft, rank)
  {
    rank := map id | id in Ids(mft) :: depth(id);
    forall n | n in mft
      ensures n.parentId.Some? && n.parentId.value in rank ==> rank[n.parentId.value] < rank[n.id]
    {
      var i :| 0 <= i < |mft| && mft[i] == n;
    }
  }

  /** A rank for the initial table: every parent is ranked below its children. */
  lemma InitialRanked() returns (rank: map<string, nat>)
    ensures Ranked(InitialTable, rank)
  {
    assert DepthOrdered(InitialTable, InitialDepth) by {
      forall i | 0 <= i < |InitialTable| && InitialTable[i].parentId.Some?
        ensures InitialDepth(InitialTable[i].parentId.value) < InitialDepth(InitialTable[i].id)
      {
      }
    }
    rank := RankedByDepth(InitialTable, InitialDepth);
  }

  /** The initial table is free of parent cycles. */
  lemma InitialTableAcyclic()
    ensures Acyclic(InitialTable)
  {
    var rank := InitialRanked();
  }

  /** The initial table holds the root "desktop", a directory without a parent. */
  lemma InitialRoot()
    ensures FindById(InitialTable, RootId) == Some(FileNode("desktop", None, "Desktop", DIRECTORY, None))
  {
  }
}

=== FILE: game_sessions.dfy ===
/**
 * The Minesweeper backend around the engine: the session map
 * (`GameStateManager`), the service that starts games and plays clicks
 * (`MinesweeperService`), and the REST resource that validates requests and
 * chooses the HTTP status (`MinesweeperResource`).
 */
module MinesweeperSessions {
  import opened Common
  import opened Json
  import opened Minesweeper

  /** The body of a successful reply: the status after the move and the cells it revealed. */
  datatype GameResponse = GameResponse(status: GameStatus, updates: seq<CellUpdate>)

  /** What the resource answers: 200 with a game response, or an error status with a JSON message. */
  datatype Reply = Ok(response: GameResponse) | Error(code: int, message: string)

  const SESSION_REQUIRED: string := "{\"error\": \"sessionId is required\"}"
  const ROW_COL_RANGE: string := "{\"error\": \"row and col must be between 0 and 9\"}"
  const SESSION_NOT_FOUND: string := "{\"error\": \"Session not found\"}"

  /** The HTTP status of a reply. */
  function StatusCode(reply: Reply): (code: int)
    ensures reply.Ok? ==> code == 200
    ensures reply.Error? ==> code == reply.code
  {
    match reply
    case Ok(_) => 200
    case Error(code, _) => code
  }

  /**
   * What a click on (row, col) answers, given the board's status and shown
   * cells before it (`status0`, `shown0`) and after it (`shown1`): nothing
   * for a cell that cannot be played, LOST and the mine for a mine, the one
   * numbered cell for a number, and for a 0 cell the cell itself first, then
   * a flood that reveals only hidden non-mine cells, each with its value,
   * expands every 0 it reveals and grows only from 0 cells.
   */
  predicate ClickAnswered(response: GameResponse, status0: GameStatus, shown0: set<Cell>, shown1: set<Cell>,
                          mines: set<Cell>, row: int, col: int)
  {
    (!Playable(status0, shown0, row, col) ==>
       response == GameResponse(status0, []) && shown1 == shown0)
    && (Playable(status0, shown0, row, col) && (row, col) in mines ==>
          response == GameResponse(LOST, [CellUpdate(row, col, MINE_VALUE)]) && shown1 == shown0 + {(row, col)})
    && (Playable(status0, shown0, row, col) && 0 < CellValue(mines, row, col) < MINE_VALUE ==>
          response.status != LOST && response.updates == [CellUpdate(row, col, CellValue(mines, row, col))]
          && shown1 == shown0 + {(row, col)})
    && (Playable(status0, shown0, row, col) && CellValue(mines, row, col) == 0 ==>
          response.status != LOST && |response.updates| > 0 && response.updates[0] == CellUpdate(row, col, 0)
          && Reveals(response.updates, shown0, shown1, mines) && ShowsValues(response.updates, mines)
          && ZerosExpanded(response.updates, shown1) && FromZeros(response.updates))
  }

  /** Each board is valid, and different boards do not share a `revealed` array. */
  ghost predicate Apart(boards: set<GridState>)
    reads boards, set g | g in boards :: g.grid, set g | g in boards :: g.revealed
  {
    (forall g | g in boards :: g.Valid())
    && (forall g, h | g in boards && h in boards && g != h :: g.revealed != h.revealed)
  }

  /** A new valid board built from fresh arrays joins a valid, apart collection. */
  twostate lemma ApartAfterAdd(boards: set<GridState>, new g: GridState)
    requires old(Apart(boards)) && g.Valid() && fresh(g.revealed)
    requires forall h | h in boards :: unchanged(h, h.grid, h.revealed)
    ensures Apart(boards + {g})
  {
  }

  /** The game sessions, keyed by session id; each holds its own board. */
  class GameStateManager {
    var sessions: map<string, GridState>

    /** Every board handed out so far; the sessions hold some of them. */
    ghost var boards: set<GridState>

    /** The boards and their `revealed` arrays: what playing a session may change. */
    ghost function Repr(): set<object>
      reads this
    {
      boards + set g | g in boards :: g.revealed
    }

    /** Every session's board is one of `boards`, and `boards` are valid and apart. */
    ghost predicate Valid()
      reads this, boards, set g | g in boards :: g.grid, set g | g in boards :: g.revealed
    {
      (forall id | id in sessions :: sessions[id] in boards) && Apart(boards)
    }

    constructor ()
      ensures sessions == map[] && Valid()
    {
      sessions := map[];
      boards := {};
    }

    /**
     * Starts a new board for `sessionId`, replacing any board it had.
     * `draws` stands for the board's random mine placement.
     */
    method CreateOrReplace(sessionId: string, draws: seq<Cell>) returns (state: GridState)
      requires Valid()
      requires forall k :: 0 <= k < |draws| ==> InBounds(draws[k].0, draws[k].1)
      requires |Drawn(draws)| >= MINE_COUNT
      modifies this
      ensures Valid() && fresh(state)
      ensures sessions == old(sessions)[sessionId := state]
      ensures state.status == PLAYING && state.revealedCount == 0
    {
      state := NewBoard(draws);
      ApartAfterAdd(boards, state);
      sessions := sessions[sessionId := state];
      boards := boards + {state};
    }

    /** `new GridState()`: a board from a fresh random source, here the draws it yields. */
    static method NewBoard(draws: seq<Cell>) returns (state: GridState)
      requires forall k :: 0 <= k < |draws| ==> InBounds(draws[k].0, draws[k].1)
      requires |Drawn(draws)| >= MINE_COUNT
      ensures fresh(state) && fresh(state.revealed) && state.Valid()
      ensures state.status == PLAYING && state.revealedCount == 0
    {
      state := new GridState(draws);
    }

    /** The board of `sessionId`, if there is one. */
    method Get(sessionId: string) returns (state: Option<GridState>)
      ensures state.Some? <==> sessionId in sessions
      ensures state.Some? ==> state.value == sessions[sessionId]
    {
      if sessionId in sessions {
        state := Some(sessions[sessionId]);
      } else {
        state := None;
      }
    }

    /** Drops the session; every other session keeps its board. */
    method Remove(sessionId: string)
      requires Valid()
      modifies this
      ensures Valid() && sessions == old(sessions) - {sessionId}
    {
      sessions := sessions - {sessionId};
    }
  }

  class MinesweeperService {
    const stateManager: GameStateManager

    constructor (manager: GameStateManager)
      ensures stateManager == manager
    {
      stateManager := manager;
    }

    /** Registers a fresh board for the session and answers PLAYING with no updates. */
    method NewGame(sessionId: string, draws: seq<Cell>) returns (response: GameResponse)
      requires stateManager.Valid()
      requires forall k :: 0 <= k < |draws| ==> InBounds(draws[k].0, draws[k].1)
      requires |Drawn(draws)| >= MINE_COUNT
      modifies stateManager
      ensures stateManager.Valid()
      ensures sessionId in stateManager.sessions && fresh(stateManager.sessions[sessionId])
      ensures stateManager.sessions == old(stateManager.sessions)[sessionId := stateManager.sessions[sessionId]]
      ensures stateManager.sessions[sessionId].status == PLAYING
      ensures stateManager.sessions[sessionId].revealedCount == 0
      ensures response == GameResponse(PLAYING, [])
    {
      var _ := stateManager.CreateOrReplace(sessionId, draws);
      response := GameResponse(PLAYING, []);
    }

    /**
     * Reveals (row, col) on the session's board and answers with what
     * `Respond` makes of it; an unknown session gives no response and changes
     * nothing. Boards of other sessions are untouched.
     */
    method Click(sessionId: string, row: int, col: int) returns (response: Option<GameResponse>)
      requires stateManager.Valid()
      modifies stateManager.Repr()
      ensures stateManager.Valid() && stateManager.sessions == old(stateManager.sessions)
      ensures response.Some? <==> sessionId in stateManager.sessions
      ensures forall id | id in stateManager.sessions
                && (sessionId !in stateManager.sessions || stateManager.sessions[id] != stateManager.sessions[sessionId]) ::
                unchanged(stateManager.sessions[id]) && unchanged(stateManager.sessions[id].revealed)
      ensures response.Some? ==> response.value.status == stateManager.sessions[sessionId].status
      ensures response.Some? ==>
                ClickAnswered(response.value, old(stateManager.sessions[sessionId].status),
                              old(stateManager.sessions[sessionId].shown), stateManager.sessions[sessionId].shown,
                              stateManager.sessions[sessionId].mines, row, col)
    {
      var found := stateManager.Get(sessionId);
      if found.None? {
        return None;
      }
      var state := found.value;
      var r := Respond(state, row, col);
      // Boards other than `state` were not touched, so they are still valid.
      forall h | h in stateManager.boards
        ensures h.Valid()
      {
        if h != state {
          assert old(h.Valid());
        }
      }
      response := Some(r);
    }

    /**
     * The mapping `click` applies to a found board: reveal the cell, then
     * answer with the board's status afterwards and the updates `Reveal`
     * returned.
     */
    static method Respond(state: GridState, row: int, col: int) returns (response: GameResponse)
      requires state.Valid()
      modifies state`status, state`revealedCount, state`shown, state.revealed
      ensures state.Valid() && response.status == state.status
      ensures ClickAnswered(response, old(state.status), old(state.shown), state.shown, state.mines, row, col)
    {
      var updates := state.Reveal(row, col);
      response := GameResponse(state.status, updates);
    }
  }

  /** `request.getString("sessionId", null)`: the session id when it is a JSON string. */
  function SessionIdOf(request: Fields): (id: Option<string>)
    ensures id.Some? <==> "sessionId" in request && request["sessionId"].JString?
    ensures id.Some? ==> request["sessionId"] == JString(id.value)
  {
    GetString(request, "sessionId")
  }

  /** The session-id check both endpoints make first: null or blank is rejected. */
  predicate MissingSessionId(request: Fields) {
    SessionIdOf(request).None? || IsBlank(SessionIdOf(request).value)
  }

  /** `request.getInt(key, -1)`: a missing or non-numeric coordinate reads as -1. */
  function Coordinate(request: Fields, key: string): (v: int)
    ensures key !in request ==> v == -1
    ensures key in request && request[key].JNumber? ==> v == request[key].n
    ensures key in request && !request[key].JNumber? ==> v == -1
  {
    GetIntOr(request, key, -1)
  }

  /** The guards of the click endpoint, in order; `None` lets the request through to the service. */
  function ClickGuard(request: Fields): (r: Option<Reply>)
    ensures MissingSessionId(request) ==> r == Some(Error(400, SESSION_REQUIRED))
    ensures r.None? <==> !MissingSessionId(request)
                         && 0 <= Coordinate(request, "row") <= 9 && 0 <= Coordinate(request, "col") <= 9
    ensures r.Some? ==> StatusCode(r.value) == 400
  {
    if MissingSessionId(request) then
      Some(Error(400, SESSION_REQUIRED))
    else
      var row := Coordinate(request, "row");
      var col := Coordinate(request, "col");
      if row < 0 || row > 9 || col < 0 || col > 9 then Some(Error(400, ROW_COL_RANGE)) else None
  }

  /** A null or blank session id is answered 400 whatever the coordinates say. */
  lemma SessionCheckedFirst(request: Fields, key: string, v: JsonValue)
    requires MissingSessionId(request) && key != "sessionId"
    ensures ClickGuard(request[key := v]) == ClickGuard(request) == Some(Error(400, SESSION_REQUIRED))
  {
    assert SessionIdOf(request[key := v]) == SessionIdOf(request);
  }

  /** A click without a row or without a column is rejected: the -1 default is out of range. */
  lemma MissingCoordinateRejected(request: Fields)
    requires "row" !in request || "col" !in request
    ensures ClickGuard(request).Some? && StatusCode(ClickGuard(request).value) == 400
  {
  }

  class MinesweeperResource {
    const service: MinesweeperService

    constructor (service: MinesweeperService)
      ensures this.service == service
    {
      this.service := service;
    }

    /** POST /games/minesweeper/new: 400 without a session id, else a new game and 200. */
    method NewGame(request: Fields, draws: seq<Cell>) returns (reply: Reply)
      requires service.stateManager.Valid()
      requires forall k :: 0 <= k < |draws| ==> InBounds(draws[k].0, draws[k].1)
      requires |Drawn(draws)| >= MINE_COUNT
      modifies service.stateManager
      ensures service.stateManager.Valid()
      ensures MissingSessionId(request) ==>
                reply == Error(400, SESSION_REQUIRED) && service.stateManager.sessions == old(service.stateManager.sessions)
      ensures !MissingSessionId(request) ==>
                reply == Ok(GameResponse(PLAYING, []))
                && SessionIdOf(request).value in service.stateManager.sessions
                && service.stateManager.sessions[SessionIdOf(request).value].revealedCount == 0
                && service.stateManager.sessions[SessionIdOf(request).value].status == PLAYING
                && service.stateManager.sessions ==
                     old(service.stateManager.sessions)[SessionIdOf(request).value :=
                                                        service.stateManager.sessions[SessionIdOf(request).value]]
    {
      if MissingSessionId(request) {
        return Error(400, SESSION_REQUIRED);
      }
      var response := service.NewGame(SessionIdOf(request).value, draws);
      reply := Ok(response);
    }

    /**
     * POST /games/minesweeper/click: 400 for a missing session id, then 400
     * for a row or column outside 0..9, then 404 for an unknown session, and
     * otherwise 200 with the click's response.
     */
    method Click(request: Fields) returns (reply: Reply)
      requires service.stateManager.Valid()
      modifies service.stateManager.Repr()
      ensures service.stateManager.Valid()
      ensures service.stateManager.sessions == old(service.stateManager.sessions)
      ensures ClickGuard(request).Some? ==> reply == ClickGuard(request).value
      ensures ClickGuard(request).None? && SessionIdOf(request).value !in service.stateManager.sessions ==>
                reply == Error(404, SESSION_NOT_FOUND)
      ensures ClickGuard(request).None? && SessionIdOf(request).value in service.stateManager.sessions ==>
                reply.Ok?
                && reply.response.status == service.stateManager.sessions[SessionIdOf(request).value].status
                && ClickAnswered(reply.response,
                                 old(service.stateManager.sessions[SessionIdOf(request).value].status),
                                 old(service.stateManager.sessions[SessionIdOf(request).value].shown),
                                 service.stateManager.sessions[SessionIdOf(request).value].shown,
                                 service.stateManager.sessions[SessionIdOf(request).value].mines,
                                 Coordinate(request, "row"), Coordinate(request, "col"))
    {
      var guard := ClickGuard(request);
      if guard.Some? {
        return guard.value;
      }
      var row := Coordinate(request, "row");
      var col := Coordinate(request, "col");
      var response := service.Click(SessionIdOf(request).value, row, col);
      if response.None? {
        reply := Error(404, SESSION_NOT_FOUND);
      } else {
        reply := Ok(response.value);
      }
    }
  }
}

=== FILE: grid_state.dfy ===
// The Minesweeper engine: a 10x10 board of mines and adjacent-mine counts,
// the reveal operation with its recursive flood fill, and the game status.
module Minesweeper {

  const SIZE: int := 10
  const MINE_COUNT: int := 10
  const MINE_VALUE: int := 9
  const NON_MINE_CELLS: int := SIZE * SIZE - MINE_COUNT

  datatype GameStatus = PLAYING | LOST | WON

  /** A revealed cell as sent to the client: row, column and value (0-8, or 9 for a mine). */
  datatype CellUpdate = CellUpdate(r: int, c: int, val: int)

  type Cell = (int, int)

  function Pos(u: CellUpdate): Cell { (u.r, u.c) }

  predicate InBounds(r: int, c: int) { 0 <= r < SIZE && 0 <= c < SIZE }

  /** The cells (r, c) with 0 <= r, c < n. */
  function Square(n: int): set<Cell> {
    set r, c | 0 <= r < n && 0 <= c < n :: (r, c)
  }

  const AllCells: set<Cell> := Square(SIZE)

  /** Every cell of s lies on the board. */
  predicate OnBoard(s: set<Cell>) {
    forall x :: x in s ==> InBounds(x.0, x.1)
  }

  // ---------------------------------------------------------------------------
  // Adjacent-mine counts

  /** Is (row + dr, col + dc) a mine of the board, other than the cell itself? */
  predicate Hit(mines: set<Cell>, row: int, col: int, dr: int, dc: int) {
    !(dr == 0 && dc == 0) && InBounds(row + dr, col + dc) && (row + dr, col + dc) in mines
  }

  /** x is one of the 8 neighbours of (row, col). */
  predicate Adjacent(x: Cell, row: int, col: int) {
    x != (row, col) && row - 1 <= x.0 <= row + 1 && col - 1 <= x.1 <= col + 1
  }

  /** The mines among the in-bounds 8 neighbours of (row, col). */
  function NeighbourMines(mines: set<Cell>, row: int, col: int): set<Cell> {
    set x | x in mines && InBounds(x.0, x.1) && Adjacent(x, row, col)
  }

  /**
   * The neighbouring mines the counting loop has passed before offset
   * (dr, dc): those in rows above row + dr, and those in row row + dr left
   * of column col + dc.
   */
  function SeenMines(mines: set<Cell>, row: int, col: int, dr: int, dc: int): set<Cell> {
    set x | x in NeighbourMines(mines, row, col) && (x.0 < row + dr || (x.0 == row + dr && x.1 < col + dc))
  }

  lemma SeenMinesStart(mines: set<Cell>, row: int, col: int)
    ensures SeenMines(mines, row, col, -1, -1) == {}
  {
  }

  /** Visiting offset (dr, dc) adds that neighbour to the seen mines exactly when it is a mine. */
  lemma SeenMinesNext(mines: set<Cell>, row: int, col: int, dr: int, dc: int)
    requires -1 <= dr <= 1 && -1 <= dc <= 1
    ensures |SeenMines(mines, row, col, dr, dc + 1)|
            == |SeenMines(mines, row, col, dr, dc)| + (if Hit(mines, row, col, dr, dc) then 1 else 0)
  {
    var before, after := SeenMines(mines, row, col, dr, dc), SeenMines(mines, row, col, dr, dc + 1);
    var x := (row + dr, col + dc);
    if Hit(mines, row, col, dr, dc) {
      assert x in NeighbourMines(mines, row, col);
      assert after == before + {x};
    } else {
      assert after == before;
    }
  }

  lemma SeenMinesNextRow(mines: set<Cell>, row: int, col: int, dr: int)
    ensures SeenMines(mines, row, col, dr, 2) == SeenMines(mines, row, col, dr + 1, -1)
  {
  }

  lemma SeenMinesAll(mines: set<Cell>, row: int, col: int)
    ensures SeenMines(mines, row, col, 2, -1) == NeighbourMines(mines, row, col)
  {
  }

  /** The 8 cells around (row, col). */
  function Ring(row: int, col: int): (s: set<Cell>)
    ensures |s| == 8
  {
    var above := {(row - 1, col - 1), (row - 1, col), (row - 1, col + 1)};
    var beside := {(row, col - 1), (row, col + 1)};
    var below := {(row + 1, col - 1), (row + 1, col), (row + 1, col + 1)};
    assert above * beside == {} && (above + beside) * below == {};
    above + beside + below
  }

  /** The number of mines among the in-bounds 8 neighbours of (row, col). */
  function AdjacentMines(mines: set<Cell>, row: int, col: int): (n: nat)
    ensures n <= 8
  {
    var ring := Ring(row, col);
    assert NeighbourMines(mines, row, col) <= ring;
    SubsetCard(NeighbourMines(mines, row, col), ring);
    |NeighbourMines(mines, row, col)|
  }

  /** No neighbour of (row, col) is a mine. */
  predicate NoMineAround(mines: set<Cell>, row: int, col: int) {
    forall d, e :: -1 <= d <= 1 && -1 <= e <= 1 ==> !Hit(mines, row, col, d, e)
  }

  /** A count of 0 means exactly that no neighbour is a mine. */
  lemma ZeroIffNoMineAround(mines: set<Cell>, row: int, col: int)
    ensures AdjacentMines(mines, row, col) == 0 <==> NoMineAround(mines, row, col)
  {
    var around := NeighbourMines(mines, row, col);
    if NoMineAround(mines, row, col) {
      forall x | x in around
        ensures false
      {
        assert (row + (x.0 - row), col + (x.1 - col)) == x;
        assert Hit(mines, row, col, x.0 - row, x.1 - col);
      }
      assert around == {};
    } else {
      var d, e :| -1 <= d <= 1 && -1 <= e <= 1 && Hit(mines, row, col, d, e);
      assert (row + d, col + e) in around;
    }
  }

  /** The value the board holds for a cell: 9 for a mine, otherwise its adjacent-mine count. */
  function CellValue(mines: set<Cell>, r: int, c: int): (v: int)
    ensures 0 <= v <= MINE_VALUE
    ensures v == MINE_VALUE <==> (r, c) in mines
  {
    if (r, c) in mines then MINE_VALUE else AdjacentMines(mines, r, c)
  }

  // ---------------------------------------------------------------------------
  // Counting cells

  function RowCells(r: int, w: nat): (s: set<Cell>)
    ensures forall x :: x in s <==> x.0 == r && 0 <= x.1 < w
    ensures |s| == w
  {
    if w == 0 then {} else RowCells(r, w - 1) + {(r, w - 1)}
  }

  function Rect(h: nat, w: nat): (s: set<Cell>)
    ensures forall x :: x in s <==> 0 <= x.0 < h && 0 <= x.1 < w
    ensures |s| == h * w
  {
    if h == 0 then {}
    else
      var top, row := Rect(h - 1, w), RowCells(h - 1, w);
      assert top * row == {};
      assert (h - 1) * w + w == h * w;
      top + row
  }

  lemma SquareCount(n: nat)
    ensures |Square(n)| == n * n
    ensures forall x :: x in Square(n) <==> 0 <= x.0 < n && 0 <= x.1 < n
  {
    assert Square(n) == Rect(n, n);
  }

  lemma AllCellsCount()
    ensures |AllCells| == SIZE * SIZE
    ensures forall x :: x in AllCells <==> InBounds(x.0, x.1)
  {
    SquareCount(SIZE);
  }

  lemma {:induction false} SubsetCard<T>(a: set<T>, b: set<T>)
    requires a <= b
    ensures |a| <= |b|
    decreases |a|
  {
    if a != {} {
      var x :| x in a;
      SubsetCard(a - {x}, b - {x});
    }
  }

  lemma DifferenceCard<T>(a: set<T>, b: set<T>)
    requires b <= a
    ensures |a - b| == |a| - |b|
  {
    assert a == (a - b) + b;
    assert (a - b) * b == {};
  }

  /** However many cells are revealed, at most the 90 non-mine cells count. */
  lemma RevealedBound(shown: set<Cell>, mines: set<Cell>)
    requires OnBoard(shown) && OnBoard(mines) && |mines| == MINE_COUNT
    ensures |shown - mines| <= NON_MINE_CELLS
    ensures |shown - mines| == NON_MINE_CELLS <==> AllCells - mines <= shown
  {
    AllCellsCount();
    assert shown <= AllCells && mines <= AllCells;
    DifferenceCard(AllCells, mines);
    SubsetCard(shown - mines, AllCells - mines);
    DifferenceCard(AllCells - mines, shown - mines);
    if |shown - mines| == NON_MINE_CELLS {
      assert (AllCells - mines) - (shown - mines) == {};
    }
  }

  /** Revealing one more safe cell raises the count of revealed safe cells by one. */
  lemma RevealOneCount(shown: set<Cell>, mines: set<Cell>, x: Cell)
    requires x !in shown && x !in mines
    ensures |(shown + {x}) - mines| == |shown - mines| + 1
  {
    assert (shown + {x}) - mines == (shown - mines) + {x};
  }

  // ---------------------------------------------------------------------------
  // What a flood fill reveals

  /** The cells in the random draw sequence up to its end. */
  function Drawn(draws: seq<Cell>): set<Cell> {
    if |draws| == 0 then {} else Drawn(draws[..|draws| - 1]) + {draws[|draws| - 1]}
  }

  lemma DrawnStep(draws: seq<Cell>, i: int)
    requires 0 <= i < |draws|
    ensures Drawn(draws[..i + 1]) == Drawn(draws[..i]) + {draws[i]}
  {
    assert draws[..i + 1][..i] == draws[..i];
  }

  /** The cells named by `ups`. */
  function CellsOf(ups: seq<CellUpdate>): set<Cell> {
    if |ups| == 0 then {} else {Pos(ups[0])} + CellsOf(ups[1..])
  }

  lemma {:induction false} CellsOfMember(ups: seq<CellUpdate>, k: int)
    requires 0 <= k < |ups|
    ensures Pos(ups[k]) in CellsOf(ups)
  {
    if k > 0 {
      CellsOfMember(ups[1..], k - 1);
    }
  }

  /**
   * `ups` names, once each, exactly the cells that were added to `before` to
   * give `after`; all of them are on the board and none is a mine.
   */
  predicate Reveals(ups: seq<CellUpdate>, before: set<Cell>, after: set<Cell>, mines: set<Cell>) {
    after == before + CellsOf(ups)
    && (forall k :: 0 <= k < |ups| ==>
          InBounds(ups[k].r, ups[k].c) && Pos(ups[k]) !in before && Pos(ups[k]) !in mines)
    && (forall i, j :: 0 <= i < j < |ups| ==> Pos(ups[i]) != Pos(ups[j]))
  }

  /** Every update carries the value its cell holds in `g`. */
  predicate Valued(ups: seq<CellUpdate>, g: array2<int>)
    reads g
  {
    forall k :: 0 <= k < |ups| && 0 <= ups[k].r < g.Length0 && 0 <= ups[k].c < g.Length1 ==>
      ups[k].val == g[ups[k].r, ups[k].c]
  }

  /** Every update carries its cell's value: 9 for a mine, else the adjacent-mine count. */
  predicate ShowsValues(ups: seq<CellUpdate>, mines: set<Cell>) {
    forall k :: 0 <= k < |ups| ==> ups[k].val == CellValue(mines, ups[k].r, ups[k].c)
  }

  lemma ValuedConcat(u1: seq<CellUpdate>, u2: seq<CellUpdate>, g: array2<int>)
    requires Valued(u1, g) && Valued(u2, g)
    ensures Valued(u1 + u2, g)
  {
    var u := u1 + u2;
    forall k | 0 <= k < |u| && 0 <= u[k].r < g.Length0 && 0 <= u[k].c < g.Length1
      ensures u[k].val == g[u[k].r, u[k].c]
    {
      if k >= |u1| {
        assert u[k] == u2[k - |u1|];
      }
    }
  }

  /** The neighbour (row + d, col + e), if on the board, is in `s`. */
  predicate Seen(s: set<Cell>, row: int, col: int, d: int, e: int) {
    InBounds(row + d, col + e) ==> (row + d, col + e) in s
  }

  predicate Surrounded(s: set<Cell>, row: int, col: int) {
    forall d, e :: -1 <= d <= 1 && -1 <= e <= 1 ==> Seen(s, row, col, d, e)
  }

  /** Every cell of `ups` with value 0 has all its neighbours in `s`. */
  predicate ZerosExpanded(ups: seq<CellUpdate>, s: set<Cell>) {
    forall k :: 0 <= k < |ups| && ups[k].val == 0 ==> Surrounded(s, ups[k].r, ups[k].c)
  }

  /** The neighbours visited so far by the flood fill's two loops are all in `s`. */
  predicate SeenUpTo(s: set<Cell>, row: int, col: int, dr: int, dc: int) {
    (forall d, e :: -1 <= d < dr && -1 <= e <= 1 ==> Seen(s, row, col, d, e))
    && (forall e :: -1 <= e < dc ==> Seen(s, row, col, dr, e))
  }

  lemma SeenUpToGrows(s: set<Cell>, t: set<Cell>, row: int, col: int, dr: int, dc: int)
    requires s <= t && SeenUpTo(s, row, col, dr, dc)
    ensures SeenUpTo(t, row, col, dr, dc)
  {
    forall d, e | -1 <= d < dr && -1 <= e <= 1
      ensures Seen(t, row, col, d, e)
    {
      assert Seen(s, row, col, d, e);
    }
    forall e | -1 <= e < dc
      ensures Seen(t, row, col, dr, e)
    {
      assert Seen(s, row, col, dr, e);
    }
  }

  lemma SeenUpToNextRow(s: set<Cell>, row: int, col: int, dr: int)
    requires SeenUpTo(s, row, col, dr, 2)
    ensures SeenUpTo(s, row, col, dr + 1, -1)
  {
    forall d, e | -1 <= d < dr + 1 && -1 <= e <= 1
      ensures Seen(s, row, col, d, e)
    {
      if d == dr {
        assert -1 <= e < 2;
      }
    }
  }

  lemma SeenUpToNext(s: set<Cell>, row: int, col: int, dr: int, dc: int)
    requires SeenUpTo(s, row, col, dr, dc) && Seen(s, row, col, dr, dc)
    ensures SeenUpTo(s, row, col, dr, dc + 1)
  {
  }

  /**
   * The neighbour loop's invariant once the offsets before (dr, dc) are done:
   * the fills from the neighbours so far revealed `more`, and each of those
   * neighbours is revealed; the 0 cell (row, col) followed by `more` grows
   * only from 0 cells.
   */
  predicate Filling(more: seq<CellUpdate>, g: array2<int>, s0: set<Cell>, s: set<Cell>, mines: set<Cell>,
                    row: int, col: int, dr: int, dc: int)
    reads g
  {
    Reveals(more, s0, s, mines) && Valued(more, g) && ZerosExpanded(more, s) && SeenUpTo(s, row, col, dr, dc)
    && FromZeros([CellUpdate(row, col, 0)] + more)
  }

  lemma FillStart(g: array2<int>, s: set<Cell>, mines: set<Cell>, row: int, col: int)
    ensures Filling([], g, s, s, mines, row, col, -1, -1)
  {
    assert CellsOf([]) == {};
    assert [CellUpdate(row, col, 0)] + [] == [CellUpdate(row, col, 0)];
  }

  lemma FillCentre(more: seq<CellUpdate>, g: array2<int>, s0: set<Cell>, s: set<Cell>, mines: set<Cell>,
                   row: int, col: int)
    requires Filling(more, g, s0, s, mines, row, col, 0, 0) && (row, col) in s
    ensures Filling(more, g, s0, s, mines, row, col, 0, 1)
  {
    SeenUpToNext(s, row, col, 0, 0);
  }

  lemma FillNextRow(more: seq<CellUpdate>, g: array2<int>, s0: set<Cell>, s: set<Cell>, mines: set<Cell>,
                    row: int, col: int, dr: int)
    requires Filling(more, g, s0, s, mines, row, col, dr, 2)
    ensures Filling(more, g, s0, s, mines, row, col, dr + 1, -1)
  {
    SeenUpToNextRow(s, row, col, dr);
  }

  lemma FillDone(more: seq<CellUpdate>, g: array2<int>, s0: set<Cell>, s: set<Cell>, mines: set<Cell>,
                 row: int, col: int)
    requires Filling(more, g, s0, s, mines, row, col, 2, -1)
    ensures Surrounded(s, row, col) && FromZeros([CellUpdate(row, col, 0)] + more)
  {
    forall d, e | -1 <= d <= 1 && -1 <= e <= 1
      ensures Seen(s, row, col, d, e)
    {
    }
  }

  /**
   * One step of the neighbour loop: appending what the fill from the
   * neighbour (nr, nc) = (row + dr, col + dc) revealed keeps the invariant.
   */
  lemma FloodStep(sofar: seq<CellUpdate>, more: seq<CellUpdate>, g: array2<int>,
                  s0: set<Cell>, before: set<Cell>, after: set<Cell>, mines: set<Cell>,
                  row: int, col: int, dr: int, dc: int, nr: int, nc: int)
    requires nr == row + dr && nc == col + dc
    requires -1 <= dr <= 1 && -1 <= dc <= 1 && !(dr == 0 && dc == 0)
    requires Filling(sofar, g, s0, before, mines, row, col, dr, dc) && NoMineAround(mines, row, col)
    requires Reveals(more, before, after, mines) && Valued(more, g) && ZerosExpanded(more, after)
    requires FromZeros(more) && (|more| > 0 ==> Pos(more[0]) == (nr, nc))
    requires InBounds(nr, nc) && (nr, nc) !in mines ==> (nr, nc) in after
    ensures Filling(sofar + more, g, s0, after, mines, row, col, dr, dc + 1)
  {
    assert !Hit(mines, row, col, dr, dc);
    RevealsConcat(sofar, more, s0, before, after, mines);
    ValuedConcat(sofar, more, g);
    SeenUpToGrows(before, after, row, col, dr, dc);
    SeenUpToNext(after, row, col, dr, dc);
    ZerosExpandedConcat(sofar, more, before, after);
    FromZerosStep(sofar, more, row, col, dr, dc);
  }

  /** A numbered cell revealed alone. */
  lemma FloodSingle(first: seq<CellUpdate>, g: array2<int>, s0: set<Cell>, s1: set<Cell>, mines: set<Cell>,
                    row: int, col: int)
    requires InBounds(row, col) && (row, col) !in s0 && (row, col) !in mines && s1 == s0 + {(row, col)}
    requires |first| == 1 && first[0].r == row && first[0].c == col && first[0].val != 0
    ensures Reveals(first, s0, s1, mines) && ZerosExpanded(first, s1)
  {
    assert CellsOf(first) == {(row, col)} by {
      assert Pos(first[0]) == (row, col);
    }
  }

  /**
   * The 0 cell (row, col) revealed first, then the fills from its neighbours:
   * together they reveal the cell and everything after it.
   */
  lemma FloodJoin(first: seq<CellUpdate>, more: seq<CellUpdate>, g: array2<int>,
                  s0: set<Cell>, s1: set<Cell>, s: set<Cell>, mines: set<Cell>, row: int, col: int)
    requires InBounds(row, col) && (row, col) !in s0 && (row, col) !in mines && s1 == s0 + {(row, col)}
    requires first == [CellUpdate(row, col, 0)] && Valued(first, g)
    requires Reveals(more, s1, s, mines) && Valued(more, g) && ZerosExpanded(more, s) && Surrounded(s, row, col)
    ensures Reveals(first + more, s0, s, mines) && Valued(first + more, g) && ZerosExpanded(first + more, s)
  {
    assert Reveals(first, s0, s1, mines) by {
      assert CellsOf(first) == {(row, col)} by {
        assert Pos(first[0]) == (row, col);
      }
    }
    RevealsConcat(first, more, s0, s1, s, mines);
    ValuedConcat(first, more, g);
    ZerosExpandedConcat(first, more, s, s);
  }

  lemma {:induction false} CellsOfConcat(u1: seq<CellUpdate>, u2: seq<CellUpdate>)
    ensures CellsOf(u1 + u2) == CellsOf(u1) + CellsOf(u2)
  {
    if |u1| > 0 {
      assert (u1 + u2)[1..] == u1[1..] + u2;
      CellsOfConcat(u1[1..], u2);
    } else {
      assert u1 + u2 == u2;
    }
  }

  /** Two successive flood fills together reveal the concatenation of their updates. */
  lemma RevealsConcat(u1: seq<CellUpdate>, u2: seq<CellUpdate>,
                      s0: set<Cell>, s1: set<Cell>, s2: set<Cell>, mines: set<Cell>)
    requires Reveals(u1, s0, s1, mines) && Reveals(u2, s1, s2, mines)
    ensures Reveals(u1 + u2, s0, s2, mines)
  {
    var u := u1 + u2;
    CellsOfConcat(u1, u2);
    forall k | 0 <= k < |u|
      ensures InBounds(u[k].r, u[k].c) && Pos(u[k]) !in s0 && Pos(u[k]) !in mines
    {
      if k >= |u1| {
        assert u[k] == u2[k - |u1|];
      }
    }
    forall i, j | 0 <= i < j < |u|
      ensures Pos(u[i]) != Pos(u[j])
    {
      if j >= |u1| {
        assert u[j] == u2[j - |u1|];
        if i < |u1| {
          CellsOfMember(u1, i);
        } else {
          assert u[i] == u2[i - |u1|];
        }
      }
    }
  }

  lemma ZerosExpandedConcat(u1: seq<CellUpdate>, u2: seq<CellUpdate>, s1: set<Cell>, s2: set<Cell>)
    requires ZerosExpanded(u1, s1) && s1 <= s2 && ZerosExpanded(u2, s2)
    ensures ZerosExpanded(u1 + u2, s2)
  {
    var u := u1 + u2;
    forall k | 0 <= k < |u| && u[k].val == 0
      ensures Surrounded(s2, u[k].r, u[k].c)
    {
      if k < |u1| {
        assert u[k] == u1[k];
        forall d, e | -1 <= d <= 1 && -1 <= e <= 1
          ensures Seen(s2, u[k].r, u[k].c, d, e)
        {
          assert Seen(s1, u[k].r, u[k].c, d, e);
        }
      } else {
        assert u[k] == u2[k - |u1|];
      }
    }
  }

  /**
   * The flood fill grows only from 0 cells: every update after the first
   * names a neighbour of an earlier update whose value is 0.
   */
  predicate FromZeros(ups: seq<CellUpdate>) {
    forall k :: 0 < k < |ups| ==>
      exists j :: 0 <= j < k && ups[j].val == 0 && Adjacent(Pos(ups[k]), ups[j].r, ups[j].c)
  }

  /** A fill that starts next to the 0 cell heading `a` may follow `a`. */
  lemma FromZerosConcat(a: seq<CellUpdate>, b: seq<CellUpdate>)
    requires FromZeros(a) && FromZeros(b) && |a| > 0 && a[0].val == 0
    requires |b| > 0 ==> Adjacent(Pos(b[0]), a[0].r, a[0].c)
    ensures FromZeros(a + b)
  {
    var u := a + b;
    forall k | 0 < k < |u|
      ensures exists j :: 0 <= j < k && u[j].val == 0 && Adjacent(Pos(u[k]), u[j].r, u[j].c)
    {
      if k < |a| {
        assert u[k] == a[k];
        var j :| 0 <= j < k && a[j].val == 0 && Adjacent(Pos(a[k]), a[j].r, a[j].c);
        assert u[j] == a[j];
      } else if k == |a| {
        assert u[k] == b[0] && u[0] == a[0];
      } else {
        assert u[k] == b[k - |a|];
        var j :| 0 <= j < k - |a| && b[j].val == 0 && Adjacent(Pos(b[k - |a|]), b[j].r, b[j].c);
        assert u[j + |a|] == b[j];
      }
    }
    assert forall k :: 0 < k < |u| ==> exists j :: 0 <= j < k && u[j].val == 0 && Adjacent(Pos(u[k]), u[j].r, u[j].c);
  }

  /**
   * One step of the neighbour loop: the fill from the neighbour
   * (row + dr, col + dc) appended after the 0 cell and the fills so far.
   */
  lemma FromZerosStep(more: seq<CellUpdate>, next: seq<CellUpdate>, row: int, col: int, dr: int, dc: int)
    requires -1 <= dr <= 1 && -1 <= dc <= 1 && !(dr == 0 && dc == 0)
    requires FromZeros([CellUpdate(row, col, 0)] + more) && FromZeros(next)
    requires |next| > 0 ==> Pos(next[0]) == (row + dr, col + dc)
    ensures FromZeros([CellUpdate(row, col, 0)] + (more + next))
  {
    var a := [CellUpdate(row, col, 0)] + more;
    assert a[0] == CellUpdate(row, col, 0);
    FromZerosConcat(a, next);
    assert a + next == [CellUpdate(row, col, 0)] + (more + next);
  }

  predicate Playable(status: GameStatus, shown: set<Cell>, row: int, col: int) {
    status == PLAYING && InBounds(row, col) && (row, col) !in shown
  }

  // ---------------------------------------------------------------------------
  // The game state

  class GridState {
    const grid: array2<int>
    const revealed: array2<bool>
    var status: GameStatus
    var revealedCount: int
    /** The mine cells; fixed once the board is built. */
    ghost var mines: set<Cell>
    /** The revealed cells, mirroring `revealed`. */
    ghost var shown: set<Cell>

    ghost predicate Shape() {
      grid.Length0 == SIZE && grid.Length1 == SIZE
      && revealed.Length0 == SIZE && revealed.Length1 == SIZE
    }

    /** Every cell of the board holds its value: 9 for a mine, else its adjacent-mine count. */
    ghost predicate Counts()
      reads this`mines, grid
      requires Shape()
    {
      forall r, c {:trigger CellValue(mines, r, c)} :: 0 <= r < SIZE && 0 <= c < SIZE ==> grid[r, c] == CellValue(mines, r, c)
    }

    /** `revealed` marks exactly the cells of `shown`. */
    ghost predicate Mirror()
      reads this`shown, revealed
      requires Shape()
    {
      forall r, c {:trigger revealed[r, c]} :: 0 <= r < SIZE && 0 <= c < SIZE ==> (revealed[r, c] <==> (r, c) in shown)
    }

    /** A cell holds 9 exactly when it is a mine. */
    ghost predicate MinesMarked()
      reads this`mines, grid
      requires Shape()
    {
      forall r, c {:trigger grid[r, c]} :: 0 <= r < SIZE && 0 <= c < SIZE ==> (grid[r, c] == MINE_VALUE <==> (r, c) in mines)
    }

    /** No cell holding 0 has a mine next to it. */
    ghost predicate ZeroClear()
      reads this`mines, grid
      requires Shape()
    {
      forall r, c :: 0 <= r < SIZE && 0 <= c < SIZE && grid[r, c] == 0 ==> NoMineAround(mines, r, c)
    }

    /**
     * Ten mines on the board and marked on it, no 0 cell next to a mine,
     * `revealed` mirrors `shown`, and `revealedCount` counts the revealed
     * non-mine cells.
     */
    ghost predicate Board()
      reads this`mines, this`shown, this`revealedCount, grid, revealed
    {
      Shape() && OnBoard(mines) && |mines| == MINE_COUNT && OnBoard(shown)
      && MinesMarked() && ZeroClear() && Mirror() && revealedCount == |shown - mines|
    }

    /**
     * The board invariant, every cell holds its value, and the game is won
     * exactly when all 90 safe cells are revealed.
     */
    ghost predicate Valid()
      reads this, grid, revealed
    {
      Board() && Counts() && (status == WON <==> revealedCount == NON_MINE_CELLS)
    }

    /** The values the board holds give the mine marks and the clear zeros. */
    lemma CountsMarkBoard()
      requires Shape() && Counts()
      ensures MinesMarked() && ZeroClear()
    {
      forall r, c | 0 <= r < SIZE && 0 <= c < SIZE
        ensures grid[r, c] == MINE_VALUE <==> (r, c) in mines
        ensures grid[r, c] == 0 ==> NoMineAround(mines, r, c)
      {
        assert grid[r, c] == CellValue(mines, r, c);
        ZeroIffNoMineAround(mines, r, c);
      }
    }

    /** Updates taken from a board that holds its values show those values. */
    lemma GridShowsValues(ups: seq<CellUpdate>)
      requires Shape() && Counts() && Valued(ups, grid)
      requires forall k :: 0 <= k < |ups| ==> InBounds(ups[k].r, ups[k].c)
      ensures ShowsValues(ups, mines)
    {
    }

    /**
     * A new game: mines from the random draws, counts filled in, nothing
     * revealed. `draws` stands for the successive pairs `random.nextInt(10)`
     * returns; it must hold ten distinct cells for the placement loop to end.
     */
    constructor (draws: seq<Cell>)
      requires forall k :: 0 <= k < |draws| ==> InBounds(draws[k].0, draws[k].1)
      requires |Drawn(draws)| >= MINE_COUNT
      ensures Valid() && status == PLAYING && revealedCount == 0 && shown == {}
      ensures exists n :: 0 < n <= |draws| && mines == Drawn(draws[..n]) && |Drawn(draws[..n - 1])| < MINE_COUNT
      ensures fresh(grid) && fresh(revealed)
    {
      grid := new int[SIZE, SIZE]((r, c) => 0);
      revealed := new bool[SIZE, SIZE]((r, c) => false);
      status := PLAYING;
      revealedCount := 0;
      mines := {};
      shown := {};
      new;
      ghost var used := PlaceMines(draws);
      CalculateAdjacentCounts();
      CountsMarkBoard();
    }

    /**
     * Marks cells as mines, one draw at a time, skipping draws that hit a
     * mine already, until ten are placed. The mines are the cells of the
     * shortest prefix of the draws that holds ten distinct cells.
     */
    method PlaceMines(draws: seq<Cell>) returns (ghost used: nat)
      requires Shape()
      requires forall r, c {:trigger grid[r, c]} :: 0 <= r < SIZE && 0 <= c < SIZE ==> grid[r, c] == 0
      requires forall k :: 0 <= k < |draws| ==> InBounds(draws[k].0, draws[k].1)
      requires |Drawn(draws)| >= MINE_COUNT
      modifies grid, this`mines
      ensures 0 < used <= |draws| && mines == Drawn(draws[..used]) && |Drawn(draws[..used - 1])| < MINE_COUNT
      ensures |mines| == MINE_COUNT && OnBoard(mines)
      ensures forall r, c {:trigger grid[r, c]} :: 0 <= r < SIZE && 0 <= c < SIZE ==>
                grid[r, c] == (if (r, c) in mines then MINE_VALUE else 0)
    {
      mines := {};
      var placed := 0;
      var i := 0;
      assert draws[..|draws|] == draws;
      while placed < MINE_COUNT
        invariant 0 <= i <= |draws| && placed <= MINE_COUNT
        invariant mines == Drawn(draws[..i]) && placed == |mines|
        invariant i == 0 ==> placed == 0
        invariant i > 0 ==> |Drawn(draws[..i - 1])| < MINE_COUNT
        invariant OnBoard(mines)
        invariant forall r, c {:trigger grid[r, c]} :: 0 <= r < SIZE && 0 <= c < SIZE ==>
                    grid[r, c] == (if (r, c) in mines then MINE_VALUE else 0)
        decreases |draws| - i
      {
        var r, c := draws[i].0, draws[i].1;
        DrawnStep(draws, i);
        if grid[r, c] != MINE_VALUE {
          grid[r, c] := MINE_VALUE;
          mines := mines + {(r, c)};
          placed := placed + 1;
        }
        i := i + 1;
      }
      used := i;
    }

    /** Fills every non-mine cell with its adjacent-mine count. */
    method CalculateAdjacentCounts()
      requires Shape()
      requires forall r, c {:trigger grid[r, c]} :: 0 <= r < SIZE && 0 <= c < SIZE ==>
                 grid[r, c] == (if (r, c) in mines then MINE_VALUE else 0)
      modifies grid
      ensures forall r, c {:trigger grid[r, c]} :: 0 <= r < SIZE && 0 <= c < SIZE ==> grid[r, c] == CellValue(mines, r, c)
    {
      for r := 0 to SIZE
        invariant forall i, j {:trigger grid[i, j]} :: 0 <= i < SIZE && 0 <= j < SIZE ==>
                    grid[i, j] == (if i < r then CellValue(mines, i, j)
                                   else if (i, j) in mines then MINE_VALUE else 0)
      {
        for c := 0 to SIZE
          invariant forall i, j {:trigger grid[i, j]} :: 0 <= i < SIZE && 0 <= j < SIZE ==>
                      grid[i, j] == (if i < r || (i == r && j < c) then CellValue(mines, i, j)
                                     else if (i, j) in mines then MINE_VALUE else 0)
        {
          if grid[r, c] != MINE_VALUE {
            var count := CountAdjacentMines(r, c);
            grid[r, c] := count;
          }
        }
      }
    }

    /** Counts the mines among the in-bounds 8 neighbours of (row, col). */
    method CountAdjacentMines(row: int, col: int) returns (count: int)
      requires Shape() && MinesMarked()
      ensures count == AdjacentMines(mines, row, col)
    {
      count := 0;
      SeenMinesStart(mines, row, col);
      for dr := -1 to 2
        invariant count == |SeenMines(mines, row, col, dr, -1)|
      {
        for dc := -1 to 2
          invariant count == |SeenMines(mines, row, col, dr, dc)|
        {
          SeenMinesNext(mines, row, col, dr, dc);
          if dr == 0 && dc == 0 {
            continue;
          }
          var nr, nc := row + dr, col + dc;
          if InBounds(nr, nc) && grid[nr, nc] == MINE_VALUE {
            count := count + 1;
          }
        }
        SeenMinesNextRow(mines, row, col, dr);
      }
      SeenMinesAll(mines, row, col);
    }

    /**
     * Reveals (row, col) and returns the cells revealed. Nothing happens once
     * the game is over, off the board or on a revealed cell; a mine loses the
     * game; a numbered cell is revealed alone; a 0 cell starts a flood fill.
     */
    method Reveal(row: int, col: int) returns (updates: seq<CellUpdate>)
      requires Valid()
      modifies this`status, this`revealedCount, this`shown, revealed
      ensures Valid()
      ensures !Playable(old(status), old(shown), row, col) ==>
                updates == [] && status == old(status)
                && revealedCount == old(revealedCount) && shown == old(shown)
      ensures Playable(old(status), old(shown), row, col) && (row, col) in mines ==>
                status == LOST && updates == [CellUpdate(row, col, MINE_VALUE)]
                && shown == old(shown) + {(row, col)} && revealedCount == old(revealedCount)
      ensures Playable(old(status), old(shown), row, col) && 0 < CellValue(mines, row, col) < MINE_VALUE ==>
                status != LOST && updates == [CellUpdate(row, col, CellValue(mines, row, col))]
                && shown == old(shown) + {(row, col)} && revealedCount == old(revealedCount) + 1
      ensures Playable(old(status), old(shown), row, col) && CellValue(mines, row, col) == 0 ==>
                status != LOST && |updates| > 0 && updates[0] == CellUpdate(row, col, 0)
                && Reveals(updates, old(shown), shown, mines) && ShowsValues(updates, mines)
                && ZerosExpanded(updates, shown) && FromZeros(updates)
                && revealedCount == old(revealedCount) + |updates|
    {
      updates := [];
      if status != PLAYING {
        return;
      }
      if !InBounds(row, col) || revealed[row, col] {
        assert !Playable(old(status), old(shown), row, col);
        return;
      }
      var value := grid[row, col];
      assert value == CellValue(mines, row, col);
      if value == MINE_VALUE {
        UncoverMine(row, col);
        status := LOST;
        updates := updates + [CellUpdate(row, col, MINE_VALUE)];
        assert CellValue(mines, row, col) == MINE_VALUE;
        return;
      }
      if value > 0 {
        Uncover(row, col);
        updates := updates + [CellUpdate(row, col, value)];
        RevealedBound(shown, mines);
        CheckWinCondition();
        assert CellValue(mines, row, col) == value;
        return;
      }
      var filled := FloodFill(row, col);
      updates := updates + filled;
      assert CellValue(mines, row, col) == 0;
      assert updates == filled;
      assert ShowsValues(updates, mines) by {
        GridShowsValues(updates);
      }
      RevealedBound(shown, mines);
      CheckWinCondition();
    }

    /**
     * Reveals (row, col) if it is on the board, unrevealed and not a mine,
     * and, when its value is 0, fills from every neighbour in turn. Returns
     * the cells it revealed, in order.
     */
    method FloodFill(row: int, col: int) returns (added: seq<CellUpdate>)
      requires Board()
      modifies this`revealedCount, this`shown, revealed
      ensures Board()
      ensures Reveals(added, old(shown), shown, mines) && Valued(added, grid)
      ensures revealedCount == old(revealedCount) + |added|
      ensures ZerosExpanded(added, shown)
      ensures InBounds(row, col) && (row, col) !in mines ==> (row, col) in shown
      ensures InBounds(row, col) && (row, col) !in old(shown) && (row, col) !in mines ==>
                |added| > 0 && added[0] == CellUpdate(row, col, grid[row, col])
      ensures !(InBounds(row, col) && (row, col) !in old(shown) && (row, col) !in mines) ==> added == []
      ensures FromZeros(added)
      decreases NON_MINE_CELLS - revealedCount, 0
    {
      added := [];
      if !InBounds(row, col) || revealed[row, col] {
        assert !(InBounds(row, col) && (row, col) !in old(shown) && (row, col) !in mines);
        return;
      }
      var value := grid[row, col];
      if value == MINE_VALUE {
        assert (row, col) in mines;
        return;
      }
      Uncover(row, col);
      added := added + [CellUpdate(row, col, value)];
      if value == 0 {
        ghost var s1 := shown;
        RevealedBound(shown, mines);
        var more := FloodNeighbours(row, col);
        FloodJoin(added, more, grid, old(shown), s1, shown, mines, row, col);
        assert added == [CellUpdate(row, col, 0)];
        added := added + more;
      } else {
        FloodSingle(added, grid, old(shown), shown, mines, row, col);
      }
    }

    /**
     * The flood fill's loop over the 8 neighbours of the revealed 0 cell
     * (row, col), skipping the cell itself: fills from each in turn and
     * returns what they revealed, in order. Afterwards every neighbour is
     * revealed.
     */
    method FloodNeighbours(row: int, col: int) returns (more: seq<CellUpdate>)
      requires Board() && InBounds(row, col) && (row, col) in shown && grid[row, col] == 0
      modifies this`revealedCount, this`shown, revealed
      ensures Board()
      ensures Reveals(more, old(shown), shown, mines) && Valued(more, grid)
      ensures revealedCount == old(revealedCount) + |more|
      ensures ZerosExpanded(more, shown) && Surrounded(shown, row, col)
      ensures FromZeros([CellUpdate(row, col, 0)] + more)
      decreases NON_MINE_CELLS - revealedCount, 1
    {
      more := [];
      assert NoMineAround(mines, row, col);
      FillStart(grid, shown, mines, row, col);
      for dr := -1 to 2
        invariant Board()
        invariant revealedCount == old(revealedCount) + |more| && (row, col) in shown
        invariant Filling(more, grid, old(shown), shown, mines, row, col, dr, -1)
      {
        for dc := -1 to 2
          invariant Board()
          invariant revealedCount == old(revealedCount) + |more| && (row, col) in shown
          invariant Filling(more, grid, old(shown), shown, mines, row, col, dr, dc)
        {
          if dr == 0 && dc == 0 {
            FillCentre(more, grid, old(shown), shown, mines, row, col);
            continue;
          }
          ghost var before, sofar := shown, more;
          RevealedBound(shown, mines);
          var nr, nc := row + dr, col + dc;
          var next := FloodFill(nr, nc);
          FloodStep(sofar, next, grid, old(shown), before, shown, mines, row, col, dr, dc, nr, nc);
          more := more + next;
        }
        FillNextRow(more, grid, old(shown), shown, mines, row, col, dr);
      }
      FillDone(more, grid, old(shown), shown, mines, row, col);
    }

    /** Marks the safe, unrevealed cell (row, col) revealed and counts it. */
    method Uncover(row: int, col: int)
      requires Board() && InBounds(row, col) && (row, col) !in shown && (row, col) !in mines
      modifies this`revealedCount, this`shown, revealed
      ensures Board() && shown == old(shown) + {(row, col)} && revealedCount == old(revealedCount) + 1
    {
      revealed[row, col] := true;
      RevealOneCount(shown, mines, (row, col));
      shown := shown + {(row, col)};
      revealedCount := revealedCount + 1;
    }

    /** Marks the mine (row, col) revealed; the count of safe cells is unchanged. */
    method UncoverMine(row: int, col: int)
      requires Board() && InBounds(row, col) && (row, col) in mines
      modifies this`shown, revealed
      ensures Board() && shown == old(shown) + {(row, col)}
    {
      revealed[row, col] := true;
      assert (shown + {(row, col)}) - mines == shown - mines;
      shown := shown + {(row, col)};
    }

    method CheckWinCondition()
      modifies this`status
      ensures status == (if revealedCount == NON_MINE_CELLS then WON else old(status))
    {
      if revealedCount == NON_MINE_CELLS {
        status := WON;
      }
    }

    /** The revealed count is never above the 90 non-mine cells. */
    lemma CountWithinSafeCells()
      requires Board()
      ensures 0 <= revealedCount <= NON_MINE_CELLS
    {
      RevealedBound(shown, mines);
    }

    /** The game is won exactly when every non-mine cell is revealed. */
    lemma WonIffAllSafeRevealed()
      requires Valid()
      ensures status == WON <==> AllCells - mines <= shown
    {
      RevealedBound(shown, mines);
    }
  }
}

=== FILE: home_screen.dfy ===
/**
 * The phone's `HomeScreen`: the app grid split into pages of 20, the
 * horizontal swipe that moves between pages (direction lock, edge
 * resistance, distance and flick thresholds) and the long press that
 * starts and stops an icon's wiggle. Touch coordinates are whole pixels
 * and the clock is in milliseconds; the grid's app list is a parameter.
 */
module HomeScreen {
  import opened Common

  const APPS_PER_PAGE: nat := 20
  /** The distance past which a swipe changes the page. */
  const SWIPE_THRESHOLD: nat := 50
  /** The distance past which a fast flick changes the page. */
  const FLICK_DISTANCE: nat := 30
  /** The movement on either axis that fixes the gesture's direction. */
  const DIRECTION_LOCK: nat := 10
  /** The factor applied to the offset when swiping past the first or the last page. */
  const EDGE_RESISTANCE: real := 0.3

  function Abs(x: int): nat
  {
    if x < 0 then -x else x
  }

  /** `Math.ceil(apps / 20)`: the fewest pages of 20 that hold every app. */
  function TotalPages(appCount: nat): (r: nat)
    ensures r * APPS_PER_PAGE >= appCount
    ensures r > 0 ==> (r - 1) * APPS_PER_PAGE < appCount
    ensures r == 0 <==> appCount == 0
  {
    (appCount + APPS_PER_PAGE - 1) / APPS_PER_PAGE
  }

  function Min(a: nat, b: nat): nat
  {
    if a < b then a else b
  }

  /** `getAppsForPage(p)`: `slice(20p, 20p + 20)`, which stops at the end of the list. */
  function AppsForPage<T>(apps: seq<T>, page: nat): (r: seq<T>)
    ensures |r| <= APPS_PER_PAGE
    ensures page < TotalPages(|apps|) ==> |r| > 0
    ensures page + 1 < TotalPages(|apps|) ==> |r| == APPS_PER_PAGE
    ensures page >= TotalPages(|apps|) ==> r == []
    ensures |r| > 0 ==> page * APPS_PER_PAGE + |r| <= |apps|
    ensures forall i :: 0 <= i < |r| ==> r[i] == apps[page * APPS_PER_PAGE + i]
  {
    var start := Min(page * APPS_PER_PAGE, |apps|);
    var end := Min(page * APPS_PER_PAGE + APPS_PER_PAGE, |apps|);
    apps[start..end]
  }

  /** The first `count` pages one after the other. */
  function Pages<T>(apps: seq<T>, count: nat): seq<T>
  {
    if count == 0 then [] else Pages(apps, count - 1) + AppsForPage(apps, count - 1)
  }

  /** The first `count` pages are the apps up to `20 * count`, in order. */
  lemma {:induction false} PagesArePrefix<T>(apps: seq<T>, count: nat)
    ensures Pages(apps, count) == apps[..Min(count * APPS_PER_PAGE, |apps|)]
  {
    if count > 0 {
      PagesArePrefix(apps, count - 1);
      var a := Min((count - 1) * APPS_PER_PAGE, |apps|);
      var b := Min(count * APPS_PER_PAGE, |apps|);
      assert AppsForPage(apps, count - 1) == apps[a..b];
      assert apps[..a] + apps[a..b] == apps[..b];
    }
  }

  /** The pages together are the app list, in order, with no app left out or repeated. */
  lemma PagesPartitionApps<T>(apps: seq<T>)
    ensures Pages(apps, TotalPages(|apps|)) == apps
  {
    PagesArePrefix(apps, TotalPages(|apps|));
  }

  /**
   * The direction lock in `handleTouchMove`: the first move of more than
   * 10 pixels on either axis fixes the gesture as horizontal exactly when
   * it moved further across than down; once fixed it stays.
   */
  function LockDirection(lock: Option<bool>, dx: int, dy: int): (r: Option<bool>)
    ensures lock.Some? ==> r == lock
    ensures lock.None? && (Abs(dx) > DIRECTION_LOCK || Abs(dy) > DIRECTION_LOCK) ==> r == Some(Abs(dx) > Abs(dy))
    ensures lock.None? && Abs(dx) <= DIRECTION_LOCK && Abs(dy) <= DIRECTION_LOCK ==> r.None?
  {
    if lock.None? && (Abs(dx) > DIRECTION_LOCK || Abs(dy) > DIRECTION_LOCK) then Some(Abs(dx) > Abs(dy)) else lock
  }

  /** Later moves never change a fixed direction. */
  lemma {:induction false} LockIsFinal(lock: Option<bool>, moves: seq<(int, int)>)
    requires lock.Some?
    ensures LockAll(lock, moves) == lock
    decreases |moves|
  {
    if moves != [] {
      LockIsFinal(LockDirection(lock, moves[0].0, moves[0].1), moves[1..]);
    }
  }

  /** The lock after a series of moves. */
  function LockAll(lock: Option<bool>, moves: seq<(int, int)>): Option<bool>
    decreases |moves|
  {
    if moves == [] then lock else LockAll(LockDirection(lock, moves[0].0, moves[0].1), moves[1..])
  }

  /** The page offset shown during a horizontal move: resisted past the first and the last page. */
  function SwipeOffset(page: int, totalPages: nat, dx: int): (r: real)
    ensures (page == 0 && dx > 0) || (page == totalPages - 1 && dx < 0) ==> r == EDGE_RESISTANCE * dx as real
    ensures !((page == 0 && dx > 0) || (page == totalPages - 1 && dx < 0)) ==> r == dx as real
    ensures (dx > 0 ==> 0.0 < r <= dx as real) && (dx < 0 ==> dx as real <= r < 0.0) && (dx == 0 ==> r == 0.0)
  {
    if page == 0 && dx > 0 then EDGE_RESISTANCE * dx as real
    else if page == totalPages - 1 && dx < 0 then EDGE_RESISTANCE * dx as real
    else dx as real
  }

  /** `velocity > 0.3` px/ms with `velocity = |dx| / dt` (0 when no time passed), in whole numbers. */
  predicate IsFast(dx: int, dt: int)
  {
    dt > 0 && 10 * Abs(dx) > 3 * dt
  }

  /** A distance swipe, or a shorter but fast flick. */
  predicate ChangesPage(dx: int, fast: bool)
  {
    Abs(dx) > SWIPE_THRESHOLD || (Abs(dx) > FLICK_DISTANCE && fast)
  }

  /** The page after a horizontal swipe ends: right goes back, left goes forward, never past either end. */
  function PageAfterSwipe(page: int, totalPages: nat, dx: int, fast: bool): (r: int)
    ensures !ChangesPage(dx, fast) ==> r == page
    ensures r == page || r == page - 1 || r == page + 1
    ensures r == page - 1 <==> ChangesPage(dx, fast) && dx > 0 && page > 0
    ensures r == page + 1 <==> ChangesPage(dx, fast) && dx < 0 && page < totalPages - 1
    ensures 0 <= page && (page < totalPages || page == 0) ==> 0 <= r && (r < totalPages || r == 0)
  {
    if ChangesPage(dx, fast) && dx > 0 && page > 0 then page - 1
    else if ChangesPage(dx, fast) && dx < 0 && page < totalPages - 1 then page + 1
    else page
  }

  /** A slow short swipe never moves; a long one from the middle moves by exactly one page either way. */
  lemma SwipeThresholds(page: int, totalPages: nat, dx: int)
    requires 0 < page < totalPages - 1
    ensures Abs(dx) <= FLICK_DISTANCE ==> PageAfterSwipe(page, totalPages, dx, true) == page
    ensures dx > SWIPE_THRESHOLD ==> PageAfterSwipe(page, totalPages, dx, false) == page - 1
    ensures dx < -(SWIPE_THRESHOLD as int) ==> PageAfterSwipe(page, totalPages, dx, false) == page + 1
    ensures PageAfterSwipe(page, totalPages, 40, true) == page - 1 && PageAfterSwipe(page, totalPages, 40, false) == page
  {
  }

  /** `handleAppLongPress`: the same app stops wiggling, any other starts. */
  function ToggleWiggle(wiggling: Option<string>, appId: string): (r: Option<string>)
    ensures r.None? <==> wiggling == Some(appId)
    ensures r.Some? ==> r == Some(appId)
  {
    if wiggling == Some(appId) then None else Some(appId)
  }

  /** Two long presses on the same app put the wiggle back where it was, for a wiggle that was off or on that app. */
  lemma ToggleTwice(wiggling: Option<string>, appId: string)
    requires wiggling.None? || wiggling == Some(appId)
    ensures ToggleWiggle(ToggleWiggle(wiggling, appId), appId) == wiggling
  {
  }

  /** The current page is a page of the grid, or page 0 of an empty grid. */
  predicate PageInRange(page: int, totalPages: nat)
  {
    0 <= page && (page < totalPages || page == 0)
  }

  class HomeScreenView {
    /** The grid's apps (`getGridApps()`), fixed for the screen's life. */
    const apps: seq<string>
    var currentPage: int
    var swipeOffset: real
    var wigglingAppId: Option<string>
    var touchStartX: Option<int>
    var touchStartY: Option<int>
    var touchStartTime: Option<int>
    var isHorizontalSwipe: Option<bool>

    ghost predicate Valid()
      reads this
    {
      PageInRange(currentPage, TotalPages(|apps|))
    }

    /** No touch is being tracked and the page rests. */
    ghost predicate Idle()
      reads this
    {
      swipeOffset == 0.0 && touchStartX.None? && touchStartY.None? && touchStartTime.None? && isHorizontalSwipe.None?
    }

    constructor (gridApps: seq<string>)
      ensures Valid() && Idle()
      ensures apps == gridApps && currentPage == 0 && wigglingAppId.None?
    {
      apps := gridApps;
      currentPage := 0;
      swipeOffset := 0.0;
      wigglingAppId := None;
      touchStartX := None;
      touchStartY := None;
      touchStartTime := None;
      isHorizontalSwipe := None;
    }

    /** `handleTouchStart` at (x, y) at time `now`: tracking starts with no direction. */
    method TouchStart(x: int, y: int, now: int)
      modifies this`touchStartX, this`touchStartY, this`touchStartTime, this`isHorizontalSwipe
      ensures touchStartX == Some(x) && touchStartY == Some(y) && touchStartTime == Some(now)
      ensures isHorizontalSwipe.None?
    {
      touchStartX := Some(x);
      touchStartY := Some(y);
      touchStartTime := Some(now);
      isHorizontalSwipe := None;
    }

    /** `handleTouchMove` to (x, y): fixes the direction and, when horizontal, follows the finger. */
    method TouchMove(x: int, y: int)
      modifies this`isHorizontalSwipe, this`swipeOffset
      ensures touchStartX.None? || touchStartY.None? ==>
        isHorizontalSwipe == old(isHorizontalSwipe) && swipeOffset == old(swipeOffset)
      ensures touchStartX.Some? && touchStartY.Some? ==>
        isHorizontalSwipe == LockDirection(old(isHorizontalSwipe), x - touchStartX.value, y - touchStartY.value)
      ensures touchStartX.Some? && touchStartY.Some? && isHorizontalSwipe == Some(true) ==>
        swipeOffset == SwipeOffset(currentPage, TotalPages(|apps|), x - touchStartX.value)
      ensures isHorizontalSwipe != Some(true) ==> swipeOffset == old(swipeOffset)
    {
      if touchStartX.None? || touchStartY.None? {
        return;
      }
      var dx := x - touchStartX.value;
      var dy := y - touchStartY.value;
      if isHorizontalSwipe.None? && (Abs(dx) > DIRECTION_LOCK || Abs(dy) > DIRECTION_LOCK) {
        isHorizontalSwipe := Some(Abs(dx) > Abs(dy));
      }
      if isHorizontalSwipe == Some(true) {
        var limited := dx as real;
        if currentPage == 0 && dx > 0 {
          limited := EDGE_RESISTANCE * dx as real;
        } else if currentPage == TotalPages(|apps|) - 1 && dx < 0 {
          limited := EDGE_RESISTANCE * dx as real;
        }
        swipeOffset := limited;
      }
    }

    /** Both ends of a gesture: the offset returns to 0 and every tracking value is cleared. */
    method Reset()
      modifies this`swipeOffset, this`touchStartX, this`touchStartY, this`touchStartTime, this`isHorizontalSwipe
      ensures Idle()
    {
      swipeOffset := 0.0;
      touchStartX := None;
      touchStartY := None;
      touchStartTime := None;
      isHorizontalSwipe := None;
    }

    /**
     * `handleTouchEnd` at x, time `now`: a gesture not fixed as horizontal
     * only resets; a horizontal one may turn the page first.
     */
    method TouchEnd(x: int, now: int)
      requires Valid()
      modifies this`currentPage, this`swipeOffset, this`touchStartX, this`touchStartY, this`touchStartTime, this`isHorizontalSwipe
      ensures Valid() && Idle()
      ensures old(touchStartX).None? || old(touchStartTime).None? || old(isHorizontalSwipe) != Some(true) ==>
        currentPage == old(currentPage)
      ensures old(touchStartX).Some? && old(touchStartTime).Some? && old(isHorizontalSwipe) == Some(true) ==>
        var dx := x - old(touchStartX).value;
        currentPage == PageAfterSwipe(old(currentPage), TotalPages(|apps|), dx, IsFast(dx, now - old(touchStartTime).value))
    {
      if touchStartX.None? || touchStartTime.None? || isHorizontalSwipe != Some(true) {
        Reset();
        return;
      }
      var dx := x - touchStartX.value;
      var dt := now - touchStartTime.value;
      var fast := dt > 0 && 10 * Abs(dx) > 3 * dt;
      var isDistanceSwipe := Abs(dx) > SWIPE_THRESHOLD;
      var isVelocitySwipe := Abs(dx) > FLICK_DISTANCE && fast;
      if isDistanceSwipe || isVelocitySwipe {
        if dx > 0 && currentPage > 0 {
          currentPage := currentPage - 1;
        } else if dx < 0 && currentPage < TotalPages(|apps|) - 1 {
          currentPage := currentPage + 1;
        }
      }
      Reset();
    }

    /** `handleTouchCancel`. */
    method TouchCancel()
      modifies this`swipeOffset, this`touchStartX, this`touchStartY, this`touchStartTime, this`isHorizontalSwipe
      ensures Idle()
    {
      Reset();
    }

    /** `handleAppLongPress(appId)`. */
    method LongPress(appId: string)
      modifies this`wigglingAppId
      ensures wigglingAppId == ToggleWiggle(old(wigglingAppId), appId)
    {
      wigglingAppId := if wigglingAppId == Some(appId) then None else Some(appId);
    }

    /** `handleBackgroundTap`: a wiggle stops; an empty app id is falsy and is left as it is. */
    method BackgroundTap()
      modifies this`wigglingAppId
      ensures old(wigglingAppId).Some? && old(wigglingAppId).value != "" ==> wigglingAppId.None?
      ensures old(wigglingAppId).None? || old(wigglingAppId) == Some("") ==> wigglingAppId == old(wigglingAppId)
    {
      if wigglingAppId.Some? && wigglingAppId.value != "" {
        wigglingAppId := None;
      }
    }
  }
}

=== FILE: jshell_service.dfy ===
/**
 * `JShellService`: runs a Java snippet in JShell and reports, as one string,
 * what it printed followed by one line per snippet event (compilation
 * diagnostics, runtime errors, values of variables and expressions).
 * Evaluation itself, the executor and its 3000 ms timeout belong to the
 * JDK; here their outcome is an input.
 */
module Compiler {
  import opened Common

  /** `Snippet.Kind`. */
  datatype Kind = IMPORT | TYPE_DECL | METHOD | VAR | EXPRESSION | STATEMENT | ERRONEOUS

  datatype Snippet = Snippet(kind: Kind, source: string)

  /** A JShell diagnostic: whether it is an error, and its message. */
  datatype Diag = Diag(isError: bool, message: string)

  /**
   * One `SnippetEvent` as `processSnippetEvent` sees it: the snippet (null
   * possible), whether its status is REJECTED, the diagnostics JShell reports
   * for it, the message of the exception it threw (if any) and its value (if
   * any).
   */
  datatype SnippetEvent = SnippetEvent(
    snippet: Option<Snippet>,
    rejected: bool,
    diagnostics: seq<Diag>,
    exception: Option<string>,
    value: Option<string>)

  const NO_CODE: string := "No code provided"
  const NOTHING_TO_SHOW: string := "Executed successfully"
  const TIMEOUT_MS: nat := 3000

  /** `formatDiagnostic`: errors and warnings are told apart by their prefix. */
  function FormatDiagnostic(diag: Diag): (line: string)
    ensures diag.isError ==> line == "Compilation Error: " + diag.message
    ensures !diag.isError ==> line == "Warning: " + diag.message
  {
    if diag.isError then "Compilation Error: " + diag.message else "Warning: " + diag.message
  }

  /** The text before the first "=" (all of it when there is none). */
  function BeforeEquals(s: string): (r: string)
    ensures r <= s && '=' !in r
    ensures |r| < |s| ==> s[|r|] == '='
  {
    var i := IndexOf(s, "=");
    if i < 0 then
      assert forall k :: 0 <= k < |s| ==> s[k] != '=' by {
        forall k | 0 <= k < |s| ensures s[k] != '=' {
          assert s[k..k + 1] == [s[k]];
          assert !OccursAt(s, "=", k);
        }
      }
      s
    else
      assert s[i..i + 1] == "=";
      assert forall k :: 0 <= k < i ==> s[k] != '=' by {
        forall k | 0 <= k < i ensures s[k] != '=' {
          assert s[k..k + 1] == [s[k]];
          assert !OccursAt(s, "=", k);
        }
      }
      s[..i]
  }

  /**
   * `extractName`: for a VAR snippet of two or more words, the second word
   * up to its first "="; for everything else the trimmed source.
   */
  function ExtractName(snippet: Snippet): (name: string)
    ensures var words := SplitWords(Trim(snippet.source));
      snippet.kind == VAR && |words| >= 2 ==> name == Trim(BeforeEquals(words[1]))
    ensures var words := SplitWords(Trim(snippet.source));
      !(snippet.kind == VAR && |words| >= 2) ==> name == Trim(snippet.source)
  {
    var source := Trim(snippet.source);
    if snippet.kind == VAR then
      var parts := SplitWords(source);
      if |parts| >= 2 then Trim(BeforeEquals(parts[1])) else source
    else source
  }

  /** A variable's name never holds "=", whether or not the declaration has an initialiser. */
  lemma VarNameHasNoEquals(snippet: Snippet)
    requires snippet.kind == VAR && |SplitWords(Trim(snippet.source))| >= 2
    ensures '=' !in ExtractName(snippet)
    ensures ExtractName(snippet) <= SplitWords(Trim(snippet.source))[1]
  {
    var w := SplitWords(Trim(snippet.source))[1];
    var b := BeforeEquals(w);
    assert NoSpace(w);
    assert NoSpace(b) by {
      forall k | 0 <= k < |b| ensures !IsSpace(b[k]) {
        assert b[k] == w[k];
      }
    }
    TrimNoSpace(b);
  }

  /** Trimming a string without whitespace leaves it as it is. */
  lemma TrimNoSpace(s: string)
    requires NoSpace(s)
    ensures Trim(s) == s
  {
    if s != [] {
      TrimPadded("", s);
      assert "" + s == s;
    }
  }

  /**
   * For a declaration written as words separated by single blanks, the name
   * is the second word up to its "=": `int x=5` and `int x` both give `x`.
   */
  lemma ExtractNameOfWords(words: seq<string>)
    requires |words| >= 2
    requires forall i :: 0 <= i < |words| ==> words[i] != [] && NoSpace(words[i])
    ensures ExtractName(Snippet(VAR, Join(words, " "))) == BeforeEquals(words[1])
  {
    var s := Join(words, " ");
    JoinWordsEnds(words);
    TrimNoSpaceEnds(s);
    TokensOfJoin(words);
    TokensEmptyIffBlank(s);
    VarNameHasNoEquals(Snippet(VAR, s));
    var b := BeforeEquals(words[1]);
    assert NoSpace(b) by {
      forall k | 0 <= k < |b| ensures !IsSpace(b[k]) {
        assert b[k] == words[1][k];
      }
    }
    TrimNoSpace(b);
  }

  /** Words joined by blanks start and end with a non-space. */
  lemma {:induction false} JoinWordsEnds(words: seq<string>)
    requires |words| >= 1
    requires forall i :: 0 <= i < |words| ==> words[i] != [] && NoSpace(words[i])
    ensures var s := Join(words, " "); s != [] && !IsSpace(s[0]) && !IsSpace(s[|s| - 1])
    ensures Join(words, " ")[0] == words[0][0]
    decreases |words|
  {
    if |words| > 1 {
      JoinWordsEnds(words[1..]);
      var rest := Join(words[1..], " ");
      assert Join(words, " ") == words[0] + " " + rest;
    }
  }

  /** A string with non-space ends is its own trim. */
  lemma TrimNoSpaceEnds(s: string)
    requires s != [] && !IsSpace(s[0]) && !IsSpace(s[|s| - 1])
    ensures Trim(s) == s
  {
    TrimPadded("", s);
    assert "" + s == s;
  }

  /**
   * `combineOutput`: the captured output, then the snippet results, with one
   * "\n" between them only when the captured output does not already end in
   * one; "Executed successfully" when both are empty.
   */
  function CombineOutput(capturedOutput: string, snippetResults: string): (out: string)
    ensures capturedOutput == [] && snippetResults == [] ==> out == NOTHING_TO_SHOW
    ensures snippetResults == [] && capturedOutput != [] ==> out == capturedOutput
    ensures capturedOutput == [] && snippetResults != [] ==> out == snippetResults
    ensures capturedOutput != [] && snippetResults != [] ==>
      out == capturedOutput + (if EndsWith(capturedOutput, "\n") then "" else "\n") + snippetResults
  {
    var combined := if capturedOutput != [] then capturedOutput else [];
    var combined := if snippetResults != [] then
        (if |combined| > 0 && !EndsWith(combined, "\n") then combined + "\n" else combined) + snippetResults
      else combined;
    if combined == [] then NOTHING_TO_SHOW else combined
  }

  /** The combined output is never empty, starts with the captured output and ends with the results. */
  lemma CombineOutputOrder(capturedOutput: string, snippetResults: string)
    requires capturedOutput != [] || snippetResults != []
    ensures var out := CombineOutput(capturedOutput, snippetResults);
      out != [] && capturedOutput <= out && EndsWith(out, snippetResults)
      && |out| <= |capturedOutput| + 1 + |snippetResults|
  {
  }

  /** `resultBuilder.append` after a "\n" separator that is added only to a non-empty builder. */
  function AppendLine(text: string, entry: string): (r: string)
    ensures text == [] ==> r == entry
    ensures text != [] ==> r == text + "\n" + entry
  {
    if |text| > 0 then text + "\n" + entry else entry
  }

  /** Appending the entries one after another. */
  function AppendLines(text: string, entries: seq<string>): (r: string)
    decreases |entries|
  {
    if entries == [] then text
    else AppendLines(AppendLine(text, entries[0]), entries[1..])
  }

  lemma {:induction false} AppendLinesSnoc(text: string, entries: seq<string>, e: string)
    ensures AppendLines(text, entries + [e]) == AppendLine(AppendLines(text, entries), e)
    decreases |entries|
  {
    if entries == [] {
      assert [e][1..] == [];
    } else {
      assert (entries + [e])[1..] == entries[1..] + [e];
      AppendLinesSnoc(AppendLine(text, entries[0]), entries[1..], e);
    }
  }

  lemma {:induction false} AppendLinesConcat(text: string, a: seq<string>, b: seq<string>)
    ensures AppendLines(text, a + b) == AppendLines(AppendLines(text, a), b)
    decreases |a|
  {
    if a != [] {
      assert (a + b)[1..] == a[1..] + b;
      AppendLinesConcat(AppendLine(text, a[0]), a[1..], b);
    } else {
      assert a + b == b;
    }
  }

  /**
   * Starting from an empty builder, non-empty entries end up joined by "\n"
   * with no leading newline.
   */
  lemma {:induction false} AppendLinesJoin(entries: seq<string>)
    requires forall i :: 0 <= i < |entries| ==> entries[i] != []
    ensures AppendLines("", entries) == Join(entries, "\n")
    decreases |entries|
  {
    if |entries| > 1 {
      var init := entries[..|entries| - 1];
      var last := entries[|entries| - 1];
      assert entries == init + [last];
      AppendLinesJoin(init);
      AppendLinesSnoc("", init, last);
      JoinAppend(init, last, "\n");
      assert Join(init, "\n") != [] by {
        JoinStartsWithFirst(init, "\n");
      }
    } else if |entries| == 1 {
      assert AppendLines("", entries) == AppendLines(entries[0], []);
    }
  }

  /** A join starts with its first part. */
  lemma {:induction false} JoinStartsWithFirst(parts: seq<string>, sep: string)
    requires parts != []
    ensures parts[0] <= Join(parts, sep)
  {
  }

  /** One formatted line per diagnostic, in order. */
  function DiagnosticLines(diagnostics: seq<Diag>): (lines: seq<string>)
    ensures |lines| == |diagnostics|
    ensures forall i :: 0 <= i < |diagnostics| ==> lines[i] == FormatDiagnostic(diagnostics[i])
  {
    seq(|diagnostics|, i requires 0 <= i < |diagnostics| => FormatDiagnostic(diagnostics[i]))
  }

  /** The line of a snippet's value: "<name> ==> <value>". */
  function ValueLine(snippet: Snippet, value: string): string
  {
    ExtractName(snippet) + " ==> " + value
  }

  /** The lines an event contributes to the result builder, in order. */
  function EventEntries(event: SnippetEvent): (entries: seq<string>)
    ensures event.rejected ==> |entries| == |event.diagnostics|
    ensures !event.rejected && event.exception.Some? ==> entries == ["Runtime Error: " + event.exception.value]
    ensures forall i :: 0 <= i < |entries| ==> entries[i] != []
  {
    if event.rejected then
      DiagnosticLines(event.diagnostics)
    else if event.exception.Some? then
      ["Runtime Error: " + event.exception.value]
    else if event.value.None? || event.snippet.None? then []
    else if event.snippet.value.kind == VAR || event.snippet.value.kind == EXPRESSION then
      [ValueLine(event.snippet.value, event.value.value)]
    else []
  }

  /** The lines of a sequence of events, in order. */
  function AllEntries(events: seq<SnippetEvent>): seq<string>
  {
    if events == [] then []
    else AllEntries(events[..|events| - 1]) + EventEntries(events[|events| - 1])
  }

  /** No event contributes an empty line. */
  lemma {:induction false} AllEntriesNonEmpty(events: seq<SnippetEvent>)
    ensures forall i :: 0 <= i < |AllEntries(events)| ==> AllEntries(events)[i] != []
    decreases |events|
  {
    if events != [] {
      var a := AllEntries(events[..|events| - 1]);
      var e := EventEntries(events[|events| - 1]);
      AllEntriesNonEmpty(events[..|events| - 1]);
      NonEmptyConcat(a, e);
    }
  }

  lemma NonEmptyConcat(a: seq<string>, e: seq<string>)
    requires forall i :: 0 <= i < |a| ==> a[i] != []
    requires forall i :: 0 <= i < |e| ==> e[i] != []
    ensures forall i :: 0 <= i < |a + e| ==> (a + e)[i] != []
  {
    forall i | 0 <= i < |a + e| ensures (a + e)[i] != [] {
      if i >= |a| { assert (a + e)[i] == e[i - |a|]; }
    }
  }

  /** The `StringBuilder` that collects snippet results. */
  class ResultBuilder {
    var text: string

    constructor ()
      ensures text == []
    {
      text := [];
    }

    /** `appendCompilationErrors`: one formatted line per diagnostic. */
    method AppendCompilationErrors(diagnostics: seq<Diag>)
      modifies this
      ensures text == AppendLines(old(text), DiagnosticLines(diagnostics))
    {
      ghost var lines := DiagnosticLines(diagnostics);
      ghost var start := text;
      for i := 0 to |diagnostics|
        invariant text == AppendLines(start, lines[..i])
      {
        if |text| > 0 {
          text := text + "\n";
        }
        text := text + FormatDiagnostic(diagnostics[i]);
        assert lines[..i + 1] == lines[..i] + [lines[i]];
        AppendLinesSnoc(start, lines[..i], lines[i]);
      }
      assert lines[..|diagnostics|] == lines;
    }

    /** `appendException`: "Runtime Error: " and the exception's message, on a line of its own. */
    method AppendException(message: string)
      modifies this
      ensures text == AppendLine(old(text), "Runtime Error: " + message)
    {
      if |text| > 0 {
        text := text + "\n";
      }
      text := text + "Runtime Error: " + message;
    }

    /** `appendSnippetResult`: "<name> ==> <value>" for variables and expressions that have a value. */
    method AppendSnippetResult(value: Option<string>, snippet: Option<Snippet>)
      modifies this
      ensures value.None? || snippet.None? || !(snippet.value.kind == VAR || snippet.value.kind == EXPRESSION) ==> text == old(text)
      ensures value.Some? && snippet.Some? && (snippet.value.kind == VAR || snippet.value.kind == EXPRESSION) ==>
                text == AppendLine(old(text), ValueLine(snippet.value, value.value))
    {
      if value.None? || snippet.None? {
        return;
      }
      var kind := snippet.value.kind;
      if kind == VAR || kind == EXPRESSION {
        var line := ValueLine(snippet.value, value.value);
        if |text| > 0 {
          text := text + "\n";
        }
        text := text + line;
      }
    }

    /** `processSnippetEvent`: diagnostics for a rejected snippet, else its exception, else its value. */
    method ProcessSnippetEvent(event: SnippetEvent)
      modifies this
      ensures text == AppendLines(old(text), EventEntries(event))
    {
      if event.rejected {
        AppendCompilationErrors(event.diagnostics);
        return;
      }
      if event.exception.Some? {
        AppendException(event.exception.value);
        assert AppendLines(old(text), EventEntries(event)) == AppendLines(text, []);
        return;
      }
      AppendSnippetResult(event.value, event.snippet);
      if text != old(text) {
        assert AppendLines(old(text), EventEntries(event)) == AppendLines(text, []);
      }
    }
  }

  /**
   * `executeInJShell` once JShell has evaluated the code into `events` and
   * the code printed `capturedOutput`: the results of every event, one per
   * line, after the printed output.
   */
  method ExecuteInJShell(events: seq<SnippetEvent>, capturedOutput: string) returns (out: string)
    ensures out == CombineOutput(capturedOutput, Join(AllEntries(events), "\n"))
  {
    var resultBuilder := new ResultBuilder();
    for i := 0 to |events|
      invariant resultBuilder.text == AppendLines("", AllEntries(events[..i]))
    {
      resultBuilder.ProcessSnippetEvent(events[i]);
      assert events[..i + 1][..i] == events[..i];
      AppendLinesConcat("", AllEntries(events[..i]), EventEntries(events[i]));
    }
    assert events[..|events|] == events;
    AllEntriesNonEmpty(events);
    AppendLinesJoin(AllEntries(events));
    out := CombineOutput(capturedOutput, resultBuilder.text);
  }

  /** How the executor's future ended: with JShell's events and output, by timeout, interruption or another exception. */
  datatype RunOutcome =
    | Completed(events: seq<SnippetEvent>, capturedOutput: string)
    | TimedOut
    | Interrupted
    | Crashed(message: string)

  /**
   * `execute`: "No code provided" for null or blank code, before any
   * executor exists; otherwise the report of the run, or the message for a
   * timeout, an interruption or another failure.
   */
  method Execute(code: Option<string>, outcome: RunOutcome) returns (out: string)
    ensures code.None? || IsBlank(code.value) ==> out == NO_CODE
    ensures code.Some? && !IsBlank(code.value) ==>
      match outcome
      case Completed(events, captured) => out == CombineOutput(captured, Join(AllEntries(events), "\n"))
      case TimedOut => out == "Timeout Error: Execution exceeded " + NatToString(TIMEOUT_MS) + "ms"
      case Interrupted => out == "Error: Execution interrupted"
      case Crashed(message) => out == "Error: " + message
  {
    if code.None? || IsBlank(code.value) {
      return NO_CODE;
    }
    match outcome {
      case Completed(events, captured) =>
        out := ExecuteInJShell(events, captured);
      case TimedOut =>
        out := "Timeout Error: Execution exceeded 3000ms";
        assert NatToString(TIMEOUT_MS) == "3000" by {
          assert NatToString(3) == "3";
          assert NatToString(30) == "30";
          assert NatToString(300) == "300";
        }
      case Interrupted =>
        out := "Error: Execution interrupted";
      case Crashed(message) =>
        out := "Error: " + message;
    }
  }

  /** Code that yields neither output nor results is reported as "Executed successfully", never as empty. */
  lemma SilentRunReported(events: seq<SnippetEvent>)
    requires forall i :: 0 <= i < |events| ==> EventEntries(events[i]) == []
    ensures CombineOutput("", Join(AllEntries(events), "\n")) == NOTHING_TO_SHOW
  {
    AllEntriesSilent(events);
  }

  lemma {:induction false} AllEntriesSilent(events: seq<SnippetEvent>)
    requires forall i :: 0 <= i < |events| ==> EventEntries(events[i]) == []
    ensures AllEntries(events) == []
    decreases |events|
  {
    if events != [] {
      AllEntriesSilent(events[..|events| - 1]);
    }
  }
}

=== FILE: json.dfy ===
/**
 * The part of JSON-P (`jakarta.json`) the backend uses: objects built with
 * `JsonObjectBuilder.add`/`addNull` and read with `getString`, `getBoolean`,
 * `isNull` and the defaulting `getString(name, d)` / `getInt(name, d)`.
 * Reads that throw in JSON-P (a missing key, a value of the wrong kind) give
 * `None` here.
 */
module Json {
  import opened Common

  datatype JsonValue =
    | JNull
    | JBool(b: bool)
    | JNumber(n: int)
    | JString(s: string)
    | JArray(items: seq<JsonValue>)
    | JObject(fields: map<string, JsonValue>)

  /** A JSON object: JSON-P's `JsonObject` is a `Map<String, JsonValue>`. */
  type Fields = map<string, JsonValue>

  /** The value stored under `key`, if any. */
  function Get(fields: Fields, key: string): (r: Option<JsonValue>)
    ensures r.None? <==> key !in fields
    ensures r.Some? ==> fields[key] == r.value
  {
    if key in fields then Some(fields[key]) else None
  }

  /** `builder.add(key, s)` for an optional string: `addNull(key)` when absent. */
  function NullableValue(v: Option<string>): (j: JsonValue)
    ensures v.None? <==> j == JNull
    ensures v.Some? ==> j == JString(v.value)
  {
    if v.Some? then JString(v.value) else JNull
  }

  /** `json.getString(key)`: throws unless the key holds a string. */
  function GetString(fields: Fields, key: string): (r: Option<string>)
    ensures r.Some? <==> Get(fields, key).Some? && Get(fields, key).value.JString?
    ensures r.Some? ==> Get(fields, key) == Some(JString(r.value))
  {
    match Get(fields, key)
    case Some(JString(s)) => Some(s)
    case _ => None
  }

  /** `json.getString(key, d)`: the string under `key`, or `d` when absent or not a string. */
  function GetStringOr(fields: Fields, key: string, d: string): (r: string)
    ensures GetString(fields, key).Some? ==> r == GetString(fields, key).value
    ensures GetString(fields, key).None? ==> r == d
  {
    match Get(fields, key)
    case Some(JString(s)) => s
    case _ => d
  }

  /** `json.getInt(key, d)`: the number under `key`, or `d` when absent or not a number. */
  function GetIntOr(fields: Fields, key: string, d: int): (r: int)
    ensures (Get(fields, key).Some? && Get(fields, key).value.JNumber?) ==> r == Get(fields, key).value.n
    ensures !(Get(fields, key).Some? && Get(fields, key).value.JNumber?) ==> r == d
  {
    match Get(fields, key)
    case Some(JNumber(n)) => n
    case _ => d
  }

  /** `json.getBoolean(key)`: throws unless the key holds `true` or `false`. */
  function GetBoolean(fields: Fields, key: string): (r: Option<bool>)
    ensures r.Some? <==> Get(fields, key).Some? && Get(fields, key).value.JBool?
    ensures r.Some? ==> Get(fields, key) == Some(JBool(r.value))
  {
    match Get(fields, key)
    case Some(JBool(b)) => Some(b)
    case _ => None
  }

  /** `json.isNull(key)`: throws when the key is absent. */
  function IsNull(fields: Fields, key: string): (r: Option<bool>)
    ensures r.None? <==> key !in fields
    ensures r == Some(true) <==> Get(fields, key) == Some(JNull)
  {
    match Get(fields, key)
    case None => None
    case Some(v) => Some(v == JNull)
  }

  /** `json.isNull(key) ? null : json.getString(key)`: `Some(None)` for null, `None` when it throws. */
  function GetNullableString(fields: Fields, key: string): (r: Option<Option<string>>)
    ensures r == Some(None) <==> Get(fields, key) == Some(JNull)
    ensures forall s :: r == Some(Some(s)) <==> Get(fields, key) == Some(JString(s))
  {
    match IsNull(fields, key)
    case None => None
    case Some(true) => Some(None)
    case Some(false) =>
      match GetString(fields, key)
      case None => None
      case Some(s) => Some(Some(s))
  }

  /** Writing an optional string with `add`/`addNull` and reading it back with `isNull`/`getString`. */
  lemma NullableRoundTrip(fields: Fields, key: string, v: Option<string>)
    requires Get(fields, key) == Some(if v.Some? then JString(v.value) else JNull)
    ensures GetNullableString(fields, key) == Some(v)
  {
  }
}

=== FILE: minesweeper_view.dfy ===
/**
 * The `Minesweeper` window: the player's 10 x 10 view of the board, which
 * starts hidden, takes the backend's cell updates, and carries the flags
 * the player toggles. The backend calls are split at their `await`: a
 * response (or `None` when the request failed) is an input.
 */
module MinesweeperView {
  import opened Common
  import opened Minesweeper
  import opened MinesweeperSessions

  /** A `CellState`. */
  datatype CellState = CellState(revealed: bool, value: int, flagged: bool)

  const GRID_SIZE: nat := 10
  const HIDDEN: CellState := CellState(false, -1, false)
  const START_FAILED: string := "Failed to start game. Please try again."
  const CLICK_FAILED: string := "Failed to process click. Please try again."

  /** Ten rows of ten cells. */
  predicate IsGrid(g: seq<seq<CellState>>)
  {
    |g| == GRID_SIZE && forall i :: 0 <= i < |g| ==> |g[i]| == GRID_SIZE
  }

  predicate InGrid(r: int, c: int)
  {
    0 <= r < GRID_SIZE && 0 <= c < GRID_SIZE
  }

  /** `createEmptyGrid()`: every cell hidden, unflagged, with value -1. */
  function EmptyGrid(): (g: seq<seq<CellState>>)
    ensures IsGrid(g)
    ensures forall r, c :: InGrid(r, c) ==> g[r][c] == HIDDEN
  {
    seq(GRID_SIZE, _ => seq(GRID_SIZE, _ => HIDDEN))
  }

  /** The grid with one cell replaced. */
  function SetCell(g: seq<seq<CellState>>, r: int, c: int, cell: CellState): (h: seq<seq<CellState>>)
    requires IsGrid(g) && InGrid(r, c)
    ensures IsGrid(h)
    ensures h[r][c] == cell
    ensures forall i, j :: InGrid(i, j) && (i != r || j != c) ==> h[i][j] == g[i][j]
  {
    g[r := g[r][c := cell]]
  }

  /** Every update names a cell of the grid. */
  predicate UpdatesInGrid(updates: seq<CellUpdate>)
  {
    forall k :: 0 <= k < |updates| ==> InGrid(updates[k].r, updates[k].c)
  }

  /** The grid after the updates, applied in order: each one reveals its cell with its value, unflagged. */
  function Applied(g: seq<seq<CellState>>, updates: seq<CellUpdate>): (h: seq<seq<CellState>>)
    requires IsGrid(g) && UpdatesInGrid(updates)
    ensures IsGrid(h)
    decreases |updates|
  {
    if updates == [] then g
    else
      var u := updates[|updates| - 1];
      SetCell(Applied(g, updates[..|updates| - 1]), u.r, u.c, CellState(true, u.val, false))
  }

  /** The value of the last update to cell (r, c), if any update touches it. */
  function LastHit(updates: seq<CellUpdate>, r: int, c: int): (v: Option<int>)
    ensures v.None? <==> forall k :: 0 <= k < |updates| ==> updates[k].r != r || updates[k].c != c
    decreases |updates|
  {
    if updates == [] then None
    else
      var u := updates[|updates| - 1];
      if u.r == r && u.c == c then Some(u.val)
      else
        var v := LastHit(updates[..|updates| - 1], r, c);
        assert forall k :: 0 <= k < |updates| - 1 ==> updates[..|updates| - 1][k] == updates[k];
        v
  }

  /**
   * After the updates, a cell some update touched is revealed, unflagged,
   * with the last such update's value; every other cell is as it was.
   */
  lemma {:induction false} AppliedCell(g: seq<seq<CellState>>, updates: seq<CellUpdate>, r: int, c: int)
    requires IsGrid(g) && UpdatesInGrid(updates) && InGrid(r, c)
    ensures LastHit(updates, r, c).Some? ==>
      Applied(g, updates)[r][c] == CellState(true, LastHit(updates, r, c).value, false)
    ensures LastHit(updates, r, c).None? ==> Applied(g, updates)[r][c] == g[r][c]
    decreases |updates|
  {
    if updates != [] {
      var u := updates[|updates| - 1];
      if u.r != r || u.c != c {
        AppliedCell(g, updates[..|updates| - 1], r, c);
      }
    }
  }

  /** `applyUpdates`' loop over a copy of the grid. */
  method ApplyToGrid(g: seq<seq<CellState>>, updates: seq<CellUpdate>) returns (h: seq<seq<CellState>>)
    requires IsGrid(g) && UpdatesInGrid(updates)
    ensures h == Applied(g, updates)
  {
    h := g;
    var i := 0;
    while i < |updates|
      invariant 0 <= i <= |updates|
      invariant h == Applied(g, updates[..i])
    {
      var u := updates[i];
      assert updates[..i + 1][..i] == updates[..i];
      h := h[u.r := h[u.r][u.c := CellState(true, u.val, false)]];
      i := i + 1;
    }
    assert updates[..|updates|] == updates;
  }

  /** `handleRightClick`: while playing, an unrevealed cell's flag flips; otherwise nothing changes. */
  function RightClicked(g: seq<seq<CellState>>, status: GameStatus, r: int, c: int): (h: seq<seq<CellState>>)
    requires IsGrid(g) && InGrid(r, c)
    ensures IsGrid(h)
    ensures status != PLAYING || g[r][c].revealed ==> h == g
    ensures status == PLAYING && !g[r][c].revealed ==>
      h[r][c] == g[r][c].(flagged := !g[r][c].flagged)
      && forall i, j :: InGrid(i, j) && (i != r || j != c) ==> h[i][j] == g[i][j]
  {
    if status != PLAYING || g[r][c].revealed then g
    else SetCell(g, r, c, g[r][c].(flagged := !g[r][c].flagged))
  }

  /** Two right clicks on the same cell give back the grid. */
  lemma RightClickTwice(g: seq<seq<CellState>>, status: GameStatus, r: int, c: int)
    requires IsGrid(g) && InGrid(r, c)
    ensures RightClicked(RightClicked(g, status, r, c), status, r, c) == g
  {
    var h := RightClicked(RightClicked(g, status, r, c), status, r, c);
    forall i | 0 <= i < GRID_SIZE ensures h[i] == g[i] {
      assert forall j :: 0 <= j < GRID_SIZE ==> h[i][j] == g[i][j];
    }
  }

  /** The guards of `handleCellClick`: playing, and the cell neither revealed nor flagged. */
  predicate ClickAllowed(status: GameStatus, cell: CellState)
  {
    status == PLAYING && !cell.revealed && !cell.flagged
  }

  /** A cell an update revealed is never sent again, and a flagged cell must be unflagged first. */
  lemma RevealedCellsIgnored(g: seq<seq<CellState>>, updates: seq<CellUpdate>, status: GameStatus, r: int, c: int)
    requires IsGrid(g) && UpdatesInGrid(updates) && InGrid(r, c)
    ensures LastHit(updates, r, c).Some? ==> !ClickAllowed(status, Applied(g, updates)[r][c])
    ensures g[r][c].flagged ==> !ClickAllowed(status, g[r][c])
    ensures g[r][c].flagged && status == PLAYING && !g[r][c].revealed ==>
      ClickAllowed(status, RightClicked(g, status, r, c)[r][c])
  {
    AppliedCell(g, updates, r, c);
  }

  class MinesweeperWindow {
    var grid: seq<seq<CellState>>
    var gameStatus: GameStatus
    var sessionId: string
    var isLoading: bool
    var error: Option<string>

    ghost predicate Valid()
      reads this
    {
      IsGrid(grid)
    }

    constructor ()
      ensures Valid()
      ensures grid == EmptyGrid() && gameStatus == PLAYING && sessionId == "" && isLoading && error.None?
    {
      grid := EmptyGrid();
      gameStatus := PLAYING;
      sessionId := "";
      isLoading := true;
      error := None;
    }

    /** `startNewGame(sid)` with the backend's answer: a fresh hidden grid and the answer's status. */
    method StartNewGame(sid: string, response: Option<GameResponse>)
      requires Valid()
      modifies this`grid, this`gameStatus, this`isLoading, this`error
      ensures Valid() && !isLoading
      ensures response.Some? ==> grid == EmptyGrid() && gameStatus == response.value.status && error.None?
      ensures response.None? ==> grid == old(grid) && gameStatus == old(gameStatus) && error == Some(START_FAILED)
    {
      isLoading := true;
      error := None;
      if response.Some? {
        grid := EmptyGrid();
        gameStatus := response.value.status;
      } else {
        error := Some(START_FAILED);
      }
      isLoading := false;
    }

    /** `handleNewGame` with a freshly generated session id. */
    method NewGame(newSid: string, response: Option<GameResponse>)
      requires Valid()
      modifies this`sessionId, this`grid, this`gameStatus, this`isLoading, this`error
      ensures Valid() && sessionId == newSid
      ensures response.Some? ==> grid == EmptyGrid() && gameStatus == response.value.status && error.None?
      ensures response.None? ==> error == Some(START_FAILED)
    {
      sessionId := newSid;
      StartNewGame(newSid, response);
    }

    /** `applyUpdates(response)`: the status is always taken; the updates reveal their cells. */
    method ApplyUpdates(response: GameResponse)
      requires Valid() && UpdatesInGrid(response.updates)
      modifies this`grid, this`gameStatus
      ensures Valid()
      ensures gameStatus == response.status
      ensures grid == Applied(old(grid), response.updates)
    {
      gameStatus := response.status;
      if |response.updates| == 0 {
        return;
      }
      grid := ApplyToGrid(grid, response.updates);
    }

    /** `handleCellClick(row, col)` up to the request: whether the click is sent. */
    method CellClick(row: int, col: int) returns (sent: bool)
      requires Valid() && InGrid(row, col)
      ensures sent <==> ClickAllowed(gameStatus, grid[row][col])
    {
      if gameStatus != PLAYING {
        return false;
      }
      if grid[row][col].revealed {
        return false;
      }
      if grid[row][col].flagged {
        return false;
      }
      return true;
    }

    /** `handleCellClick` after the request: the response's updates, or the error. */
    method FinishClick(response: Option<GameResponse>)
      requires Valid() && (response.Some? ==> UpdatesInGrid(response.value.updates))
      modifies this`grid, this`gameStatus, this`error
      ensures Valid()
      ensures response.Some? ==>
        gameStatus == response.value.status && grid == Applied(old(grid), response.value.updates) && error == old(error)
      ensures response.None? ==> grid == old(grid) && gameStatus == old(gameStatus) && error == Some(CLICK_FAILED)
    {
      if response.Some? {
        ApplyUpdates(response.value);
      } else {
        error := Some(CLICK_FAILED);
      }
    }

    /** `handleRightClick(row, col)`. */
    method RightClick(row: int, col: int)
      requires Valid() && InGrid(row, col)
      modifies this`grid
      ensures Valid()
      ensures grid == RightClicked(old(grid), gameStatus, row, col)
    {
      if gameStatus != PLAYING {
        return;
      }
      if grid[row][col].revealed {
        return;
      }
      grid := grid[row := grid[row][col := grid[row][col].(flagged := !grid[row][col].flagged)]];
    }
  }
}

=== FILE: mobile_file_explorer.dfy ===
/**
 * The phone's `MobileFileExplorer`: the listing sorted with directories
 * first and by name, the emoji and type label of each entry, the
 * breadcrumb trail (shared with the desktop explorer) and the tap
 * handlers that open files in the notepad and follow shortcuts.
 */
module MobileFileExplorer {
  import opened Common
  import opened FileNodes
  import opened DesktopIcons
  import Desktop
  import FileExplorer

  const GEAR: string := "⚙️"
  const OPEN_FOLDER: string := "\U{1F4C2}"
  const GLOBE: string := "\U{1F310}"
  const PALETTE: string := "\U{1F3A8}"
  const COFFEE: string := "☕"
  const BOMB: string := "\U{1F4A3}"
  const BRIEFCASE: string := "\U{1F4BC}"

  /** The app shortcuts' emoji, tried in this order; the first prefix that matches wins. */
  const APP_EMOJI: seq<(string, string)> := [
    ("app:terminal", LAPTOP),
    ("app:taskmanager", BAR_CHART),
    ("app:settings", GEAR),
    ("app:fileexplorer", OPEN_FOLDER),
    ("app:chrome", GLOBE),
    ("app:paint", PALETTE),
    ("app:jshellstudio", COFFEE),
    ("app:minesweeper", BOMB),
    ("app:cvviewer", DOCUMENT)
  ]

  /** The emoji of the first rule whose prefix starts `content`. */
  function FirstPrefixMatch(content: string, rules: seq<(string, string)>): (r: Option<string>)
    ensures r.None? <==> forall k :: 0 <= k < |rules| ==> !StartsWith(content, rules[k].0)
    ensures r.Some? ==> exists k :: 0 <= k < |rules| && r.value == rules[k].1
  {
    if |rules| == 0 then None
    else if StartsWith(content, rules[0].0) then Some(rules[0].1)
    else
      var r := FirstPrefixMatch(content, rules[1..]);
      assert forall k :: 1 <= k < |rules| ==> rules[k] == rules[1..][k - 1];
      if r.Some? then
        var k :| 0 <= k < |rules[1..]| && r.value == rules[1..][k].1;
        assert rules[k + 1] == rules[1..][k];
        r
      else r
  }

  /** The rule that wins is the first one that matches, whatever later rules would say. */
  lemma {:induction false} FirstMatchWins(content: string, rules: seq<(string, string)>, k: nat)
    requires k < |rules| && StartsWith(content, rules[k].0)
    requires forall j :: 0 <= j < k ==> !StartsWith(content, rules[j].0)
    ensures FirstPrefixMatch(content, rules) == Some(rules[k].1)
    decreases k
  {
    if k > 0 {
      assert rules[1..][k - 1] == rules[k];
      assert forall j :: 0 <= j < k - 1 ==> rules[1..][j] == rules[j + 1];
      FirstMatchWins(content, rules[1..], k - 1);
    }
  }

  /** The emoji that no app shortcut uses. */
  lemma EmojisDistinctFromApps()
    ensures FOLDER != LAPTOP && FOLDER != BAR_CHART && FOLDER != GEAR && FOLDER != OPEN_FOLDER && FOLDER != GLOBE
    ensures FOLDER != PALETTE && FOLDER != COFFEE && FOLDER != BOMB && FOLDER != DOCUMENT && FOLDER != OCTOPUS
    ensures FOLDER != BRIEFCASE && FOLDER != LINK && FOLDER != MEMO
    ensures MEMO != LAPTOP && MEMO != BAR_CHART && MEMO != GEAR && MEMO != OPEN_FOLDER && MEMO != GLOBE
    ensures MEMO != PALETTE && MEMO != COFFEE && MEMO != BOMB && MEMO != DOCUMENT && MEMO != OCTOPUS
    ensures MEMO != BRIEFCASE && MEMO != LINK
    ensures LINK != LAPTOP && LINK != BAR_CHART && LINK != GEAR && LINK != OPEN_FOLDER && LINK != GLOBE
    ensures LINK != PALETTE && LINK != COFFEE && LINK != BOMB && LINK != DOCUMENT && LINK != OCTOPUS
    ensures LINK != BRIEFCASE
  {
  }

  /**
   * `getFallbackEmoji(node)`: the folder only for directories; for
   * shortcuts the first app prefix that matches, then a "github" or a
   * "linkedin" link, then the plain link; for the other nodes the memo only
   * for ".txt" names.
   */
  function FallbackEmoji(node: FileNode): (r: string)
    ensures r == FOLDER <==> node.fileType == DIRECTORY
    ensures r == MEMO <==> node.fileType == FILE && EndsWith(node.name, ".txt")
    ensures r == LINK <==>
      && node.fileType == SHORTCUT
      && (node.content.None? || FirstPrefixMatch(node.content.value, APP_EMOJI).None?)
      && !ContentIncludes(node, "github") && !ContentIncludes(node, "linkedin")
  {
    EmojisDistinctFromApps();
    match node.fileType
    case DIRECTORY => FOLDER
    case SHORTCUT =>
      var app := if node.content.Some? then FirstPrefixMatch(node.content.value, APP_EMOJI) else None;
      if app.Some? then
        assert app.value in [LAPTOP, BAR_CHART, GEAR, OPEN_FOLDER, GLOBE, PALETTE, COFFEE, BOMB, DOCUMENT];
        app.value
      else if ContentIncludes(node, "github") then OCTOPUS
      else if ContentIncludes(node, "linkedin") then BRIEFCASE
      else LINK
    case FILE =>
      if EndsWith(node.name, ".pdf") then PdfIsNotTxt(node.name); DOCUMENT
      else if EndsWith(node.name, ".txt") then MEMO
      else DOCUMENT
  }

  /**
   * The phone and the desktop agree on every directory and file and on the
   * terminal shortcut; a settings shortcut gets the gear here, where the
   * desktop shows a plain link or the octopus.
   */
  lemma AgreesWithDesktopIcon(node: FileNode, rest: string)
    ensures node.fileType != SHORTCUT ==> FallbackEmoji(node) == GetIconEmoji(node)
    ensures node.fileType == SHORTCUT && node.content == Some("app:terminal" + rest) ==>
      FallbackEmoji(node) == GetIconEmoji(node) == LAPTOP
    ensures node.fileType == SHORTCUT && node.content == Some("app:settings" + rest) ==>
      FallbackEmoji(node) == GEAR != GetIconEmoji(node)
  {
    if node.fileType == SHORTCUT && node.content == Some("app:terminal" + rest) {
      FirstMatchWins(node.content.value, APP_EMOJI, 0);
      ShortcutFirstMatchWins(node, rest);
    }
    if node.fileType == SHORTCUT && node.content == Some("app:settings" + rest) {
      var c := node.content.value;
      assert c[4] == 's';
      assert !StartsWith(c, APP_EMOJI[0].0) && !StartsWith(c, APP_EMOJI[1].0);
      FirstMatchWins(c, APP_EMOJI, 2);
      EmojisDistinct();
      assert GEAR != LAPTOP && GEAR != BAR_CHART && GEAR != OCTOPUS && GEAR != LINK;
    }
  }

  /** `getFileTypeLabel(node)`. */
  function FileTypeLabel(node: FileNode): (r: string)
    ensures r == "Folder" <==> node.fileType == DIRECTORY
    ensures r == "Shortcut" <==> node.fileType == SHORTCUT
    ensures r == "PDF Document" <==> node.fileType == FILE && EndsWith(node.name, ".pdf")
    ensures r == "Text File" <==> node.fileType == FILE && EndsWith(node.name, ".txt")
  {
    match node.fileType
    case DIRECTORY => "Folder"
    case SHORTCUT => "Shortcut"
    case FILE =>
      if EndsWith(node.name, ".pdf") then PdfIsNotTxt(node.name); "PDF Document"
      else if EndsWith(node.name, ".txt") then "Text File"
      else "File"
  }

  /** The label and the emoji tell the same story: a folder, a text file. */
  lemma LabelMatchesEmoji(node: FileNode)
    ensures FileTypeLabel(node) == "Folder" <==> FallbackEmoji(node) == FOLDER
    ensures FileTypeLabel(node) == "Text File" <==> FallbackEmoji(node) == MEMO
    ensures FileTypeLabel(node) == "PDF Document" ==> FallbackEmoji(node) == DOCUMENT
  {
  }

  /** Code-point lexicographic order on names, standing in for `localeCompare(...) <= 0`. */
  predicate NameLe(a: string, b: string)
  {
    a == [] || (b != [] && (a[0] < b[0] || (a[0] == b[0] && NameLe(a[1..], b[1..]))))
  }

  lemma {:induction false} NameLeTotal(a: string, b: string)
    ensures NameLe(a, b) || NameLe(b, a)
  {
    if a != [] && b != [] && a[0] == b[0] {
      NameLeTotal(a[1..], b[1..]);
    }
  }

  lemma {:induction false} NameLeTrans(a: string, b: string, c: string)
    requires NameLe(a, b) && NameLe(b, c)
    ensures NameLe(a, c)
  {
    if a != [] && b != [] && c != [] && a[0] == b[0] == c[0] {
      NameLeTrans(a[1..], b[1..], c[1..]);
    }
  }

  /** Directories sort before the other nodes. */
  function Rank(node: FileNode): (r: nat)
    ensures r == 0 <==> node.fileType == DIRECTORY
  {
    if node.fileType == DIRECTORY then 0 else 1
  }

  /** The `loadNodes` comparator read as "a may come before b". */
  predicate Le(a: FileNode, b: FileNode)
  {
    Rank(a) < Rank(b) || (Rank(a) == Rank(b) && NameLe(a.name, b.name))
  }

  lemma LeTotal(a: FileNode, b: FileNode)
    ensures Le(a, b) || Le(b, a)
  {
    NameLeTotal(a.name, b.name);
  }

  lemma LeTrans(a: FileNode, b: FileNode, c: FileNode)
    requires Le(a, b) && Le(b, c)
    ensures Le(a, c)
  {
    if Rank(a) == Rank(b) == Rank(c) {
      NameLeTrans(a.name, b.name, c.name);
    }
  }

  predicate Sorted(s: seq<FileNode>)
  {
    forall i, j :: 0 <= i < j < |s| ==> Le(s[i], s[j])
  }

  /** `x` placed before the first node it may precede. */
  function Insert(x: FileNode, s: seq<FileNode>): (r: seq<FileNode>)
    ensures multiset(r) == multiset(s) + multiset{x}
    ensures |r| == |s| + 1
  {
    if s == [] then [x]
    else if Le(x, s[0]) then [x] + s
    else
      assert s == [s[0]] + s[1..];
      [s[0]] + Insert(x, s[1..])
  }

  lemma {:induction false} InsertSorted(x: FileNode, s: seq<FileNode>)
    requires Sorted(s)
    ensures Sorted(Insert(x, s))
  {
    if s == [] {
    } else if Le(x, s[0]) {
      forall k | 0 <= k < |s| ensures Le(x, s[k]) {
        if k > 0 {
          LeTrans(x, s[0], s[k]);
        }
      }
    } else {
      LeTotal(x, s[0]);
      var t := Insert(x, s[1..]);
      InsertSorted(x, s[1..]);
      forall y | y in t ensures Le(s[0], y) {
        assert y in multiset(t);
        if y != x {
          assert y in multiset(s[1..]);
          var k :| 0 <= k < |s[1..]| && s[1..][k] == y;
          assert s[k + 1] == y;
        }
      }
      var r := [s[0]] + t;
      forall i, j | 0 <= i < j < |r| ensures Le(r[i], r[j]) {
        if i == 0 {
          assert r[j] == t[j - 1];
          assert r[j] in t;
        } else {
          assert r[i] == t[i - 1] && r[j] == t[j - 1];
        }
      }
    }
  }

  /** The listing in the order `loadNodes` stores it: insertion sort by the comparator. */
  function SortNodes(s: seq<FileNode>): (r: seq<FileNode>)
    ensures multiset(r) == multiset(s)
    ensures |r| == |s|
  {
    if s == [] then []
    else
      assert s == [s[0]] + s[1..];
      Insert(s[0], SortNodes(s[1..]))
  }

  /** The sorted listing is sorted, with every directory before every other node. */
  lemma {:induction false} SortNodesSorted(s: seq<FileNode>)
    ensures Sorted(SortNodes(s))
    ensures forall i, j :: 0 <= i < j < |s| && SortNodes(s)[j].fileType == DIRECTORY ==>
      SortNodes(s)[i].fileType == DIRECTORY
  {
    if s != [] {
      SortNodesSorted(s[1..]);
      InsertSorted(s[0], SortNodes(s[1..]));
    }
    var r := SortNodes(s);
    forall i, j | 0 <= i < j < |s| && r[j].fileType == DIRECTORY ensures r[i].fileType == DIRECTORY {
      assert Le(r[i], r[j]);
    }
  }

  /** A listing already in order is left as it is. */
  lemma {:induction false} SortNodesOfSorted(s: seq<FileNode>)
    requires Sorted(s)
    ensures SortNodes(s) == s
  {
    if s != [] {
      assert Sorted(s[1..]) by {
        forall i, j | 0 <= i < j < |s[1..]| ensures Le(s[1..][i], s[1..][j]) {
          assert s[1..][i] == s[i + 1] && s[1..][j] == s[j + 1];
        }
      }
      SortNodesOfSorted(s[1..]);
      if |s| > 1 {
        assert Le(s[0], s[1..][0]);
      }
    }
  }

  /**
   * `handleShortcut(node)`: nothing unless a shortcut with content; "app:"
   * opens the named app; "http" and "/" links open in a new tab.
   */
  function ShortcutAction(node: FileNode): (act: Desktop.IconAction)
    ensures act.OpenTab? ==> node.content == Some(act.url) && (StartsWith(act.url, "http") || StartsWith(act.url, "/"))
    ensures act.Launch? ==> node.fileType == SHORTCUT && act.file.None?
    ensures node.fileType != SHORTCUT || node.content.None? || node.content == Some("") ==> act.NoAction?
    ensures node.fileType == SHORTCUT && node.content.Some?
            && (StartsWith(node.content.value, "http") || StartsWith(node.content.value, "/")) ==>
              act == Desktop.OpenTab(node.content.value)
  {
    if node.fileType != SHORTCUT || node.content.None? || node.content.value == "" then Desktop.NoAction
    else if StartsWith(node.content.value, "app:") then
      Desktop.AppIsNotLink(node.content.value);
      Desktop.Launch(Desktop.ReplaceFirst(node.content.value, "app:", ""), None)
    else if StartsWith(node.content.value, "http") || StartsWith(node.content.value, "/") then
      Desktop.OpenTab(node.content.value)
    else Desktop.NoAction
  }

  /** The phone follows a shortcut like the desktop explorer, except that it also opens "/" links. */
  lemma ShortcutLikeDesktop(node: FileNode)
    ensures node.content.None? || !StartsWith(node.content.value, "/") ==>
      ShortcutAction(node) == FileExplorer.ShortcutAction(node)
    ensures node.fileType == SHORTCUT && node.content.Some? && StartsWith(node.content.value, "/") ==>
      ShortcutAction(node) == Desktop.OpenTab(node.content.value)
      && FileExplorer.ShortcutAction(node) == Desktop.NoAction
  {
    if node.content.Some? && StartsWith(node.content.value, "/") {
      var c := node.content.value;
      assert c[0] == '/';
      assert !StartsWith(c, "app:") by { assert "app:"[0] == 'a'; }
    }
  }

  class MobileFileExplorerView {
    var currentParentId: string
    var nodes: seq<FileNode>
    var breadcrumbPath: seq<FileExplorer.Crumb>
    var isLoading: bool
    var error: Option<string>
    /** The calls to `onOpenApp` (an app id and the file handed to it) and to `window.open`, oldest first. */
    var openedApps: seq<(string, Option<FileNode>)>
    var openedTabs: seq<string>

    /** The trail starts at the desktop and ends at the directory shown. */
    ghost predicate Valid()
      reads this
    {
      FileExplorer.Rooted(breadcrumbPath) && currentParentId == breadcrumbPath[|breadcrumbPath| - 1].id
    }

    constructor ()
      ensures Valid()
      ensures breadcrumbPath == [FileExplorer.ROOT_CRUMB] && currentParentId == FileExplorer.DESKTOP_ID
      ensures nodes == [] && isLoading && error.None? && openedApps == [] && openedTabs == []
    {
      currentParentId := FileExplorer.DESKTOP_ID;
      nodes := [];
      breadcrumbPath := [FileExplorer.ROOT_CRUMB];
      isLoading := true;
      error := None;
      openedApps := [];
      openedTabs := [];
    }

    /** `loadNodes` with the fetched listing (`None` when the request failed): the listing is stored sorted. */
    method LoadNodes(fetched: Option<seq<FileNode>>)
      modifies this`nodes, this`error, this`isLoading
      ensures fetched.Some? ==> nodes == SortNodes(fetched.value) && error.None?
      ensures fetched.Some? ==> Sorted(nodes) && multiset(nodes) == multiset(fetched.value)
      ensures fetched.None? ==> nodes == old(nodes) && error == Some(FileExplorer.LOAD_DIRECTORY_FAILED)
      ensures !isLoading
    {
      error := None;
      if fetched.Some? {
        nodes := SortNodes(fetched.value);
        SortNodesSorted(fetched.value);
      } else {
        error := Some(FileExplorer.LOAD_DIRECTORY_FAILED);
      }
      isLoading := false;
    }

    /** `navigateToDirectory(node)`: only directories are entered. */
    method NavigateToDirectory(node: FileNode)
      requires Valid()
      modifies this`currentParentId, this`breadcrumbPath
      ensures Valid()
      ensures breadcrumbPath == FileExplorer.Enter(old(breadcrumbPath), node)
      ensures currentParentId == if node.fileType == DIRECTORY then node.id else old(currentParentId)
    {
      if node.fileType != DIRECTORY {
        return;
      }
      currentParentId := node.id;
      breadcrumbPath := breadcrumbPath + [FileExplorer.Crumb(node.id, node.name)];
    }

    /** `navigateBack()`: nothing at the desktop, otherwise the crumb before the last. */
    method NavigateBack()
      requires Valid()
      modifies this`currentParentId, this`breadcrumbPath
      ensures Valid()
      ensures breadcrumbPath == FileExplorer.Back(old(breadcrumbPath))
      ensures |old(breadcrumbPath)| > 1 ==> currentParentId == old(breadcrumbPath)[|old(breadcrumbPath)| - 2].id
      ensures |old(breadcrumbPath)| <= 1 ==> currentParentId == old(currentParentId)
    {
      if |breadcrumbPath| <= 1 {
        return;
      }
      var parentIndex := |breadcrumbPath| - 2;
      currentParentId := breadcrumbPath[parentIndex].id;
      breadcrumbPath := breadcrumbPath[..parentIndex + 1];
    }

    /** `handleFileOpen(node)` with the fetched node: a file opens in the notepad with its full node. */
    method HandleFileOpen(node: FileNode, fetched: Option<FileNode>)
      modifies this`openedApps, this`error
      ensures node.fileType == FILE && fetched.Some? ==>
        openedApps == old(openedApps) + [(Desktop.NOTEPAD, fetched)] && error == old(error)
      ensures node.fileType == FILE && fetched.None? ==>
        openedApps == old(openedApps) && error == Some(FileExplorer.LOAD_FILE_FAILED)
      ensures node.fileType != FILE ==> openedApps == old(openedApps) && error == old(error)
    {
      if node.fileType != FILE {
        return;
      }
      if fetched.Some? {
        openedApps := openedApps + [(Desktop.NOTEPAD, fetched)];
      } else {
        error := Some(FileExplorer.LOAD_FILE_FAILED);
      }
    }

    /** `handleShortcut(node)`. */
    method HandleShortcut(node: FileNode)
      modifies this`openedApps, this`openedTabs
      ensures ShortcutAction(node).Launch? ==>
        openedApps == old(openedApps) + [(ShortcutAction(node).appId, None)] && openedTabs == old(openedTabs)
      ensures ShortcutAction(node).OpenTab? ==>
        openedTabs == old(openedTabs) + [ShortcutAction(node).url] && openedApps == old(openedApps)
      ensures ShortcutAction(node).NoAction? ==> openedApps == old(openedApps) && openedTabs == old(openedTabs)
    {
      match ShortcutAction(node) {
        case Launch(appId, _) => openedApps := openedApps + [(appId, None)];
        case OpenTab(url) => openedTabs := openedTabs + [url];
        case NoAction =>
      }
    }

    /** `handleItemTap(node)`: a directory is entered, a file opened, a shortcut followed. */
    method HandleItemTap(node: FileNode, fetched: Option<FileNode>)
      requires Valid()
      modifies this`currentParentId, this`breadcrumbPath, this`openedApps, this`openedTabs, this`error
      ensures Valid()
      ensures breadcrumbPath == FileExplorer.Enter(old(breadcrumbPath), node)
      ensures node.fileType == FILE && fetched.Some? ==> openedApps == old(openedApps) + [(Desktop.NOTEPAD, fetched)]
      ensures node.fileType == SHORTCUT && ShortcutAction(node).OpenTab? ==>
        openedTabs == old(openedTabs) + [ShortcutAction(node).url]
      ensures node.fileType == DIRECTORY ==>
        currentParentId == node.id && openedApps == old(openedApps) && openedTabs == old(openedTabs)
    {
      match node.fileType {
        case DIRECTORY => NavigateToDirectory(node);
        case FILE => HandleFileOpen(node, fetched);
        case SHORTCUT => HandleShortcut(node);
      }
    }

    /** `currentFolder`: the last crumb's name, "Desktop" when it is empty. */
    function CurrentFolder(): (r: string)
      reads this
      ensures r != ""
      ensures |breadcrumbPath| > 0 && breadcrumbPath[|breadcrumbPath| - 1].name != "" ==>
        r == breadcrumbPath[|breadcrumbPath| - 1].name
      ensures Valid() && |breadcrumbPath| == 1 ==> r == "Desktop"
    {
      if |breadcrumbPath| > 0 && breadcrumbPath[|breadcrumbPath| - 1].name != "" then
        breadcrumbPath[|breadcrumbPath| - 1].name
      else "Desktop"
    }
  }
}

=== FILE: mobile_terminal.dfy ===
/**
 * The phone's `MobileTerminal`: the desktop terminal's transcript and
 * recall, plus the two commands answered without the backend ("clear" and
 * "help"), Tab completion from the backend's suggestions, the prompt's
 * short path and the notification after commands that change files. The
 * backend's answers (command result, current path, completions) are inputs.
 */
module MobileTerminal {
  import opened Common
  import opened CommandResults
  import opened TerminalWindow

  /** A transcript entry with the path shown in its prompt. */
  datatype MobileEntry = MobileEntry(command: string, output: string, isError: bool, path: string)

  const HOME_PATH: string := "/Desktop"
  const CLEAR: string := "clear"
  const HELP: string := "help"
  /** The commands after whose success the file views are told to reload. */
  const FS_COMMANDS: seq<string> := ["rm", "mkdir", "touch", "echo"]

  const HELP_TEXT: string :=
    "Available commands:\n"
    + "  ls [dir]     - List directory contents\n"
    + "  cd [dir]     - Change directory\n"
    + "  cat <file>   - Display file contents\n"
    + "  mkdir <dir>  - Create directory\n"
    + "  touch <file> - Create empty file\n"
    + "  rm [-r] <n>  - Remove file or directory\n"
    + "  pwd          - Print working directory\n"
    + "  clear        - Clear terminal\n"
    + "  uname        - System information\n"
    + "  whoami       - Current user\n"
    + "  java -v      - Java version"

  /** The transcript entry for a backend answer, with the prompt's path. */
  function MobileEntryFor(command: string, response: Option<CommandResult>, path: string): (e: MobileEntry)
    ensures var d := EntryFor(command, response);
      e.command == command && e.output == d.output && e.isError == d.isError && e.path == path
  {
    var d := EntryFor(command, response);
    MobileEntry(command, d.output, d.isError, path)
  }

  /** `formatPath(path)`: "~" for the home directory, otherwise the last path segment, "~" when that is empty. */
  function FormatPath(path: string): (r: string)
    ensures path == HOME_PATH ==> r == "~"
    ensures r != "" && '/' !in r
  {
    if path == HOME_PATH then "~"
    else
      var parts := SplitOn(path, '/');
      if parts[|parts| - 1] == "" then "~" else parts[|parts| - 1]
  }

  /** Inside a directory the prompt shows the directory's own name; a path ending in "/" shows "~". */
  lemma FormatPathLastSegment(dir: string, name: string)
    requires name != "" && '/' !in name && dir + "/" + name != HOME_PATH
    ensures FormatPath(dir + "/" + name) == name
    ensures FormatPath(dir + "/") == "~"
  {
    SplitOnSepConcat(dir, name, '/');
    SplitOnNoSep(name, '/');
    assert dir + "/" + name == dir + ['/'] + name;
    SplitOnSepConcat(dir, "", '/');
    assert dir + "/" == dir + ['/'] + "";
    assert dir + "/" != HOME_PATH by {
      assert |dir + "/"| >= 1 && (dir + "/")[|dir + "/"| - 1] == '/';
    }
  }

  /** The space written after a completion: none after a file name with a ".". */
  function CompletionEnd(completion: string): (e: string)
    ensures e == "" || e == " "
  {
    if Contains(completion, ".") then "" else " "
  }

  /**
   * `applyCompletion` as written: a single word typed without a space is
   * replaced by the completion and a space; otherwise the last word of the
   * trimmed line is replaced, followed by a space unless the completion
   * holds a ".".
   */
  function ApplyCompletionAsWritten(input: string, completion: string): (r: string)
  {
    var parts := SplitWords(Trim(input));
    if |parts| <= 1 && ' ' !in input then completion + " "
    else Join(parts[|parts| - 1 := completion], " ") + CompletionEnd(completion)
  }

  /**
   * A line that is one word and a space is what the backend completes with
   * the current directory's entries; as written, the completion then
   * replaces the word, so the command is lost.
   */
  lemma CompletionDropsCommand(word: string, completion: string)
    requires word != "" && NoSpace(word)
    ensures ApplyCompletionAsWritten(word + " ", completion) == completion + CompletionEnd(completion)
  {
    OneWordLine(word);
    assert [word][0 := completion] == [completion];
  }

  /** A word followed by a space: its trimmed form is the word, which is its only word. */
  lemma OneWordLine(word: string)
    requires word != "" && NoSpace(word)
    ensures Trim(word + " ") == word && SplitWords(word) == [word]
    ensures ' ' in word + " " && EndsWith(word + " ", " ") && !IsBlank(word + " ")
  {
    TrimEndPadded(word, " ");
    TokensOfJoin([word]);
    assert (word + " ")[|word|] == ' ';
    assert (word + " ")[0] == word[0];
  }

  /** "notes.txt" holds a ".". */
  lemma DotInFileName(file: string)
    requires file == "notes.txt"
    ensures Contains(file, ".")
  {
    assert OccursAt(file, ".", 5);
    ContainsIff(file, ".");
  }

  /** "cat " completed with the only entry "notes.txt" becomes "notes.txt". */
  lemma CompletionDropsCat(command: string, file: string)
    requires command == "cat" && file == "notes.txt"
    ensures ApplyCompletionAsWritten(command + " ", file) == file
  {
    CompletionDropsCommand(command, file);
    DotInFileName(file);
  }

  /**
   * `applyCompletion` as intended: when the line ends with a space (the
   * backend then completes a new argument) the completion is added as a new
   * word; the other cases are as written.
   */
  function ApplyCompletion(input: string, completion: string): (r: string)
  {
    var parts := SplitWords(Trim(input));
    if |parts| <= 1 && ' ' !in input then completion + " "
    else if !IsBlank(input) && EndsWith(input, " ") then Join(parts + [completion], " ") + CompletionEnd(completion)
    else Join(parts[|parts| - 1 := completion], " ") + CompletionEnd(completion)
  }

  /** The words of a non-blank line are those of its trimmed form, none of them empty. */
  lemma TrimmedWords(input: string)
    requires !IsBlank(input)
    ensures !IsBlank(Trim(input))
    ensures var parts := SplitWords(Trim(input));
      forall i :: 0 <= i < |parts| ==> parts[i] != [] && NoSpace(parts[i])
  {
    var t := Trim(input);
    assert t != [] && !IsSpace(t[0]);
  }

  /** Words joined by spaces, followed by at most one space, split back into the words. */
  lemma WordsOfJoined(words: seq<string>, end: string)
    requires forall i :: 0 <= i < |words| ==> words[i] != [] && NoSpace(words[i])
    requires end == "" || end == " "
    ensures Tokens(Join(words, " ") + end) == words
  {
    TokensOfJoin(words);
    TokensSpaceSuffix(Join(words, " "));
    assert Join(words, " ") + "" == Join(words, " ");
  }

  /**
   * The intended completion keeps every word before the completed one: the
   * words of the completed line are the earlier words followed by the
   * completion (all of the line's words when it ends with a space, all but
   * the last otherwise).
   */
  lemma CompletionKeepsEarlierWords(input: string, completion: string)
    requires !IsBlank(input) && completion != "" && NoSpace(completion)
    ensures var parts := SplitWords(Trim(input));
      Tokens(ApplyCompletion(input, completion))
        == (if EndsWith(input, " ") then parts else parts[..|parts| - 1]) + [completion]
  {
    var parts := SplitWords(Trim(input));
    TrimmedWords(input);
    var end := CompletionEnd(completion);
    if |parts| <= 1 && ' ' !in input {
      assert !EndsWith(input, " ") by {
        assert input[|input| - 1] != ' ';
      }
      assert ApplyCompletion(input, completion) == Join([completion], " ") + " ";
      WordsOfJoined([completion], " ");
    } else if EndsWith(input, " ") {
      assert ApplyCompletion(input, completion) == Join(parts + [completion], " ") + end;
      WordsOfJoined(parts + [completion], end);
    } else {
      var words := parts[|parts| - 1 := completion];
      assert words == parts[..|parts| - 1] + [completion];
      assert ApplyCompletion(input, completion) == Join(words, " ") + end;
      WordsOfJoined(words, end);
    }
  }

  /** As intended, a word and a space completed keep the word and add the completion after it. */
  lemma CompletionKeepsCommand(word: string, completion: string)
    requires word != "" && NoSpace(word)
    ensures ApplyCompletion(word + " ", completion) == word + " " + completion + CompletionEnd(completion)
  {
    OneWordLine(word);
    JoinAppend([word], completion, " ");
    assert [word] + [completion] == [word, completion];
  }

  /** With the intended completion, "cat " and the only entry "notes.txt" become "cat notes.txt". */
  lemma CompletionKeepsCat(command: string, file: string)
    requires command == "cat" && file == "notes.txt"
    ensures ApplyCompletion(command + " ", file) == command + " " + file
  {
    CompletionKeepsCommand(command, file);
    DotInFileName(file);
    assert command + " " + file + "" == command + " " + file;
  }

  /** How the first half of `handleSubmit` ended. */
  datatype SubmitStart =
    | Ignored
    | AnsweredLocally
    | Sent(command: string)

  class MobileTerminalView {
    var input: string
    var history: seq<MobileEntry>
    var commandHistory: seq<string>
    var historyIndex: int
    var isExecuting: bool
    var currentPath: string
    var suggestions: seq<string>
    var showQuickCommands: bool
    /** The commands after which `onFileSystemChange` was called, oldest first. */
    var fileSystemChanges: seq<string>

    ghost predicate Valid()
      reads this
    {
      && IndexInRange(commandHistory, historyIndex)
      && forall i :: 0 <= i < |commandHistory| ==> !IsBlank(commandHistory[i])
    }

    constructor ()
      ensures Valid()
      ensures input == "" && history == [] && commandHistory == [] && historyIndex == -1 && !isExecuting
      ensures currentPath == HOME_PATH && suggestions == [] && showQuickCommands && fileSystemChanges == []
    {
      input := "";
      history := [];
      commandHistory := [];
      historyIndex := -1;
      isExecuting := false;
      currentPath := HOME_PATH;
      suggestions := [];
      showQuickCommands := true;
      fileSystemChanges := [];
    }

    /** The input's `onChange` and the quick-command buttons. */
    method SetInput(s: string)
      modifies this`input
      ensures input == s
    {
      input := s;
    }

    /** `refreshContext`: the backend's current path, kept when the request failed. */
    method RefreshContext(context: Option<string>)
      modifies this`currentPath
      ensures currentPath == context.GetOr(old(currentPath))
    {
      if context.Some? {
        currentPath := context.value;
      }
    }

    /**
     * `handleSubmit` up to the request. A blank line or a submission while
     * one runs is ignored. Otherwise the line is recorded for recall; "clear"
     * empties the transcript and "help" appends the local help text, both
     * without a request; any other line is sent.
     */
    method BeginSubmit() returns (start: SubmitStart)
      requires Valid()
      modifies this
      ensures Valid()
      ensures fileSystemChanges == old(fileSystemChanges) && currentPath == old(currentPath)
      ensures IsBlank(old(input)) || old(isExecuting) ==>
        start.Ignored? && input == old(input) && history == old(history) && commandHistory == old(commandHistory)
        && historyIndex == old(historyIndex) && isExecuting == old(isExecuting)
        && suggestions == old(suggestions) && showQuickCommands == old(showQuickCommands)
      ensures !IsBlank(old(input)) && !old(isExecuting) ==>
        var line := Trim(old(input));
        && commandHistory == old(commandHistory) + [line] && historyIndex == -1 && suggestions == []
        && (line == CLEAR ==>
              start.AnsweredLocally? && history == [] && input == "" && !isExecuting && showQuickCommands)
        && (line == HELP ==>
              start.AnsweredLocally? && history == old(history) + [MobileEntry(HELP, HELP_TEXT, false, currentPath)]
              && input == "" && !isExecuting && !showQuickCommands)
        && (line != CLEAR && line != HELP ==>
              start == Sent(line) && history == old(history) && input == old(input) && isExecuting && !showQuickCommands)
    {
      var trimmed := Trim(input);
      if trimmed == [] || isExecuting {
        return Ignored;
      }
      isExecuting := true;
      suggestions := [];
      showQuickCommands := false;
      commandHistory := commandHistory + [trimmed];
      historyIndex := -1;

      if trimmed == CLEAR {
        history := [];
        input := "";
        isExecuting := false;
        showQuickCommands := true;
        return AnsweredLocally;
      }

      if trimmed == HELP {
        history := history + [MobileEntry(trimmed, HELP_TEXT, false, currentPath)];
        input := "";
        isExecuting := false;
        return AnsweredLocally;
      }
      start := Sent(trimmed);
    }

    /**
     * `handleSubmit` after the request (`response` is `None` when it threw):
     * the entry is appended with the prompt's path; after an answer the
     * path is refreshed and, when a file-changing command succeeded, the
     * file views are notified.
     */
    method FinishSubmit(command: string, response: Option<CommandResult>, context: Option<string>)
      modifies this`history, this`currentPath, this`fileSystemChanges, this`input, this`isExecuting
      ensures history == old(history) + [MobileEntryFor(command, response, old(currentPath))]
      ensures currentPath == (if response.Some? then context.GetOr(old(currentPath)) else old(currentPath))
      ensures response.Some? && response.value.success && SplitWords(command)[0] in FS_COMMANDS ==>
        fileSystemChanges == old(fileSystemChanges) + [command]
      ensures !(response.Some? && response.value.success && SplitWords(command)[0] in FS_COMMANDS) ==>
        fileSystemChanges == old(fileSystemChanges)
      ensures input == "" && !isExecuting
    {
      history := history + [MobileEntryFor(command, response, currentPath)];
      if response.Some? {
        RefreshContext(context);
        var cmd := SplitWords(command)[0];
        if response.value.success && cmd in FS_COMMANDS {
          fileSystemChanges := fileSystemChanges + [command];
        }
      }
      input := "";
      isExecuting := false;
    }

    /** `applyCompletion` (Tab with one result, or a tapped suggestion): the line is completed and the suggestions go. */
    method ApplyCompletionTo(completion: string)
      modifies this`input, this`suggestions
      ensures input == ApplyCompletion(old(input), completion)
      ensures suggestions == []
    {
      input := ApplyCompletion(input, completion);
      suggestions := [];
    }

    /**
     * `handleTab` with the backend's completions for the line (`None` when
     * the request failed): nothing while suggestions are shown; one result
     * is applied, several are shown.
     */
    method HandleTab(results: Option<seq<string>>)
      modifies this`input, this`suggestions
      ensures old(suggestions) != [] || results.None? || |results.value| == 0 ==>
        input == old(input) && suggestions == old(suggestions)
      ensures old(suggestions) == [] && results.Some? && |results.value| == 1 ==>
        input == ApplyCompletion(old(input), results.value[0]) && suggestions == []
      ensures old(suggestions) == [] && results.Some? && |results.value| > 1 ==>
        input == old(input) && suggestions == results.value
    {
      if suggestions == [] && results.Some? {
        if |results.value| == 1 {
          ApplyCompletionTo(results.value[0]);
        } else if |results.value| > 1 {
          suggestions := results.value;
        }
      }
    }

    /** Any key other than Tab first hides the suggestions. */
    method KeyPressed()
      modifies this`suggestions
      ensures suggestions == []
    {
      suggestions := [];
    }

    /** The ArrowUp branch of `handleKeyDown`, after the suggestions are hidden. */
    method ArrowUp()
      requires Valid()
      modifies this`historyIndex, this`input, this`suggestions
      ensures Valid()
      ensures suggestions == []
      ensures Recall(historyIndex, input) == RecallUp(commandHistory, old(historyIndex), old(input))
    {
      suggestions := [];
      if |commandHistory| == 0 {
        return;
      }
      var newIndex := if historyIndex < |commandHistory| - 1 then historyIndex + 1 else historyIndex;
      historyIndex := newIndex;
      input := Recalled(commandHistory, newIndex);
    }

    /** The ArrowDown branch of `handleKeyDown`, after the suggestions are hidden. */
    method ArrowDown()
      requires Valid()
      modifies this`historyIndex, this`input, this`suggestions
      ensures Valid()
      ensures suggestions == []
      ensures Recall(historyIndex, input) == RecallDown(commandHistory, old(historyIndex), old(input))
    {
      suggestions := [];
      if historyIndex <= 0 {
        historyIndex := -1;
        input := "";
        return;
      }
      var newIndex := historyIndex - 1;
      historyIndex := newIndex;
      input := Recalled(commandHistory, newIndex);
    }
  }
}

=== FILE: notepad.dfy ===
/**
 * The `Notepad` window: the text being edited, the dirty flag that marks
 * unsaved edits, the save through the `onSave` callback (split at its
 * `await`), the title and the status line's counts.
 */
module Notepad {
  import opened Common
  import opened FileNodes
  import TerminalWindow

  const UNTITLED: string := "Untitled"
  const DIRTY_MARK: string := " *"

  /** `file?.content || ''`: the file's text, "" without a file or content. */
  function InitialContent(file: Option<FileNode>): (r: string)
    ensures file.Some? && file.value.content.Some? ==> r == file.value.content.value
    ensures file.None? || file.value.content.None? ==> r == ""
  {
    if file.Some? then TerminalWindow.OrDefault(file.value.content, "") else ""
  }

  /** `file?.name || 'Untitled'`. */
  function FileName(file: Option<FileNode>): (r: string)
    ensures r != ""
    ensures file.Some? && file.value.name != "" ==> r == file.value.name
    ensures file.None? ==> r == UNTITLED
    ensures file.Some? && file.value.name == "" ==> r == UNTITLED
  {
    if file.Some? then TerminalWindow.OrDefault(Some(file.value.name), UNTITLED) else UNTITLED
  }

  /** The title: the name, marked with " *" while there are unsaved edits. */
  function Title(name: string, isDirty: bool): (r: string)
    ensures isDirty ==> r == name + DIRTY_MARK
    ensures !isDirty ==> r == name
    ensures StartsWith(r, name)
  {
    if isDirty then name + DIRTY_MARK else name
  }

  /** The title tells the two states apart, whatever the name. */
  lemma TitleShowsDirty(name: string)
    ensures Title(name, true) != Title(name, false)
    ensures |Title(name, true)| == |Title(name, false)| + 2
  {
  }

  /** `content.split('\n').length`: one more than the number of line breaks. */
  function LineCount(content: string): (n: nat)
    ensures n == Count(content, '\n') + 1
    ensures n >= 1
    ensures '\n' !in content ==> n == 1
  {
    SplitOnCount(content, '\n');
    |SplitOn(content, '\n')|
  }

  /** Adding a line break adds a line; text without breaks adds none. */
  lemma {:induction false} LineCountConcat(a: string, b: string)
    ensures LineCount(a + "\n" + b) == LineCount(a) + LineCount(b)
  {
    assert a + "\n" + b == a + ("\n" + b);
    CountConcat(a, "\n" + b, '\n');
    assert ("\n" + b)[0] == '\n' && ("\n" + b)[1..] == b;
    assert Count("\n" + b, '\n') == 1 + Count(b, '\n');
  }

  lemma {:induction false} CountConcat(a: string, b: string, c: char)
    ensures Count(a + b, c) == Count(a, c) + Count(b, c)
  {
    if a == [] {
      assert a + b == b;
    } else {
      assert (a + b)[0] == a[0] && (a + b)[1..] == a[1..] + b;
      CountConcat(a[1..], b, c);
    }
  }

  /**
   * The editor as the dirty flag sees it: the text, the flag, and the text
   * last loaded or handed to `onSave` (which the window does not keep).
   */
  datatype Editor = Editor(content: string, isDirty: bool, baseline: string)

  /** A clean editor shows exactly the text that was loaded or saved. */
  predicate CleanIsSaved(e: Editor)
  {
    !e.isDirty ==> e.content == e.baseline
  }

  /** `handleChange(value)`. */
  function Edited(e: Editor, value: string): (r: Editor)
    ensures r.content == value && r.isDirty && r.baseline == e.baseline
    ensures CleanIsSaved(r)
  {
    e.(content := value, isDirty := true)
  }

  /** The completion of `handleSave` as written: the flag is cleared whatever was typed meanwhile. */
  function SaveCompletedAsWritten(e: Editor, sent: string): (r: Editor)
    ensures !r.isDirty && r.content == e.content && r.baseline == sent
  {
    e.(isDirty := false, baseline := sent)
  }

  /**
   * Typing during the save: the text "a" is sent, "ab" is typed before the
   * save completes, and the window then shows "ab" as saved.
   */
  lemma SaveRaceLosesEdit(a: string, ab: string)
    requires a == "a" && ab == "ab"
    ensures var sending := Edited(Editor("", false, ""), a);
      var typed := Edited(sending, ab);
      var done := SaveCompletedAsWritten(typed, sending.content);
      CleanIsSaved(sending) && CleanIsSaved(typed) && !CleanIsSaved(done)
  {
    assert ab[1] == 'b';
  }

  /** The completion of a save, corrected: the editor stays dirty when the text moved on from what was sent. */
  function SaveCompleted(e: Editor, sent: string): (r: Editor)
    ensures r.isDirty <==> e.content != sent
    ensures r.content == e.content && r.baseline == sent
    ensures CleanIsSaved(r)
  {
    e.(isDirty := e.content != sent, baseline := sent)
  }

  /** Without edits in between, the corrected completion is the one written: the flag is cleared. */
  lemma SaveCompletedAgreesWithoutRace(e: Editor)
    ensures SaveCompleted(e, e.content) == SaveCompletedAsWritten(e, e.content)
  {
  }

  class NotepadWindow {
    var file: Option<FileNode>
    var content: string
    var isDirty: bool
    var isSaving: bool
    /** Whether an `onSave` callback was given. */
    const canSave: bool
    /** The texts handed to `onSave`, oldest first. */
    var saves: seq<string>
    /** The text last loaded or sent to `onSave`. */
    ghost var baseline: string

    ghost predicate Valid()
      reads this
    {
      CleanIsSaved(Editor(content, isDirty, baseline))
    }

    constructor (f: Option<FileNode>, onSave: bool)
      ensures Valid()
      ensures file == f && content == InitialContent(f) && !isDirty && !isSaving && canSave == onSave && saves == []
    {
      file := f;
      content := InitialContent(f);
      isDirty := false;
      isSaving := false;
      canSave := onSave;
      saves := [];
      baseline := InitialContent(f);
    }

    /** The effect on a new `file` prop: its text, nothing unsaved. */
    method FileChanged(f: Option<FileNode>)
      modifies this`file, this`content, this`isDirty, this`baseline
      ensures Valid()
      ensures file == f && content == InitialContent(f) && !isDirty
    {
      file := f;
      content := InitialContent(f);
      isDirty := false;
      baseline := content;
    }

    /** `handleChange(value)`: any edit makes the text dirty. */
    method Change(value: string)
      requires Valid()
      modifies this`content, this`isDirty
      ensures Valid()
      ensures content == value && isDirty
    {
      content := value;
      isDirty := true;
    }

    /** `handleSave` up to the callback: nothing without `onSave` or unsaved edits; otherwise the text is sent. */
    method SaveStart() returns (sent: Option<string>)
      modifies this`isSaving, this`saves
      ensures !canSave || !old(isDirty) ==> sent.None? && isSaving == old(isSaving) && saves == old(saves)
      ensures canSave && old(isDirty) ==> sent == Some(content) && isSaving && saves == old(saves) + [content]
    {
      if !canSave || !isDirty {
        return None;
      }
      isSaving := true;
      saves := saves + [content];
      sent := Some(content);
    }

    /**
     * `handleSave` after the callback: a completed save of `sent` clears the
     * flag unless the text changed meanwhile; a failed one leaves it set.
     */
    method SaveFinish(sent: string, completed: bool)
      requires Valid()
      modifies this`isDirty, this`isSaving, this`baseline
      ensures Valid() && !isSaving
      ensures completed ==> Editor(content, isDirty, baseline) == SaveCompleted(Editor(content, old(isDirty), old(baseline)), sent)
      ensures !completed ==> isDirty == old(isDirty)
    {
      if completed {
        isDirty := content != sent;
        baseline := sent;
      }
      isSaving := false;
    }

    /** The window's title. */
    function WindowTitle(): (r: string)
      reads this
      ensures r == Title(FileName(file), isDirty)
      ensures isDirty <==> r == FileName(file) + DIRTY_MARK
    {
      TitleShowsDirty(FileName(file));
      Title(FileName(file), isDirty)
    }
  }
}

=== FILE: process_service.dfy ===
/**
 * `ProcessService`: the task list the backend reports, the JVM itself as
 * "WebOS Kernel" followed by seven simulated applications with random
 * memory figures. The heap figure and the random draws are inputs.
 */
module Processes {
  import opened Common

  /** `ProcessInfo`. */
  datatype ProcessInfo = ProcessInfo(pid: string, name: string, memoryBytes: int, status: string)

  const SIMULATED_APPS: seq<string> := ["Chrome", "Outlook", "Explorer", "VSCode", "Spotify", "Discord", "Slack"]
  const KERNEL_PID: string := "1"
  const KERNEL_NAME: string := "WebOS Kernel"
  const RUNNING: string := "Running"
  const DEFAULT_UPDATE_INTERVAL_MS: int := 1000
  const MIN_MEMORY: int := 50_000_000
  /** The exclusive bound given to `random.nextLong`. */
  const MEMORY_SPREAD: int := 200_000_000

  /** `updateInterval()`: the configured `webos.process.update.interval`, 1000 when not configured. */
  function UpdateInterval(configured: Option<int>): (ms: int)
    ensures configured.None? ==> ms == DEFAULT_UPDATE_INTERVAL_MS
    ensures configured.Some? ==> ms == configured.value
  {
    configured.GetOr(DEFAULT_UPDATE_INTERVAL_MS)
  }

  /** `list.indexOf(x)`: the first position of `x`, or -1. */
  function IndexOfItem(items: seq<string>, x: string): (i: int)
    ensures -1 <= i < |items|
    ensures i >= 0 ==> items[i] == x && forall j :: 0 <= j < i ==> items[j] != x
    ensures i == -1 <==> x !in items
    decreases |items|
  {
    if items == [] then -1
    else if items[0] == x then 0
    else
      var k := IndexOfItem(items[1..], x);
      if k < 0 then -1 else k + 1
  }

  predicate Distinct(items: seq<string>)
  {
    forall i, j :: 0 <= i < j < |items| ==> items[i] != items[j]
  }

  /** In a list without repetitions an entry is found at its own position. */
  lemma IndexOfDistinct(items: seq<string>, i: nat)
    requires Distinct(items) && i < |items|
    ensures IndexOfItem(items, items[i]) == i
  {
  }

  lemma SimulatedAppsDistinct()
    ensures Distinct(SIMULATED_APPS)
  {
    var a := SIMULATED_APPS;
    assert a[0][0] == 'C' && a[1][0] == 'O' && a[2][0] == 'E' && a[3][0] == 'V';
    assert a[4][0] == 'S' && a[5][0] == 'D' && a[6][0] == 'S';
    assert a[4][1] == 'p' && a[6][1] == 'l';
  }

  /**
   * `createSimulatedProcess(name)`: pid 1000 plus the app's position in
   * SIMULATED_APPS, memory 50,000,000 plus the draw from
   * `random.nextLong(200_000_000)`, status "Running".
   */
  function CreateSimulatedProcess(name: string, draw: int): (p: ProcessInfo)
    requires 0 <= draw < MEMORY_SPREAD
    ensures p.name == name && p.status == RUNNING
    ensures p.pid == NatToString(1000 + IndexOfItem(SIMULATED_APPS, name))
    ensures MIN_MEMORY <= p.memoryBytes < MIN_MEMORY + MEMORY_SPREAD
  {
    ProcessInfo(NatToString(1000 + IndexOfItem(SIMULATED_APPS, name)), name, MIN_MEMORY + draw, RUNNING)
  }

  /** Random draws that `nextLong(200_000_000)` can return, one per simulated app. */
  predicate ValidDraws(draws: seq<int>)
  {
    |draws| == |SIMULATED_APPS| && forall i :: 0 <= i < |draws| ==> 0 <= draws[i] < MEMORY_SPREAD
  }

  /** `processes()`: the kernel with the used heap, then the simulated apps in list order. */
  function ProcessList(heapUsed: int, draws: seq<int>): (ps: seq<ProcessInfo>)
    requires ValidDraws(draws)
    ensures |ps| == 1 + |SIMULATED_APPS|
    ensures ps[0] == ProcessInfo(KERNEL_PID, KERNEL_NAME, heapUsed, RUNNING)
    ensures forall i :: 1 <= i < |ps| ==> ps[i] == CreateSimulatedProcess(SIMULATED_APPS[i - 1], draws[i - 1])
  {
    [ProcessInfo(KERNEL_PID, KERNEL_NAME, heapUsed, RUNNING)]
      + seq(|SIMULATED_APPS|, i requires 0 <= i < |SIMULATED_APPS| && ValidDraws(draws) =>
              CreateSimulatedProcess(SIMULATED_APPS[i], draws[i]))
  }

  /**
   * Eight entries: the kernel with pid "1", then each simulated app with pid
   * 1000 + its index and memory in [50,000,000, 250,000,000); all running.
   */
  lemma ProcessListShape(heapUsed: int, draws: seq<int>)
    requires ValidDraws(draws)
    ensures var ps := ProcessList(heapUsed, draws);
      && |ps| == 8
      && ps[0].pid == "1" && ps[0].name == "WebOS Kernel"
      && (forall i :: 0 <= i < 8 ==> ps[i].status == "Running")
      && (forall i :: 1 <= i < 8 ==>
            ps[i].name == SIMULATED_APPS[i - 1] && ps[i].pid == NatToString(999 + i)
            && 50_000_000 <= ps[i].memoryBytes < 250_000_000)
  {
    var ps := ProcessList(heapUsed, draws);
    SimulatedAppsDistinct();
    forall i | 1 <= i < 8
      ensures ps[i].pid == NatToString(999 + i)
    {
      IndexOfDistinct(SIMULATED_APPS, i - 1);
    }
  }

  /** No two entries of the list share a pid. */
  lemma ProcessPidsDistinct(heapUsed: int, draws: seq<int>)
    requires ValidDraws(draws)
    ensures var ps := ProcessList(heapUsed, draws);
      forall i, j :: 0 <= i < j < |ps| ==> ps[i].pid != ps[j].pid
  {
    var ps := ProcessList(heapUsed, draws);
    ProcessListShape(heapUsed, draws);
    forall i, j | 0 <= i < j < |ps|
      ensures ps[i].pid != ps[j].pid
    {
      PidsApart(i, j);
    }
  }

  /** The pid shown in row `i`: "1" for the kernel, 999 + i for the apps. */
  lemma PidsApart(i: nat, j: nat)
    requires i < j
    ensures (if i == 0 then KERNEL_PID else NatToString(999 + i)) != NatToString(999 + j)
  {
    if i == 0 {
      SingleDigitBelowTen(999 + j);
    } else if NatToString(999 + i) == NatToString(999 + j) {
      NatToStringInjective(999 + i, 999 + j);
    }
  }

  /** The numeral of a number of ten or more has more than one digit. */
  lemma SingleDigitBelowTen(n: nat)
    ensures n >= 10 ==> |NatToString(n)| > 1
  {
  }
}

=== FILE: search_panel.dfy ===
/**
 * The desktop `SearchPanel`: the case-insensitive filter of the recent apps
 * (at most five shown) and of the fixed top apps, the message shown when
 * nothing is listed, and the order of the callbacks a click makes.
 */
module SearchPanel {
  import opened Common
  import opened Desktop

  /** The fixed "Top apps" tiles. */
  const TOP_APPS: seq<RecentApp> := [
    RecentApp("game-bar", "Game Bar", "\U{1F3AE}"),
    RecentApp("league", "League of Legends", "\U{1F3AF}"),
    RecentApp("snipping-tool", "Snipping Tool", "✂️"),
    RecentApp("file-explorer", "File Explorer", "\U{1F4C1}"),
    RecentApp("chrome", "Google Chrome", "\U{1F310}"),
    RecentApp("terminal", "Terminal", "\U{1F4BB}")
  ]

  const MAX_RECENT: nat := 5
  const MAX_TOP: nat := 6
  const NO_RECENT_APPS: string := "No recent apps"
  const NO_APPS_FOUND: string := "No apps found"

  /** `name.toLowerCase().includes(query.toLowerCase())`. */
  predicate Matches(name: string, query: string)
  {
    Contains(ToLower(name), ToLower(query))
  }

  /** The apps whose name matches the query, in their original order. */
  function FilterByQuery(apps: seq<RecentApp>, query: string): (r: seq<RecentApp>)
    ensures |r| <= |apps|
    ensures forall i :: 0 <= i < |r| ==> Matches(r[i].name, query)
  {
    if apps == [] then []
    else
      var rest := FilterByQuery(apps[1..], query);
      if Matches(apps[0].name, query) then [apps[0]] + rest else rest
  }

  /** An app is shown exactly when it is one of the apps and its name matches. */
  lemma {:induction false} FilterKeepsMatches(apps: seq<RecentApp>, query: string)
    ensures forall a :: a in FilterByQuery(apps, query) <==> a in apps && Matches(a.name, query)
  {
    if apps != [] {
      FilterKeepsMatches(apps[1..], query);
      assert forall a :: a in apps <==> a == apps[0] || a in apps[1..];
    }
  }

  /** Filtering distributes over concatenation, so the kept apps stay in their order. */
  lemma {:induction false} FilterConcat(a: seq<RecentApp>, b: seq<RecentApp>, query: string)
    ensures FilterByQuery(a + b, query) == FilterByQuery(a, query) + FilterByQuery(b, query)
  {
    if a != [] {
      assert (a + b)[0] == a[0] && (a + b)[1..] == a[1..] + b;
      FilterConcat(a[1..], b, query);
      var fa, fb := FilterByQuery(a[1..], query), FilterByQuery(b, query);
      if Matches(a[0].name, query) {
        assert FilterByQuery(a + b, query) == [a[0]] + FilterByQuery(a[1..] + b, query);
        assert [a[0]] + (fa + fb) == ([a[0]] + fa) + fb;
      } else {
        assert FilterByQuery(a + b, query) == FilterByQuery(a[1..] + b, query);
      }
    } else {
      assert a + b == b;
    }
  }

  /** The empty query matches every name, so nothing is filtered out. */
  lemma {:induction false} EmptyQueryKeepsAll(apps: seq<RecentApp>)
    ensures FilterByQuery(apps, "") == apps
  {
    if apps != [] {
      assert OccursAt(ToLower(apps[0].name), "", 0);
      EmptyQueryKeepsAll(apps[1..]);
    }
  }

  /** Lowering the query or a name first changes nothing: the match ignores ASCII case. */
  lemma CaseInsensitive(name: string, query: string)
    ensures Matches(name, query) <==> Matches(ToLower(name), ToLower(query))
  {
    ToLowerIdempotent(name);
    ToLowerIdempotent(query);
  }

  /** `slice(0, n)`: at most the first `n` entries. */
  function TakeAtMost<T>(s: seq<T>, n: nat): (r: seq<T>)
    ensures r <= s
    ensures |r| == if |s| < n then |s| else n
  {
    s[..if |s| < n then |s| else n]
  }

  /** `filteredRecentApps`: the first five recent apps that match. */
  function FilteredRecentApps(recent: seq<RecentApp>, query: string): (r: seq<RecentApp>)
    ensures |r| <= MAX_RECENT
    ensures r <= FilterByQuery(recent, query)
    ensures |r| == if |FilterByQuery(recent, query)| < MAX_RECENT then |FilterByQuery(recent, query)| else MAX_RECENT
  {
    TakeAtMost(FilterByQuery(recent, query), MAX_RECENT)
  }

  /** With an empty query the panel shows the five most recent entries as they are. */
  lemma EmptyQueryShowsFirstFive(recent: seq<RecentApp>)
    ensures |recent| <= MAX_RECENT ==> FilteredRecentApps(recent, "") == recent
    ensures |recent| > MAX_RECENT ==> FilteredRecentApps(recent, "") == recent[..MAX_RECENT]
  {
    EmptyQueryKeepsAll(recent);
  }

  /** `filteredTopApps` and the tiles shown (`slice(0, 6)`): every matching top app is shown. */
  function ShownTopApps(query: string): (r: seq<RecentApp>)
    ensures r == FilterByQuery(TOP_APPS, query)
    ensures forall a :: a in TOP_APPS && Matches(a.name, query) ==> a in r
  {
    FilterKeepsMatches(TOP_APPS, query);
    TakeAtMost(FilterByQuery(TOP_APPS, query), MAX_TOP)
  }

  /** The message in the "Recent" column: none while entries are listed. */
  function RecentMessage(recent: seq<RecentApp>, query: string): (r: Option<string>)
    ensures r == Some(NO_RECENT_APPS) <==> recent == []
    ensures r == Some(NO_APPS_FOUND) <==> recent != [] && FilteredRecentApps(recent, query) == []
    ensures r.None? <==> FilteredRecentApps(recent, query) != []
  {
    if recent == [] then Some(NO_RECENT_APPS)
    else if FilteredRecentApps(recent, query) == [] then Some(NO_APPS_FOUND)
    else None
  }

  /** A callback the panel makes. */
  datatype PanelEvent =
    | AddRecentApp(app: RecentApp)
    | OpenApp(appId: string)
    | ClosePanel

  class SearchPanelView {
    var searchQuery: string
    /** The callbacks made, oldest first. */
    var events: seq<PanelEvent>

    constructor ()
      ensures searchQuery == "" && events == []
    {
      searchQuery := "";
      events := [];
    }

    /** `handleSearchChange`. */
    method SetQuery(q: string)
      modifies this`searchQuery
      ensures searchQuery == q
    {
      searchQuery := q;
    }

    /** `handleAppClick(appId)` on a recent app: open it, then close. */
    method AppClick(appId: string)
      modifies this`events
      ensures events == old(events) + [OpenApp(appId), ClosePanel]
    {
      events := events + [OpenApp(appId)];
      events := events + [ClosePanel];
    }

    /** `handleTopAppClick(app)`: record it as recent, open it, then close, in that order. */
    method TopAppClick(app: RecentApp)
      modifies this`events
      ensures events == old(events) + [AddRecentApp(app), OpenApp(app.id), ClosePanel]
    {
      events := events + [AddRecentApp(RecentApp(app.id, app.name, app.icon))];
      events := events + [OpenApp(app.id)];
      events := events + [ClosePanel];
    }

    /** `handleBackdropClick`: only a click on the backdrop itself closes. */
    method BackdropClick(onBackdrop: bool)
      modifies this`events
      ensures onBackdrop ==> events == old(events) + [ClosePanel]
      ensures !onBackdrop ==> events == old(events)
    {
      if onBackdrop {
        events := events + [ClosePanel];
      }
    }
  }
}

=== FILE: settings.dfy ===
/**
 * The frontend settings store (`store/settings.ts`): font size and wallpaper,
 * their validation, the defaults and the per-field fallback when stored
 * settings are read back. What `localStorage` holds and what `JSON.parse`
 * and the `URL` parser make of it are inputs.
 */
module Settings {
  import opened Common

  /**
   * A JavaScript value as `JSON.parse` can produce it (arrays behave like
   * objects without the keys read here). Numbers are reals: a font size of
   * 14.5 is a number but not an integer.
   */
  datatype JsValue =
    | Undefined
    | Null
    | Bool(b: bool)
    | Num(r: real)
    | Str(s: string)
    | Obj(props: map<string, JsValue>)

  datatype SettingsState = SettingsState(fontSize: real, wallpaperUrl: string)

  const DEFAULT_FONT_SIZE: real := 14.0
  const DEFAULT_WALLPAPER: string := "https://images.unsplash.com/photo-1579546929518-9e396f3cc809?w=1920&q=80"
  const DEFAULT_SETTINGS: SettingsState := SettingsState(DEFAULT_FONT_SIZE, DEFAULT_WALLPAPER)

  /** `Number.isInteger(r)`. */
  predicate IsInteger(r: real)
  {
    r == r.Floor as real
  }

  /** `isValidFontSize(size)`: an integer number from 12 to 24 that is even. */
  predicate IsValidFontSize(size: JsValue)
  {
    size.Num? && IsInteger(size.r) && 12.0 <= size.r <= 24.0 && size.r.Floor % 2 == 0
  }

  /** The valid sizes are exactly the seven even integers from 12 to 24. */
  lemma ValidFontSizes(size: JsValue)
    ensures IsValidFontSize(size) <==>
      size.Num? && size.r in {12.0, 14.0, 16.0, 18.0, 20.0, 22.0, 24.0}
  {
    if IsValidFontSize(size) {
      var n := size.r.Floor;
      assert 12 <= n <= 24 && n % 2 == 0;
      assert n in {12, 14, 16, 18, 20, 22, 24};
    }
  }

  /** `getDefaults()`: a copy of DEFAULT_SETTINGS, whose font size is valid. */
  function GetDefaults(): (s: SettingsState)
    ensures s == DEFAULT_SETTINGS
    ensures IsValidFontSize(Num(s.fontSize))
  {
    DEFAULT_SETTINGS
  }

  /** Property access `value.key`: `None` where JavaScript throws (on null or undefined). */
  function Property(value: JsValue, key: string): (r: Option<JsValue>)
    ensures r.None? <==> value.Null? || value.Undefined?
  {
    match value
    case Null => None
    case Undefined => None
    case Obj(props) => Some(if key in props then props[key] else Undefined)
    case _ => Some(Undefined)
  }

  /**
   * `load()`. `stored` is what `localStorage.getItem` returned (`None` also
   * when it threw); `parsed` is `JSON.parse(stored)` (`None` when it threw).
   * No stored text, a parse failure or a parsed null give the defaults;
   * otherwise each field falls back to its default on its own.
   */
  function Load(stored: Option<string>, parsed: Option<JsValue>): (s: SettingsState)
    ensures stored.None? || stored.value == [] || parsed.None? ==> s == DEFAULT_SETTINGS
    ensures parsed == Some(Null) ==> s == DEFAULT_SETTINGS
    ensures IsValidFontSize(Num(s.fontSize))
  {
    if stored.None? || stored.value == [] then GetDefaults()
    else if parsed.None? then GetDefaults()
    else
      var fontSize := Property(parsed.value, "fontSize");
      var wallpaperUrl := Property(parsed.value, "wallpaperUrl");
      if fontSize.None? || wallpaperUrl.None? then GetDefaults()
      else
        SettingsState(
          if IsValidFontSize(fontSize.value) then fontSize.value.r else DEFAULT_SETTINGS.fontSize,
          if wallpaperUrl.value.Str? then wallpaperUrl.value.s else DEFAULT_SETTINGS.wallpaperUrl)
  }

  /** The object `save` serialises for a state. */
  function AsObject(s: SettingsState): (v: JsValue)
    ensures v.Obj? && v.props.Keys == {"fontSize", "wallpaperUrl"}
  {
    Obj(map["fontSize" := Num(s.fontSize), "wallpaperUrl" := Str(s.wallpaperUrl)])
  }

  /** Each field of a stored object is kept when valid and replaced by its default otherwise, independently. */
  lemma LoadFieldByField(stored: string, props: map<string, JsValue>)
    requires stored != []
    ensures var s := Load(Some(stored), Some(Obj(props)));
      var f := if "fontSize" in props then props["fontSize"] else Undefined;
      var w := if "wallpaperUrl" in props then props["wallpaperUrl"] else Undefined;
      && (IsValidFontSize(f) ==> s.fontSize == f.r)
      && (!IsValidFontSize(f) ==> s.fontSize == DEFAULT_FONT_SIZE)
      && (w.Str? ==> s.wallpaperUrl == w.s)
      && (!w.Str? ==> s.wallpaperUrl == DEFAULT_WALLPAPER)
  {
  }

  /** A state with a valid font size that was saved reads back unchanged. */
  lemma LoadSaved(s: SettingsState, stored: string)
    requires IsValidFontSize(Num(s.fontSize)) && stored != []
    ensures Load(Some(stored), Some(AsObject(s))) == s
  {
  }

  /** A stored font size that is not an even integer in 12..24 reads back as 14. */
  lemma LoadRejectsOddSize(stored: string, wallpaper: string)
    requires stored != []
    ensures Load(Some(stored), Some(Obj(map["fontSize" := Num(15.0), "wallpaperUrl" := Str(wallpaper)])))
            == SettingsState(DEFAULT_FONT_SIZE, wallpaper)
  {
    assert !IsValidFontSize(Num(15.0)) by {
      assert (15.0).Floor == 15;
    }
  }

  /**
   * `isValidUrl(url)`: a string that the URL parser accepts with protocol
   * "http:" or "https:". `protocolOf` stands for `new URL(url).protocol`,
   * `None` where the constructor throws.
   */
  predicate IsValidUrl(url: JsValue, protocolOf: string -> Option<string>)
  {
    url.Str? && (protocolOf(url.s) == Some("http:") || protocolOf(url.s) == Some("https:"))
  }

  /** A non-string is never a valid URL, and neither is a string the parser rejects. */
  lemma InvalidUrls(url: JsValue, protocolOf: string -> Option<string>)
    ensures !url.Str? ==> !IsValidUrl(url, protocolOf)
    ensures url.Str? && protocolOf(url.s).None? ==> !IsValidUrl(url, protocolOf)
    ensures url.Str? && protocolOf(url.s) == Some("ftp:") ==> !IsValidUrl(url, protocolOf)
  {
  }
}

=== FILE: settings_context.dfy ===
/**
 * `SettingsContext`: the settings state shared by the frontend, started
 * from the stored settings and changed only through guarded updates and
 * the reset. Persisting every new state is left to the store.
 */
module SettingsContext {
  import opened Common
  import opened Settings

  class SettingsProvider {
    var settings: SettingsState

    /** Every reachable state has a valid font size. */
    ghost predicate Valid()
      reads this
    {
      IsValidFontSize(Num(settings.fontSize))
    }

    /** `useState(() => load())`. */
    constructor (stored: Option<string>, parsed: Option<JsValue>)
      ensures settings == Load(stored, parsed)
      ensures Valid()
    {
      settings := Load(stored, parsed);
    }

    /** `updateFontSize(size)`: ignored unless valid; otherwise only the font size changes. */
    method UpdateFontSize(size: real)
      requires Valid()
      modifies this
      ensures Valid()
      ensures !IsValidFontSize(Num(size)) ==> settings == old(settings)
      ensures IsValidFontSize(Num(size)) ==> settings == old(settings).(fontSize := size)
    {
      if !IsValidFontSize(Num(size)) {
        return;
      }
      settings := settings.(fontSize := size);
    }

    /** `updateWallpaper(url)`: ignored unless a valid http(s) URL; otherwise only the wallpaper changes. */
    method UpdateWallpaper(url: string, protocolOf: string -> Option<string>)
      requires Valid()
      modifies this
      ensures Valid()
      ensures !IsValidUrl(Str(url), protocolOf) ==> settings == old(settings)
      ensures IsValidUrl(Str(url), protocolOf) ==> settings == old(settings).(wallpaperUrl := url)
    {
      if !IsValidUrl(Str(url), protocolOf) {
        return;
      }
      settings := settings.(wallpaperUrl := url);
    }

    /** `resetToDefaults()`. */
    method ResetToDefaults()
      modifies this
      ensures Valid()
      ensures settings == DEFAULT_SETTINGS
    {
      settings := GetDefaults();
    }
  }

  /** The settings actions a user can take. */
  datatype Action =
    | SetFontSize(size: real)
    | SetWallpaper(url: string)
    | Reset

  /** The state after one action, as the provider's methods compute it. */
  function Step(s: SettingsState, action: Action, protocolOf: string -> Option<string>): (t: SettingsState)
    ensures action.SetFontSize? ==> t.wallpaperUrl == s.wallpaperUrl
    ensures action.SetWallpaper? ==> t.fontSize == s.fontSize
    ensures action.Reset? ==> t == DEFAULT_SETTINGS
  {
    match action
    case SetFontSize(size) => if IsValidFontSize(Num(size)) then s.(fontSize := size) else s
    case SetWallpaper(url) => if IsValidUrl(Str(url), protocolOf) then s.(wallpaperUrl := url) else s
    case Reset => GetDefaults()
  }

  /** The state after a sequence of actions. */
  function Run(s: SettingsState, actions: seq<Action>, protocolOf: string -> Option<string>): SettingsState
    decreases |actions|
  {
    if actions == [] then s else Run(Step(s, actions[0], protocolOf), actions[1..], protocolOf)
  }

  /**
   * Whatever was stored and whatever the user does afterwards, the font
   * size stays valid: it starts from `load`, every update is guarded and
   * the reset goes to 14.
   */
  lemma {:induction false} FontSizeAlwaysValid(s: SettingsState, actions: seq<Action>, protocolOf: string -> Option<string>)
    requires IsValidFontSize(Num(s.fontSize))
    ensures IsValidFontSize(Num(Run(s, actions, protocolOf).fontSize))
    decreases |actions|
  {
    if actions != [] {
      var t := Step(s, actions[0], protocolOf);
      assert IsValidFontSize(Num(t.fontSize)) by {
        if actions[0].Reset? {
          assert t == GetDefaults();
        }
      }
      FontSizeAlwaysValid(t, actions[1..], protocolOf);
    }
  }

  /** Reachable states: the loaded settings after any sequence of actions. */
  lemma ReachableValid(stored: Option<string>, parsed: Option<JsValue>, actions: seq<Action>,
                       protocolOf: string -> Option<string>)
    ensures IsValidFontSize(Num(Run(Load(stored, parsed), actions, protocolOf).fontSize))
  {
    FontSizeAlwaysValid(Load(stored, parsed), actions, protocolOf);
  }

  /** Applying one action through the provider agrees with `Step`. */
  method Apply(provider: SettingsProvider, action: Action, protocolOf: string -> Option<string>)
    requires provider.Valid()
    modifies provider
    ensures provider.Valid()
    ensures provider.settings == Step(old(provider.settings), action, protocolOf)
  {
    match action {
      case SetFontSize(size) => provider.UpdateFontSize(size);
      case SetWallpaper(url) => provider.UpdateWallpaper(url, protocolOf);
      case Reset => provider.ResetToDefaults();
    }
  }
}

=== FILE: status_bar.dfy ===
/**
 * The phone's `StatusBar` clock: `formatTime` writes the hour as it is and
 * the minutes padded to two digits, joined by ":". The hour and minute
 * come from the clock and are inputs here.
 */
module StatusBar {
  import opened Common

  /** `minutes.toString().padStart(2, '0')`. */
  function Minutes(m: nat): (r: string)
    ensures |r| >= 2
    ensures m < 100 ==> |r| == 2
    ensures forall i :: 0 <= i < |r| ==> IsDigit(r[i])
    ensures ParseNat(r) == m
  {
    ParseNatToString(m);
    var s := NatToString(m);
    ParseNatLeadingZeros(if |s| >= 2 then 0 else 2 - |s|, s);
    assert m < 100 ==> |s| <= 2 by {
      if m >= 10 && m < 100 {
        assert NatToString(m) == NatToString(m / 10) + [DigitChar(m % 10)];
      }
    }
    assert PadStart(s, 2, '0') == Repeat('0', if |s| >= 2 then 0 else 2 - |s|) + s;
    PadStart(s, 2, '0')
  }

  /** `formatTime(date)` for the date's hour and minute. */
  function FormatTime(hours: nat, minutes: nat): (r: string)
    ensures r == NatToString(hours) + ":" + Minutes(minutes)
    ensures Count(r, ':') == 1
  {
    var h := NatToString(hours);
    var m := Minutes(minutes);
    DigitsHaveNoColon(h);
    DigitsHaveNoColon(m);
    CountNoColon(h);
    CountNoColon(m);
    ColonCount(h, m);
    h + ":" + m
  }

  lemma DigitsHaveNoColon(s: string)
    requires forall i :: 0 <= i < |s| ==> IsDigit(s[i])
    ensures ':' !in s
  {
  }

  lemma CountNoColon(s: string)
    requires ':' !in s
    ensures Count(s, ':') == 0
  {
  }

  /** The colon between two colon-free strings is the only one. */
  lemma ColonCount(a: string, b: string)
    requires ':' !in a && ':' !in b
    ensures Count(a + ":" + b, ':') == 1
  {
    SplitOnSepConcat(a, b, ':');
    SplitOnNoSep(a, ':');
    SplitOnNoSep(b, ':');
    SplitOnCount(a + ":" + b, ':');
  }

  /**
   * For a real time of day the text splits at its one ":" into the hour,
   * unpadded, and exactly two minute digits; reading both back gives the
   * hour and the minute.
   */
  lemma FormatTimeRoundTrip(hours: nat, minutes: nat)
    requires hours < 24 && minutes < 60
    ensures var parts := SplitOn(FormatTime(hours, minutes), ':');
      && |parts| == 2
      && parts[0] == NatToString(hours)
      && |parts[1]| == 2
      && (forall i :: 0 <= i < |parts[0]| ==> IsDigit(parts[0][i]))
      && (forall i :: 0 <= i < |parts[1]| ==> IsDigit(parts[1][i]))
      && ParseNat(parts[0]) == hours && ParseNat(parts[1]) == minutes
  {
    var h := NatToString(hours);
    var m := Minutes(minutes);
    DigitsHaveNoColon(h);
    DigitsHaveNoColon(m);
    SplitOnSepConcat(h, m, ':');
    SplitOnNoSep(h, ':');
    SplitOnNoSep(m, ':');
    ParseNatToString(hours);
  }

  /** Hours are never padded: before ten o'clock the hour is one digit. */
  lemma HoursUnpadded(hours: nat, minutes: nat)
    requires hours < 10
    ensures FormatTime(hours, minutes)[0] == DigitChar(hours) && FormatTime(hours, minutes)[1] == ':'
  {
  }

  /** Two different times of day never read the same. */
  lemma FormatTimeInjective(h1: nat, m1: nat, h2: nat, m2: nat)
    requires h1 < 24 && m1 < 60 && h2 < 24 && m2 < 60
    requires FormatTime(h1, m1) == FormatTime(h2, m2)
    ensures h1 == h2 && m1 == m2
  {
    FormatTimeRoundTrip(h1, m1);
    FormatTimeRoundTrip(h2, m2);
  }
}

=== FILE: task_manager.dfy ===
/**
 * The `TaskManager` window: the process table built from the open windows
 * (a kernel row with pid "1", then one row per window with pid 1000 plus
 * its position) and the End Task button, which asks the desktop to close a
 * window.
 */
module TaskManager {
  import opened Common
  import opened Desktop

  /** A row of the table; the memory column is not modelled. */
  datatype ProcessInfo = ProcessInfo(pid: string, name: string, status: string, icon: string)

  const KERNEL_PID: string := "1"
  const FIRST_APP_PID: nat := 1000
  const RUNNING: string := "Running"
  const KERNEL: ProcessInfo := ProcessInfo(KERNEL_PID, "WebOS Kernel", RUNNING, "\U{1F5A5}️")

  /** The row of the window at position `index`. */
  function AppProcess(app: OpenAppEntry, index: nat): (p: ProcessInfo)
    ensures p.pid == NatToString(FIRST_APP_PID + index) && p.name == app.name && p.icon == app.icon
    ensures p.status == RUNNING
  {
    ProcessInfo(NatToString(FIRST_APP_PID + index), app.name, RUNNING, app.icon)
  }

  /** `processes`: the kernel, then the open windows in order. */
  function Processes(openApps: seq<OpenAppEntry>): (r: seq<ProcessInfo>)
    ensures |r| == |openApps| + 1
    ensures r[0] == KERNEL
    ensures forall k :: 0 <= k < |openApps| ==> r[k + 1] == AppProcess(openApps[k], k)
  {
    [KERNEL] + seq(|openApps|, k requires 0 <= k < |openApps| => AppProcess(openApps[k], k))
  }

  /** Every row has its own pid, and only the kernel's is "1". */
  lemma PidsDistinct(openApps: seq<OpenAppEntry>, i: nat, j: nat)
    requires i < j <= |openApps|
    ensures Processes(openApps)[i].pid != Processes(openApps)[j].pid
    ensures Processes(openApps)[j].pid != KERNEL_PID
  {
    var ps := Processes(openApps);
    assert NatToString(1) == KERNEL_PID;
    if i > 0 && ps[i].pid == ps[j].pid {
      NatToStringInjective(FIRST_APP_PID + (i - 1), FIRST_APP_PID + (j - 1));
    }
  }

  /** The table always lists every window plus the kernel; it shows "No applications running" exactly when only the kernel is left. */
  lemma ProcessCount(openApps: seq<OpenAppEntry>)
    ensures |Processes(openApps)| == |openApps| + 1
    ensures |Processes(openApps)| == 1 <==> openApps == []
  {
  }

  /** The first open window with that name, as `openApps.find(a => a.name === name)`. */
  function FindByName(openApps: seq<OpenAppEntry>, name: string): (r: Option<nat>)
    ensures r.Some? ==> r.value < |openApps| && openApps[r.value].name == name
    ensures r.Some? ==> forall k :: 0 <= k < r.value ==> openApps[k].name != name
    ensures r.None? ==> forall k :: 0 <= k < |openApps| ==> openApps[k].name != name
    decreases |openApps|
  {
    if openApps == [] then None
    else if openApps[0].name == name then Some(0)
    else
      var r := FindByName(openApps[1..], name);
      assert forall k :: 1 <= k < |openApps| ==> openApps[1..][k - 1] == openApps[k];
      if r.Some? then Some(r.value + 1) else None
  }

  /** `handleEndTask(process)` as written: the id passed to `onCloseApp`, found by the row's name. */
  function EndTaskAsWritten(openApps: seq<OpenAppEntry>, process: ProcessInfo): (closed: Option<string>)
    ensures process.pid == KERNEL_PID ==> closed.None?
    ensures closed.Some? ==> exists k :: 0 <= k < |openApps| && openApps[k].id == closed.value && openApps[k].name == process.name
  {
    if process.pid == KERNEL_PID then None
    else
      var k := FindByName(openApps, process.name);
      if k.Some? then Some(openApps[k.value].id) else None
  }

  /**
   * Two notepad windows on files of the same name (in two directories):
   * End Task on the second row closes the first window.
   */
  lemma EndTaskClosesWrongWindow(f: OpenAppEntry, g: OpenAppEntry)
    requires f.name == g.name && f.id != g.id
    ensures var apps := [f, g];
      EndTaskAsWritten(apps, Processes(apps)[2]) == Some(f.id) != Some(g.id)
  {
    var apps := [f, g];
    PidsDistinct(apps, 0, 2);
  }

  /** The window index a pid stands for: its value less 1000. */
  function PidIndex(pid: string): (r: Option<nat>)
    ensures r.Some? ==> (forall i :: 0 <= i < |pid| ==> IsDigit(pid[i])) && ParseNat(pid) == FIRST_APP_PID + r.value
    ensures r.None? ==> pid == [] || (exists i :: 0 <= i < |pid| && !IsDigit(pid[i])) || ParseNat(pid) < FIRST_APP_PID
  {
    if pid != [] && forall i :: 0 <= i < |pid| ==> IsDigit(pid[i]) then
      var n := ParseNat(pid);
      if n >= FIRST_APP_PID then Some(n - FIRST_APP_PID) else None
    else None
  }

  /** `handleEndTask`, corrected: the window whose row was clicked, found by the row's position. */
  function EndTask(openApps: seq<OpenAppEntry>, process: ProcessInfo): (closed: Option<string>)
    ensures process.pid == KERNEL_PID ==> closed.None?
  {
    if process.pid == KERNEL_PID then None
    else
      var k := PidIndex(process.pid);
      if k.Some? && k.value < |openApps| then Some(openApps[k.value].id) else None
  }

  /** End Task on a window's row closes that window, and on the kernel's row closes nothing. */
  lemma EndTaskClosesItsRow(openApps: seq<OpenAppEntry>, k: nat)
    requires k < |openApps|
    ensures EndTask(openApps, Processes(openApps)[k + 1]) == Some(openApps[k].id)
    ensures EndTask(openApps, Processes(openApps)[0]) == None
  {
    var pid := NatToString(FIRST_APP_PID + k);
    PidsDistinct(openApps, 0, k + 1);
    ParseNatToString(FIRST_APP_PID + k);
    assert PidIndex(pid) == Some(k);
  }

  /** With distinct window names the corrected lookup closes the same window as the one written. */
  lemma EndTaskAgreesOnDistinctNames(openApps: seq<OpenAppEntry>, k: nat)
    requires k < |openApps|
    requires forall i, j :: 0 <= i < j < |openApps| ==> openApps[i].name != openApps[j].name
    ensures EndTaskAsWritten(openApps, Processes(openApps)[k + 1]) == EndTask(openApps, Processes(openApps)[k + 1])
  {
    EndTaskClosesItsRow(openApps, k);
    var found := FindByName(openApps, openApps[k].name);
    assert found == Some(k);
  }
}

=== FILE: terminal_window.dfy ===
/**
 * The desktop `Terminal` window: the transcript of commands and their
 * results, the list of submitted commands and the ArrowUp/ArrowDown recall
 * through it. The backend call is split at its `await`: the request's
 * outcome is an input of the second half.
 */
module TerminalWindow {
  import opened Common
  import opened CommandResults

  /** A transcript entry. */
  datatype HistoryEntry = HistoryEntry(command: string, output: string, isError: bool)

  const CONNECTION_FAILED: string := "Failed to connect to backend"
  const UNKNOWN_ERROR: string := "Unknown error"

  /** JavaScript's `s || d` on a nullable string: the default for null and for "". */
  function OrDefault(s: Option<string>, d: string): (r: string)
    ensures r == d || (s.Some? && r == s.value)
    ensures s.Some? && s.value != "" ==> r == s.value
    ensures d != "" ==> r != ""
  {
    if s.Some? && s.value != "" then s.value else d
  }

  /**
   * The output and error flag shown for a command's result; `None` is a
   * request that threw. A success shows its output, a failure its error,
   * and an error entry never shows an empty text.
   */
  function EntryFor(command: string, response: Option<CommandResult>): (e: HistoryEntry)
    ensures e.command == command
    ensures e.isError <==> response.None? || !response.value.success
    ensures e.isError ==> e.output != ""
    ensures response.None? ==> e.output == CONNECTION_FAILED
    ensures response.Some? && response.value.success ==> e.output == response.value.output.GetOr("")
    ensures response.Some? && !response.value.success && OrDefault(response.value.error, "") != "" ==>
      e.output == response.value.error.value
  {
    match response
    case None => HistoryEntry(command, CONNECTION_FAILED, true)
    case Some(result) =>
      HistoryEntry(command,
                   if result.success then OrDefault(result.output, "") else OrDefault(result.error, UNKNOWN_ERROR),
                   !result.success)
  }

  /** The entries for results made by `CommandResult.success`/`failure`: an empty error reads as "Unknown error". */
  lemma EntryForFactories(command: string, o: string, e: string)
    ensures EntryFor(command, Some(Success(o))) == HistoryEntry(command, o, false)
    ensures e != "" ==> EntryFor(command, Some(Failure(e))) == HistoryEntry(command, e, true)
    ensures EntryFor(command, Some(Failure(""))) == HistoryEntry(command, UNKNOWN_ERROR, true)
  {
  }

  /**
   * The recall position: -1 is the line being typed, k >= 0 is the k-th
   * command counted back from the newest.
   */
  predicate IndexInRange(commands: seq<string>, index: int)
  {
    -1 <= index < |commands|
  }

  /** `commandHistory[commandHistory.length - 1 - index] || ''`. */
  function Recalled(commands: seq<string>, index: int): (s: string)
    ensures 0 <= index < |commands| ==> s == commands[|commands| - 1 - index]
    ensures !(0 <= index < |commands|) ==> s == ""
  {
    var k := |commands| - 1 - index;
    if 0 <= k < |commands| then commands[k] else ""
  }

  /** The recall position and the input line after a key. */
  datatype Recall = Recall(index: int, input: string)

  /** ArrowUp: nothing without history; otherwise one command further back, stopping at the oldest. */
  function RecallUp(commands: seq<string>, index: int, input: string): (r: Recall)
    ensures |commands| == 0 ==> r == Recall(index, input)
    ensures |commands| > 0 && IndexInRange(commands, index) ==>
      && IndexInRange(commands, r.index) && r.index >= 0
      && (r.index == index + 1 || r.index == index == |commands| - 1)
      && r.input == commands[|commands| - 1 - r.index]
  {
    if |commands| == 0 then Recall(index, input)
    else
      var newIndex := if index < |commands| - 1 then index + 1 else index;
      Recall(newIndex, Recalled(commands, newIndex))
  }

  /** ArrowDown: from the newest command or the typed line back to an empty line; otherwise one command forward. */
  function RecallDown(commands: seq<string>, index: int, input: string): (r: Recall)
    ensures index <= 0 ==> r == Recall(-1, "")
    ensures index > 0 ==> r.index == index - 1
    ensures IndexInRange(commands, index) ==>
      IndexInRange(commands, r.index) && (r.index >= 0 ==> r.input == commands[|commands| - 1 - r.index])
  {
    if index <= 0 then Recall(-1, "")
    else
      var newIndex := index - 1;
      Recall(newIndex, Recalled(commands, newIndex))
  }

  /** ArrowDown undoes an ArrowUp that moved: the position and the shown line come back. */
  lemma DownUndoesUp(commands: seq<string>, index: int, input: string)
    requires IndexInRange(commands, index) && index < |commands| - 1
    ensures var u := RecallUp(commands, index, input);
      RecallDown(commands, u.index, u.input) == Recall(index, Recalled(commands, index))
  {
  }

  /** From the typed line ArrowUp shows the newest command; at the oldest command it stays there. */
  lemma UpFromLine(commands: seq<string>, input: string)
    requires |commands| > 0
    ensures RecallUp(commands, -1, input) == Recall(0, commands[|commands| - 1])
    ensures RecallUp(commands, |commands| - 1, input) == Recall(|commands| - 1, commands[0])
  {
  }

  class TerminalView {
    var input: string
    var history: seq<HistoryEntry>
    var commandHistory: seq<string>
    var historyIndex: int
    var isExecuting: bool

    /** The recall position stays within the command list, whose entries are non-blank lines. */
    ghost predicate Valid()
      reads this
    {
      && IndexInRange(commandHistory, historyIndex)
      && forall i :: 0 <= i < |commandHistory| ==> !IsBlank(commandHistory[i])
    }

    constructor ()
      ensures Valid()
      ensures input == "" && history == [] && commandHistory == [] && historyIndex == -1 && !isExecuting
    {
      input := "";
      history := [];
      commandHistory := [];
      historyIndex := -1;
      isExecuting := false;
    }

    /** The input's `onChange`. */
    method SetInput(s: string)
      modifies this`input
      ensures input == s
    {
      input := s;
    }

    /**
     * `handleSubmit` up to the request: a blank line, or a submission while
     * one is running, changes nothing; otherwise the trimmed line is added
     * to the command list, the recall position is reset and the line is
     * sent.
     */
    method BeginSubmit() returns (sent: Option<string>)
      requires Valid()
      modifies this`isExecuting, this`commandHistory, this`historyIndex
      ensures Valid()
      ensures IsBlank(old(input)) || old(isExecuting) ==>
        sent.None? && isExecuting == old(isExecuting)
        && commandHistory == old(commandHistory) && historyIndex == old(historyIndex)
      ensures !IsBlank(old(input)) && !old(isExecuting) ==>
        sent == Some(Trim(old(input))) && isExecuting
        && commandHistory == old(commandHistory) + [Trim(old(input))] && historyIndex == -1
    {
      var trimmed := Trim(input);
      if trimmed == [] || isExecuting {
        return None;
      }
      isExecuting := true;
      commandHistory := commandHistory + [trimmed];
      historyIndex := -1;
      sent := Some(trimmed);
    }

    /** `handleSubmit` after the request: the transcript gets the entry, the line is cleared. */
    method FinishSubmit(command: string, response: Option<CommandResult>)
      modifies this`history, this`input, this`isExecuting
      ensures history == old(history) + [EntryFor(command, response)]
      ensures input == "" && !isExecuting
    {
      history := history + [EntryFor(command, response)];
      input := "";
      isExecuting := false;
    }

    /** The ArrowUp branch of `handleKeyDown`. */
    method ArrowUp()
      requires Valid()
      modifies this`historyIndex, this`input
      ensures Valid()
      ensures Recall(historyIndex, input) == RecallUp(commandHistory, old(historyIndex), old(input))
    {
      if |commandHistory| == 0 {
        return;
      }
      var newIndex := if historyIndex < |commandHistory| - 1 then historyIndex + 1 else historyIndex;
      historyIndex := newIndex;
      input := Recalled(commandHistory, newIndex);
    }

    /** The ArrowDown branch of `handleKeyDown`. */
    method ArrowDown()
      requires Valid()
      modifies this`historyIndex, this`input
      ensures Valid()
      ensures Recall(historyIndex, input) == RecallDown(commandHistory, old(historyIndex), old(input))
    {
      if historyIndex <= 0 {
        historyIndex := -1;
        input := "";
        return;
      }
      var newIndex := historyIndex - 1;
      historyIndex := newIndex;
      input := Recalled(commandHistory, newIndex);
    }
  }
}
